=== FILE: README.md ===
# image-sandbox core, modelled in Dafny

image-sandbox is a command-line tool that builds and drives Docker images
for testing a large C++/Python project. Every image it makes lives in a tag
namespace (prefix `dcli`). The tool writes Dockerfiles as text, chains them
into staged builds, and runs commands in containers through the `docker`
CLI. It also searches a JSON catalogue of test datasets and runs workflow
tests in containers with bind mounts.

Two generations of the code are modelled side by side:

- the older `docker_cli` package: the image wrapper, the Dockerfile and
  staged-build objects, the package-manager and URL-reader command
  generators, the CUDA and micromamba Dockerfile generators, the setup
  commands and the build commands;
- the newer `wigwam` package: its image wrapper (host user, bind mounts),
  the CUDA and CMake Dockerfile generators, the build commands (`build_all`,
  `make_distrib`, `test`, `dropin`, `make_lockfile`), the dataset search
  and the workflow runner.

The container engine is an oracle. `Engine.Engine` maps each subprocess
invocation (argument vector and standard input) to its exit status and
output. A Python exception becomes an `Err` of `Errors.Result`, and a
Python dict becomes an association list (`Chains.Dict`) whose assignment
overwrites a key in place and appends a new key at the end. Text
utilities (`Text`), the POSIX shell splitting and quoting of Python's
`shlex` (`Shlex`) and a generic staged-build runner (`Chains`) are
shared by the rest.

Modules, by file: `errors`, `engine`, `text`, `shlex`, `chains`,
`defaults`, `mounts`, `docker_image`, `wigwam_image`, `package_managers`,
`url_readers`, `shell_cmds`, `utils`, `dockerfiles`, `docker_cuda`,
`wigwam_cuda`, `mamba`, `cmake`, `lockfile`, `setup`, `commands`,
`wigwam_commands`, `search`, `workflows`.

## Model

| member | source | states |
|---|---|---|
| Defaults.PrefixTag | docker_cli/setup_commands.py:67 | the result always starts with `dcli` and ends with the tag; it equals the tag exactly when the tag already starts with `dcli`, and otherwise it is `dcli-` followed by the tag |
| Defaults.PrefixTagIdempotent | docker_cli/commands.py:58 | putting a tag into the namespace twice gives the same name as doing it once |
| Defaults.PrefixTagWithoutDash | docker_cli/commands.py:58 | the test looks for the bare prefix without the dash, so `dclifoo` is kept as it is while `foo` becomes `dcli-foo` |
| Defaults.PrefixTagMerges | docker_cli/commands.py:110 | a tag and the same tag with `dcli-` in front name the same image, so the namespace rule is not injective |
| Mounts.NewBindMount | wigwam/_bind_mount.py:26-30 | a bind mount is built exactly when the permissions are `ro` or `rw`, keeping its three fields; otherwise it is a ValueError |
| Mounts.NewMount | docker_cli/_mount.py:8-37 | an older mount is built exactly when the permissions are `ro` or `rw`; otherwise it is the ValueError with the fixed message |
| Mounts.ParseRender | docker_cli/_mount.py:39-48 | a rendered `src:dst:perm` string reads back as its three parts when the destination and permissions hold no colon |
| Mounts.BindMountRoundTrip | wigwam/_bind_mount.py:32-34 | the mount string of a valid bind mount reads back as its source, destination and permissions |
| Mounts.MountRoundTrip | docker_cli/_mount.py:39-48 | the mount string of a valid older mount reads back as its host path, image path and permissions |
| Engine.RunOutcome | docker_cli/_image.py:287-300 | a run succeeds exactly when the status is 0 or checking is off, and then yields the output; status 127 becomes CommandNotFoundError naming the command's first word, and any other failing status is re-raised |
| Engine.PresenceVerdict | docker_cli/_image.py:356-367 | a probe answers present exactly on success and absent exactly on status 1; every other error escapes unchanged |
| Engine.Available | docker_cli/_image.py:324-338 | the commands kept are exactly those the probe reports present, in order; the result is an error exactly when some probe fails, and then it is the error of the first probe that fails, as `filter` meets it |
| Engine.PresenceEngineAnswers | docker_cli/_image.py:356-363 | the reference engine for a set of installed programs answers `command -v NAME` with 0 exactly for the programs in the set and 1 for the rest |
| DockerImage.BuildCall | docker_cli/_image.py:153-181 | giving both a Dockerfile path and a Dockerfile string is a ValueError, and otherwise the string, if any, goes to standard input |
| DockerImage.BuildCallParses | docker_cli/_image.py:161-181 | the argument vector reads back as the requested network, the context (`.` when none is given), the tag, the cache flag, and either the Dockerfile path or standard input |
| DockerImage.Build | docker_cli/_image.py:141-201 | a failed build is the DockerBuildError naming the tag and the Dockerfile's origin; a successful one yields the ID that the tag looks up |
| DockerImage.GetImageId | docker_cli/_image.py:410-450 | `docker inspect` status 0 gives the output stripped of surrounding whitespace, status 1 gives ImageNotFoundError for the name, and any other status is re-raised |
| DockerImage.InspectIdArgs | docker_cli/_image.py:433-436 | for a plain name the lookup runs `docker inspect -f={{.Id}} NAME` as four words |
| DockerImage.GetImageIdReadsId | docker_cli/_image.py:433-450 | when the engine prints an ID and a newline, the lookup yields exactly that ID |
| DockerImage.RunArgs | docker_cli/_image.py:279-286 | every run argument vector begins with `docker run --network=… --rm`, the interactive and terminal flags, the image ID, `bash` and `-c` or `-ci` |
| DockerImage.RunArgsUnquoted | docker_cli/_image.py:286 | a command without a single quote reaches bash as one argument, unchanged |
| DockerImage.Run | docker_cli/_image.py:235-300 | for a command without single quotes: success exactly on status 0 or when checking is off, with the output; 127 becomes CommandNotFoundError naming the command's first word; any other status is re-raised |
| DockerImage.DropIn | docker_cli/_image.py:303-321 | drop-in runs an interactive `bash` in the image and ignores its exit status |
| DockerImage.HasCommand | docker_cli/_image.py:341-367 | `has_command` is true exactly when `command -v NAME` exits 0 and false exactly when it exits 1; any other failure escapes |
| DockerImage.HasCommandWithoutBash | docker_cli/_image.py:296-297 | status 127 on a probe surfaces as CommandNotFoundError naming `command`, the probe's first word, not the program asked about |
| DockerImage.HasCommandPresence | docker_cli/_image.py:341-367 | on an image holding exactly a given set of programs, `has_command` is membership in that set |
| DockerImage.CheckCommandAvailability | docker_cli/_image.py:324-338 | the result is an error exactly when some `has_command` probe errs, and then it is the first such error; otherwise it is the given commands that are present, in their order, repeats kept |
| DockerImage.CheckCommandAvailabilityPresence | docker_cli/_image.py:324-338 | on an image holding a given set of programs, the check is a filter of the list by membership that keeps the order |
| DockerImage.EqualIsEquivalence | docker_cli/_image.py:390-407 | `==` is false against an object of an unrelated type and raises AttributeError against a bare `object()`; between images it is reflexive, symmetric and transitive |
| DockerImage.Equal | docker_cli/_image.py:405-407 | the comparison fails exactly when the operand is a bare `object()`, which passes the `isinstance` test and lacks `_id`; it is true exactly when the operand is an image with the same ID |
| DockerImage.SameIdEqual | docker_cli/_image.py:390-407 | two handles opened under names that resolve to the same ID are equal |
| DockerImage.Inspect | docker_cli/_image.py:204-232 | `docker inspect` gets `-f=FORMAT` only for a non-empty format; its output is returned on success and any failure is re-raised |
| DockerImage.Tags | docker_cli/_image.py:370-372 | the tags are the `{{.RepoTags}}` output with brackets and newlines stripped from the ends, split at `, `; there is always at least one entry |
| DockerImage.ParseTagsListing | docker_cli/_image.py:370-372 | a bracketed, comma-separated listing of tags with its trailing newline reads back as the same tags |
| WigwamImage.Build | wigwam/_image.py:143-197 | same argument vector as the older build; both Dockerfile sources at once is a ValueError; a failed build is a DockerBuildError with the newer message; success depends on the ID lookup |
| WigwamImage.BuildAgreesOnSuccess | wigwam/_image.py:143-197 | both generations succeed on the same engine and inputs in the same cases, and then give the same image |
| WigwamImage.MountArgs | wigwam/_image.py:281-283 | each mount contributes `-v` and its mount string, in order, and nothing else |
| WigwamImage.Specs | wigwam/_bind_mount.py:32-34 | the i-th spec is the i-th mount's string |
| WigwamImage.RunPrefixPlain | wigwam/_image.py:278-289 | without a host user and without mounts the argument vector is the older generation's |
| WigwamImage.ParseMountArgs | wigwam/_image.py:281-283 | the `-v` pairs read back as the mount strings in order, leaving the rest of the vector untouched |
| WigwamImage.RunArgsParse | wigwam/_image.py:278-290 | the argument vector reads back as the requested network, the `UID:GID` user, every mount in order, the interactive and terminal flags, the image, `-ci` exactly for interactive runs, and the command words |
| WigwamImage.RunArgs | wigwam/_image.py:278-290 | a command without a single quote is the last argument, after the full prefix |
| WigwamImage.Run | wigwam/_image.py:226-305 | for a command without single quotes: success exactly on status 0 or when checking is off, with the output; 127 becomes CommandNotFoundError naming the command's first word; any other status is re-raised |
| WigwamImage.DropIn | wigwam/_image.py:307-330 | drop-in runs an interactive `bash`, as the host user when one is given, and ignores the exit status |
| WigwamImage.HasCommand | wigwam/_image.py:332-358 | the probe runs as root without mounts; true exactly on status 0, false exactly on status 1, other failures escape |
| WigwamImage.HasCommandAgrees | wigwam/_image.py:332-358 | both generations answer every probe identically |
| Utils.GenerateRandomString | docker_cli/_utils.py:271-292 | the string has the requested length, and every character is a lower-case ASCII letter or a digit |
| Utils.GenerateRandomStringCovers | docker_cli/_utils.py:288-290 | every string over that alphabet is a possible outcome for some sequence of random draws |
| Utils.GeneratePrefix | docker_cli/_utils.py:288-290 | draws that spell a string yield its first k characters |
| Utils.TempTag | docker_cli/_utils.py:56 | the probe image's tag is 20 characters long: `dcli-temp-` and then ten characters from the alphabet |
| Utils.TempTagRemoval | docker_cli/_utils.py:70 | the removal command always splits into exactly `docker rmi TAG` |
| Utils.TempImageAsWritten | docker_cli/_utils.py:22-70 | as written: removal is issued exactly when the build succeeds, and then the body's outcome is returned; only a CalledProcessError from the build becomes "Image not found" |
| Utils.TempImageMissesMissingBase | docker_cli/_utils.py:57-65 | as written, a base that does not exist surfaces as the builder's DockerBuildError and never as "Image not found" |
| Utils.TempImage | docker_cli/_utils.py:22-70 | the corrected `temp_image`, as its docstring promises: removal exactly when the build succeeded, with the body's outcome; any failed build of `FROM base` is reported as "Image not found: base". The commands use the version as written (Utils.TempImageAsWritten) |
| Utils.TempImageReportsMissingBase | docker_cli/_utils.py:45-65 | with the correction, a failing `FROM base` build yields "Image not found" and leaves nothing to remove |
| Utils.TempImageAgrees | docker_cli/_utils.py:22-70 | the corrected and the as-written versions agree except when the build fails with a DockerBuildError |
| Utils.ParseCudaInfo | docker_cli/_utils.py:118-148 | a `MAJOR.MINOR` version of digits, with at most one trailing newline, gives the two numbers; any other input is the ValueError naming the input |
| Utils.ParseCudaInfoRoundTrip | docker_cli/_utils.py:118-148 | formatting two numbers as `a.b`, with or without a newline, and parsing gives them back |
| Utils.ParseCudaInfoLeadingZeros | docker_cli/_utils.py:139-148 | leading zeros are accepted, so `011.4` and `11.4` parse to the same version |
| Utils.ParseCudaInfoNeedsDot | docker_cli/_utils.py:139-142 | a version without a dot is refused with the message naming it |
| Utils.ParseCudaInfoRejects | docker_cli/_utils.py:139-142 | `11`, `a.b`, `11.4.2` and a version with two trailing newlines are refused |
| Utils.CondaChannelLines | docker_cli/_utils.py:167-168 | a line under the channel host is a package URL exactly when the rest holds no whitespace, one final newline aside |
| Utils.CondaDotsUnescaped | docker_cli/_utils.py:167 | the dots in the pattern are unescaped, so any character stands in for them |
| Utils.CondaRejectsSpace | docker_cli/_utils.py:167-168 | a package path holding a space is not a package URL |
| Utils.TestImage | docker_cli/_utils.py:171-194 | `test -d EXPR` true exactly on status 0 and false exactly on status 1; other failing statuses are re-raised |
| Utils.FirstPresent | docker_cli/_utils.py:197-236 | the first name the probe reports present, after only absent ones; none when all are absent; the first probe error escapes |
| Utils.PackageManagerCheck | docker_cli/_utils.py:197-214 | yum exactly when yum is present; apt-get exactly when yum is absent and apt-get present; both absent is the ValueError; probe errors escape in probing order |
| Utils.UrlReaderCheck | docker_cli/_utils.py:217-236 | curl exactly when present; wget exactly when curl is absent and wget present; none when both are absent; probe errors escape in order |
| Utils.ReaderInstallLines | docker_cli/_utils.py:239-268 | the fallback reader is wget, and its line is a `RUN` line whose command a shell reads back as the package manager's install words for `wget` |
| Utils.ReaderChoice | docker_cli/_utils.py:107-110 | a found reader is used with no extra lines; otherwise wget with its install line |
| Utils.ImageCommandCheck | docker_cli/_utils.py:73-115 | it succeeds exactly when all three probes succeed; errors come in probing order; the lines are configure (if asked), then the reader install (if no reader), then tar (if missing) |
| Utils.ImageCommandCheckPresence | docker_cli/_utils.py:73-115 | on an image holding a set of programs: it fails exactly when neither yum nor apt-get is there; yum and curl are preferred; the wget and tar lines appear exactly when those programs are missing |
| PackageManagers.InstallWords | docker_cli/_package_manager.py:94-146 | the install words are the manager's head, then the targets unchanged and in order, then the clean-up tail exactly when cleaning |
| PackageManagers.InstallCommandSplits | docker_cli/_package_manager.py:96-106 | for plain-word targets, a shell reads the install command back as its words |
| PackageManagers.PackageCommandSplits | docker_cli/_package_manager.py:108-113 | the quoted local-package command reads back as exactly three words, whatever the target |
| PackageManagers.AptGetConfigureSplits | docker_cli/_package_manager.py:155-159 | the apt-get configure command reads back as its seven words |
| PackageManagers.AptGetConfigureText | docker_cli/_package_manager.py:155-159 | the apt-get configure command is `apt-get -y update && apt-get clean all` |
| PackageManagers.GetPackageManager | docker_cli/_package_manager.py:169-193 | a name is accepted exactly when it is one of the supported names, case-sensitively, giving the manager of that name; otherwise the ValueError quoting it |
| PackageManagers.GetPackageManagerName | docker_cli/_package_manager.py:196-206 | every package manager is found by its own name, and its name is in the supported list |
| UrlReaders.ReadWords | docker_cli/_url_reader.py:56-87 | the read command is the reader's head and the target, and then the output flag and file exactly when an output file is given |
| UrlReaders.HeadTextWords | docker_cli/_url_reader.py:58-67 | the formatted head is the head words and the target joined by single spaces |
| UrlReaders.ReadCommandWords | docker_cli/_url_reader.py:58-84 | the command built piece by piece is its words joined by single spaces |
| UrlReaders.ReadCommandSplits | docker_cli/_url_reader.py:58-84 | for plain-word targets and outputs, a shell reads the command back as its words |
| UrlReaders.GetUrlReader | docker_cli/_url_reader.py:90-113 | a name is accepted exactly when it is `curl` or `wget`, giving that reader; otherwise the ValueError naming it |
| UrlReaders.GetUrlReaderName | docker_cli/_url_reader.py:116-126 | every reader is found by its own name, and its name is in the supported list |
| ShellCmds.Render | docker_cli/_shell_cmds.py:44-48 | `stringify` gives the words joined by spaces, and otherwise the word list itself |
| ShellCmds.InstallCommand | docker_cli/_shell_cmds.py:118-186 | the older generator's install words are exactly the newer generator's, and its line is the newer line |
| ShellCmds.PackageCommand | docker_cli/_shell_cmds.py:135-197 | the older local-package command is the package tool (`rpm` for yum, `dpkg` for apt-get), `-i` and the target, without any quoting; the line is the three joined by single spaces |
| ShellCmds.PackageCommandAgrees | docker_cli/_shell_cmds.py:135-144 | the older unquoted and the newer quoted commands agree when the target is non-empty and all safe characters, so quoting leaves it unchanged |
| ShellCmds.PackageCommandAgreesOnlyIf | docker_cli/_shell_cmds.py:135-144 | conversely, when the two commands agree the target is non-empty and all safe characters |
| ShellCmds.PackageCommandDiverges | docker_cli/_shell_cmds.py:135-144 | with a target holding a space, the older command reads back as four words and the newer one as three |
| ShellCmds.ConfigureCommand | docker_cli/_shell_cmds.py:146-209 | the older configure words are the yum update, the `skip_missing_names_on_install=False` append to /etc/yum.conf and the cache removal for yum, and the apt-get update and clean for apt-get; the line is the words joined by single spaces, and for apt-get it is exactly the newer command |
| ShellCmds.YumConfigureDiffers | docker_cli/_shell_cmds.py:146-157 | the older yum configure line holds no newline, while the newer yum command is continued over several lines |
| ShellCmds.ReadCommand | docker_cli/_shell_cmds.py:276-312 | the older reader's words are exactly the newer reader's, and its line is the newer line |
| ShellCmds.GetPackageManager | docker_cli/_shell_cmds.py:315-340 | the name is lower-cased before the lookup, while the error message quotes it as given |
| ShellCmds.GetPackageManagerExtends | docker_cli/_shell_cmds.py:315-340 | the older lookup accepts everything the newer one does, with the same answer, and rejects with the same message |
| ShellCmds.GetPackageManagerIgnoresCase | docker_cli/_shell_cmds.py:334 | `YUM` and `Apt-Get` are accepted only by the older lookup |
| ShellCmds.GetUrlReader | docker_cli/_shell_cmds.py:343-370 | a reader name is accepted exactly when supported, giving the reader class; otherwise the ValueError naming it |
| ShellCmds.GetUrlReaderAgrees | docker_cli/_shell_cmds.py:343-370 | both generations accept the same reader names, pick the same reader and refuse with the same error |
| ShellCmds.SupportedAgree | docker_cli/_shell_cmds.py:373-401 | the older supported lists equal the newer ones, and every listed name is accepted by its lookup |
| Chains.Put | docker_cli/_dockerfile.py:336-348 | dict assignment: a new key is appended at the end; an existing key keeps its place and takes the new value; every other entry is unchanged |
| Chains.RunStages | docker_cli/_dockerfile.py:306-350 | a chain never starts more builds than it has stages; success means every stage was started; a failure is reported by the last stage started |
| Chains.RunStagesSucceeds | docker_cli/_dockerfile.py:330-350 | a chain succeeds exactly when every one of its builds succeeds |
| Chains.RunStagesStops | docker_cli/_dockerfile.py:330-348 | a chain stops at its first failing build, having started exactly the builds up to and including it, and reports that build's error |
| Chains.RunStagesRecords | docker_cli/_dockerfile.py:336-350 | a successful chain with distinct keys records each stage's image under its key, in build order, after what was there before |
| Dockerfiles.NewDockerfile | docker_cli/_dockerfile.py:25-32 | a new Dockerfile keeps the body and has the empty header |
| Dockerfiles.Combine | docker_cli/_dockerfile.py:35-63 | combining fails its assertion exactly when a header is `None`; otherwise the body is the first body, a newline and the second body, and the header is the first header, a newline and the second header (each pinned by its start, its end and its length) |
| Dockerfiles.CombineAssociative | docker_cli/_dockerfile.py:35-63 | combining three Dockerfiles gives the same result whichever pair is combined first |
| Dockerfiles.FullDockerfile | docker_cli/_dockerfile.py:65-87 | the full text is the header and a newline (nothing when the header is empty or `None`), then `FROM parent` and a blank line, then the body (pinned by its start, its end and its length) |
| Dockerfiles.PrependBody | docker_cli/_dockerfile.py:147-156 | the body becomes the text, a newline and the old body; the header is unchanged |
| Dockerfiles.AppendBody | docker_cli/_dockerfile.py:158-167 | the body becomes the old body, a newline and the text; the header is unchanged |
| Dockerfiles.PrependHeader | docker_cli/_dockerfile.py:169-179 | a `None` header fails the assertion; otherwise the header becomes the text, a newline and the old header (pinned by its start, its end and its length), and the body is unchanged |
| Dockerfiles.AppendHeader | docker_cli/_dockerfile.py:181-191 | a `None` header fails the assertion; otherwise the header becomes the old header, a newline and the text (pinned by its start, its end and its length), and the body is unchanged |
| Dockerfiles.SetBody | docker_cli/_dockerfile.py:197-200 | the body setter replaces the body and leaves the header alone |
| Dockerfiles.SetHeader | docker_cli/_dockerfile.py:206-209 | the header setter replaces the header and leaves the body alone |
| Dockerfiles.AppendBodyFull | docker_cli/_dockerfile.py:158-167 | appending to the body appends a newline and the text to the full Dockerfile, whatever the parent |
| Dockerfiles.PrependBodyFull | docker_cli/_dockerfile.py:147-156 | prepending to the body puts the text right after the FROM line |
| Dockerfiles.AppendHeaderFull | docker_cli/_dockerfile.py:181-191 | appending to a non-empty header puts the text just before the FROM line |
| Dockerfiles.Build | docker_cli/_dockerfile.py:89-145 | the full text is built on the base; success is the image builder's success; a DockerBuildError is re-raised with the full Dockerfile in its message; other errors pass through |
| Dockerfiles.NewStagedList | docker_cli/_dockerfile.py:238-239 | a new staged list has the given origin and no entries |
| Dockerfiles.Append | docker_cli/_dockerfile.py:242-266 | appending adds exactly one entry, at the end, and keeps the origin and every earlier entry |
| Dockerfiles.InitialDockerfile | docker_cli/_dockerfile.py:353-365 | there is an initial Dockerfile exactly when the list is not empty, and it is the first entry's |
| Dockerfiles.Stages | docker_cli/_dockerfile.py:306-350 | one build per entry, recorded and tagged under the entry's tag, on the parent (the origin for the first, else the previous tag), with the full Dockerfile, context `.` and the entry's cache switch |
| Dockerfiles.BuildList | docker_cli/_dockerfile.py:306-350 | an empty list fails with IndexError before anything is built; otherwise it runs the stages in order and stops at the first failure |
| Dockerfiles.StagesChained | docker_cli/_dockerfile.py:338-342 | each stage starts from the image the stage before it was tagged as, and the first from the origin image |
| Dockerfiles.StageBuilderIsDockerfileBuild | docker_cli/_dockerfile.py:268-304 | each stage is built exactly as `Dockerfile.build` builds that entry on its parent |
| Dockerfiles.AppendStages | docker_cli/_dockerfile.py:242-266 | appending an entry appends exactly one stage, built on the previous last tag (or the origin); earlier stages are unchanged |
| Dockerfiles.BuildListRecords | docker_cli/_dockerfile.py:306-350 | a list whose builds all succeed, with distinct tags, yields one image per entry, keyed by its tag, in list order |
| DockerCuda.GetGenerator | docker_cli/_docker_cuda.py:244-284 | anything that is neither a package manager nor a string is a ValueError; a package manager is used as it is; a name is accepted exactly when it is `apt-get` or `yum`, and otherwise is the ValueError naming it; the reader is kept |
| DockerCuda.GetGeneratorByName | docker_cli/_docker_cuda.py:273-282 | handing over a package manager or its name picks the same generator |
| DockerCuda.DevTargetsCompared | docker_cli/_docker_cuda.py:170-221 | only the yum list holds `rpm-build`; otherwise the two lists name the same packages, with `-devel` on yum where apt-get has `-dev` |
| DockerCuda.InstallLines | docker_cli/_docker_cuda.py:200-241 | the install lines start with `RUN` and end with the package manager's own cleaning install command for exactly the given targets |
| DockerCuda.InitialLines | docker_cli/_docker_cuda.py:185-233 | the repository lines are a `RUN` line |
| DockerCuda.RuntimeDockerfile | docker_cli/_docker_cuda.py:29-91 | the runtime body exists exactly for CUDA 11 and later, with the fixed ValueError otherwise; it starts with the repository lines and ends with the install lines for the runtime packages |
| DockerCuda.DevDockerfile | docker_cli/_docker_cuda.py:93-118 | the dev body switches to root first, holds the install lines for the dev packages right after that, and ends by switching back to the default user |
| DockerCuda.RuntimeInstallsTargets | docker_cli/_docker_cuda.py:86-91 | the runtime body ends with the package manager's own install command for exactly the runtime packages |
| DockerCuda.DevInstallsTargets | docker_cli/_docker_cuda.py:102-118 | the dev body holds the package manager's own install command for exactly the dev packages |
| WigwamCuda.TargetVersion | wigwam/_docker_cuda.py:291-344 | a package name has a version only when it has at least two dash-separated fields |
| WigwamCuda.VersionedReadsBack | wigwam/_docker_cuda.py:213-232 | a versioned package name reads back as the version it was given, whatever the library |
| WigwamCuda.RuntimeTargetsCarryVersion | wigwam/_docker_cuda.py:213-232 | both runtime packages carry the requested version in their names |
| WigwamCuda.DevTargetsCarryVersion | wigwam/_docker_cuda.py:298-344 | every dev package carries the requested version in its name, and the only one that carries none is yum's `rpm-build` |
| WigwamCuda.RpmBuildUnversioned | wigwam/_docker_cuda.py:337-344 | `rpm-build` carries no version |
| WigwamCuda.DevTargetsCompared | wigwam/_docker_cuda.py:298-344 | only yum builds RPMs; both lists name the same compiler package, and yum's list is one longer |
| WigwamCuda.InitialLines | wigwam/_docker_cuda.py:262-322 | with apt-get: download NVIDIA's keyring package with the reader and install it from the local file; with yum: register the distribution's `.repo` file under NVIDIA's URL |
| WigwamCuda.InstallLines | wigwam/_docker_cuda.py:282-328 | the install lines start with `RUN` and end with the package manager's cleaning install command for the targets |
| WigwamCuda.RuntimeDockerfile | wigwam/_docker_cuda.py:23-108 | the runtime body exists exactly for CUDA 11 and later; as root it has the repository lines, then the environment, then the runtime install lines, and it ends back at the default user |
| WigwamCuda.RuntimeVersionReadsBack | wigwam/_docker_cuda.py:84-108 | the runtime body names the requested version in a line whose value parses back to that version |
| WigwamCuda.DevDockerfileYum | wigwam/_docker_cuda.py:126-144 | with yum the install line is one line behind the template's twelve spaces, so `dedent` removes exactly those: the dev body is `USER root`, a blank line, `RUN` and the install command, a blank line, the two compiler lines, a blank line and `USER $DEFAULT_USER`, all flush left |
| WigwamCuda.DevDockerfileAptGet | wigwam/_docker_cuda.py:126-144 | with apt-get the install lines continue on a line indented by one space, so `dedent` removes only one space: every line keeps eleven spaces of indentation, except the first, which the strip clears, and the `&& ...` continuation line, which ends flush |
| Textwrap.DedentIndented | wigwam/_docker_cuda.py:133-143 | a template opening with a newline, with body lines indented by a margin one of them ends at, and closing on a blank line, dedents to the body without the margin, framed by empty lines |
| Textwrap.DedentStripIndented | wigwam/_docker_cuda.py:133-144 | `dedent(...).strip()` of such a template is the body without the margin, the first line's remaining indentation stripped |
| Textwrap.MarginIs | wigwam/_docker_cuda.py:133 | the margin `dedent` removes is a line's whole indentation when every other non-blank line's indentation starts with it |
| WigwamCuda.DevVersionReadsBack | wigwam/_docker_cuda.py:110-145 | the compiler path in the dev body names a version that parses back to the requested one |
| WigwamCuda.GetGenerator | wigwam/_docker_cuda.py:347-388 | the package manager's type is checked first, then the reader's, and then a reader name is resolved, with its error escaping; the generator is chosen by name exactly for `apt-get` and `yum`, and otherwise it is the ValueError naming the manager |
| WigwamCuda.GetGeneratorAgrees | wigwam/_docker_cuda.py:371-386 | naming a package manager or handing over one with that name picks the same generator, and naming a reader is the same as handing over the reader the name resolves to |
| Mamba.SpecCommand | docker_cli/_docker_mamba.py:123-168 | both sources at once and an unknown sub-command are the two ValueErrors, in that order; with neither source it is a TypeError; without channels the channel argument is never bound; a success starts with the activation line and a blank line and ends with the clean-up |
| Mamba.SpecCommandLines | docker_cli/_docker_mamba.py:136-168 | a successful spec command splits back into the activation line, a blank line, the lines for its source and the clean-up, when no argument holds a newline |
| Mamba.SpecLinesRoundTrip | docker_cli/_docker_mamba.py:148-168 | the command's lines, joined by newlines, split back into the same lines |
| Mamba.LockfileCommand | docker_cli/_docker_mamba.py:71-88 | for a one-word environment name the command is the seven words of `micromamba env export --name NAME --explicit --no-md5` |
| Mamba.AddSpecsDockerfile | docker_cli/_docker_mamba.py:29-47 | for a one-line spec file path, the Dockerfile reads back as the fixed conda-forge install lines for that file |
| Mamba.AddSpecsReadsBack | docker_cli/_docker_mamba.py:29-47 | adding specs is the install spec command with conda-forge as the only channel, and it succeeds |
| Mamba.AddPackagesDockerfile | docker_cli/_docker_mamba.py:50-68 | it succeeds exactly when channels are given, and without them fails on the unbound channel argument; the lines install the packages from exactly those channels and then update everything |
| Mamba.InstallDockerfile | docker_cli/_docker_mamba.py:8-26 | the header is the micromamba stage; the body starts as root and ends with the install of the spec file from conda-forge |
| Mamba.InstallReadsBack | docker_cli/_docker_mamba.py:175-226 | line by line, the install body is the fixed preamble (root, the micromamba user and prefix, the copies from the micromamba stage, the setup scripts, then the shell and entry point) followed by the lines that install the spec file from conda-forge |
| Cmake.MambaStageLines | wigwam/_docker_cmake.py:7-44 | line by line, each stage is its FROM line, a blank line, the micromamba lines, a blank line and the step's own lines |
| Cmake.ConfigDockerfile | wigwam/_docker_cmake.py:7-62 | the configure Dockerfile starts from the base and ends with the CUDA toggle as its last argument |
| Cmake.WithCudaReadsBack | wigwam/_docker_cmake.py:38-62 | the toggle reads back from the last line as `WITH_CUDA=YES` exactly when CUDA was asked for, whatever the base, the micromamba lines and the build type |
| Cmake.ConfigReadsBack | wigwam/_docker_cmake.py:45-62 | the configure Dockerfile is, line by line, the stage preamble and the twelve configure lines, so the build type reads back from its own line |
| Cmake.BuildDockerfile | wigwam/_docker_cmake.py:65-92 | the compile Dockerfile starts from the base and ends by opening the build tree to every user |
| Cmake.BuildReadsBack | wigwam/_docker_cmake.py:65-92 | line by line, the compile Dockerfile is the stage preamble, the parallel build, a blank line and the permission change |
| Cmake.InstallDockerfile | wigwam/_docker_cmake.py:95-136 | the install Dockerfile starts from the base |
| Cmake.InstallReadsBack | wigwam/_docker_cmake.py:95-136 | line by line, the install Dockerfile is the stage preamble and the install lines: install as root, switch back to the micromamba user, then the library and Python search paths |
| Setup.InitDockerfileShape | docker_cli/setup_commands.py:44-66 | the user image starts from the base, carries the probe's lines right after the FROM line, and ends with the default-user block |
| Setup.CudaDockerfileShape | docker_cli/setup_commands.py:134-149 | a CUDA image starts from its base, carries the probe's lines right after the FROM line (none when the tools were given), and ends with the generated body after a blank line |
| Setup.CondaRuntimeDockerfileShape | docker_cli/setup_commands.py:252-256 | the conda runtime Dockerfile names the micromamba stage first, then starts from its base, and ends by installing the runtime spec file |
| Setup.CondaDevDockerfileShape | docker_cli/setup_commands.py:292-298 | the conda dev Dockerfile starts from its base and installs the dev spec file |
| Setup.ResolveTools | docker_cli/setup_commands.py:117-133 | given both tools they are used with no extra lines; given one of them it is the ValueError; given neither, the probe's result is used, and only then is the probe consulted |
| Setup.SetupInit | docker_cli/setup_commands.py:20-71 | the base is probed on a throwaway image by `temp_image` as written, and a failed probe is reported unchanged; otherwise the user image is built under the prefixed tag, and the result is that image with what the probe found, or the build's error |
| Setup.SetupInitMissingBase | docker_cli/setup_commands.py:44 | when no image exists, `setup_init` fails with the builder's error for the throwaway tag, not with "Image not found" |
| Setup.CudaRuntimeWith | docker_cli/setup_commands.py:134-151 | a malformed version is the parse error; CUDA below 11 is the fixed ValueError; otherwise it is the build, under the prefixed tag, of the runtime body on top of the probe's lines |
| Setup.SetupCudaRuntime | docker_cli/setup_commands.py:74-151 | one tool without the other is the ValueError; given tools skip the probe; otherwise the base is probed on a throwaway image by `temp_image` as written, and the probe's failure is reported unchanged |
| Setup.CudaDevWith | docker_cli/setup_commands.py:202-220 | with the development generator called as intended, without arguments: a malformed version is the parse error; otherwise it is the build, under the prefixed tag, of the dev body on top of the probe's lines |
| Setup.CudaDevWithAsWritten | docker_cli/setup_commands.py:202-213 | as written, a malformed version is the parse error and any other version is the TypeError of the keyword call: nothing is ever built |
| Setup.CudaDevAsWrittenNeverBuilds | docker_cli/setup_commands.py:211-213 | for every well-formed version the as-written call fails with the TypeError naming `cuda_ver_major`, where the intended call builds the dev image |
| Setup.SetupCudaDev | docker_cli/setup_commands.py:154-220 | with the intended generator call: the throwaway image of the base is built even when both tools are given, and its failure fails the command; one tool without the other is the ValueError; given tools go straight to the build |
| Setup.SetupCudaDevAsWritten | docker_cli/setup_commands.py:154-220 | as written, `setup_cuda_dev` never returns an image; with a throwaway image built, both tools given and a well-formed version it is the TypeError of the generator call |
| Setup.SetupCondaRuntime | docker_cli/setup_commands.py:258-266 | with the file already located, the image the build returns is the one its namespaced tag names |
| Setup.SetupCondaDev | docker_cli/setup_commands.py:298-308 | with the file already located, the image the build returns is the one its namespaced tag names |
| Setup.CallKeywords | docker_cli/setup_commands.py:211-213 | a call with keyword arguments succeeds exactly when every keyword is a parameter; otherwise it is the TypeError naming the first keyword that is not |
| Setup.ImportFrom | docker_cli/setup_commands.py:8 | `from … import names` succeeds exactly when the module defines every name; otherwise it is the ImportError of the first missing name |
| Setup.SetupImportFails | docker_cli/setup_commands.py:8 | as written, importing the setup module fails on `mamba_add_reqs_dockerfile`, which the older mamba module does not define |
| Setup.SetupImportResolves | docker_cli/setup_commands.py:8 | importing `mamba_add_specs_dockerfile` instead resolves every name |
| Setup.RelativeTo | docker_cli/setup_commands.py:253 | `relative_to(base)` succeeds exactly when the path lies under `base/`, and then the path is `base/` followed by the result; otherwise it is the ValueError |
| Setup.ResolveEnvFileFinds | docker_cli/setup_commands.py:248-253 | locating a file as `setup_conda_runtime` does gives its resolved directory as the context and its own name as the path inside it |
| Setup.DevEnvFileRelativeFails | docker_cli/setup_commands.py:289-294 | as written, `setup_conda_dev` fails with a ValueError for every relative environment file, because it takes the unresolved path relative to the resolved directory |
| Setup.DevEnvFileAbsoluteAgrees | docker_cli/setup_commands.py:289-294 | for an absolute file, the dev command's lookup as written agrees with resolving it |
| Setup.CondaRuntimeAsWritten | docker_cli/setup_commands.py:248-266 | as written, `setup_conda_runtime` always fails with the TypeError of its keyword `env_reqs_file`, which `mamba_install_dockerfile` does not take |
| Setup.CondaRuntimeResolved | docker_cli/setup_commands.py:248-266 | with the intended keyword, `setup_conda_runtime` builds in the file's resolved directory with the file's name |
| Setup.CondaDevAsWritten | docker_cli/setup_commands.py:289-298 | as written, and with the import taken as corrected, `setup_conda_dev` never builds an image: a relative environment file fails with a ValueError, and a file it does locate fails with the NameError of `mamba_add_reqs_dockerfile`, which the module does not bind |
| Setup.CallName | docker_cli/setup_commands.py:296 | calling a name succeeds exactly when the module binds it; otherwise it is the NameError of that name |
| Setup.RenamedCallFails | docker_cli/setup_commands.py:296 | renamed to the imported `mamba_add_specs_dockerfile`, the call still fails: `env_reqs_file` is not a parameter of the specs generator, whose parameter is `env_specfile` |
| Setup.CondaDevResolved | docker_cli/setup_commands.py:289-308 | locating the file as the runtime command does and adding it with the specs generator, `setup_conda_dev` builds in the file's resolved directory with the file's name |
| Setup.SetupTags | docker_cli/setup_commands.py:355-397 | the five tags, in build order, are `dcli-TAG` followed by `-init`, `-cuda-M-m-runtime`, `-mamba-runtime`, `-cuda-M-m-dev` and `-mamba-dev` |
| Setup.SetupTagsPrefixed | docker_cli/setup_commands.py:355-397 | every tag of the chain is already in the namespace, so the per-command prefixing leaves it alone |
| Setup.SetupTagsDistinct | docker_cli/setup_commands.py:355-397 | no two of the five tags are the same, so no image overwrites another's entry |
| Setup.SetupFiles | docker_cli/setup_commands.py:350-401 | CUDA below 11 gets only the user image's Dockerfile; any other version gets five |
| Setup.SetupPlan | docker_cli/setup_commands.py:350-401 | CUDA below 11 plans one build followed by the refusal; any other version plans five builds and no trailing error |
| Setup.SetupPlanShape | docker_cli/setup_commands.py:355-401 | each stage is built under its own tag, from the tag before and the first from the caller's base; only the CUDA dev stage builds a throwaway image of its base first |
| Setup.PlanStage | docker_cli/setup_commands.py:355-401 | for CUDA 11 and later, stage i is built under the i-th tag, from the tag before, with the i-th Dockerfile and context and the caller's cache switch |
| Setup.RunPlan | docker_cli/setup_commands.py:355-408 | a run never starts more builds than planned; success means no trailing error and is the chain's own outcome; once every build succeeds, a trailing error is what is reported |
| Setup.SetupAll | docker_cli/setup_commands.py:311-408 | a malformed version fails before anything is built; a failed probe of the base, as `temp_image` reports it as written, fails before any stage is built; at most five builds are started |
| Setup.SetupAllKeys | docker_cli/setup_commands.py:355-408 | a successful `setup_all` had a well-formed version, started five builds, and returns exactly the five tags, in build order |
| Setup.PlanRunKeys | docker_cli/setup_commands.py:355-408 | whatever builds the stages, a plan that runs to the end records the five tags in order |
| Setup.InitStage | docker_cli/setup_commands.py:355-359 | the first stage of any plan builds the user image from the caller's base under the `-init` tag |
| Setup.InitStageAgrees | docker_cli/setup_commands.py:355-359 | the chain's first build is `setup_init`'s, on the tools that the chain's single probe found |
| Setup.CudaRuntimeStageAgrees | docker_cli/setup_commands.py:362-372 | the chain's CUDA runtime build is `setup_cuda_runtime`'s on the previous tag, given the probed tools |
| Setup.CondaRuntimeStageAgrees | docker_cli/setup_commands.py:375-382 | the chain's conda runtime build is `setup_conda_runtime`'s on the previous tag |
| Setup.CudaDevStageAgrees | docker_cli/setup_commands.py:385-394 | the chain's CUDA dev build is `setup_cuda_dev`'s on the previous tag: both first build and remove a throwaway image of that tag |
| Setup.CondaDevStageAgrees | docker_cli/setup_commands.py:397-401 | the chain's conda dev build is `setup_conda_dev`'s on the previous tag |
| Setup.SetupAllBelowEleven | docker_cli/setup_commands.py:355-372 | for CUDA below 11, `setup_all` builds only the user image, then reports the refusal, or the user image's own failure |
| Lockfile.OtherTest | docker_cli/commands.py:287-289 | a line is kept in place exactly when it is not a package URL and not blank |
| Lockfile.Normalize | docker_cli/commands.py:285-296 | the written lockfile always ends with a newline |
| Lockfile.NormalizedOrder | docker_cli/commands.py:285-295 | the written lines are first the other lines in their original order, then the package URLs in sorted order; nothing blank survives |
| Lockfile.NormalizedPermutes | docker_cli/commands.py:285-295 | when package URLs are never blank, the written lines are a rearrangement of exactly the non-blank input lines |
| Lockfile.NormalizedReadsBack | docker_cli/commands.py:296 | no written line holds a newline, so the file splits back into the written lines and the empty piece after the final newline |
| Lockfile.NormalizeIdempotent | docker_cli/commands.py:285-296 | normalising an already normalised lockfile gives it back unchanged |
| Commands.SearchPattern | docker_cli/commands.py:237-238 | with the namespace ignored the query is the tag as given; otherwise it is the tag in the namespace, which always starts with `dcli` |
| Commands.RemoveOne | docker_cli/commands.py:236-256 | each turn searches the pattern of its tag, namespaced unless `ignore_prefix`; the turn fails only with a ValueError of `shlex.split` |
| Commands.RemoveOneOutcome | docker_cli/commands.py:236-256 | the search command is split first and its split error ends the turn; the query is the split command; no `docker rmi` follows exactly when the query printed nothing; otherwise `rmi` gets the split of its command, or that split's error |
| Commands.SearchReadsBack | docker_cli/commands.py:243 | a pattern without `"` or `\\` splits into the four words of the query, the pattern inside the filter word |
| Commands.SearchQuoteFails | docker_cli/commands.py:243 | a pattern holding one unbalanced `"` makes the search command fail to split, with "No closing quotation" |
| Commands.RemoveQuoteFails | docker_cli/commands.py:236-243 | so a tag like `a"b` fails the removal with that ValueError before any query is made |
| Commands.Turns | docker_cli/commands.py:236 | there is one turn per tag, in order |
| Commands.TurnsConcat | docker_cli/commands.py:236 | the turns of two tag lists one after the other are the turns of each list, in order |
| Commands.Remove | docker_cli/commands.py:204-258 | a successful `remove` has one removal per tag |
| Commands.RemoveEach | docker_cli/commands.py:236-256 | `remove` succeeds exactly when every tag's turn does, and then holds each tag's removal at the tag's position |
| Commands.RemoveConcat | docker_cli/commands.py:236-256 | tags are handled independently and in order: removing a concatenation of two lists is removing one list and then the other, and the first failure wins |
| Commands.RemoveStaysInNamespace | docker_cli/commands.py:237-243 | outside `ignore_prefix` every query stays inside the namespace, and putting the tags into the namespace first changes nothing |
| Commands.RmiReadsBack | docker_cli/commands.py:252-255 | when the query lists plain IDs one per line, `docker rmi` receives exactly those IDs, after `--force` when forcing |
| Commands.MakeLockfile | docker_cli/commands.py:261-300 | an image that cannot be found is the lookup's error; a written lockfile is the normal form of what the export printed, and ends with a newline |
| Commands.MakeLockfileNormal | docker_cli/commands.py:279-296 | a written lockfile is already normal: normalising it again changes nothing |
| Commands.MakeLockfilePermutes | docker_cli/commands.py:284-295 | the written lines are a rearrangement of the non-blank exported lines |
| Commands.IssueCall | docker_cli/commands.py:67 | the engine sees the requested tag, context and cache switch, and reads the Dockerfile from standard input |
| Commands.GitPrepare | docker_cli/_docker_git.py:41-60 | the preparation starts from the caller's base |
| Commands.GitDockerfile | docker_cli/_docker_git.py:11-78 | the Dockerfile starts from the base, unpacks the fetched archive into the directory with the top-level folder dropped, and ends as the default user |
| Commands.GitExtractDockerfile | docker_cli/_docker_git.py:62-78 | the archive is fetched with the reader's own command for its URL, printed to standard output, and unpacked into the directory |
| Commands.ArchiveReader | docker_cli/commands.py:53-55 | a given reader is used as it is, without probing the base; otherwise the base is probed on a throwaway image by `temp_image` as written, and the probe's failure is reported unchanged |
| Commands.ArchiveRequest | docker_cli/commands.py:53-67 | `get_archive` fails exactly when settling the reader fails; it builds under the prefixed tag, in context `.`, with the git-extract Dockerfile for the chosen reader |
| Commands.ArchiveMissingBase | docker_cli/commands.py:53-55 | when no image exists and no reader is given, `get_archive` fails with the builder's error for the throwaway tag, not with "Image not found" |
| Commands.GetArchive | docker_cli/commands.py:18-67 | a failure to settle the reader is the command's error; the image returned is the one the namespaced tag names |
| Commands.InsertDirDockerfile | docker_cli/_docker_insert.py:7-47 | the Dockerfile starts from the caller's base |
| Commands.BasenameOf | docker_cli/commands.py:121 | the base name of `dir/name` is `name` |
| Commands.CopyDirRequest | docker_cli/commands.py:108-146 | it fails exactly when no target is given and the directory does not exist, with the ValueError naming it; otherwise the context is the absolute path and the copy lands at the target, or at the directory's base name |
| Commands.CopyDir | docker_cli/commands.py:70-146 | without a target, a path that is not a directory is the ValueError; the image returned is the one the namespaced tag names |
| Commands.CopyDirDefaultTarget | docker_cli/commands.py:117-121 | copying `/some/where/name` without a target puts it at `name` |
| Commands.CmakeConfigLinesAsWritten | docker_cli/_docker_cmake.py:42-59 | as written, the configure step has fourteen lines |
| Commands.CmakeConfigLines | docker_cli/_docker_cmake.py:42-59 | corrected, the configure step has thirteen lines: the fixed CUDA line is gone |
| Commands.CmakeConfigIgnoresNoCuda | docker_cli/_docker_cmake.py:55 | as written, `-DWITH_CUDA=YES` is in the configure step even when CUDA was not asked for |
| Commands.CmakeConfigCudaIffAsked | docker_cli/_docker_cmake.py:42-59 | corrected, `-DWITH_CUDA=YES` is in the configure step exactly when CUDA was asked for |
| Commands.ConfigureCmakeRequest | docker_cli/commands.py:149-187 | `configure_cmake` builds under the prefixed tag, in context `.`, with the caller's cache switch, on the caller's base, from the Dockerfile as written, which holds `-DWITH_CUDA=YES` whatever `no_cuda` is |
| Commands.CmakeConfigAlwaysCuda | docker_cli/_docker_cmake.py:42-59 | as written, the configure lines and the Dockerfile hold the `-DWITH_CUDA=YES` line whether or not CUDA is asked for |
| Commands.ConfigureCmake | docker_cli/commands.py:149-187 | the image returned is the one the namespaced tag names |
| Commands.OneOffsNamespaced | docker_cli/commands.py:57-67 | all three one-off builds use a tag that is already in the namespace, so they are found again under the same name, and their Dockerfiles start from the caller's base |
| Shlex.SplitQuote | docker_cli/_package_manager.py:108-112 | a word quoted the way `shlex.join` quotes it splits back into exactly that one word |
| Shlex.SplitJoinWords | wigwam/commands.py:465 | a command line made with `shlex.join` splits back into exactly its words |
| Shlex.SplitPlainWords | docker_cli/commands.py:255 | plain words joined by single spaces split back into the same words |
| Shlex.SplitSingleQuoted | docker_cli/_image.py:286 | a command wrapped in single quotes, as `Image.run` does before splitting, comes back as one word when it holds no single quote |
| Shlex.FirstWord | docker_cli/_image.py:297 | the first word exists exactly when the command splits into at least one word; otherwise it is the split's ValueError or an IndexError |
| Shlex.WrappedJoinWords | wigwam/_image.py:290 | a `shlex.join`ed line of plain words, wrapped in single quotes and split, is one word: the words joined by single spaces with every quote gone |
| WigwamCommands.DefaultPrefixRule | docker_cli/_utils.py:56 | the older generation's tag rule leaves a tag alone when it extends an already prefixed tag |
| WigwamCommands.PrefixRuleIdempotent | wigwam/commands.py:350-351 | under such a rule, prefixing a tag twice is prefixing it once |
| WigwamCommands.FirstStage | wigwam/commands.py:356-388 | a source path that is not a directory and a missing source are the two ValueErrors with their messages; a directory gives the `-file-<basename>` stage built from its absolute path, otherwise the `-git-repo` stage; both start from the prefixed base |
| WigwamCommands.CmakeStages | wigwam/commands.py:390-412 | exactly three stages, keyed `-configured`, `-built`, `-installed` under the prefixed tag, each based on the stage before, the first on the initial stage |
| WigwamCommands.BuildAllPlan | wigwam/commands.py:350-412 | the plan fails exactly when the first stage does; otherwise it is the first stage followed by the three CMake stages |
| WigwamCommands.BuildAll | wigwam/commands.py:350-412 | at most four builds start; no build starts when neither a source path nor an archive URL is given, or when the source path is not a directory, and the result is that ValueError |
| WigwamCommands.SourceDirWins | wigwam/commands.py:356-373 | with a source directory the archive URL does not matter |
| WigwamCommands.BuildAllKeys | wigwam/commands.py:366-410 | the result's keys are the first stage's key followed by the prefixed tag with `-configured`, `-built` and `-installed` |
| WigwamCommands.FirstStageTagged | wigwam/commands.py:366-387 | under a tag rule that leaves prefixed tags alone, the first stage is tagged with its own key and built from the prefixed base |
| WigwamCommands.CmakeStagesTagged | wigwam/commands.py:390-410 | under such a rule every CMake stage is tagged with its key and starts from the tag of the stage before |
| WigwamCommands.BuildAllChained | wigwam/commands.py:350-412 | under such a rule the whole chain is linked: each stage's base is the tag of the one before, the first's the prefixed base |
| WigwamCommands.BuildAllKeysDistinct | wigwam/commands.py:366-410 | the four keys of a chain are pairwise different, so no image in the returned dict overwrites another |
| WigwamCommands.BuildAllRecords | wigwam/commands.py:350-412 | when every build succeeds, all four are started and the dict holds their keys in build order |
| WigwamCommands.DistribDockerfile | wigwam/_docker_distrib.py:43-54 | the Dockerfile opens with the source stage and the base stage and appends the installed library directory to the library path |
| WigwamCommands.DistribRequest | wigwam/commands.py:287-303 | the request succeeds exactly when the library directory of the prefixed base can be found; it builds under the tag as given, from the Dockerfile over the prefixed base and source with the install prefix on both sides |
| WigwamCommands.DistribOutsideNamespace | wigwam/commands.py:287-303 | the distributable image is built under the caller's own tag, which is not the namespaced one, while its base and source are namespaced |
| WigwamCommands.MakeDistrib | wigwam/commands.py:266-303 | a failed library-directory lookup is the command's error; the image returned is the one the caller's tag names as given |
| WigwamCommands.TestWords | wigwam/commands.py:448-462 | `--no-compress-output` is among the words exactly when compression was not asked for, and `--output-on-failure` exactly when quiet failure was not |
| WigwamCommands.TestWordsFlags | wigwam/commands.py:442-462 | for the fixed words around the optional flags, each flag is present exactly when its option is off |
| WigwamCommands.TestCommand | wigwam/commands.py:448-465 | the joined test command splits back into exactly the test words |
| WigwamCommands.Test | wigwam/commands.py:436-475 | an image tag that does not resolve is reported with the lookup's error before anything runs |
| WigwamCommands.TestWordsPlain | wigwam/commands.py:442-463 | when the output file name is a plain shell word, so is every word of the test command |
| WigwamCommands.TestShellLine | wigwam/commands.py:465 | the `shlex.join`ed test command reaches bash as one argument: the words joined by single spaces, so the `&&`, `(`, `||` and glob act as shell syntax |
| WigwamCommands.DropinUser | wigwam/commands.py:490-493 | the session runs as the host user exactly when the image's default user was not asked for |
| WigwamCommands.Dropin | wigwam/commands.py:490-493 | a resolved image is entered with an interactive bash on the host network, as the chosen user |
| WigwamCommands.DropinRunsAsHost | wigwam/_image.py:307-330 | the engine reads a `-u UID:GID` of the host user from the drop-in's arguments exactly when the default user was not asked for |
| WigwamCommands.MakeLockfile | wigwam/commands.py:578-593 | the lockfile text ends with a newline |
| WigwamCommands.MakeLockfileNormal | wigwam/commands.py:583-593 | the written lockfile is already in normal form: normalising it again changes nothing |
| WigwamCommands.LockfilesAgree | wigwam/commands.py:578-593 | with the same conda-line test and export command, the newer `make_lockfile` writes what the older one writes |
| Search.FromJsonObject | wigwam/search.py:138-147 | a dataset is read exactly when all four keys are present, the first key missing in the order "name", "tags", "url", "files" is the KeyError, and the dataset carries the name, tags and url as read and one file per entry of the files mapping, in order, with its checksum |
| Search.DatasetsReads | wigwam/search.py:95-97 | the file's datasets are read exactly when every entry is well formed, and then they are the entries read one by one, in file order |
| Search.LiteralMatches | wigwam/search.py:227 | a name pattern without a wildcard matches exactly the identical name: case-sensitive and anchored at both ends |
| Search.AnyRunSuffix | wigwam/search.py:227 | a leading `*` matches a name exactly when the rest of the pattern matches some suffix of it |
| Search.StarMatchesAll | wigwam/search.py:227 | the pattern `*` matches every name |
| Search.QuestionMatchesOne | wigwam/search.py:227 | the pattern `?` matches exactly the one-character names |
| Search.Glob | wigwam/search.py:227 | the translated pattern has one item per character: `*` is any run, `?` any single character, and every other character is itself |
| Search.AnyName | wigwam/search.py:224-229 | the only error of the name loop is the assertion failure on a missing name |
| Search.AnyTagList | wigwam/search.py:234-238 | the only error of the tag loop is the assertion failure on a missing tag list |
| Search.AcceptItem | wigwam/search.py:221-241 | the only error of `_accept_item` is an assertion failure |
| Search.AnyNameFinds | wigwam/search.py:224-229 | with no missing pattern, the name loop answers whether some pattern matches the item's name |
| Search.AnyTagListFinds | wigwam/search.py:234-238 | with no missing tag list, the tag loop answers whether the item's tags include every tag of some list |
| Search.AcceptItemMeansAccepted | wigwam/search.py:195-241 | with no missing term, an item is accepted exactly when its name matches one of the patterns or its tags include one of the tag lists |
| Search.AcceptEdges | wigwam/search.py:234-241 | an empty tag list accepts every item, and with no terms at all nothing is accepted |
| Search.AcceptTest | wigwam/search.py:105 | the predicate handed to `filter` is the acceptance rule for every dataset |
| Search.FilterAccepted | wigwam/search.py:104-107 | the search fails exactly when some item's test fails, always with the AssertionError; otherwise it keeps exactly the accepted items, in order |
| Search.FilterAcceptedIsFilter | wigwam/search.py:104-107 | filtering with `_accept_item` keeps, in order, exactly the datasets the terms accept |
| Search.SearchFile | wigwam/search.py:86-101 | asking for everything together with any search term exits; asking for everything alone returns every dataset of the file |
| Search.SearchFileFilters | wigwam/search.py:86-107 | a search with terms returns, in file order, a dataset exactly when it is in the file and the terms accept it |
| Search.NamesOnlySearch | wigwam/search.py:43-52 | the names search succeeds exactly when the search does, and returns the returned datasets' names in the same order |
| Search.NamesOfAll | wigwam/search.py:43-52 | asking for everything names every entry of the file, in order |
| Search.PutFieldsErrors | wigwam/search.py:176-178 | filling fields fails exactly when a field is unknown, and then names the first unknown one |
| Search.PutFieldsKeys | wigwam/search.py:176-188 | filling fields enters exactly the requested ones and keeps the keys already present in their places |
| Search.PutFieldsOrder | wigwam/search.py:176-188 | filling fields appends the new ones after the keys already present, in the order of their first request |
| Search.PutFieldsValues | wigwam/search.py:176-188 | filling fields leaves every key holding its own field's value, with no key entered twice |
| Search.ToDict | wigwam/search.py:148-189 | an unknown field is a ValueError naming it; otherwise the keys are "files" first when it is requested, then the requested fields in the order they are first named (every field when none is), and each key holds the dataset's own value of that field, the files as a name-to-checksum dictionary |
| Search.FilesMapRecords | wigwam/search.py:182-186 | a files list with distinct names renders back to the mapping it was read from |
| Search.RenderAll | wigwam/search.py:169-189 | rendering every field gives "files" first, then name, tags and url as held |
| Search.ReadRenderRoundTrip | wigwam/search.py:124-189 | reading an entry and rendering it back gives every field as read, the files mapping unchanged, with "files" first |
| Workflows.GetWorkflowObject | wigwam/_workflows.py:78-87 | a name is recognised exactly when it is gslc, gcov, insar, rslc, el_edge or el_null; "rslc" runs the `focus` module and insar takes the generic handler; anything else is the ValueError naming it |
| Workflows.GetCommand | wigwam/_workflows.py:24-56 | every command but the InSAR one ends with the runconfig, the InSAR one ends with ` -- restart`, and every command but SoilMoisture's starts with `python -m nisar.workflows.` and the module |
| Workflows.OnlyTwoHandlers | wigwam/_workflows.py:78-87 | no name selects the InSAR or the SoilMoisture handler: the InSAR branch comes after a test that already takes "insar" |
| Workflows.GenericIsWords | wigwam/_workflows.py:34-35 | the generic command is `python -m nisar.workflows.<module> <runconfig>` as words joined by spaces |
| Workflows.InSarIsWords | wigwam/_workflows.py:41-42 | the InSAR command is the generic words followed by `--` and `restart` |
| Workflows.TextRunconfigIsWords | wigwam/_workflows.py:48-49 | the text-runconfig command passes the runconfig as `@<runconfig>` |
| Workflows.SoilMoistureIsWords | wigwam/_workflows.py:55-56 | the SoilMoisture command runs `NISAR_SM_SAS` in the SoilMoisture environment through micromamba, ignoring the module |
| Workflows.CommandIsWords | wigwam/_workflows.py:34-56 | every handler's command is its words joined by single spaces |
| Workflows.CommandReadsBack | wigwam/_workflows.py:34-56 | when neither the module nor the runconfig holds a space, splitting the command at spaces gives back exactly the handler's words |
| Workflows.InSarRestarts | wigwam/_workflows.py:41-42 | the InSAR command begins with the generic command of the same module and ends in ` -- restart` |
| Workflows.WorkflowMounts | wigwam/_workflows.py:150-186 | the output directory first and read-write, then each input repository read-only under the input directory in mapping order, then the scratch directory read-write, all under the install prefix |
| Workflows.WorkflowMountsValid | wigwam/_workflows.py:157-184 | every mount of a workflow passes the bind-mount constructor's check unchanged |
| Workflows.WorkflowMountsDistinct | wigwam/_workflows.py:150-186 | with distinct repository names no two mounts share a destination in the container |
| Workflows.GetTestInfo | wigwam/_workflows.py:119-131 | an unknown workflow, then a missing "tests" key, a test the workflow lacks ("Test … not found in workflow …"), a missing "type" key and a non-string type (naming its own type) are each their own error; the lookup succeeds exactly when none applies, and then gives the test's entry and that type |
| Workflows.GetTestInfoFinds | wigwam/_workflows.py:119-131 | a workflow entered with a test and a string type gives that test's entry and type back |
| Workflows.TypeComplaintNamesType | wigwam/_workflows.py:125-130 | a type field that is not a string is a ValueError naming the field's own type |
| Workflows.TypeComplaintMisnames | wigwam/_workflows.py:126-130 | as written, an integer type field is reported as `str`, the type of the test name, not as `int` |
| Workflows.GetTestInfoAsWritten | wigwam/_workflows.py:90-131 | as written: the same workflow, "tests", test-not-found and "type" errors, success under exactly the same conditions with the same test and type, but a "type" field that is not a string is always reported as `<class 'str'>` |
| Workflows.RunconfigMount | wigwam/_workflows.py:288-307 | a runconfig that is not a file on the host is the ValueError naming it and its host path; otherwise it is mounted read-only from the host path under the install prefix |
| Workflows.RunTest | wigwam/_workflows.py:397-414 | an unrecognised workflow and then a missing runconfig are the errors of the lookups; the run happens only when the runconfig was found |
| Workflows.RunWorkflow | wigwam/_workflows.py:397-418 | the workflow passes exactly when the run succeeds; a test failure is reported only for a run that failed with a non-zero status, and every other error of the run, such as a missing command, passes through unchanged |
| Workflows.RunWorkflowChecksFirst | wigwam/_workflows.py:397-406 | an unrecognised workflow and a missing runconfig fail before anything runs, each with its own ValueError |
| Workflows.FailureCarriesStderr | wigwam/_workflows.py:413-418 | a run failing with a status other than 127 is a test failure whose message ends in the run's standard error |
| Workflows.FailureLosesStderr | wigwam/_workflows.py:413-418 | as written, that failure's message ends in `None` whatever the run wrote, so any other standard error is lost |
| Workflows.RunWorkflowAsWritten | wigwam/_workflows.py:397-418 | as written, the workflow passes exactly when the run does, every test failure it reports ends in `None`, and every error other than a failed status passes through unchanged |
| Workflows.CommandHasNoQuote | wigwam/_workflows.py:34-49 | the commands add no single quote, so one built from a runconfig without a quote survives `Image.run`'s quoting |

## Left out

- The container engine: every `docker build`, `run`, `inspect`, `images` and `rmi` call is answered by the `Engine.Engine` oracle (exit status and standard output). How the engine behaves is not modelled.
- Standard error and output redirection (the `stdout`/`stderr` streams passed to `subprocess.run`). Only what a command writes to standard output is modelled, and only where the source reads it back.
- Host facts are parameters: `os.path.isdir`/`isfile`, `abspath`/`absolute`, `os.getuid`/`getgid`, `sys.stdin.isatty` for the TTY flag, and the random draws of `generate_random_string`. `Path.resolve` is modelled from a working directory that is a parameter (`Setup.ResolvedDir`), for paths without `.`, `..` or symbolic links.
- Setup.RelativeTo: the ValueError's message follows the wording of Python 3.12 (`'p' is not in the subpath of 'base'`); other Python versions word it differently.
- Side effects on the host are left out: `mkdir` of the test output directory, `tempfile`, `shutil.rmtree`, `prepare_scratch_dir`, `prepare_subdirectories`, and writing the lockfile to disk. The lockfile is returned as text instead.
- Reading JSON files (`open`/`json.load`): the search and the workflow lookup start from the parsed values. Values of the wrong JSON type are not modelled, except the workflow's "type" field; only missing keys are.
- `run_series_workflow` is not modelled: it only loops `run_workflow` over a list and prints.
- The wigwam `remove` command is not modelled separately. Its text is the older `remove`, which `Commands.Remove` models.
- Printing and verbose output (`print`, the verbose flag of `remove`), and `exit()` beyond its `SystemExit` error.
- `textwrap.dedent` is modelled as text, not as a computation, for every template but one: the model holds the text `dedent` yields when every interpolated value is one line. The newer CUDA dev template goes through the model of `dedent` itself (`Textwrap.Dedent`).
- WigwamCuda.DevDockerfileYum, WigwamCuda.DevDockerfileAptGet, WigwamCuda.DevVersionReadsBack: they assume that the package manager's install command is one line. A multi-line command would change the margin `dedent` finds.
- fnmatch bracket classes (`[...]`): a `[` in a name pattern is read as a literal character. `*`, `?` and literals are modelled.
- Path arithmetic: `pathlib` joins are modelled as string concatenation with `/`, and `Path(x).name` as the text after the last `/`. No normalisation is done.
- wigwam/_utils.py (`prefix_image_tag`) is not part of this model. The newer commands take the tag rule as a parameter, and the chain lemmas assume only that prefixing a prefixed tag changes nothing.
- wigwam/_package_manager.py, wigwam/_url_reader.py and wigwam/_docker_mamba.py are not part of this model. Their commands and templates (install commands, `micromamba_docker_lines`, `get_libdir`) are parameters.
- Fixed Dockerfile templates without branching (`git_extract_dockerfile`, `insert_dir_dockerfile`, `distrib_dockerfile`, the init template): only their shape is stated: the `FROM` line and the lines the callers depend on.
- The setup commands are modelled as if docker_cli/setup_commands.py imported: as written, its import of `mamba_add_reqs_dockerfile` fails, so none of them can run (see Findings). The corrected import is `mamba_add_specs_dockerfile`.
- Setup.SetupCudaDev: models the evidently intended call of the development generator, without arguments. The call as written always fails, and is modelled by Setup.SetupCudaDevAsWritten and Setup.CudaDevWithAsWritten (see Findings).
- Setup.SetupCondaRuntime: takes the environment file already located (an `EnvFile`) and builds with the intended keyword `env_specfile`. Locating the file and the keyword as written are modelled by Setup.CondaRuntimeAsWritten and Setup.CondaRuntimeResolved.
- Setup.SetupCondaDev: takes the environment file already located, as the runtime command locates it. It adds the file with the specs generator `mamba_add_specs_dockerfile` and its keyword `env_specfile`. The lookup as written, which fails for every relative path, and the call as written, which names an unbound function, are modelled by Setup.CondaDevAsWritten, Setup.DevEnvFileRelativeFails and Setup.RenamedCallFails.
- Setup.SetupAll: takes both environment files already located, and runs the stages with the intended calls, so the failures of the as-written calls above are not part of it. Its probe of the base is `temp_image` as written.
- wigwam/defaults.py is not part of this model. Its `build_prefix` and `install_prefix` are taken to be the older defaults' values, `/tmp/build` and `/app` (`Defaults.BuildPrefix` and `Defaults.InstallPrefix`): WigwamCommands.DistribRequest, WigwamCommands.TestWords, Workflows.WorkflowMounts and Workflows.RunconfigMount.
- The older `DockerBuildError` takes two arguments but is raised with one. The resulting `TypeError` is not reproduced: the build error is modelled as the error kind with its message.
- Command-line plumbing (argparse, the CLI modules, wigwam/data_commands.py) and the superseded prototypes (image.py, image_pytest.py, docker_cli/image.py).
- Exception classes are modelled as the kinds of `Errors.Error`, not as a class hierarchy.
- WigwamCommands.Test: the contract states only that an image that cannot be found stops the run. The command line it runs is stated by WigwamCommands.TestShellLine and WigwamCommands.TestWords.
- WigwamCommands.MakeLockfile: the contract states only the trailing newline. The normal form and the agreement with the older command are stated by WigwamCommands.MakeLockfileNormal and WigwamCommands.LockfilesAgree.
- Search.AnyName, Search.AnyTagList, Search.AcceptItem: the contracts state only the error kind. What they decide is stated, for terms with no `None`, by Search.AnyNameFinds, Search.AnyTagListFinds and Search.AcceptItemMeansAccepted.
- Utils.GenerateRandomString: only the length and the alphabet are stated. The random draw is a parameter.

## Findings

| source | as written | input that shows it | evidently intended | confidence | as-written member | corrected member |
|---|---|---|---|---|---|---|
| docker_cli/_utils.py:57-65 | only a `CalledProcessError` from the build becomes "Image not found"; `Image.build` turns a failed build into `DockerBuildError` first | a base image that does not exist: every engine call exits with status 1 | a base that cannot be built from is reported as "Image not found: base", as the docstring promises | not executed | Utils.TempImageMissesMissingBase | Utils.TempImageReportsMissingBase |
| docker_cli/_docker_cmake.py:55 | `-DWITH_CUDA=YES` is a fixed line of the configure step, next to the optional argument that adds it only when CUDA is asked for | `configure_cmake` with `no_cuda=True` | without CUDA the configure step does not ask for CUDA | not executed | Commands.CmakeConfigIgnoresNoCuda | Commands.CmakeConfigCudaIffAsked |
| wigwam/_workflows.py:126-130 | the complaint about a "type" field that is not a string reports `type(test_name)`, which is always `str` | a workflow whose "type" field is the integer 5 | the complaint names the field's own type, `<class 'int'>` | not executed | Workflows.TypeComplaintMisnames | Workflows.TypeComplaintNamesType |
| wigwam/_workflows.py:413-418 | the failed run's message adds `err.stderr`, but `Image.run` is called without capturing standard error (wigwam/_image.py:292-299), so the message always ends in `None` | any workflow run that exits with a status other than 0 and 127 | the test failure carries what the run wrote to standard error | not executed | Workflows.FailureLosesStderr | Workflows.FailureCarriesStderr |
| docker_cli/setup_commands.py:8 | imports `mamba_add_reqs_dockerfile`, which docker_cli/_docker_mamba.py does not define | importing the module, before any command runs | import a name the module defines, the specs generator `mamba_add_specs_dockerfile`; the call at line 296 must then change too (next rows) | not executed | Setup.SetupImportFails | Setup.SetupImportResolves |
| docker_cli/setup_commands.py:211-213 | calls `generate_dev_dockerfile(cuda_ver_major=…, cuda_ver_minor=…)`, but the older generator takes no arguments (docker_cli/_docker_cuda.py:93) | `setup_cuda_dev` with both tools given and `cuda_version="11.4"` | call the generator without arguments and build the dev image | not executed | Setup.CudaDevAsWrittenNeverBuilds | Setup.CudaDevWith |
| docker_cli/setup_commands.py:255 | passes `env_reqs_file=`, but `mamba_install_dockerfile` names its parameter `env_specfile` (docker_cli/_docker_mamba.py:8) | `setup_conda_runtime` with any environment file | pass the file name as `env_specfile` | not executed | Setup.CondaRuntimeAsWritten | Setup.CondaRuntimeResolved |
| docker_cli/setup_commands.py:294 | takes the path as given relative to its resolved parent directory | `setup_conda_dev` run in `/work` with `env_file="env/dev.yml"`: `env/dev.yml` is not under `/work/env` | take the resolved path, as `setup_conda_runtime` does at line 253; the corrected member also takes the call at line 296 as corrected | not executed | Setup.DevEnvFileRelativeFails | Setup.CondaDevResolved |
| docker_cli/setup_commands.py:296 | calls `mamba_add_reqs_dockerfile(env_reqs_file=…)`: the name the line 8 import fails on, and a keyword the specs generator lacks (its parameter is `env_specfile`, docker_cli/_docker_mamba.py:29-31) | `setup_conda_dev` with the import corrected and an absolute `env_file`: the call raises NameError, and renamed alone it raises TypeError | call `mamba_add_specs_dockerfile(env_specfile=…)` | not executed | Setup.CondaDevAsWritten | Setup.CondaDevResolved |

=== FILE: chains.dfy ===
/** What the three build chains of the tool have in common: a list of
    builds, each starting FROM an image, run in order until one fails, and
    the dictionary of images they leave behind. */
module Chains {
  import opened Errors
  import Text
  import DockerImage

  type Image = DockerImage.Image

  // ------------------------------------------------------------ dictionaries

  /** A Python dict keyed by strings: entries in first-insertion order. */
  type Dict<V> = seq<(string, V)>

  function Keys<V>(d: Dict<V>): (r: seq<string>)
    ensures |r| == |d| && forall i :: 0 <= i < |d| ==> r[i] == d[i].0
  {
    seq(|d|, i requires 0 <= i < |d| => d[i].0)
  }

  /** Where `d[k]` lives: the first entry with key `k`. */
  function KeyIndex<V>(d: Dict<V>, k: string): (i: nat)
    requires k in Keys(d)
    ensures i < |d| && d[i].0 == k
    ensures forall j :: 0 <= j < i ==> d[j].0 != k
  {
    if d[0].0 == k then 0
    else
      assert Keys(d)[1..] == Keys(d[1..]);
      1 + KeyIndex(d[1..], k)
  }

  /** `d[k] = v`: a new key goes at the end, an existing key keeps its
      place and takes the new value; nothing else changes. */
  function Put<V>(d: Dict<V>, k: string, v: V): (r: Dict<V>)
    ensures k in Keys(d) ==> Keys(r) == Keys(d) && r[KeyIndex(r, k)] == (k, v)
    ensures k !in Keys(d) ==> r == d + [(k, v)]
    ensures forall i :: 0 <= i < |d| && d[i].0 != k ==> r[i] == d[i]
  {
    if k in Keys(d) then
      var i := KeyIndex(d, k);
      var r := d[i := (k, v)];
      assert Keys(r) == Keys(d);
      r
    else d + [(k, v)]
  }

  // ------------------------------------------------------------------ stages

  /** One build of a chain: the key its image is recorded under, the tag it
      is built as, the image its Dockerfile starts from, the Dockerfile, the
      build context, the cache switch, and whether a throwaway image of the
      base is built and removed first. */
  datatype Stage = Stage(key: string, tag: string, base: string, dockerfile: string,
                         context: Option<string>, noCache: bool, probeFirst: bool)

  /** Each stage starts from the image the stage before it was built as,
      and the first from `origin`. */
  predicate Chained(origin: string, stages: seq<Stage>) {
    (|stages| > 0 ==> stages[0].base == origin)
    && forall i :: 0 < i < |stages| ==> stages[i].base == stages[i - 1].tag
  }

  function StageKeys(stages: seq<Stage>): (r: seq<string>)
    ensures |r| == |stages| && forall i :: 0 <= i < |stages| ==> r[i] == stages[i].key
  {
    seq(|stages|, i requires 0 <= i < |stages| => stages[i].key)
  }

  predicate Distinct(s: seq<string>) {
    forall i, j :: 0 <= i < j < |s| ==> s[i] != s[j]
  }

  /** How a chain builds one stage. */
  type Builder = Stage -> Result<Image>

  /** Stage `j` is the first whose build fails. */
  predicate FailsFirstAt(build: Builder, stages: seq<Stage>, j: int) {
    0 <= j < |stages| && build(stages[j]).Err?
    && forall i :: 0 <= i < j ==> build(stages[i]).Ok?
  }

  /** What running a chain did: how many builds it started, and the
      dictionary of images or the error that stopped it. */
  datatype Outcome = Outcome(started: nat, result: Result<Dict<Image>>)

  /** The images of a chain whose every build succeeds, one entry per
      stage. */
  function Built(build: Builder, stages: seq<Stage>): (r: Dict<Image>)
    requires forall i :: 0 <= i < |stages| ==> build(stages[i]).Ok?
    ensures |r| == |stages|
    ensures forall i :: 0 <= i < |stages| ==> r[i] == (stages[i].key, build(stages[i]).value)
  {
    seq(|stages|, i requires 0 <= i < |stages| => (stages[i].key, build(stages[i]).value))
  }

  /** Build the stages in order, recording each image under its key, and
      stop at the first failure. */
  function RunStages(build: Builder, stages: seq<Stage>, acc: Dict<Image>): (o: Outcome)
    ensures o.started <= |stages|
    ensures o.result.Ok? ==> o.started == |stages|
    ensures o.result.Err? ==> o.started > 0 && build(stages[o.started - 1]).Err?
    decreases |stages|
  {
    if |stages| == 0 then Outcome(0, Ok(acc))
    else
      match build(stages[0])
      case Err(e) => Outcome(1, Err(e))
      case Ok(img) =>
        var rest := RunStages(build, stages[1..], Put(acc, stages[0].key, img));
        assert rest.result.Err? ==> stages[1..][rest.started - 1] == stages[rest.started];
        Outcome(rest.started + 1, rest.result)
  }

  /** A chain succeeds exactly when every one of its builds does. */
  lemma {:induction false} RunStagesSucceeds(build: Builder, stages: seq<Stage>, acc: Dict<Image>)
    ensures RunStages(build, stages, acc).result.Ok? <==> forall i :: 0 <= i < |stages| ==> build(stages[i]).Ok?
    decreases |stages|
  {
    if |stages| > 0 && build(stages[0]).Ok? {
      RunStagesSucceeds(build, stages[1..], Put(acc, stages[0].key, build(stages[0]).value));
      assert forall i :: 0 < i < |stages| ==> stages[i] == stages[1..][i - 1];
    }
  }

  /** A chain stops at its first failing build, having started exactly the
      builds up to and including it, and reports that build's error. */
  lemma {:induction false} RunStagesStops(build: Builder, stages: seq<Stage>, acc: Dict<Image>, j: int)
    requires FailsFirstAt(build, stages, j)
    ensures RunStages(build, stages, acc) == Outcome(j + 1, Err(build(stages[j]).error))
    decreases |stages|
  {
    if j > 0 {
      assert build(stages[0]).Ok?;
      assert FailsFirstAt(build, stages[1..], j - 1) by {
        assert forall i :: 0 <= i < j - 1 ==> stages[1..][i] == stages[i + 1];
      }
      RunStagesStops(build, stages[1..], Put(acc, stages[0].key, build(stages[0]).value), j - 1);
    }
  }

  /** A successful chain with distinct keys records each stage's image
      under its key, in build order, after what was there before. */
  lemma {:induction false} RunStagesRecords(build: Builder, stages: seq<Stage>, acc: Dict<Image>)
    requires forall i :: 0 <= i < |stages| ==> build(stages[i]).Ok?
    requires Distinct(StageKeys(stages))
    requires forall i :: 0 <= i < |stages| ==> stages[i].key !in Keys(acc)
    ensures RunStages(build, stages, acc) == Outcome(|stages|, Ok(acc + Built(build, stages)))
    decreases |stages|
  {
    if |stages| > 0 {
      var img := build(stages[0]).value;
      var acc' := Put(acc, stages[0].key, img);
      var tail := stages[1..];
      assert forall i :: 0 <= i < |tail| ==> build(tail[i]).Ok? by {
        forall i | 0 <= i < |tail| ensures build(tail[i]).Ok? {
          assert tail[i] == stages[i + 1];
        }
      }
      RecordsTail(stages, acc, img);
      var built := acc + Built(build, stages);
      assert acc' + Built(build, tail) == built by {
        assert acc' == acc + [(stages[0].key, img)];
        BuiltCons(build, stages);
      }
      calc {
        RunStages(build, stages, acc);
        { RunStagesStep(build, stages, acc); }
        Outcome(RunStages(build, tail, acc').started + 1, RunStages(build, tail, acc').result);
        { RunStagesRecords(build, tail, acc'); }
        Outcome(|tail| + 1, Ok(acc' + Built(build, tail)));
        Outcome(|stages|, Ok(built));
      }
    } else {
      assert acc + Built(build, stages) == acc;
    }
  }

  /** A chain whose first build succeeds goes on with the rest, the first
      image recorded. */
  lemma RunStagesStep(build: Builder, stages: seq<Stage>, acc: Dict<Image>)
    requires |stages| > 0 && build(stages[0]).Ok?
    ensures var rest := RunStages(build, stages[1..], Put(acc, stages[0].key, build(stages[0]).value));
            RunStages(build, stages, acc) == Outcome(rest.started + 1, rest.result)
  {
  }

  /** The images of a chain are the first stage's followed by the rest's. */
  lemma BuiltCons(build: Builder, stages: seq<Stage>)
    requires |stages| > 0
    requires forall i :: 0 <= i < |stages| ==> build(stages[i]).Ok?
    ensures forall i :: 0 <= i < |stages| - 1 ==> build(stages[1..][i]).Ok?
    ensures Built(build, stages) == [(stages[0].key, build(stages[0]).value)] + Built(build, stages[1..])
  {
    var tail := stages[1..];
    forall i | 0 <= i < |tail| ensures build(tail[i]).Ok? {
      assert tail[i] == stages[i + 1];
    }
    var a := Built(build, stages);
    var b := [(stages[0].key, build(stages[0]).value)] + Built(build, tail);
    forall i | 0 <= i < |a| ensures a[i] == b[i] {
      if i > 0 {
        assert tail[i - 1] == stages[i];
      }
    }
    Text.SameElements(a, b);
  }

  /** After recording the first stage, the rest of a chain with distinct
      keys still has distinct keys, none of them recorded yet. */
  lemma RecordsTail(stages: seq<Stage>, acc: Dict<Image>, img: Image)
    requires |stages| > 0
    requires Distinct(StageKeys(stages))
    requires forall i :: 0 <= i < |stages| ==> stages[i].key !in Keys(acc)
    ensures Distinct(StageKeys(stages[1..]))
    ensures forall i :: 0 <= i < |stages| - 1 ==> stages[1..][i].key !in Keys(Put(acc, stages[0].key, img))
  {
    var tail := stages[1..];
    var acc' := Put(acc, stages[0].key, img);
    forall i | 0 <= i < |tail| ensures tail[i].key !in Keys(acc') {
      assert tail[i] == stages[i + 1];
      assert StageKeys(stages)[0] != StageKeys(stages)[i + 1];
    }
    forall a, b | 0 <= a < b < |tail| ensures StageKeys(tail)[a] != StageKeys(tail)[b] {
      assert StageKeys(stages)[a + 1] != StageKeys(stages)[b + 1];
    }
  }
}

=== FILE: cmake.dfy ===
/** The three Dockerfiles of the newer generation's CMake build: configure,
    compile, install. Each starts from the previous image, activates the
    micromamba environment, and adds its own step. The micromamba lines
    come from wigwam/_docker_mamba.py, which is not part of this model, so
    they are a parameter; the prefixes are the tool's defaults. */
module Cmake {
  import Text
  import Defaults

  /** `FROM base`, a blank line, the micromamba lines, a blank line, then
      the stage's own step. */
  function MambaStage(base: string, mambaLines: string, step: string): string {
    "FROM " + base + "\n\n" + mambaLines + "\n\n" + step
  }

  /** Line by line, a stage is its `FROM` line, a blank line, the
      micromamba lines, a blank line and the step's lines. */
  lemma MambaStageLines(base: string, mambaLines: string, step: string)
    requires '\n' !in base
    ensures Text.Split(MambaStage(base, mambaLines, step), '\n')
            == ["FROM " + base, ""] + Text.Split(mambaLines, '\n') + [""] + Text.Split(step, '\n')
  {
    var from := "FROM " + base;
    assert '\n' !in from;
    var s4 := "" + ['\n'] + step;
    var s3 := mambaLines + ['\n'] + s4;
    var s2 := "" + ['\n'] + s3;
    assert MambaStage(base, mambaLines, step) == from + ['\n'] + s2;
    Text.SplitConcat("", '\n', step);
    Text.SplitConcat(mambaLines, '\n', s4);
    Text.SplitConcat("", '\n', s3);
    Text.SplitConcat(from, '\n', s2);
    Text.SplitFree(from, '\n');
  }

  /** The step's last line survives whatever comes before it. */
  lemma LastLine(pre: string, last: string)
    requires '\n' !in last
    ensures var l := Text.Split(pre + "\n" + last, '\n'); l[|l| - 1] == last
  {
    Text.SplitConcat(pre, '\n', last);
    Text.SplitFree(last, '\n');
  }

  // ------------------------------------------------------------- configure

  /** The toggle's argument: `-D WITH_CUDA=YES` or `-D WITH_CUDA=NO`. */
  function WithCudaArg(withCuda: bool): string {
    if withCuda then "-D WITH_CUDA=YES" else "-D WITH_CUDA=NO"
  }

  const Indent: string := "    "

  /** The prefixes the later stages rely on, then a blank line. */
  const PrefixLines: seq<string> := [
    "ENV INSTALL_PREFIX " + Defaults.InstallPrefix,
    "ENV BUILD_PREFIX " + Defaults.BuildPrefix,
    ""]

  /** The `cmake` call and its fixed arguments: source, build tree,
      generator, no fetched dependencies. */
  const CmakeHead: seq<string> := [
    "RUN cmake \\",
    Indent + "-S . \\",
    Indent + "-B $BUILD_PREFIX \\",
    Indent + "-G Ninja \\",
    Indent + "-D ISCE3_FETCH_DEPS=NO \\"]

  /** The build type, both prefixes and, last, the CUDA toggle. */
  function CmakeDefines(buildType: string, withCuda: bool): seq<string> {
    [Indent + "-D CMAKE_BUILD_TYPE=" + buildType + " \\",
     Indent + "-D CMAKE_INSTALL_PREFIX=" + "$INSTALL_PREFIX \\",
     Indent + "-D CMAKE_PREFIX_PATH=" + "$MAMBA_ROOT_PREFIX \\",
     Indent + WithCudaArg(withCuda)]
  }

  /** The configure step, line by line: the prefixes, then one `cmake`
      call whose arguments continue over indented lines and end with the
      CUDA toggle. */
  function ConfigLines(buildType: string, withCuda: bool): (r: seq<string>)
    ensures |r| == 12
  {
    PrefixLines + CmakeHead + CmakeDefines(buildType, withCuda)
  }

  /** `cmake_config_dockerfile(base, build_type, with_cuda)`. */
  function ConfigDockerfile(base: string, mambaLines: string, buildType: string, withCuda: bool): (r: string)
    ensures Text.StartsWith(r, "FROM " + base + "\n\n")
    ensures Text.EndsWith(r, "\n" + Indent + WithCudaArg(withCuda))
  {
    var lines := ConfigLines(buildType, withCuda);
    assert lines == lines[..11] + [Indent + WithCudaArg(withCuda)];
    Text.JoinAppend("\n", lines[..11], Indent + WithCudaArg(withCuda));
    var r := MambaStage(base, mambaLines, Text.Join("\n", lines));
    var head := "FROM " + base + "\n\n";
    assert r[..|head|] == head;
    var tail := "\n" + Indent + WithCudaArg(withCuda);
    assert r[|r| - |tail|..] == tail;
    r
  }

  /** What the configured build caches for `WITH_CUDA`: whether the
      configure step's last argument switches it on. */
  predicate CachedWithCuda(dockerfile: string) {
    var l := Text.Split(dockerfile, '\n');
    l[|l| - 1] == Indent + WithCudaArg(true)
  }

  /** The toggle reads back from the Dockerfile, whatever the base, the
      micromamba lines and the build type: `WITH_CUDA=YES` exactly when CUDA
      was asked for. */
  lemma WithCudaReadsBack(base: string, mambaLines: string, buildType: string, withCuda: bool)
    ensures CachedWithCuda(ConfigDockerfile(base, mambaLines, buildType, withCuda)) == withCuda
  {
    var r := ConfigDockerfile(base, mambaLines, buildType, withCuda);
    var last := Indent + WithCudaArg(withCuda);
    assert '\n' !in last;
    var pre := r[..|r| - |last| - 1];
    assert r == pre + "\n" + last;
    LastLine(pre, last);
    assert WithCudaArg(true)[13] != WithCudaArg(false)[13];
  }

  lemma PrefixLinesFree()
    ensures Text.LinesFree(PrefixLines)
  {
    assert '\n' !in PrefixLines[0];
    assert '\n' !in PrefixLines[1];
    assert '\n' !in PrefixLines[2];
  }

  lemma CmakeHeadFree()
    ensures Text.LinesFree(CmakeHead)
  {
    var h := CmakeHead;
    assert '\n' !in h[0];
    assert '\n' !in h[1];
    assert '\n' !in h[2];
    assert '\n' !in h[3];
    assert '\n' !in h[4];
  }

  lemma CmakeDefinesFree(buildType: string, withCuda: bool)
    requires '\n' !in buildType
    ensures Text.LinesFree(CmakeDefines(buildType, withCuda))
  {
    var d := CmakeDefines(buildType, withCuda);
    assert '\n' !in d[0];
    assert '\n' !in d[1];
    assert '\n' !in d[2];
    assert '\n' !in d[3];
  }

  lemma ConfigLinesFree(buildType: string, withCuda: bool)
    requires '\n' !in buildType
    ensures Text.LinesFree(ConfigLines(buildType, withCuda))
  {
    PrefixLinesFree();
    CmakeHeadFree();
    CmakeDefinesFree(buildType, withCuda);
    Text.LinesFreeConcat(PrefixLines, CmakeHead);
    Text.LinesFreeConcat(PrefixLines + CmakeHead, CmakeDefines(buildType, withCuda));
  }

  /** Line by line, the configure Dockerfile is the stage preamble followed
      by the twelve configure lines; so the build type reads back from its
      own line when it holds no newline. */
  lemma ConfigReadsBack(base: string, mambaLines: string, buildType: string, withCuda: bool)
    requires '\n' !in base && '\n' !in buildType
    ensures Text.Split(ConfigDockerfile(base, mambaLines, buildType, withCuda), '\n')
            == ["FROM " + base, ""] + Text.Split(mambaLines, '\n') + [""] + ConfigLines(buildType, withCuda)
    ensures Indent + "-D CMAKE_BUILD_TYPE=" + buildType + " \\" in Text.Split(ConfigDockerfile(base, mambaLines, buildType, withCuda), '\n')
  {
    var lines := ConfigLines(buildType, withCuda);
    ConfigLinesFree(buildType, withCuda);
    Text.SplitJoin(lines, '\n');
    assert Text.Join("\n", lines) == Text.Join(['\n'], lines);
    MambaStageLines(base, mambaLines, Text.Join("\n", lines));
    var l := Text.Split(ConfigDockerfile(base, mambaLines, buildType, withCuda), '\n');
    assert l[|l| - 4] == lines[8];
  }

  // ----------------------------------------------------------------- build

  const CompileLine: string := "RUN cmake --build $BUILD_PREFIX" + " --parallel"
  const ChmodLine: string := "RUN chmod -R 777 $BUILD_PREFIX"
  /** The compile step: build in parallel, a blank line, then open the
      build tree to every user so tests can write into it. */
  const BuildLines: seq<string> := [CompileLine, "", ChmodLine]

  /** `cmake_build_dockerfile(base)`. */
  function BuildDockerfile(base: string, mambaLines: string): (r: string)
    ensures Text.StartsWith(r, "FROM " + base + "\n\n")
    ensures Text.EndsWith(r, "\n" + ChmodLine)
  {
    assert BuildLines == BuildLines[..2] + [ChmodLine];
    Text.JoinAppend("\n", BuildLines[..2], ChmodLine);
    var r := MambaStage(base, mambaLines, Text.Join("\n", BuildLines));
    var head := "FROM " + base + "\n\n";
    assert r[..|head|] == head;
    var tail := "\n" + ChmodLine;
    assert r[|r| - |tail|..] == tail;
    r
  }

  /** Line by line, the compile Dockerfile is the stage preamble, the
      parallel build, a blank line and the permission change. */
  lemma BuildReadsBack(base: string, mambaLines: string)
    requires '\n' !in base
    ensures Text.Split(BuildDockerfile(base, mambaLines), '\n')
            == ["FROM " + base, ""] + Text.Split(mambaLines, '\n') + [""] + [CompileLine, "", ChmodLine]
  {
    assert '\n' !in BuildLines[0];
    assert '\n' !in BuildLines[1];
    assert '\n' !in BuildLines[2];
    Text.SplitJoin(BuildLines, '\n');
    assert Text.Join("\n", BuildLines) == Text.Join(['\n'], BuildLines);
    MambaStageLines(base, mambaLines, Text.Join("\n", BuildLines));
  }

  // --------------------------------------------------------------- install

  /** The install step, line by line: as root, install and open the
      install prefix, switch back to the micromamba user, and put both
      library directories and the Python packages on the search paths. */
  const AsRootLines: seq<string> := [
    "# Set USER to root because the " + "install prefix may require elevated",
    "# privileges to write to.",
    "USER root",
    ""]

  const InstallStepLines: seq<string> := [
    "RUN cmake --build $BUILD_PREFIX" + " --target install --parallel",
    "RUN chmod -R 755 $INSTALL_PREFIX",
    "",
    "USER $MAMBA_USER",
    ""]

  const LibdirLines: seq<string> := [
    "# We don't know if this image uses " + "lib64 or lib as its' libdir, " + "and checking",
    "# turns out to be very complicated " + "inside of a dockerfile. " + "So, just add both",
    "# to LD_LIBRARY_PATH."]

  const SearchPathLines: seq<string> := [
    "ENV LD_LIBRARY_PATH " + "$LD_LIBRARY_PATH:$INSTALL_PREFIX/lib64",
    "ENV LD_LIBRARY_PATH " + "$LD_LIBRARY_PATH:$INSTALL_PREFIX/lib",
    "ENV PYTHONPATH " + "$PYTHONPATH:$INSTALL_PREFIX/packages"]

  const InstallLines: seq<string> := AsRootLines + InstallStepLines + LibdirLines + SearchPathLines

  /** `cmake_install_dockerfile(base)`. */
  function InstallDockerfile(base: string, mambaLines: string): (r: string)
    ensures Text.StartsWith(r, "FROM " + base + "\n\n")
  {
    var r := MambaStage(base, mambaLines, Text.Join("\n", InstallLines));
    var head := "FROM " + base + "\n\n";
    assert r[..|head|] == head;
    r
  }

  lemma AsRootLinesFree()
    ensures Text.LinesFree(AsRootLines)
  {
    var a := AsRootLines;
    assert '\n' !in a[0];
    assert '\n' !in a[1];
    assert '\n' !in a[2];
    assert '\n' !in a[3];
  }

  lemma InstallStepLinesFree()
    ensures Text.LinesFree(InstallStepLines)
  {
    var b := InstallStepLines;
    assert '\n' !in b[0];
    assert '\n' !in b[1];
    assert '\n' !in b[2];
    assert '\n' !in b[3];
    assert '\n' !in b[4];
  }

  lemma LibdirLinesFree()
    ensures Text.LinesFree(LibdirLines)
  {
    var c := LibdirLines;
    assert '\n' !in c[0];
    assert '\n' !in c[1];
    assert '\n' !in c[2];
  }

  lemma SearchPathLinesFree()
    ensures Text.LinesFree(SearchPathLines)
  {
    var c := SearchPathLines;
    assert '\n' !in c[0];
    assert '\n' !in c[1];
    assert '\n' !in c[2];
  }

  lemma InstallLinesFree()
    ensures Text.LinesFree(InstallLines)
  {
    AsRootLinesFree();
    InstallStepLinesFree();
    LibdirLinesFree();
    SearchPathLinesFree();
    Text.LinesFreeConcat(AsRootLines, InstallStepLines);
    Text.LinesFreeConcat(AsRootLines + InstallStepLines, LibdirLines);
    Text.LinesFreeConcat(AsRootLines + InstallStepLines + LibdirLines, SearchPathLines);
  }

  /** Line by line, the install Dockerfile is the stage preamble followed
      by the install lines, so the install runs as root and the image ends
      as the micromamba user. */
  lemma InstallReadsBack(base: string, mambaLines: string)
    requires '\n' !in base
    ensures Text.Split(InstallDockerfile(base, mambaLines), '\n')
            == ["FROM " + base, ""] + Text.Split(mambaLines, '\n') + [""] + InstallLines
  {
    InstallLinesFree();
    Text.SplitJoin(InstallLines, '\n');
    assert Text.Join("\n", InstallLines) == Text.Join(['\n'], InstallLines);
    MambaStageLines(base, mambaLines, Text.Join("\n", InstallLines));
  }
}

=== FILE: commands.dfy ===
/** The older generation's user-facing commands that decide something before
    they reach the engine: which images `remove` asks the engine to delete,
    how `make_lockfile` rewrites an exported environment, and the tag, base
    and Dockerfile under which `get_archive`, `copy_dir` and `configure_cmake`
    build. The filesystem facts `copy_dir` consults are parameters. */
module Commands {
  import opened Errors
  import opened Engine
  import Text
  import Shlex
  import Defaults
  import Utils
  import Lockfile
  import Mamba
  import Cmake
  import DockerImage
  import UR = UrlReaders

  type Image = DockerImage.Image

  // ---------------------------------------------------------------- remove

  /** The pattern `remove` queries for one tag: the tag itself when it is
      already in the namespace or the namespace is ignored, otherwise the
      prefixed tag. */
  function SearchPattern(tag: string, ignorePrefix: bool): (r: string)
    ensures ignorePrefix ==> r == tag
    ensures !ignorePrefix ==> r == Defaults.PrefixTag(tag) && Text.StartsWith(r, Defaults.UniversalTagPrefix)
  {
    if Text.StartsWith(tag, Defaults.UniversalTagPrefix) || ignorePrefix then tag
    else Defaults.UniversalTagPrefix + "-" + tag
  }

  function ForceArg(force: bool): string {
    if force then "--force " else ""
  }

  /** The `docker rmi` command text for one query's output: the IDs arrive
      one per line and are passed space-separated. */
  function RmiText(force: bool, found: string): string {
    "docker rmi " + ForceArg(force) + Text.ReplaceChar(found, '\n', ' ')
  }

  /** The query `remove` runs for one pattern, before shell-splitting. */
  function SearchText(pattern: string): string {
    "docker images --filter=reference=\"" + pattern + "\" -q"
  }

  /** What `remove` did for one tag: the pattern it searched for, the
      argument vector of its query, and that of the `docker rmi` it issued,
      if any. */
  datatype Removal = Removal(pattern: string, query: seq<string>, rmi: Option<seq<string>>)

  /** One turn of the loop in `remove`. `images` is the engine's answer to
      the query's argument vector. */
  function RemoveOne(tag: string, force: bool, ignorePrefix: bool, images: seq<string> -> string): (r: Result<Removal>)
    ensures r.Ok? ==> r.value.pattern == SearchPattern(tag, ignorePrefix)
    ensures r.Err? ==> r.error.ValueError?
  {
    var pattern := SearchPattern(tag, ignorePrefix);
    var query :- Shlex.Split(SearchText(pattern));
    var found := images(query);
    if found == "" then Ok(Removal(pattern, query, None))
    else
      var argv :- Shlex.Split(RmiText(force, found));
      Ok(Removal(pattern, query, Some(argv)))
  }

  /** A turn queries the split search text; it issues no `docker rmi`
      exactly when the query printed nothing, and otherwise the split of the
      printed IDs behind `docker rmi`; it fails exactly when one of the two
      splits does. */
  lemma RemoveOneOutcome(tag: string, force: bool, ignorePrefix: bool, images: seq<string> -> string)
    ensures var r := RemoveOne(tag, force, ignorePrefix, images);
      var q := Shlex.Split(SearchText(SearchPattern(tag, ignorePrefix)));
      && (q.Err? ==> r == Err(q.error))
      && (q.Ok? && images(q.value) == "" ==> r == Ok(Removal(SearchPattern(tag, ignorePrefix), q.value, None)))
      && (q.Ok? && images(q.value) != "" ==>
            var argv := Shlex.Split(RmiText(force, images(q.value)));
            r == if argv.Ok? then Ok(Removal(SearchPattern(tag, ignorePrefix), q.value, Some(argv.value)))
                 else Err(argv.error))
  {
  }

  /** The words of the query before the pattern. */
  lemma SearchHead(rest: string)
    ensures Shlex.Split("docker images --filter=reference=" + rest)
            == Shlex.Lex(rest, Shlex.Word, "--filter=reference=", ["docker", "images"])
  {
    var t1 := "--filter=reference=" + rest;
    var t0 := "images" + " " + t1;
    HeadText(rest);
    HeadWords();
    Shlex.PlainThenBlank("docker", t0, []);
    Shlex.PlainThenBlank("images", t1, [] + ["docker"]);
    assert [] + ["docker"] + ["images"] == ["docker", "images"];
    Shlex.PlainLexes("--filter=reference=", rest, ["docker", "images"]);
  }

  lemma HeadText(rest: string)
    ensures "docker images --filter=reference=" + rest == "docker" + " " + ("images" + " " + ("--filter=reference=" + rest))
  {
    assert "docker images --filter=reference=" == "docker" + " " + "images" + " " + "--filter=reference=";
  }

  lemma HeadWords()
    ensures Shlex.PlainWord("docker") && Shlex.PlainWord("images")
    ensures Shlex.PlainWord("--filter=reference=") && Shlex.PlainWord("-q")
  {
  }

  /** A pattern without double quotes or backslashes is queried as one
      word, the filter, between the fixed words. */
  lemma SearchReadsBack(pattern: string)
    requires '"' !in pattern && '\\' !in pattern
    ensures Shlex.Split(SearchText(pattern)) == Ok(["docker", "images", "--filter=reference=" + pattern, "-q"])
  {
    var tok := "--filter=reference=";
    var acc := ["docker", "images"];
    var x := pattern + "\"" + " -q";
    assert SearchText(pattern) == "docker images --filter=reference=" + ("\"" + x);
    SearchHead("\"" + x);
    assert Shlex.Lex("\"" + x, Shlex.Word, tok, acc) == Shlex.Lex(x, Shlex.Double, tok, acc) by {
      assert ("\"" + x)[0] == '"' && ("\"" + x)[1..] == x;
    }
    Shlex.LexDoubleRun(pattern, " -q", tok, acc);
    var acc' := acc + [tok + pattern];
    assert Shlex.Lex(" -q", Shlex.Word, tok + pattern, acc) == Shlex.Lex("-q", Shlex.Blank, "", acc') by {
      assert " -q"[0] == ' ' && " -q"[1..] == "-q";
    }
    assert Shlex.Lex("-q", Shlex.Blank, "", acc') == Ok(acc' + ["-q"]) by {
      assert Shlex.PlainWord("-q");
      Shlex.PlainLexes("-q", "", acc');
      assert "-q" + "" == "-q";
    }
    assert acc' + ["-q"] == ["docker", "images", "--filter=reference=" + pattern, "-q"];
  }

  /** A tag holding one double quote, behind a quote-free stretch and
      before plain characters, leaves the query's quote open: the split
      raises ValueError before the engine is asked. */
  lemma SearchQuoteFails(a: string, b: string)
    requires '"' !in a && '\\' !in a
    requires forall i :: 0 <= i < |b| ==> Shlex.IsPlain(b[i])
    ensures Shlex.Split(SearchText(a + "\"" + b)) == Err(ValueError("No closing quotation"))
  {
    var tok := "--filter=reference=";
    var acc := ["docker", "images"];
    var tail := "\"" + " -q";
    var x := a + "\"" + (b + tail);
    assert SearchText(a + "\"" + b) == "docker images --filter=reference=" + ("\"" + x);
    SearchHead("\"" + x);
    assert Shlex.Lex("\"" + x, Shlex.Word, tok, acc) == Shlex.Lex(x, Shlex.Double, tok, acc) by {
      assert ("\"" + x)[0] == '"' && ("\"" + x)[1..] == x;
    }
    Shlex.LexDoubleRun(a, b + tail, tok, acc);
    Shlex.LexPlainRun(b, tail, tok + a, acc);
    assert Shlex.Lex(tail, Shlex.Word, tok + a + b, acc) == Shlex.Lex(" -q", Shlex.Double, tok + a + b, acc) by {
      assert tail[0] == '"' && tail[1..] == " -q";
    }
    Shlex.LexDoubleUnclosed(" -q", tok + a + b, acc);
  }

  /** `remove` with a quote in an unprefixed tag fails on that tag. */
  lemma RemoveQuoteFails(a: string, b: string, force: bool, images: seq<string> -> string)
    requires '"' !in a && '\\' !in a
    requires forall i :: 0 <= i < |b| ==> Shlex.IsPlain(b[i])
    ensures RemoveOne(a + "\"" + b, force, true, images) == Err(ValueError("No closing quotation"))
  {
    SearchQuoteFails(a, b);
  }

  /** Outcomes in order until the first error: that error, or all values. */
  function Collect<T>(rs: seq<Result<T>>): (r: Result<seq<T>>)
    ensures r.Ok? ==> |r.value| == |rs|
    decreases |rs|
  {
    if |rs| == 0 then Ok([])
    else
      var first :- rs[0];
      var rest :- Collect(rs[1..]);
      Ok([first] + rest)
  }

  /** A collection succeeds exactly when every outcome does, and then holds
      every value at its place. */
  lemma {:induction false} CollectEach<T>(rs: seq<Result<T>>)
    ensures Collect(rs).Ok? <==> forall i :: 0 <= i < |rs| ==> rs[i].Ok?
    ensures Collect(rs).Ok? ==> forall i :: 0 <= i < |rs| ==> Collect(rs).value[i] == rs[i].value
    decreases |rs|
  {
    if |rs| > 0 {
      CollectEach(rs[1..]);
      assert forall i :: 1 <= i < |rs| ==> rs[i] == rs[1..][i - 1];
    }
  }

  /** Two outcomes in sequence: the first error, or both lists. */
  function Then<T>(x: Result<seq<T>>, y: Result<seq<T>>): Result<seq<T>> {
    if x.Err? then x else if y.Err? then y else Ok(x.value + y.value)
  }

  lemma {:induction false} CollectConcat<T>(a: seq<Result<T>>, b: seq<Result<T>>)
    ensures Collect(a + b) == Then(Collect(a), Collect(b))
    decreases |a|
  {
    if |a| == 0 {
      assert a + b == b;
      if Collect(b).Ok? {
        assert [] + Collect(b).value == Collect(b).value;
      }
    } else {
      assert (a + b)[0] == a[0];
      assert (a + b)[1..] == a[1..] + b;
      CollectConcat(a[1..], b);
      if a[0].Ok? && Collect(a[1..]).Ok? && Collect(b).Ok? {
        var x, ra, rb := a[0].value, Collect(a[1..]).value, Collect(b).value;
        assert [x] + (ra + rb) == [x] + ra + rb;
      }
    }
  }

  /** One turn as a function of the tag. */
  function Turn(force: bool, ignorePrefix: bool, images: seq<string> -> string): string -> Result<Removal> {
    tag => RemoveOne(tag, force, ignorePrefix, images)
  }

  /** The turns `remove` takes, one per tag in order. */
  function Turns(tags: seq<string>, force: bool, ignorePrefix: bool, images: seq<string> -> string): (r: seq<Result<Removal>>)
    ensures |r| == |tags|
    ensures forall i :: 0 <= i < |tags| ==> r[i] == RemoveOne(tags[i], force, ignorePrefix, images)
  {
    Text.Map(tags, Turn(force, ignorePrefix, images))
  }

  /** `remove(tags, force, verbose, ignore_prefix)`: every tag in turn, one
      query each; neither the query nor the removal is checked, so only a
      command that cannot be split stops the loop. */
  function Remove(tags: seq<string>, force: bool, ignorePrefix: bool, images: seq<string> -> string): (r: Result<seq<Removal>>)
    ensures r.Ok? ==> |r.value| == |tags|
  {
    Collect(Turns(tags, force, ignorePrefix, images))
  }

  /** `remove` succeeds exactly when every tag's turn does, and then holds
      each tag's removal at the tag's position. */
  lemma RemoveEach(tags: seq<string>, force: bool, ignorePrefix: bool, images: seq<string> -> string)
    ensures Remove(tags, force, ignorePrefix, images).Ok?
            <==> forall i :: 0 <= i < |tags| ==> RemoveOne(tags[i], force, ignorePrefix, images).Ok?
    ensures Remove(tags, force, ignorePrefix, images).Ok? ==>
      forall i :: 0 <= i < |tags| ==>
        Remove(tags, force, ignorePrefix, images).value[i] == RemoveOne(tags[i], force, ignorePrefix, images).value
  {
    CollectEach(Turns(tags, force, ignorePrefix, images));
  }

  /** The tags are handled independently and in input order: removing two
      lists is removing their concatenation, and the first failure wins. */
  lemma RemoveConcat(a: seq<string>, b: seq<string>, force: bool, ignorePrefix: bool, images: seq<string> -> string)
    ensures Remove(a + b, force, ignorePrefix, images)
            == Then(Remove(a, force, ignorePrefix, images), Remove(b, force, ignorePrefix, images))
  {
    TurnsConcat(a, b, force, ignorePrefix, images);
    CollectConcat(Turns(a, force, ignorePrefix, images), Turns(b, force, ignorePrefix, images));
  }

  lemma TurnsConcat(a: seq<string>, b: seq<string>, force: bool, ignorePrefix: bool, images: seq<string> -> string)
    ensures Turns(a + b, force, ignorePrefix, images) == Turns(a, force, ignorePrefix, images) + Turns(b, force, ignorePrefix, images)
  {
    Text.MapConcat(a, b, Turn(force, ignorePrefix, images));
  }

  /** Outside `ignore_prefix` every query stays inside the namespace, and
      tags already prefixed are queried as they are: prefixing the tags
      first changes nothing. */
  lemma RemoveStaysInNamespace(tags: seq<string>, force: bool, images: seq<string> -> string)
    ensures var r := Remove(tags, force, false, images);
      r.Ok? ==> forall i :: 0 <= i < |tags| ==> Text.StartsWith(r.value[i].pattern, Defaults.UniversalTagPrefix)
    ensures Remove(seq(|tags|, i requires 0 <= i < |tags| => Defaults.PrefixTag(tags[i])), force, false, images)
            == Remove(tags, force, false, images)
  {
    var pre := seq(|tags|, i requires 0 <= i < |tags| => Defaults.PrefixTag(tags[i]));
    forall i | 0 <= i < |tags|
      ensures RemoveOne(pre[i], force, false, images) == RemoveOne(tags[i], force, false, images)
    {
      Defaults.PrefixTagIdempotent(tags[i]);
    }
    assert Turns(pre, force, false, images) == Turns(tags, force, false, images);
    RemoveEach(tags, force, false, images);
  }

  // ------------------------------------------------------- the rmi command

  /** The engine's listing of image IDs: one per line. */
  function IdLines(ids: seq<string>): string
    decreases |ids|
  {
    if |ids| == 0 then "" else ids[0] + "\n" + IdLines(ids[1..])
  }

  /** Words each followed by one space. */
  function Spaced(words: seq<string>): string
    decreases |words|
  {
    if |words| == 0 then "" else words[0] + " " + Spaced(words[1..])
  }

  lemma {:induction false} ReplaceIdLines(ids: seq<string>)
    requires forall i :: 0 <= i < |ids| ==> '\n' !in ids[i]
    ensures Text.ReplaceChar(IdLines(ids), '\n', ' ') == Spaced(ids)
    decreases |ids|
  {
    if |ids| > 0 {
      ReplaceIdLines(ids[1..]);
      var s := IdLines(ids);
      var t := Text.ReplaceChar(s, '\n', ' ');
      assert s == ids[0] + "\n" + IdLines(ids[1..]);
      assert t == ids[0] + " " + Spaced(ids[1..]) by {
        forall k | 0 <= k < |t|
          ensures t[k] == (ids[0] + " " + Spaced(ids[1..]))[k]
        {
          if k < |ids[0]| {
            assert s[k] == ids[0][k];
            assert s[k] in ids[0];
          } else if k > |ids[0]| {
            assert s[k] == IdLines(ids[1..])[k - |ids[0]| - 1];
            assert t[k] == Text.ReplaceChar(IdLines(ids[1..]), '\n', ' ')[k - |ids[0]| - 1];
          }
        }
      }
    }
  }

  lemma {:induction false} SpacedConcat(a: seq<string>, b: seq<string>)
    ensures Spaced(a + b) == Spaced(a) + Spaced(b)
    decreases |a|
  {
    if |a| > 0 {
      assert (a + b)[1..] == a[1..] + b;
      SpacedConcat(a[1..], b);
    } else {
      assert a + b == b;
    }
  }

  /** Shell-splitting space-terminated plain words gives the words back. */
  lemma {:induction false} LexSpaced(words: seq<string>, acc: seq<string>)
    requires forall i :: 0 <= i < |words| ==> Shlex.PlainWord(words[i])
    ensures Shlex.Lex(Spaced(words), Shlex.Blank, "", acc) == Ok(acc + words)
    decreases |words|
  {
    if |words| == 0 {
      assert acc + words == acc;
    } else {
      var rest := " " + Spaced(words[1..]);
      assert Spaced(words) == words[0] + rest;
      Shlex.PlainLexes(words[0], rest, acc);
      assert rest[0] == ' ' && rest[1..] == Spaced(words[1..]);
      LexSpaced(words[1..], acc + [words[0]]);
      assert acc + [words[0]] + words[1..] == acc + words;
    }
  }

  function ForceWords(force: bool): seq<string> {
    if force then ["--force"] else []
  }

  lemma PlainNoNewline(ids: seq<string>)
    requires forall i :: 0 <= i < |ids| ==> Shlex.PlainWord(ids[i])
    ensures forall i :: 0 <= i < |ids| ==> '\n' !in ids[i]
  {
    forall i | 0 <= i < |ids|
      ensures '\n' !in ids[i]
    {
      assert forall k :: 0 <= k < |ids[i]| ==> Shlex.IsPlain(ids[i][k]);
    }
  }

  /** The fixed words of the command, each followed by its space. */
  lemma RmiHead(force: bool)
    ensures Spaced(["docker", "rmi"] + ForceWords(force)) == "docker rmi " + ForceArg(force)
    ensures forall i :: 0 <= i < |["docker", "rmi"] + ForceWords(force)| ==>
      Shlex.PlainWord((["docker", "rmi"] + ForceWords(force))[i])
  {
    var head := ["docker", "rmi"] + ForceWords(force);
    assert head[1..][1..] == ForceWords(force);
    if force {
      assert Spaced(["--force"]) == "--force ";
      assert Shlex.PlainWord("--force");
    } else {
      assert Spaced(head[1..][1..]) == "";
    }
    assert Spaced(head[1..]) == "rmi " + ForceArg(force);
    assert Shlex.PlainWord("docker") && Shlex.PlainWord("rmi");
  }

  /** When the query lists plain IDs one per line, `docker rmi` receives
      exactly those IDs, after `--force` when forcing. */
  lemma RmiReadsBack(force: bool, ids: seq<string>)
    requires forall i :: 0 <= i < |ids| ==> Shlex.PlainWord(ids[i])
    ensures Shlex.Split(RmiText(force, IdLines(ids))) == Ok(["docker", "rmi"] + ForceWords(force) + ids)
  {
    var head := ["docker", "rmi"] + ForceWords(force);
    RmiTextSpaced(force, ids);
    PlainAll(head, ids, force);
    LexSpaced(head + ids, []);
    assert [] + (head + ids) == head + ids;
  }

  lemma RmiTextSpaced(force: bool, ids: seq<string>)
    requires forall i :: 0 <= i < |ids| ==> Shlex.PlainWord(ids[i])
    ensures RmiText(force, IdLines(ids)) == Spaced(["docker", "rmi"] + ForceWords(force) + ids)
  {
    PlainNoNewline(ids);
    ReplaceIdLines(ids);
    RmiHead(force);
    SpacedConcat(["docker", "rmi"] + ForceWords(force), ids);
  }

  lemma PlainAll(head: seq<string>, ids: seq<string>, force: bool)
    requires head == ["docker", "rmi"] + ForceWords(force)
    requires forall i :: 0 <= i < |ids| ==> Shlex.PlainWord(ids[i])
    ensures forall i :: 0 <= i < |head + ids| ==> Shlex.PlainWord((head + ids)[i])
  {
    RmiHead(force);
    forall i | 0 <= i < |head + ids|
      ensures Shlex.PlainWord((head + ids)[i])
    {
      if i >= |head| {
        assert (head + ids)[i] == ids[i - |head|];
      } else {
        assert (head + ids)[i] == head[i];
      }
    }
  }

  // -------------------------------------------------------------- lockfile

  /** `make_lockfile(tag, file, env_name)`: export the environment from the
      image and normalise it; the text is what would be written to `file`. */
  function MakeLockfile(engine: Engine, tag: string, envName: string): (r: Result<string>)
    ensures r.Ok? ==> Text.EndsWith(r.value, "\n")
    ensures DockerImage.GetImageId(engine, tag).Err? ==> r == Err(DockerImage.GetImageId(engine, tag).error)
    ensures r.Ok? ==> DockerImage.GetImageId(engine, tag).Ok?
                      && var out := DockerImage.Run(engine, DockerImage.Image(DockerImage.GetImageId(engine, tag).value),
                                                    Mamba.LockfileCommand(envName), false, "host", true, false);
                         out.Ok? && r.value == Lockfile.Normalize(out.value, Utils.IsCondaPkgName)
  {
    var id :- DockerImage.GetImageId(engine, tag);
    var exported :- DockerImage.Run(engine, DockerImage.Image(id), Mamba.LockfileCommand(envName), false, "host", true, false);
    Ok(Lockfile.Normalize(exported, Utils.IsCondaPkgName))
  }

  /** A written lockfile is already normal: normalising it again changes
      nothing. Its lines are the exported lines, blanks dropped, other lines
      first in their order, package URLs after them sorted. */
  lemma MakeLockfileNormal(engine: Engine, tag: string, envName: string)
    ensures var r := MakeLockfile(engine, tag, envName);
      r.Ok? ==> Lockfile.Normalize(r.value, Utils.IsCondaPkgName) == r.value
  {
    var r := MakeLockfile(engine, tag, envName);
    if r.Ok? {
      var id := DockerImage.GetImageId(engine, tag).value;
      var exported := DockerImage.Run(engine, DockerImage.Image(id), Mamba.LockfileCommand(envName), false, "host", true, false).value;
      assert !Utils.IsCondaPkgName("");
      Lockfile.NormalizeIdempotent(exported, Utils.IsCondaPkgName);
    }
  }

  /** The written lines are a rearrangement of the non-blank exported lines. */
  lemma MakeLockfilePermutes(exported: string)
    ensures multiset(Lockfile.NormalizedLines(exported, Utils.IsCondaPkgName))
            == multiset(Text.Filter(Text.Split(exported, '\n'), (l: string) => l != ""))
  {
    assert !Utils.IsCondaPkgName("");
    Lockfile.NormalizedPermutes(exported, Utils.IsCondaPkgName);
  }

  // ------------------------------------------------------ tagged one-offs

  /** One `Image.build` from a string on the host network. */
  datatype Request = Request(tag: string, dockerfile: string, context: string, noCache: bool)

  function Issue(engine: Engine, req: Request): (r: Result<Image>)
    ensures r.Ok? ==> DockerImage.GetImageId(engine, req.tag) == Ok(r.value.id)
  {
    DockerImage.Build(engine, req.tag, None, Some(req.dockerfile), Some(req.context), "host", req.noCache)
  }

  /** The engine sees the request's tag, context and cache switch, and reads
      the Dockerfile from standard input. */
  lemma IssueCall(req: Request)
    ensures var c := DockerImage.BuildCall(req.tag, None, Some(req.dockerfile), Some(req.context), "host", req.noCache);
      c.Ok? && c.value.input == Some(req.dockerfile)
      && DockerImage.ParseBuildArgs(c.value.argv)
         == Some(DockerImage.BuildOptions("host", req.context, req.tag, req.noCache, None, true))
  {
    DockerImage.BuildCallParses(req.tag, None, Some(req.dockerfile), Some(req.context), "host", req.noCache);
  }

  /** The part of `git_extract_dockerfile` before the download: make the
      directory as root, hand it to the micromamba user, and switch to that
      user with `mambaLines`. */
  function GitPrepare(base: string, directory: string, mambaLines: string): (r: string)
    ensures Text.StartsWith(r, "FROM " + base + "\n\n")
  {
    var head := "FROM " + base + "\n\n";
    var r := head + ("USER root\n\nRUN mkdir -p " + directory
      + "\nRUN chown -R $MAMBA_USER_ID:$MAMBA_USER_GID " + directory
      + "\nRUN chmod -R 755 " + directory + "\n"
      + mambaLines + "\n");
    assert r[..|head|] == head;
    r
  }

  /** Download with `fetch` and unpack into the directory, dropping the
      archive's top-level folder. */
  function FetchLine(fetch: string, directory: string): string {
    "RUN " + fetch + " | tar -xvz -C " + directory + " --strip-components 1"
  }

  /** The Dockerfile both generations' `git_extract_dockerfile` produce:
      prepare the directory, run `fetch` and unpack what it prints there,
      and work there as the default user. */
  function GitDockerfile(base: string, directory: string, mambaLines: string, fetch: string): (r: string)
    ensures Text.StartsWith(r, "FROM " + base + "\n\n")
    ensures Text.Contains(r, FetchLine(fetch, directory))
    ensures Text.EndsWith(r, "\nUSER $DEFAULT_USER\n")
  {
    var prep := GitPrepare(base, directory, mambaLines);
    var line := FetchLine(fetch, directory);
    var tail := "\nUSER $DEFAULT_USER\n";
    var rest := "\n\nWORKDIR " + directory + tail;
    var r := prep + line + rest;
    assert r[..|"FROM " + base + "\n\n"|] == prep[..|"FROM " + base + "\n\n"|];
    assert r[|r| - |tail|..] == tail;
    Text.OccursBetween(prep, line, rest);
    r
  }

  /** `git_extract_dockerfile(base, directory, archive_url, url_reader)`:
      the archive is fetched with the reader's command for its URL, printed
      to standard output. */
  function GitExtractDockerfile(base: string, directory: string, archiveUrl: string, reader: UR.UrlReader): (r: string)
    ensures Text.StartsWith(r, "FROM " + base + "\n\n")
    ensures Text.Contains(r, FetchLine(UR.ReadCommand(reader, archiveUrl, None), directory))
  {
    GitDockerfile(base, directory, Mamba.MicromambaDockerLines, UR.ReadCommand(reader, archiveUrl, None))
  }

  /** The reader `get_archive` uses: the one given, or the one a throwaway
      image of the base reports, the probe failing as `temp_image` lets it. */
  function ArchiveReader(engine: Engine, draw: nat -> nat, base: string, reader: Option<UR.UrlReader>): (r: Result<UR.UrlReader>)
    ensures reader.Some? ==> r == Ok(reader.value)
    ensures reader.None? ==>
      var probed := Utils.TempImageAsWritten(engine, base, draw, ArchiveProbe(engine)).result;
      r == if probed.Ok? then Ok(probed.value.urlReader) else Err(probed.error)
  {
    match reader
    case Some(given) => Ok(given)
    case None =>
      var caps :- Utils.TempImageAsWritten(engine, base, draw, ArchiveProbe(engine)).result;
      Ok(caps.urlReader)
  }

  /** What `get_archive` asks of the throwaway image: its tools, without
      the package manager's configure lines. */
  function ArchiveProbe(engine: Engine): Image -> Result<Utils.Capabilities> {
    (img: Image) => Utils.ImageCommandCheck(Utils.ImageProbe(engine, img), false)
  }

  /** Without a reader, a base that cannot be built from fails `get_archive`
      with the builder's own error, not with "Image not found". */
  lemma ArchiveMissingBase(draw: nat -> nat, tag: string, base: string, archiveUrl: string, directory: string,
                           noCache: bool)
    ensures ArchiveRequest(Utils.MissingEverything(), draw, tag, base, archiveUrl, directory, None, noCache)
            == Err(DockerBuildError("String dockerfile " + Utils.TempTag(draw) + " failed to build."))
  {
    Utils.TempImageMissesMissingBase(base, draw, ArchiveProbe(Utils.MissingEverything()));
  }

  function ArchiveRequest(engine: Engine, draw: nat -> nat, tag: string, base: string, archiveUrl: string,
                          directory: string, reader: Option<UR.UrlReader>, noCache: bool): (r: Result<Request>)
    ensures r.Ok? <==> ArchiveReader(engine, draw, base, reader).Ok?
    ensures r.Ok? ==> r.value.tag == Defaults.PrefixTag(tag) && r.value.context == "." && r.value.noCache == noCache
    ensures r.Ok? ==> r.value.dockerfile == GitExtractDockerfile(base, directory, archiveUrl, ArchiveReader(engine, draw, base, reader).value)
  {
    var rd :- ArchiveReader(engine, draw, base, reader);
    Ok(Request(Defaults.PrefixTag(tag), GitExtractDockerfile(base, directory, archiveUrl, rd), ".", noCache))
  }

  /** `get_archive(tag, base, archive_url, directory, url_reader, no_cache)`. */
  function GetArchive(engine: Engine, draw: nat -> nat, tag: string, base: string, archiveUrl: string,
                      directory: string, reader: Option<UR.UrlReader>, noCache: bool): (r: Result<Image>)
    ensures ArchiveReader(engine, draw, base, reader).Err? ==> r == Err(ArchiveReader(engine, draw, base, reader).error)
    ensures r.Ok? ==> DockerImage.GetImageId(engine, Defaults.PrefixTag(tag)) == Ok(r.value.id)
  {
    var req :- ArchiveRequest(engine, draw, tag, base, archiveUrl, directory, reader, noCache);
    Issue(engine, req)
  }

  /** `insert_dir_dockerfile(base, target_dir, source_dir)`: copy the
      directory in, owned by the default user, and work there. */
  function InsertDirDockerfile(base: string, targetDir: string, sourceDir: string): (r: string)
    ensures Text.StartsWith(r, "FROM " + base + "\n\n")
  {
    var head := "FROM " + base + "\n\n";
    var r := head + "COPY --chown=$DEFAULT_GID:$DEFAULT_UID --chmod=755 " + sourceDir + " " + targetDir
      + "\n\nWORKDIR " + targetDir + "\nUSER $DEFAULT_USER";
    assert r[..|head|] == head;
    r
  }

  /** `os.path.basename`: what follows the last `/`. */
  function Basename(path: string): string {
    var parts := Text.Split(path, '/');
    parts[|parts| - 1]
  }

  lemma BasenameOf(dir: string, name: string)
    requires '/' !in name
    ensures Basename(dir + "/" + name) == name
  {
    Text.SplitConcat(dir, '/', name);
    Text.SplitFree(name, '/');
  }

  /** `copy_dir(tag, base, directory, target_path, no_cache)`: the build
      context is the directory's absolute path `absolute`, and without a
      target the copy lands under the directory's own name, which needs the
      directory to exist (`isDir`). */
  function CopyDirRequest(tag: string, base: string, directory: string, absolute: string, isDir: bool,
                          targetPath: Option<string>, noCache: bool): (r: Result<Request>)
    ensures r.Err? <==> targetPath.None? && !isDir
    ensures r.Err? ==> r.error == ValueError(directory + " is not a valid directory on this machine.")
    ensures r.Ok? ==> r.value.tag == Defaults.PrefixTag(tag) && r.value.context == absolute && r.value.noCache == noCache
    ensures r.Ok? ==> r.value.dockerfile
                      == InsertDirDockerfile(base, if targetPath.Some? then targetPath.value else Basename(absolute), ".")
  {
    var target :-
      match targetPath
      case Some(t) => Ok(t)
      case None =>
        if isDir then Ok(Basename(absolute))
        else Err(ValueError(directory + " is not a valid directory on this machine."));
    Ok(Request(Defaults.PrefixTag(tag), InsertDirDockerfile(base, target, "."), absolute, noCache))
  }

  function CopyDir(engine: Engine, tag: string, base: string, directory: string, absolute: string, isDir: bool,
                   targetPath: Option<string>, noCache: bool): (r: Result<Image>)
    ensures targetPath.None? && !isDir ==> r == Err(ValueError(directory + " is not a valid directory on this machine."))
    ensures r.Ok? ==> DockerImage.GetImageId(engine, Defaults.PrefixTag(tag)) == Ok(r.value.id)
  {
    var req :- CopyDirRequest(tag, base, directory, absolute, isDir, targetPath, noCache);
    Issue(engine, req)
  }

  /** Copying `/some/where/name` without a target puts it at `name`. */
  lemma CopyDirDefaultTarget(tag: string, base: string, directory: string, parent: string, name: string, noCache: bool)
    requires '/' !in name
    ensures var r := CopyDirRequest(tag, base, directory, parent + "/" + name, true, None, noCache);
      r.Ok? && r.value.dockerfile == InsertDirDockerfile(base, name, ".")
  {
    BasenameOf(parent, name);
  }

  // ------------------------------------------------------ configure_cmake

  /** The configure step of the older `cmake_config_dockerfile`, line by
      line, as written: `-DWITH_CUDA=YES` is a fixed line, and the optional
      extra argument repeats it only when CUDA is asked for. */
  function CmakeConfigLinesAsWritten(buildType: string, withCuda: bool): (r: seq<string>)
    ensures |r| == 14
  {
    ["ENV INSTALL_PREFIX " + Defaults.InstallPrefix,
     "ENV BUILD_PREFIX " + Defaults.BuildPrefix,
     "ENV PYTHONPATH " + "$INSTALL_PREFIX/packages:$PYTHONPATH",
     "",
     "RUN cmake \\",
     Cmake.Indent + "-B $BUILD_PREFIX \\",
     Cmake.Indent + "-G Ninja \\",
     Cmake.Indent + "-DISCE3_FETCH_DEPS=NO \\",
     Cmake.Indent + "-DCMAKE_BUILD_TYPE=" + buildType + " \\",
     Cmake.Indent + "-DCMAKE_INSTALL_PREFIX=" + "$INSTALL_PREFIX \\",
     Cmake.Indent + "-DCMAKE_PREFIX_PATH=" + "$MAMBA_ROOT_PREFIX \\",
     CudaYesLine,
     Cmake.Indent + (if withCuda then "-DWITH_CUDA=YES" else "") + " \\",
     Cmake.Indent + "."]
  }

  const CudaYesLine: string := Cmake.Indent + "-DWITH_CUDA=YES \\"

  /** The same step with the fixed line dropped, so that only the toggle
      asks for CUDA. */
  function CmakeConfigLines(buildType: string, withCuda: bool): (r: seq<string>)
    ensures |r| == 13
  {
    var l := CmakeConfigLinesAsWritten(buildType, withCuda);
    l[..11] + l[12..]
  }

  function CmakeConfigDockerfileAsWritten(base: string, buildType: string, withCuda: bool): string {
    Cmake.MambaStage(base, Mamba.MicromambaDockerLines, Text.Join("\n", CmakeConfigLinesAsWritten(buildType, withCuda)))
  }

  function CmakeConfigDockerfile(base: string, buildType: string, withCuda: bool): string {
    Cmake.MambaStage(base, Mamba.MicromambaDockerLines, Text.Join("\n", CmakeConfigLines(buildType, withCuda)))
  }

  /** As written, `configure_cmake(no_cuda=True)` still configures with
      CUDA: the fixed `-DWITH_CUDA=YES` line is there whatever the toggle. */
  lemma CmakeConfigIgnoresNoCuda(base: string, buildType: string)
    ensures CudaYesLine in CmakeConfigLinesAsWritten(buildType, false)
    ensures Text.Contains(CmakeConfigDockerfileAsWritten(base, buildType, false), CudaYesLine)
  {
    CmakeConfigAlwaysCuda(base, buildType, false);
  }

  /** The fixed line is in the configure step as written, with or without
      the toggle. */
  lemma CmakeConfigAlwaysCuda(base: string, buildType: string, withCuda: bool)
    ensures CudaYesLine in CmakeConfigLinesAsWritten(buildType, withCuda)
    ensures Text.Contains(CmakeConfigDockerfileAsWritten(base, buildType, withCuda), CudaYesLine)
  {
    var l := CmakeConfigLinesAsWritten(buildType, withCuda);
    var tail := [CudaYesLine] + l[12..];
    assert l == l[..11] + tail;
    Text.JoinConcat("\n", l[..11], tail);
    Text.JoinCons("\n", CudaYesLine, l[12..]);
    var step := Text.Join("\n", l);
    var pre := Text.Join("\n", l[..11]) + "\n";
    var post := "\n" + Text.Join("\n", l[12..]);
    assert step == pre + CudaYesLine + post;
    Text.OccursBetween(pre, CudaYesLine, post);
    var head := "FROM " + base + "\n\n" + Mamba.MicromambaDockerLines + "\n\n";
    assert CmakeConfigDockerfileAsWritten(base, buildType, withCuda) == head + step + "";
    Text.OccursBetween(head, step, "");
    Text.OccursWithin(CmakeConfigDockerfileAsWritten(base, buildType, withCuda), step, |head|, CudaYesLine, |pre|);
  }

  /** With the fixed line dropped, CUDA is asked for exactly when
      `configure_cmake` was not told `no_cuda`. */
  lemma CmakeConfigCudaIffAsked(buildType: string, withCuda: bool)
    ensures CudaYesLine in CmakeConfigLines(buildType, withCuda) <==> withCuda
  {
    var l := CmakeConfigLines(buildType, withCuda);
    if withCuda {
      assert l[11] == CudaYesLine;
    } else {
      forall i | 0 <= i < 13
        ensures l[i] != CudaYesLine
      {
        assert |CudaYesLine| == 21 && CudaYesLine[6] == 'W';
        if i == 8 {
          assert l[i][6] == 'C';
        }
      }
    }
  }

  /** `configure_cmake(tag, base, build_type, no_cuda, no_cache)`, as
      written: the step configures with CUDA even when told `no_cuda`. */
  function ConfigureCmakeRequest(tag: string, base: string, buildType: string, noCuda: bool, noCache: bool): (r: Request)
    ensures r.tag == Defaults.PrefixTag(tag) && r.context == "." && r.noCache == noCache
    ensures Text.StartsWith(r.dockerfile, "FROM " + base + "\n\n")
    ensures r.dockerfile == CmakeConfigDockerfileAsWritten(base, buildType, !noCuda)
    ensures Text.Contains(r.dockerfile, CudaYesLine)
  {
    var d := CmakeConfigDockerfileAsWritten(base, buildType, !noCuda);
    assert d[..|"FROM " + base + "\n\n"|] == "FROM " + base + "\n\n";
    CmakeConfigAlwaysCuda(base, buildType, !noCuda);
    Request(Defaults.PrefixTag(tag), d, ".", noCache)
  }

  function ConfigureCmake(engine: Engine, tag: string, base: string, buildType: string, noCuda: bool, noCache: bool)
    : (r: Result<Image>)
    ensures r.Ok? ==> DockerImage.GetImageId(engine, Defaults.PrefixTag(tag)) == Ok(r.value.id)
  {
    Issue(engine, ConfigureCmakeRequest(tag, base, buildType, noCuda, noCache))
  }

  /** All three one-offs build under the namespaced tag, so the image they
      produce is found again under the same name, and the caller's base is
      what their Dockerfile starts from. */
  lemma OneOffsNamespaced(engine: Engine, draw: nat -> nat, tag: string, base: string, archiveUrl: string,
                          directory: string, reader: Option<UR.UrlReader>, absolute: string, isDir: bool,
                          targetPath: Option<string>, buildType: string, noCuda: bool, noCache: bool)
    ensures var r := ArchiveRequest(engine, draw, tag, base, archiveUrl, directory, reader, noCache);
      r.Ok? ==> Text.StartsWith(r.value.tag, Defaults.UniversalTagPrefix)
                && Defaults.PrefixTag(r.value.tag) == r.value.tag
                && Text.StartsWith(r.value.dockerfile, "FROM " + base + "\n\n")
    ensures var r := CopyDirRequest(tag, base, directory, absolute, isDir, targetPath, noCache);
      r.Ok? ==> Text.StartsWith(r.value.tag, Defaults.UniversalTagPrefix)
                && Defaults.PrefixTag(r.value.tag) == r.value.tag
                && Text.StartsWith(r.value.dockerfile, "FROM " + base + "\n\n")
    ensures var r := ConfigureCmakeRequest(tag, base, buildType, noCuda, noCache);
      Text.StartsWith(r.tag, Defaults.UniversalTagPrefix) && Defaults.PrefixTag(r.tag) == r.tag
  {
    Defaults.PrefixTagIdempotent(tag);
  }
}

=== FILE: defaults.dfy ===
/** The tool's fixed names: the prefix every tag it generates carries, and
    the default install and build directories; and the rule that puts a tag
    into the tool's namespace. */
module Defaults {
  import Text

  /** `universal_tag_prefix()`. */
  const UniversalTagPrefix: string := "dcli"

  /** `install_prefix()`. */
  const InstallPrefix: string := "/app"

  /** `build_prefix()`. */
  const BuildPrefix: string := "/tmp/build"

  /** `tag if tag.startswith(prefix) else f"{prefix}-{tag}"`: a tag already
      in the namespace is kept, any other gets the prefix and a dash. The
      test is for the bare prefix, without the dash. */
  function PrefixTag(tag: string): (r: string)
    ensures Text.StartsWith(r, UniversalTagPrefix)
    ensures Text.EndsWith(r, tag)
    ensures r == tag <==> Text.StartsWith(tag, UniversalTagPrefix)
    ensures r != tag ==> |r| == |tag| + 5 && r[..|UniversalTagPrefix| + 1] == UniversalTagPrefix + "-" && r[|UniversalTagPrefix| + 1..] == tag
  {
    if Text.StartsWith(tag, UniversalTagPrefix) then tag
    else
      var r := UniversalTagPrefix + "-" + tag;
      assert r[..4] == UniversalTagPrefix;
      assert r[|r| - |tag|..] == tag;
      r
  }

  /** Prefixing twice is prefixing once. */
  lemma PrefixTagIdempotent(tag: string)
    ensures PrefixTag(PrefixTag(tag)) == PrefixTag(tag)
  {
  }

  /** Because the test ignores the dash, a tag that merely begins with the
      letters of the prefix is left alone. */
  lemma PrefixTagWithoutDash()
    ensures PrefixTag("dclifoo") == "dclifoo"
    ensures PrefixTag("foo") == "dcli-foo"
  {
    assert "dclifoo"[..4] == "dcli";
  }

  /** The rule is not injective: a tag and the same tag already prefixed end
      up as the same image name. */
  lemma PrefixTagMerges(tag: string)
    ensures PrefixTag("dcli-" + tag) == PrefixTag(tag) || Text.StartsWith(tag, UniversalTagPrefix)
  {
    assert ("dcli-" + tag)[..4] == "dcli";
  }
}

=== FILE: docker_cuda.dfy ===
/** The CUDA Dockerfile generators of the older generation: one per package
    manager, chosen by name, each producing the runtime and dev bodies from
    the package manager's install command and the URL reader's download
    command. Package versions are left to Docker variables. */
module DockerCuda {
  import opened Errors
  import Text
  import PM = PackageManagers
  import UR = UrlReaders

  /** A generator: its package manager and the URL reader it was given. */
  datatype Generator = Generator(packageManager: PM.PackageManager, urlReader: UR.UrlReader)

  /** What `get_cuda_dockerfile_generator` may be handed as `pkg_mgr`: a
      package manager, a name, or something else. */
  datatype PackageManagerArg = PackageManagerObject(pm: PM.PackageManager) | PackageManagerName(name: string) | OtherObject

  const NotAPackageManagerMessage: string := "pkg_mgr argument value must be a PackageManager or str."

  /** `get_cuda_dockerfile_generator(pkg_mgr, url_reader)`. */
  function GetGenerator(arg: PackageManagerArg, reader: UR.UrlReader): (r: Result<Generator>)
    ensures arg.OtherObject? ==> r == Err(ValueError(NotAPackageManagerMessage))
    ensures arg.PackageManagerObject? ==> r.Ok? && r.value.packageManager == arg.pm
    ensures arg.PackageManagerName? ==> (r.Ok? <==> arg.name in PM.Supported)
    ensures arg.PackageManagerName? && r.Ok? ==> PM.Name(r.value.packageManager) == arg.name
    ensures arg.PackageManagerName? && r.Err? ==> r.error == ValueError("Unrecognized package manager: " + arg.name)
    ensures r.Ok? ==> r.value.urlReader == reader
  {
    var name :- match arg
      case PackageManagerObject(pm) => Ok(PM.Name(pm))
      case PackageManagerName(n) => Ok(n)
      case OtherObject => Err(ValueError(NotAPackageManagerMessage));
    if name == "apt-get" then Ok(Generator(PM.AptGet, reader))
    else if name == "yum" then Ok(Generator(PM.Yum, reader))
    else Err(ValueError("Unrecognized package manager: " + name))
  }

  /** Dispatching on a package manager or on its name picks the same
      generator. */
  lemma GetGeneratorByName(pm: PM.PackageManager, reader: UR.UrlReader)
    ensures GetGenerator(PackageManagerName(PM.Name(pm)), reader) == Ok(Generator(pm, reader))
    ensures GetGenerator(PackageManagerObject(pm), reader) == Ok(Generator(pm, reader))
  {
  }

  // ----------------------------------------------------------------- targets

  /** The Docker variable the package versions are left to. */
  const PkgVersion: string := "$CUDA_PKG_VERSION"

  const RuntimeTargets: seq<string> := ["cuda-cudart-" + PkgVersion, "libcufft-" + PkgVersion]

  /** A header package: the library, the distribution's suffix for headers,
      the version. */
  function DevPackage(lib: string, suffix: string): string {
    lib + suffix + PkgVersion
  }

  /** The packages of the dev image: `-devel` packages and `rpm-build` on
      yum systems, `-dev` packages on apt-get systems. */
  function DevTargets(pm: PM.PackageManager): seq<string> {
    match pm
    case Yum => [DevPackage("cuda-cudart", "-devel-"), "cuda-nvcc-" + PkgVersion,
                 DevPackage("libcufft", "-devel-"), "rpm-build"]
    case AptGet => [DevPackage("cuda-cudart", "-dev-"), "cuda-nvcc-" + PkgVersion,
                    DevPackage("libcufft", "-dev-")]
  }

  /** Only the yum list builds RPMs; the two lists otherwise name the same
      three packages, with the distribution's suffix for headers. */
  lemma DevTargetsCompared()
    ensures "rpm-build" in DevTargets(PM.Yum) && "rpm-build" !in DevTargets(PM.AptGet)
    ensures |DevTargets(PM.Yum)| == |DevTargets(PM.AptGet)| + 1
    ensures forall i :: 0 <= i < |DevTargets(PM.AptGet)| ==>
      (DevTargets(PM.Yum)[i] == DevTargets(PM.AptGet)[i]
       || (Text.Contains(DevTargets(PM.Yum)[i], "-devel-") && Text.Contains(DevTargets(PM.AptGet)[i], "-dev-")))
  {
    SuffixOccurs("cuda-cudart", "-devel-");
    SuffixOccurs("cuda-cudart", "-dev-");
    SuffixOccurs("libcufft", "-devel-");
    SuffixOccurs("libcufft", "-dev-");
    var a := DevTargets(PM.AptGet);
    assert |a[0]| != 9 && |a[1]| != 9 && |a[2]| != 9;
  }

  lemma SuffixOccurs(lib: string, suffix: string)
    ensures Text.Contains(DevPackage(lib, suffix), suffix)
  {
    assert DevPackage(lib, suffix)[|lib|..|lib| + |suffix|] == suffix;
    assert Text.OccursAt(DevPackage(lib, suffix), suffix, |lib|);
  }
  // ------------------------------------------------------------ install lines

  /** `generate_install_lines(targets)`: the package manager's cleaning
      install command after `RUN`, preceded for apt-get by an index update
      on a continuation line. */
  function InstallLines(g: Generator, targets: seq<string>): (r: string)
    ensures Text.StartsWith(r, "RUN ")
    ensures Text.EndsWith(r, PM.InstallCommand(g.packageManager, targets, true))
    ensures Text.Contains(r, PM.InstallCommand(g.packageManager, targets, true))
  {
    var cmd := PM.InstallCommand(g.packageManager, targets, true);
    var r := match g.packageManager
      case Yum => "RUN " + cmd
      case AptGet => "RUN " + PM.Name(PM.AptGet) + " update \\\n && " + cmd;
    assert r[..4] == "RUN ";
    assert r[|r| - |cmd|..] == cmd;
    assert Text.OccursAt(r, cmd, |r| - |cmd|);
    r
  }

  // -------------------------------------------------------------------- bodies

  /** Where NVIDIA publishes the CUDA packages for a distribution. */
  function RepoUrl(repo: string, arch: string): string {
    "https://developer.download.nvidia.com/compute/cuda/repos/" + repo + "/" + arch + "/"
  }

  /** `_generate_initial_lines(repo, arch)`: register NVIDIA's repository —
      by its `.repo` file with yum, by downloading and installing the
      keyring package with apt-get. */
  function InitialLines(g: Generator, repo: string, arch: string): (r: string)
    ensures Text.StartsWith(r, "RUN ")
  {
    match g.packageManager
    case Yum =>
      var rest := "yum-config-manager --add-repo " + RepoUrl(repo, arch) + "cuda-" + repo + ".repo" + " \\\n " + "&& yum clean all";
      assert ("RUN " + rest)[..4] == "RUN ";
      "RUN " + rest
    case AptGet =>
      var filename := "cuda-keyring_1.0-1_all." + PM.FileType(PM.AptGet);
      "RUN " + UR.ReadCommand(g.urlReader, RepoUrl(repo, arch) + filename, Some(filename))
      + " \\\n && " + PM.PackageCommand(PM.AptGet, filename)
  }

  /** The environment block of the runtime body, with the default device
      and capability settings. */
  function RuntimeEnv(major: nat, minor: nat): string {
    "ENV NVIDIA_VISIBLE_DEVICES all\n"
    + "ENV NVIDIA_DRIVER_CAPABILITIES compute,utility\n"
    + "ENV CUDA_VERSION_MAJOR " + Text.NatToString(major) + "\n"
    + "ENV CUDA_VERSION_MINOR " + Text.NatToString(minor) + "\n"
    + "ENV CUDA_PKG_VERSION \"${CUDA_VERSION_MAJOR}-${CUDA_VERSION_MINOR}\"\n"
    + "ENV NVIDIA_REQUIRE_CUDA cuda>=${CUDA_VERSION_MAJOR}.${CUDA_VERSION_MINOR}"
  }

  const BelowElevenMessage: string := "CUDA version below 11 requested. Only CUDA versions >= 11 are supported."

  /** `generate_runtime_dockerfile(major, minor, repo, arch=arch)`: only
      CUDA 11 and later; the repository lines, the environment, then the
      install lines for the runtime packages. */
  function RuntimeDockerfile(g: Generator, major: nat, minor: nat, repo: string, arch: string): (r: Result<string>)
    ensures r.Ok? <==> major >= 11
    ensures r.Err? ==> r.error == ValueError(BelowElevenMessage)
    ensures r.Ok? ==> Text.StartsWith(r.value, InitialLines(g, repo, arch) + "\n")
    ensures r.Ok? ==> Text.EndsWith(r.value, "\n" + InstallLines(g, RuntimeTargets))
  {
    if major < 11 then Err(ValueError(BelowElevenMessage))
    else
      var head := InitialLines(g, repo, arch) + "\n";
      var tail := "\n" + InstallLines(g, RuntimeTargets);
      var body := head + RuntimeEnv(major, minor) + tail;
      assert body[..|head|] == head;
      assert body[|body| - |tail|..] == tail;
      Ok(body)
  }

  /** The lines after the dev install lines. */
  const DevTail: string :=
    "ENV CUDAHOSTCXX=x86_64-conda-linux-gnu-c++\nENV CUDACXX=/usr/local/cuda-${CUDA_VERSION_MAJOR}.${CUDA_VERSION_MINOR}/bin/nvcc\n\nUSER $DEFAULT_USER"

  /** `generate_dev_dockerfile()`: as root, install the dev packages, point
      the CUDA compilers, and switch back to the default user. */
  function DevDockerfile(g: Generator): (r: string)
    ensures Text.StartsWith(r, "USER root\n")
    ensures Text.EndsWith(r, "USER $DEFAULT_USER")
    ensures Text.OccursAt(r, InstallLines(g, DevTargets(g.packageManager)), 10)
  {
    var install := InstallLines(g, DevTargets(g.packageManager));
    var head := "USER root\n" + install;
    var tail := "\n" + DevTail;
    assert tail[|tail| - 18..] == "USER $DEFAULT_USER";
    var r := head + tail;
    assert r[..10] == head[..10] == "USER root\n";
    assert r[10..10 + |install|] == head[10..] == install;
    assert r[|r| - 18..] == tail[|tail| - 18..];
    r
  }

  /** The runtime body ends with the package manager's own cleaning
      install command for exactly the runtime packages. */
  lemma RuntimeInstallsTargets(g: Generator, major: nat, minor: nat, repo: string, arch: string)
    requires major >= 11
    ensures Text.EndsWith(RuntimeDockerfile(g, major, minor, repo, arch).value,
                          PM.InstallCommand(g.packageManager, RuntimeTargets, true))
  {
    var lines := InstallLines(g, RuntimeTargets);
    var cmd := PM.InstallCommand(g.packageManager, RuntimeTargets, true);
    assert ("\n" + lines)[1..] == lines;
    Text.EndsWithTrans("\n" + lines, lines, cmd);
    Text.EndsWithTrans(RuntimeDockerfile(g, major, minor, repo, arch).value, "\n" + lines, cmd);
  }

  /** The dev body holds the package manager's own cleaning install command
      for exactly the dev packages. */
  lemma DevInstallsTargets(g: Generator)
    ensures Text.Contains(DevDockerfile(g), PM.InstallCommand(g.packageManager, DevTargets(g.packageManager), true))
  {
    var dev := DevDockerfile(g);
    var devLines := InstallLines(g, DevTargets(g.packageManager));
    var devCmd := PM.InstallCommand(g.packageManager, DevTargets(g.packageManager), true);
    var k := |devLines| - |devCmd|;
    assert devLines[k..] == devCmd;
    assert dev[10..10 + |devLines|] == devLines;
    assert dev[10 + k..10 + k + |devCmd|] == devLines[k..];
    assert Text.OccursAt(dev, devCmd, 10 + k);
  }
}

=== FILE: docker_image.dfy ===
/** The `Image` wrapper of the older generation: how it builds, inspects and
    runs images through the `docker` CLI, with the engine as an oracle. */
module DockerImage {
  import opened Errors
  import opened Engine
  import Text
  import Shlex

  /** A handle on an existing image, identified by the ID the engine reported. */
  datatype Image = Image(id: string)

  // ----------------------------------------------------------------- build

  /** The options `docker build` receives, as the CLI reads them back from
      the argument vector. */
  datatype BuildOptions = BuildOptions(
    network: string, context: string, tag: string, noCache: bool,
    file: Option<string>, fromStdin: bool)

  /** The argument vector and standard input of `Image.build`; giving both a
      Dockerfile path and a Dockerfile string is a ValueError. A missing
      context means the current directory. */
  function BuildCall(tag: string, dockerfile: Option<string>, dockerfileString: Option<string>,
                     context: Option<string>, network: string, noCache: bool): (r: Result<Call>)
    ensures r.Err? <==> dockerfile.Some? && dockerfileString.Some?
    ensures r.Err? ==> r.error.ValueError?
    ensures r.Ok? ==> r.value.input == dockerfileString
  {
    if dockerfile.Some? && dockerfileString.Some? then
      Err(ValueError("Both dockerfile and dockerfile_string passed as arguments."))
    else
      var ctx := match context case Some(c) => c case None => ".";
      var base := ["docker", "build", "--network=" + network, ctx, "-t=" + tag];
      var cache := if noCache then ["--no-cache"] else [];
      var source :=
        if dockerfileString.Some? then ["-f-"]
        else match dockerfile case Some(path) => ["--file=" + path] case None => [];
      Ok(Call(base + cache + source, dockerfileString))
  }

  /** How the CLI reads a build argument vector of the shape above. */
  function ParseBuildArgs(argv: seq<string>): Option<BuildOptions> {
    if |argv| < 5 || argv[0] != "docker" || argv[1] != "build"
       || !Text.StartsWith(argv[2], "--network=") || !Text.StartsWith(argv[4], "-t=")
    then None
    else
      var rest := argv[5..];
      var noCache := |rest| > 0 && rest[0] == "--no-cache";
      var tail := if noCache then rest[1..] else rest;
      var opts := BuildOptions(argv[2][10..], argv[3], argv[4][3..], noCache, None, false);
      if |tail| == 0 then Some(opts)
      else if |tail| == 1 && tail[0] == "-f-" then Some(opts.(fromStdin := true))
      else if |tail| == 1 && Text.StartsWith(tail[0], "--file=") then Some(opts.(file := Some(tail[0][7..])))
      else None
  }

  /** Round trip: every accepted build call carries exactly the requested
      network, context (default "."), tag, cache flag and Dockerfile source. */
  lemma BuildCallParses(tag: string, dockerfile: Option<string>, dockerfileString: Option<string>,
                        context: Option<string>, network: string, noCache: bool)
    requires BuildCall(tag, dockerfile, dockerfileString, context, network, noCache).Ok?
    ensures ParseBuildArgs(BuildCall(tag, dockerfile, dockerfileString, context, network, noCache).value.argv)
            == Some(BuildOptions(network, match context case Some(c) => c case None => ".", tag, noCache,
                                 if dockerfileString.Some? then None else dockerfile,
                                 dockerfileString.Some?))
  {
    var argv := BuildCall(tag, dockerfile, dockerfileString, context, network, noCache).value.argv;
    assert ("--network=" + network)[10..] == network;
    assert ("-t=" + tag)[3..] == tag;
    if dockerfileString.None? && dockerfile.Some? {
      var f := "--file=" + dockerfile.value;
      assert f[7..] == dockerfile.value;
      assert f[2] == 'f' && f != "--no-cache" && f != "-f-";
      assert Text.StartsWith(f, "--file=");
    }
  }

  /** The message of the DockerBuildError a failed build raises. */
  function BuildFailureMessage(tag: string, dockerfile: Option<string>, fromString: bool): string {
    if fromString then "String dockerfile " + tag + " failed to build."
    else "Dockerfile " + tag + " at " + (match dockerfile case Some(p) => p case None => "None") + " failed to build."
  }

  /** `Image.build`: run the build, then look the new tag up. */
  function Build(engine: Engine, tag: string, dockerfile: Option<string>, dockerfileString: Option<string>,
                 context: Option<string>, network: string, noCache: bool): (r: Result<Image>)
    ensures BuildCall(tag, dockerfile, dockerfileString, context, network, noCache).Err? ==> r.Err? && r.error.ValueError?
    ensures BuildCall(tag, dockerfile, dockerfileString, context, network, noCache).Ok? ==>
      var c := engine(BuildCall(tag, dockerfile, dockerfileString, context, network, noCache).value);
      (c.exitCode != 0 ==> r == Err(DockerBuildError(BuildFailureMessage(tag, dockerfile, dockerfileString.Some?))))
      && (c.exitCode == 0 ==> (r.Ok? <==> GetImageId(engine, tag).Ok?))
      && (c.exitCode == 0 && r.Ok? ==> r.value.id == GetImageId(engine, tag).value)
  {
    var call :- BuildCall(tag, dockerfile, dockerfileString, context, network, noCache);
    if engine(call).exitCode != 0 then
      Err(DockerBuildError(BuildFailureMessage(tag, dockerfile, dockerfileString.Some?)))
    else
      var id :- GetImageId(engine, tag);
      Ok(Image(id))
  }

  // ------------------------------------------------------------- image IDs

  function InspectIdCommand(nameOrId: string): string {
    "docker inspect -f={{.Id}} " + nameOrId
  }

  /** `get_image_id`: status 1 means no such image, any other failure is
      re-raised, and success yields the output with whitespace stripped. */
  function GetImageId(engine: Engine, nameOrId: string): (r: Result<string>)
    ensures Shlex.Split(InspectIdCommand(nameOrId)).Ok? ==>
      var c := engine(Call(Shlex.Split(InspectIdCommand(nameOrId)).value, None));
      (r.Ok? <==> c.exitCode == 0)
      && (c.exitCode == 1 ==> r == Err(ImageNotFound(nameOrId)))
      && (c.exitCode !in {0, 1} ==> r == Err(CalledProcess(c.exitCode)))
    ensures r.Ok? ==> |r.value| == 0 || (r.value[0] !in Text.Whitespace && r.value[|r.value| - 1] !in Text.Whitespace)
  {
    var argv :- Shlex.Split(InspectIdCommand(nameOrId));
    var c := engine(Call(argv, None));
    if c.exitCode == 1 then Err(ImageNotFound(nameOrId))
    else if c.exitCode != 0 then Err(CalledProcess(c.exitCode))
    else Ok(Text.Strip(c.stdout, Text.Whitespace))
  }

  /** A plain name is looked up with `docker inspect -f={{.Id}} NAME`. */
  lemma InspectIdArgs(nameOrId: string)
    requires Shlex.PlainWord(nameOrId)
    ensures Shlex.Split(InspectIdCommand(nameOrId)) == Ok(["docker", "inspect", "-f={{.Id}}", nameOrId])
  {
    var words := ["docker", "inspect", "-f={{.Id}}", nameOrId];
    Text.JoinCons(" ", "-f={{.Id}}", [nameOrId]);
    Text.JoinCons(" ", "inspect", ["-f={{.Id}}", nameOrId]);
    Text.JoinCons(" ", "docker", ["inspect", "-f={{.Id}}", nameOrId]);
    assert words == ["docker"] + ["inspect", "-f={{.Id}}", nameOrId];
    assert Text.Join(" ", words) == InspectIdCommand(nameOrId);
    Shlex.SplitPlainWords(words);
  }

  /** An engine that prints an ID followed by a newline yields that ID. */
  lemma GetImageIdReadsId(engine: Engine, nameOrId: string, id: string)
    requires Shlex.PlainWord(nameOrId)
    requires |id| > 0 && forall i :: 0 <= i < |id| ==> id[i] !in Text.Whitespace
    requires engine(Call(["docker", "inspect", "-f={{.Id}}", nameOrId], None)) == Completed(0, id + "\n")
    ensures GetImageId(engine, nameOrId) == Ok(id)
  {
    InspectIdArgs(nameOrId);
    Text.StripAround("", id, "\n", Text.Whitespace);
    assert "" + id + "\n" == id + "\n";
  }

  // ------------------------------------------------------------------- run

  /** The fixed part of a `docker run` argument vector, up to the shell flag. */
  function RunPrefix(img: Image, interactive: bool, network: string, tty: bool): seq<string> {
    ["docker", "run", "--network=" + network, "--rm"]
    + (if interactive then ["-i"] + (if tty then ["--tty"] else []) else [])
    + [img.id, "bash", if interactive then "-ci" else "-c"]
  }

  /** The argument vector of `Image.run`: the command is wrapped in single
      quotes and split, which fails for unbalanced quoting. `tty` stands for
      whether standard input is a terminal. */
  function RunArgs(img: Image, command: string, interactive: bool, network: string, tty: bool): (r: Result<seq<string>>)
    ensures r.Ok? ==> |r.value| >= |RunPrefix(img, interactive, network, tty)|
                      && r.value[..|RunPrefix(img, interactive, network, tty)|] == RunPrefix(img, interactive, network, tty)
  {
    var words :- Shlex.Split("'" + command + "'");
    Ok(RunPrefix(img, interactive, network, tty) + words)
  }

  /** A command with no single quote reaches bash as one argument. */
  lemma RunArgsUnquoted(img: Image, command: string, interactive: bool, network: string, tty: bool)
    ensures '\'' !in command ==>
      RunArgs(img, command, interactive, network, tty) == Ok(RunPrefix(img, interactive, network, tty) + [command])
  {
    Shlex.SplitSingleQuoted(command);
  }

  /** `Image.run`: the output, or the error its exit status maps to. */
  function Run(engine: Engine, img: Image, command: string, interactive: bool, network: string,
               check: bool, tty: bool): (r: Result<string>)
    ensures '\'' !in command ==>
      var c := engine(Call(RunPrefix(img, interactive, network, tty) + [command], None));
      (r.Ok? <==> c.exitCode == 0 || !check)
      && (r.Ok? ==> r.value == c.stdout)
      && (r.Err? && c.exitCode != 127 ==> r.error == CalledProcess(c.exitCode))
      && (r.Err? && c.exitCode == 127 ==> !r.error.CalledProcess?)
      && (r.Err? && c.exitCode == 127 && Shlex.FirstWord(command).Ok? ==>
            r.error == CommandNotFound(Shlex.FirstWord(command).value))
  {
    RunArgsUnquoted(img, command, interactive, network, tty);
    var argv :- RunArgs(img, command, interactive, network, tty);
    RunOutcome(command, check, engine(Call(argv, None)))
  }

  /** `Image.drop_in`: an interactive bash whose exit status is ignored. */
  function DropIn(engine: Engine, img: Image, network: string, tty: bool): (r: Result<string>)
    ensures r == Ok(engine(Call(RunPrefix(img, true, network, tty) + ["bash"], None)).stdout)
  {
    Run(engine, img, "bash", true, network, false, tty)
  }

  // -------------------------------------------------------------- commands

  /** `Image.has_command`: runs `command -v NAME` and reads the verdict. */
  function HasCommand(engine: Engine, img: Image, name: string): (r: Result<bool>)
    ensures '\'' !in name ==>
      var c := engine(Call(RunPrefix(img, false, "host", false) + [ProbeCommand(name)], None));
      (r == Ok(true) <==> c.exitCode == 0)
      && (r == Ok(false) <==> c.exitCode == 1)
      && (c.exitCode !in {0, 1, 127} ==> r == Err(CalledProcess(c.exitCode)))
  {
    assert '\'' !in name ==> '\'' !in ProbeCommand(name);
    PresenceVerdict(Run(engine, img, ProbeCommand(name), false, "host", true, false))
  }

  /** Status 127 on a probe (no bash on the image) surfaces as
      CommandNotFoundError naming `command`, the probe's first word. */
  lemma HasCommandWithoutBash(engine: Engine, img: Image, name: string)
    requires Shlex.PlainWord(name)
    requires engine(Call(RunPrefix(img, false, "host", false) + [ProbeCommand(name)], None)).exitCode == 127
    ensures HasCommand(engine, img, name) == Err(CommandNotFound("command"))
  {
    Shlex.SplitPlainWords(["command", "-v", name]);
    Text.JoinCons(" ", "-v", [name]);
    Text.JoinCons(" ", "command", ["-v", name]);
    assert ["command", "-v", name] == ["command"] + ["-v", name];
    assert Text.Join(" ", ["command", "-v", name]) == ProbeCommand(name);
    RunArgsUnquoted(img, ProbeCommand(name), false, "host", false);
  }

  /** On the reference engine, `has_command` is membership. */
  lemma HasCommandPresence(present: set<string>, img: Image, name: string)
    requires '\'' !in name
    ensures HasCommand(PresenceEngine(present), img, name) == Ok(name in present)
  {
    PresenceEngineAnswers(present, RunPrefix(img, false, "host", false), name);
  }

  /** `Image.check_command_availability`: the commands present on the image,
      in the given order; the first probe error escapes. */
  function CheckCommandAvailability(engine: Engine, img: Image, commands: seq<string>): (r: Result<seq<string>>)
    ensures r.Ok? <==> forall i :: 0 <= i < |commands| ==> HasCommand(engine, img, commands[i]).Ok?
    ensures r.Ok? ==> r.value == Text.Filter(commands, (n: string) => HasCommand(engine, img, n) == Ok(true))
    ensures r.Ok? ==> forall x :: x in r.value <==> x in commands && HasCommand(engine, img, x) == Ok(true)
    ensures r.Err? ==> exists i :: 0 <= i < |commands| && HasCommand(engine, img, commands[i]) == Err(r.error)
                                  && forall j :: 0 <= j < i ==> HasCommand(engine, img, commands[j]).Ok?
  {
    var probe := (n: string) => HasCommand(engine, img, n);
    var r := Available(probe, commands);
    if r.Ok? then
      Text.FilterSame(commands, (n: string) => probe(n) == Ok(true),
                      (n: string) => HasCommand(engine, img, n) == Ok(true));
      r
    else r
  }

  /** On the reference engine the availability check is a plain filter by
      membership. */
  lemma {:induction false} CheckCommandAvailabilityPresence(present: set<string>, img: Image, commands: seq<string>)
    requires forall i :: 0 <= i < |commands| ==> '\'' !in commands[i]
    ensures CheckCommandAvailability(PresenceEngine(present), img, commands)
            == Ok(Text.Filter(commands, (n: string) => n in present))
    decreases |commands|
  {
    if |commands| > 0 {
      HasCommandPresence(present, img, commands[0]);
      CheckCommandAvailabilityPresence(present, img, commands[1..]);
    }
  }

  // --------------------------------------------------------------- identity

  /** The right operand of `Image.__eq__`: another image, a bare `object()`
      (whose type `Image` is an instance of), or an object of an unrelated type. */
  datatype Operand = ImageOperand(image: Image) | BareObject | OtherObject

  /** `Image.__eq__`: false unless `self` is an instance of the operand's type;
      then the IDs are compared, which fails on an operand without `_id`. */
  function Equal(a: Image, other: Operand): (r: Result<bool>)
    ensures r.Err? <==> other.BareObject?
    ensures r.Err? ==> r.error == AttributeError("_id")
    ensures r == Ok(true) <==> other.ImageOperand? && other.image.id == a.id
  {
    match other
    case OtherObject => Ok(false)
    case BareObject => Err(AttributeError("_id"))
    case ImageOperand(b) => Ok(a.id == b.id)
  }

  /** Equality is false against an unrelated object, fails against a bare
      `object()`, and is an equivalence on images. */
  lemma EqualIsEquivalence(a: Image, b: Image, c: Image)
    ensures Equal(a, OtherObject) == Ok(false)
    ensures Equal(a, BareObject) == Err(AttributeError("_id"))
    ensures Equal(a, ImageOperand(a)) == Ok(true)
    ensures Equal(a, ImageOperand(b)) == Equal(b, ImageOperand(a))
    ensures Equal(a, ImageOperand(b)) == Ok(true) && Equal(b, ImageOperand(c)) == Ok(true)
            ==> Equal(a, ImageOperand(c)) == Ok(true)
  {
  }

  /** Two handles opened under names that resolve to the same ID are equal. */
  lemma SameIdEqual(engine: Engine, n1: string, n2: string)
    requires GetImageId(engine, n1).Ok? && GetImageId(engine, n1) == GetImageId(engine, n2)
    ensures Equal(Image(GetImageId(engine, n1).value), ImageOperand(Image(GetImageId(engine, n2).value))) == Ok(true)
  {
  }

  // ------------------------------------------------------------------- tags

  /** The characters `tags` strips from both ends of the inspect output. */
  const TagBrackets: set<char> := {']', '[', '\n'}

  /** `Image._inspect(format)`: `docker inspect [-f=FORMAT] ID`. */
  function Inspect(engine: Engine, img: Image, format: string): (r: Result<string>)
    ensures var c := engine(Call(["docker", "inspect"] + (if |format| > 0 then ["-f=" + format] else []) + [img.id], None));
            (r.Ok? <==> c.exitCode == 0) && (r.Ok? ==> r.value == c.stdout)
            && (r.Err? ==> r.error == CalledProcess(c.exitCode))
  {
    var argv := ["docker", "inspect"] + (if |format| > 0 then ["-f=" + format] else []) + [img.id];
    var c := engine(Call(argv, None));
    if c.exitCode != 0 then Err(CalledProcess(c.exitCode)) else Ok(c.stdout)
  }

  /** Reading the repository tags out of `{{.RepoTags}}` output. */
  function ParseTags(output: string): seq<string> {
    Text.SplitOn(Text.Strip(output, TagBrackets), ", ")
  }

  /** `Image.tags`. */
  function Tags(engine: Engine, img: Image): (r: Result<seq<string>>)
    ensures r.Ok? <==> Inspect(engine, img, "{{.RepoTags}}").Ok?
    ensures r.Ok? ==> r.value == ParseTags(Inspect(engine, img, "{{.RepoTags}}").value)
    ensures r.Ok? ==> |r.value| >= 1
  {
    var out :- Inspect(engine, img, "{{.RepoTags}}");
    Ok(ParseTags(out))
  }

  /** A tag the comma-separated listing can carry without ambiguity. */
  predicate ListableTag(t: string) {
    |t| > 0 && forall i :: 0 <= i < |t| ==> t[i] != ',' && t[i] !in TagBrackets
  }

  /** Round trip: a bracketed, comma-separated listing of tags, with its
      trailing newline, parses back to the same tags. */
  lemma ParseTagsListing(tags: seq<string>)
    requires |tags| > 0
    requires forall i :: 0 <= i < |tags| ==> ListableTag(tags[i])
    ensures ParseTags("[" + Text.Join(", ", tags) + "]\n") == tags
  {
    var body := Text.Join(", ", tags);
    Text.JoinFirst(", ", tags);
    Text.JoinLast(", ", tags);
    assert body[0] == tags[0][0];
    Text.StripAround("[", body, "]\n", TagBrackets);
    assert "[" + body + "]\n" == "[" + body + "]\n";
    Text.SplitOnJoin(tags, ", ");
  }
}

=== FILE: dockerfiles.dfy ===
/** The `Dockerfile` value of the older generation — a header (text before
    the main FROM line) and a body (text after it) — and the staged list
    that builds a sequence of them, each on top of the one before. */
module Dockerfiles {
  import opened Errors
  import opened Engine
  import Text
  import DockerImage
  import Chains

  /** A header that is `None` can be stored but trips the `str` assertions
      of the header operations. */
  datatype Dockerfile = Dockerfile(body: string, header: Option<string>)

  /** `Dockerfile(body)`: the header defaults to the empty string. */
  function NewDockerfile(body: string): (d: Dockerfile)
    ensures d.body == body && d.header == Some("")
  {
    Dockerfile(body, Some(""))
  }

  /** `combine_dockerfiles(d1, d2)`: headers and bodies joined by a newline,
      the first's before the second's. */
  function Combine(d1: Dockerfile, d2: Dockerfile): (r: Result<Dockerfile>)
    ensures r.Ok? <==> d1.header.Some? && d2.header.Some?
    ensures r.Err? ==> r.error == AssertionError
    ensures r.Ok? ==> Text.StartsWith(r.value.body, d1.body + "\n") && Text.EndsWith(r.value.body, "\n" + d2.body)
    ensures r.Ok? ==> |r.value.body| == |d1.body| + 1 + |d2.body|
    ensures r.Ok? ==> r.value.header.Some? && |r.value.header.value| == |d1.header.value| + 1 + |d2.header.value|
    ensures r.Ok? ==> Text.StartsWith(r.value.header.value, d1.header.value + "\n")
                      && Text.EndsWith(r.value.header.value, "\n" + d2.header.value)
  {
    if d1.header.None? || d2.header.None? then Err(AssertionError)
    else
      var body := d1.body + "\n" + d2.body;
      assert body[..|d1.body| + 1] == d1.body + "\n";
      assert body[|d1.body|..] == "\n" + d2.body;
      var header := d1.header.value + "\n" + d2.header.value;
      assert header[..|d1.header.value| + 1] == d1.header.value + "\n";
      assert header[|d1.header.value|..] == "\n" + d2.header.value;
      Ok(Dockerfile(body, Some(header)))
  }

  /** Combining is associative, so a chain of combinations can be grouped
      either way. */
  lemma CombineAssociative(a: Dockerfile, b: Dockerfile, c: Dockerfile)
    requires a.header.Some? && b.header.Some? && c.header.Some?
    ensures Combine(a, b).Ok? && Combine(b, c).Ok?
    ensures Combine(Combine(a, b).value, c) == Combine(a, Combine(b, c).value)
  {
    assert (a.body + "\n" + b.body) + "\n" + c.body == a.body + "\n" + (b.body + "\n" + c.body);
    var ha, hb, hc := a.header.value, b.header.value, c.header.value;
    assert (ha + "\n" + hb) + "\n" + hc == ha + "\n" + (hb + "\n" + hc);
  }

  /** The main FROM line and the blank line after it. */
  function FromLine(parent: string): string {
    "FROM " + parent + "\n\n"
  }

  /** The part of the full text before the FROM line: the header and a
      newline, unless the header is empty or `None`. */
  function HeaderPart(d: Dockerfile): string {
    if d.header.Some? && d.header.value != "" then d.header.value + "\n" else ""
  }

  /** `full_dockerfile(parent)`. */
  function FullDockerfile(d: Dockerfile, parent: string): (r: string)
    ensures Text.EndsWith(r, FromLine(parent) + d.body)
    ensures Text.StartsWith(r, HeaderPart(d)) && |r| == |HeaderPart(d)| + |FromLine(parent)| + |d.body|
    ensures (d.header.None? || d.header == Some("")) ==> Text.StartsWith(r, "FROM " + parent + "\n\n")
    ensures d.header.Some? && d.header.value != "" ==> Text.StartsWith(r, d.header.value + "\n")
  {
    var r := HeaderPart(d) + FromLine(parent) + d.body;
    assert r[|HeaderPart(d)|..] == FromLine(parent) + d.body;
    assert r[..|HeaderPart(d)|] == HeaderPart(d);
    assert r[..|FromLine(parent) + d.body|] == FromLine(parent) + d.body ==> Text.StartsWith(r, FromLine(parent) + d.body);
    assert HeaderPart(d) == "" ==> r == FromLine(parent) + d.body;
    assert FromLine(parent)[..|"FROM " + parent + "\n\n"|] == "FROM " + parent + "\n\n";
    r
  }

  /** `prepend_body(x)`. */
  function PrependBody(d: Dockerfile, x: string): (r: Dockerfile)
    ensures r.header == d.header
    ensures Text.StartsWith(r.body, x + "\n") && Text.EndsWith(r.body, d.body)
    ensures |r.body| == |x| + 1 + |d.body|
  {
    var body := x + "\n" + d.body;
    assert body[..|x| + 1] == x + "\n";
    assert body[|x| + 1..] == d.body;
    Dockerfile(body, d.header)
  }

  /** `append_body(x)`. */
  function AppendBody(d: Dockerfile, x: string): (r: Dockerfile)
    ensures r.header == d.header
    ensures Text.StartsWith(r.body, d.body) && Text.EndsWith(r.body, "\n" + x)
    ensures |r.body| == |d.body| + 1 + |x|
  {
    var body := d.body + "\n" + x;
    assert body[..|d.body|] == d.body;
    assert body[|d.body|..] == "\n" + x;
    Dockerfile(body, d.header)
  }

  /** `prepend_header(x)`; a `None` header fails its assertion. */
  function PrependHeader(d: Dockerfile, x: string): (r: Result<Dockerfile>)
    ensures r.Ok? <==> d.header.Some?
    ensures r.Err? ==> r.error == AssertionError
    ensures r.Ok? ==> r.value.body == d.body && r.value.header.Some?
    ensures r.Ok? ==> Text.StartsWith(r.value.header.value, x + "\n") && Text.EndsWith(r.value.header.value, d.header.value)
    ensures r.Ok? ==> |r.value.header.value| == |x| + 1 + |d.header.value|
  {
    if d.header.None? then Err(AssertionError)
    else
      var h := x + "\n" + d.header.value;
      assert h[..|x| + 1] == x + "\n";
      assert h[|x| + 1..] == d.header.value;
      Ok(Dockerfile(d.body, Some(h)))
  }

  /** `append_header(x)`; a `None` header fails its assertion. */
  function AppendHeader(d: Dockerfile, x: string): (r: Result<Dockerfile>)
    ensures r.Ok? <==> d.header.Some?
    ensures r.Err? ==> r.error == AssertionError
    ensures r.Ok? ==> r.value.body == d.body && r.value.header.Some?
    ensures r.Ok? ==> Text.StartsWith(r.value.header.value, d.header.value) && Text.EndsWith(r.value.header.value, "\n" + x)
    ensures r.Ok? ==> |r.value.header.value| == |d.header.value| + 1 + |x|
  {
    if d.header.None? then Err(AssertionError)
    else
      var h := d.header.value + "\n" + x;
      assert h[..|d.header.value|] == d.header.value;
      assert h[|d.header.value|..] == "\n" + x;
      Ok(Dockerfile(d.body, Some(h)))
  }

  /** The `body` setter: the body is replaced, the header kept. */
  function SetBody(d: Dockerfile, value: string): (r: Dockerfile)
    ensures r.body == value && r.header == d.header
  {
    d.(body := value)
  }

  /** The `header` setter: the header is replaced, the body kept. */
  function SetHeader(d: Dockerfile, value: string): (r: Dockerfile)
    ensures r.header == Some(value) && r.body == d.body
  {
    d.(header := Some(value))
  }

  /** Appending to the body appends to the full text, whatever the parent. */
  lemma AppendBodyFull(d: Dockerfile, x: string, parent: string)
    ensures FullDockerfile(AppendBody(d, x), parent) == FullDockerfile(d, parent) + "\n" + x
  {
  }

  /** Prepending to the body puts the text right after the FROM line. */
  lemma PrependBodyFull(d: Dockerfile, x: string, parent: string)
    ensures FullDockerfile(PrependBody(d, x), parent) == HeaderPart(d) + FromLine(parent) + x + "\n" + d.body
  {
  }

  /** Appending to a header that is not empty appends to the text before
      the FROM line. */
  lemma AppendHeaderFull(d: Dockerfile, x: string, parent: string)
    requires d.header.Some? && d.header.value != ""
    ensures FullDockerfile(AppendHeader(d, x).value, parent)
            == d.header.value + "\n" + x + "\n" + FromLine(parent) + d.body
  {
  }

  /** The message `Dockerfile.build` re-raises a failed build with. */
  function BuildFailureMessage(full: string): string {
    "Failed to build docker image from the following dockerfile:\n##################\n"
    + full + "\n##################\n"
  }

  /** `Dockerfile.build(tag, base, context, network, no_cache)`: build the
      full text on top of `base`; a failed build is re-raised with the text
      in its message. */
  function Build(engine: Engine, d: Dockerfile, tag: string, base: string, context: string,
                 network: string, noCache: bool): (r: Result<DockerImage.Image>)
    ensures var built := DockerImage.Build(engine, tag, None, Some(FullDockerfile(d, base)), Some(context), network, noCache);
      (r.Ok? <==> built.Ok?)
      && (r.Ok? ==> r == built)
      && (built.Err? && built.error.DockerBuildError? ==> r == Err(DockerBuildError(BuildFailureMessage(FullDockerfile(d, base)))))
      && (built.Err? && !built.error.DockerBuildError? ==> r == built)
  {
    var full := FullDockerfile(d, base);
    match DockerImage.Build(engine, tag, None, Some(full), Some(context), network, noCache)
    case Err(DockerBuildError(_)) => Err(DockerBuildError(BuildFailureMessage(full)))
    case other => other
  }

  // ----------------------------------------------------------- staged lists

  /** One entry of a staged list. */
  datatype TaggedDockerfile = TaggedDockerfile(dockerfile: Dockerfile, imageTag: string, noCache: bool)

  /** `StagedDockerfileList(origin_image)`: the entries, and the image the
      first of them starts from. */
  datatype StagedList = StagedList(origin: string, entries: seq<TaggedDockerfile>)

  const DefaultOrigin: string := "oraclelinux:8.4"

  function NewStagedList(origin: string): (l: StagedList)
    ensures l.origin == origin && |l.entries| == 0
  {
    StagedList(origin, [])
  }

  /** `append(dockerfile, image_tag, no_cache)`: exactly one entry more, at
      the end. */
  function Append(l: StagedList, d: Dockerfile, tag: string, noCache: bool): (r: StagedList)
    ensures r.origin == l.origin
    ensures |r.entries| == |l.entries| + 1
    ensures r.entries[..|l.entries|] == l.entries
    ensures r.entries[|l.entries|] == TaggedDockerfile(d, tag, noCache)
  {
    var entries := l.entries + [TaggedDockerfile(d, tag, noCache)];
    assert entries[..|l.entries|] == l.entries;
    StagedList(l.origin, entries)
  }

  /** `initial_dockerfile`: the first entry's Dockerfile, if there is one. */
  function InitialDockerfile(l: StagedList): (r: Option<Dockerfile>)
    ensures r.None? <==> |l.entries| == 0
    ensures r.Some? ==> r.value == l.entries[0].dockerfile
  {
    if |l.entries| > 0 then Some(l.entries[0].dockerfile) else None
  }

  /** The parent of entry `i`: the origin for the first, otherwise the tag
      of the entry before. */
  function Parent(l: StagedList, i: nat): string
    requires i < |l.entries|
  {
    if i == 0 then l.origin else l.entries[i - 1].imageTag
  }

  /** The builds `build()` performs, in order. Each image is recorded under
      the tag it is built as. */
  function Stages(l: StagedList): (r: seq<Chains.Stage>)
    ensures |r| == |l.entries|
    ensures forall i :: 0 <= i < |r| ==> r[i].key == r[i].tag == l.entries[i].imageTag
    ensures forall i :: 0 <= i < |r| ==> r[i].base == Parent(l, i)
    ensures forall i :: 0 <= i < |r| ==>
      r[i].dockerfile == FullDockerfile(l.entries[i].dockerfile, Parent(l, i))
      && r[i].context == Some(".") && r[i].noCache == l.entries[i].noCache && !r[i].probeFirst
  {
    seq(|l.entries|, i requires 0 <= i < |l.entries| =>
      Chains.Stage(l.entries[i].imageTag, l.entries[i].imageTag, Parent(l, i),
                   FullDockerfile(l.entries[i].dockerfile, Parent(l, i)), Some("."), l.entries[i].noCache, false))
  }

  /** How a staged list builds one stage: `Dockerfile.build` with the
      stage's tag, parent, context and cache switch, on the default network. */
  function StageBuilder(engine: Engine): Chains.Builder {
    (s: Chains.Stage) =>
      match DockerImage.Build(engine, s.tag, None, Some(s.dockerfile), s.context, "host", s.noCache)
      case Err(DockerBuildError(_)) => Err(DockerBuildError(BuildFailureMessage(s.dockerfile)))
      case other => other
  }

  /** `StagedDockerfileList.build()`: an empty list fails looking up its
      first entry before anything is built. */
  function BuildList(engine: Engine, l: StagedList): (o: Chains.Outcome)
    ensures |l.entries| == 0 ==> o == Chains.Outcome(0, Err(IndexError))
    ensures |l.entries| > 0 ==> o == Chains.RunStages(StageBuilder(engine), Stages(l), [])
  {
    if |l.entries| == 0 then Chains.Outcome(0, Err(IndexError))
    else Chains.RunStages(StageBuilder(engine), Stages(l), [])
  }

  /** Every stage of a staged list starts from the one before it, the first
      from the origin image. */
  lemma StagesChained(l: StagedList)
    ensures Chains.Chained(l.origin, Stages(l))
  {
  }

  /** Each stage is built exactly as `Dockerfile.build` builds that entry on
      its parent. */
  lemma StageBuilderIsDockerfileBuild(engine: Engine, l: StagedList, i: nat)
    requires i < |l.entries|
    ensures StageBuilder(engine)(Stages(l)[i])
            == Build(engine, l.entries[i].dockerfile, l.entries[i].imageTag, Parent(l, i), ".", "host", l.entries[i].noCache)
  {
  }

  /** Appending an entry appends exactly one stage, built on the tag of the
      previous last entry (or the origin); the earlier stages are unchanged. */
  lemma AppendStages(l: StagedList, d: Dockerfile, tag: string, noCache: bool)
    ensures var base := if |l.entries| == 0 then l.origin else l.entries[|l.entries| - 1].imageTag;
      Stages(Append(l, d, tag, noCache))
      == Stages(l) + [Chains.Stage(tag, tag, base, FullDockerfile(d, base), Some("."), noCache, false)]
  {
    var l' := Append(l, d, tag, noCache);
    var base := if |l.entries| == 0 then l.origin else l.entries[|l.entries| - 1].imageTag;
    var s, s' := Stages(l), Stages(l');
    var extra := Chains.Stage(tag, tag, base, FullDockerfile(d, base), Some("."), noCache, false);
    var t := s + [extra];
    assert |s'| == |t|;
    assert forall i :: 0 <= i < |s'| ==> s'[i] == t[i] by {
      forall i | 0 <= i < |s'| ensures s'[i] == t[i] {
        if i < |l.entries| {
          AppendKeepsStage(l, d, tag, noCache, i);
          assert t[i] == s[i];
        } else {
          assert i == |s| && t[i] == extra;
          AppendLastStage(l, d, tag, noCache);
        }
      }
    }
    Text.SameElements(s', t);
  }

  /** An earlier entry keeps its stage when another is appended. */
  lemma AppendKeepsStage(l: StagedList, d: Dockerfile, tag: string, noCache: bool, i: nat)
    requires i < |l.entries|
    ensures Stages(Append(l, d, tag, noCache))[i] == Stages(l)[i]
  {
    var l' := Append(l, d, tag, noCache);
    assert l'.entries[i] == l'.entries[..|l.entries|][i];
    if i > 0 {
      assert l'.entries[i - 1] == l'.entries[..|l.entries|][i - 1];
    }
    assert Parent(l', i) == Parent(l, i);
  }

  /** The appended entry's stage. */
  lemma AppendLastStage(l: StagedList, d: Dockerfile, tag: string, noCache: bool)
    ensures var base := if |l.entries| == 0 then l.origin else l.entries[|l.entries| - 1].imageTag;
      Stages(Append(l, d, tag, noCache))[|l.entries|]
      == Chains.Stage(tag, tag, base, FullDockerfile(d, base), Some("."), noCache, false)
  {
    var l' := Append(l, d, tag, noCache);
    assert l'.entries[|l.entries|] == TaggedDockerfile(d, tag, noCache);
    AppendLastParent(l, d, tag, noCache);
  }

  /** The appended entry is built on the previous last tag, or the origin. */
  lemma AppendLastParent(l: StagedList, d: Dockerfile, tag: string, noCache: bool)
    ensures Parent(Append(l, d, tag, noCache), |l.entries|)
            == if |l.entries| == 0 then l.origin else l.entries[|l.entries| - 1].imageTag
  {
    var l' := Append(l, d, tag, noCache);
    if |l.entries| > 0 {
      assert l'.entries[|l.entries| - 1] == l'.entries[..|l.entries|][|l.entries| - 1];
    }
  }

  /** A list whose builds all succeed and whose tags are distinct yields
      one image per entry, keyed by its tag, in list order. */
  lemma BuildListRecords(engine: Engine, l: StagedList)
    requires |l.entries| > 0
    requires forall i :: 0 <= i < |l.entries| ==> StageBuilder(engine)(Stages(l)[i]).Ok?
    requires Chains.Distinct(Chains.StageKeys(Stages(l)))
    ensures BuildList(engine, l).result.Ok?
    ensures Chains.Keys(BuildList(engine, l).result.value) == seq(|l.entries|, i requires 0 <= i < |l.entries| => l.entries[i].imageTag)
  {
    var build := StageBuilder(engine);
    var stages := Stages(l);
    Chains.RunStagesRecords(build, stages, []);
    var built := Chains.Built(build, stages);
    assert BuildList(engine, l).result == Ok([] + built);
    assert [] + built == built;
    assert Chains.Keys(built) == seq(|l.entries|, i requires 0 <= i < |l.entries| => l.entries[i].imageTag) by {
      var ks := Chains.Keys(built);
      assert |ks| == |l.entries|;
      forall i | 0 <= i < |ks|
        ensures ks[i] == l.entries[i].imageTag
      {
        assert ks[i] == built[i].0 == stages[i].key;
      }
    }
  }
}

=== FILE: engine.dfy ===
/** The container engine, seen only through the processes the tool starts:
    an oracle maps each `docker …` invocation to its exit status and output.
    Also the verdict `Image.run` and `Image.has_command` draw from an exit
    status, which both generations of the image wrapper share. */
module Engine {
  import opened Errors
  import Text
  import Shlex

  /** One subprocess invocation: its argument vector and the text fed to its
      standard input, if any. */
  datatype Call = Call(argv: seq<string>, input: Option<string>)

  /** What the process reported back. */
  datatype Completed = Completed(exitCode: int, stdout: string)

  /** The engine oracle. */
  type Engine = Call -> Completed

  /** What `subprocess.run(…, check=check)` inside `Image.run` turns into:
      the output, or the error raised for a non-zero status. Status 127 names
      the first shell word of `command`; taking that word can itself fail. */
  function RunOutcome(command: string, check: bool, c: Completed): (r: Result<string>)
    ensures r.Ok? <==> c.exitCode == 0 || !check
    ensures r.Ok? ==> r.value == c.stdout
    ensures r.Err? && c.exitCode != 127 ==> r.error == CalledProcess(c.exitCode)
    ensures r.Err? && c.exitCode == 127 ==>
      r.error == (match Shlex.FirstWord(command)
                  case Ok(w) => CommandNotFound(w)
                  case Err(e) => e)
  {
    if c.exitCode == 0 || !check then Ok(c.stdout)
    else if c.exitCode == 127 then
      var w :- Shlex.FirstWord(command);
      Err(CommandNotFound(w))
    else Err(CalledProcess(c.exitCode))
  }

  /** How `has_command` reads the outcome of `command -v NAME`: success means
      present, status 1 means absent, and every other error escapes. */
  function PresenceVerdict(r: Result<string>): (v: Result<bool>)
    ensures v == Ok(true) <==> r.Ok?
    ensures v == Ok(false) <==> r == Err(CalledProcess(1))
    ensures v.Err? ==> r.Err? && v.error == r.error
  {
    match r
    case Ok(_) => Ok(true)
    case Err(CalledProcess(1)) => Ok(false)
    case Err(e) => Err(e)
  }

  /** A presence probe: `has_command` of one image. */
  type Probe = string -> Result<bool>

  /** `list(filter(probe, commands))`: the commands the probe reports present,
      in order; the first probe error escapes. */
  function Available(probe: Probe, commands: seq<string>): (r: Result<seq<string>>)
    ensures r.Ok? <==> forall i :: 0 <= i < |commands| ==> probe(commands[i]).Ok?
    ensures r.Ok? ==> r.value == Text.Filter(commands, (n: string) => probe(n) == Ok(true))
    ensures r.Err? ==> exists i :: 0 <= i < |commands| && probe(commands[i]) == Err(r.error)
                                  && forall j :: 0 <= j < i ==> probe(commands[j]).Ok?
    decreases |commands|
  {
    if |commands| == 0 then Ok([])
    else
      var here :- probe(commands[0]);
      var rest :- Available(probe, commands[1..]);
      Ok(if here then [commands[0]] + rest else rest)
  }

  /** The shell command `has_command` runs to look for a program. */
  function ProbeCommand(name: string): string {
    "command -v " + name
  }

  /** A reference engine for an image that holds exactly the programs in
      `present`: a `command -v NAME` invocation (the last argument) succeeds
      iff NAME is present and fails with status 1 otherwise. */
  function PresenceEngine(present: set<string>): Engine {
    (c: Call) =>
      Completed(
        if |c.argv| > 0 && Text.StartsWith(c.argv[|c.argv| - 1], "command -v ")
           && c.argv[|c.argv| - 1][11..] in present
        then 0 else 1,
        "")
  }

  /** The reference engine answers the probe for a name by its presence. */
  lemma PresenceEngineAnswers(present: set<string>, prefix: seq<string>, name: string)
    ensures PresenceEngine(present)(Call(prefix + [ProbeCommand(name)], None)).exitCode
            == (if name in present then 0 else 1)
  {
    var argv := prefix + [ProbeCommand(name)];
    assert argv[|argv| - 1] == "command -v " + name;
    assert ("command -v " + name)[11..] == name;
  }
}

=== FILE: errors.dfy ===
/** The exceptions the tool raises, as data, and a failure-compatible result
    type so that a Python `raise` becomes an `Err` and a `return` an `Ok`. */
module Errors {

  /** One constructor per exception kind the modelled code raises or lets escape. */
  datatype Error =
    | ValueError(message: string)
    | TypeError(message: string)
    | UnboundLocalError(variable: string)
    | AssertionError
    | IndexError
    | KeyError(key: string)
      /** Reading an attribute the object does not have. */
    | AttributeError(attribute: string)
      /** A `from module import name` whose name the module does not define. */
    | ImportError(name: string)
      /** A call to a name the module never binds. */
    | NameError(name: string)
    | ImageNotFound(nameOrId: string)
    | CommandNotFound(commandName: string)
      /** A `subprocess.CalledProcessError` that is re-raised unchanged. */
    | CalledProcess(returnCode: int)
    | DockerBuildError(message: string)
    | TestFailed(message: string)
      /** `exit()` called from library code. */
    | SystemExit

  datatype Option<+T> = None | Some(value: T)

  datatype Result<+T> = Ok(value: T) | Err(error: Error) {

    predicate IsFailure() {
      Err?
    }

    function PropagateFailure<U>(): Result<U>
      requires Err?
    {
      Err(error)
    }

    function Extract(): T
      requires Ok?
    {
      value
    }
  }
}

=== FILE: lockfile.dfy ===
/** Lockfile normalisation, shared by both generations' `make_lockfile`:
    the exported environment is cut into lines, blank lines are dropped,
    the lines that are not conda package URLs keep their order and come
    first, and the package URLs follow in sorted order. Which lines count as
    package URLs is a parameter: the older generation's test is
    `Utils.IsCondaPkgName`, the newer one's lives in a file that is not part
    of this model. */
module Lockfile {
  import Text

  /** A line `make_lockfile` keeps in place: not a package URL, not blank. */
  predicate IsOtherLine(isConda: string -> bool, line: string) {
    !isConda(line) && line != ""
  }

  /** The same test, as the function `filter` is given. */
  function OtherTest(isConda: string -> bool): (r: string -> bool)
    ensures forall l :: r(l) <==> !isConda(l) && l != ""
  {
    (l: string) => IsOtherLine(isConda, l)
  }

  /** The lines `make_lockfile` writes, before joining: the other lines in
      their original order, then the package URLs sorted. */
  function NormalizedLines(lockfile: string, isConda: string -> bool): seq<string> {
    var lines := Text.Split(lockfile, '\n');
    Text.Filter(lines, OtherTest(isConda))
      + Text.Sort(Text.Filter(lines, isConda))
  }

  /** The file `make_lockfile` writes: those lines joined by newlines, with
      one final newline. */
  function Normalize(lockfile: string, isConda: string -> bool): (r: string)
    ensures Text.EndsWith(r, "\n")
  {
    var r := Text.Join("\n", NormalizedLines(lockfile, isConda)) + "\n";
    assert r[|r| - 1..] == "\n";
    r
  }

  // ------------------------------------------------------------- filtering

  lemma {:induction false} FilterConcat<T>(a: seq<T>, b: seq<T>, p: T -> bool)
    ensures Text.Filter(a + b, p) == Text.Filter(a, p) + Text.Filter(b, p)
    decreases |a|
  {
    if |a| > 0 {
      assert (a + b)[0] == a[0];
      assert (a + b)[1..] == a[1..] + b;
      FilterConcat(a[1..], b, p);
    } else {
      assert a + b == b;
    }
  }

  lemma {:induction false} FilterAll<T>(s: seq<T>, p: T -> bool)
    requires forall x :: x in s ==> p(x)
    ensures Text.Filter(s, p) == s
    decreases |s|
  {
    if |s| > 0 {
      FilterAll(s[1..], p);
      assert s == [s[0]] + s[1..];
    }
  }

  lemma {:induction false} FilterNone<T>(s: seq<T>, p: T -> bool)
    requires forall x :: x in s ==> !p(x)
    ensures Text.Filter(s, p) == []
    decreases |s|
  {
    if |s| > 0 {
      FilterNone(s[1..], p);
    }
  }

  /** Of three runs, a filter that keeps all of one and none of the others
      gives that one back. */
  lemma FilterPicks<T>(a: seq<T>, b: seq<T>, c: seq<T>, p: T -> bool, which: nat)
    requires which < 2
    requires forall x :: x in a ==> p(x) == (which == 0)
    requires forall x :: x in b ==> p(x) == (which == 1)
    requires forall x :: x in c ==> !p(x)
    ensures Text.Filter(a + b + c, p) == if which == 0 then a else b
  {
    FilterConcat(a + b, c, p);
    FilterConcat(a, b, p);
    FilterNone(c, p);
    if which == 0 {
      FilterAll(a, p);
      FilterNone(b, p);
      assert a + [] + [] == a;
    } else {
      FilterNone(a, p);
      FilterAll(b, p);
      assert [] + b + [] == b;
    }
  }

  /** Splitting a sequence by a predicate and by its complement keeps every
      element once. */
  lemma {:induction false} FilterSplits<T>(s: seq<T>, p: T -> bool, q: T -> bool, keep: T -> bool)
    requires forall x :: keep(x) <==> p(x) || q(x)
    requires forall x :: !(p(x) && q(x))
    ensures multiset(Text.Filter(s, p)) + multiset(Text.Filter(s, q)) == multiset(Text.Filter(s, keep))
    decreases |s|
  {
    if |s| > 0 {
      FilterSplits(s[1..], p, q, keep);
    }
  }

  /** Sorting what is already sorted changes nothing. */
  lemma {:induction false} SortSorted(s: seq<string>)
    requires Text.Sorted(s)
    ensures Text.Sort(s) == s
    decreases |s|
  {
    if |s| > 0 {
      assert Text.Sorted(s[1..]);
      SortSorted(s[1..]);
      assert s == [s[0]] + s[1..];
      if |s| > 1 {
        assert Text.StrLe(s[0], s[1]);
      }
    }
  }

  // ------------------------------------------------------------ properties

  /** The kept lines are the other lines in order, then the package URLs in
      sorted order; nothing blank survives. */
  lemma NormalizedOrder(lockfile: string, isConda: string -> bool)
    ensures var lines := Text.Split(lockfile, '\n');
      var kept := NormalizedLines(lockfile, isConda);
      var n := |Text.Filter(lines, OtherTest(isConda))|;
      n <= |kept|
      && kept[..n] == Text.Filter(lines, OtherTest(isConda))
      && Text.Sorted(kept[n..])
      && (forall i :: 0 <= i < n ==> !isConda(kept[i]) && kept[i] != "")
      && (forall i :: n <= i < |kept| ==> isConda(kept[i]))
  {
    var lines := Text.Split(lockfile, '\n');
    var other := Text.Filter(lines, OtherTest(isConda));
    var conda := Text.Sort(Text.Filter(lines, isConda));
    var kept := NormalizedLines(lockfile, isConda);
    assert kept[..|other|] == other && kept[|other|..] == conda;
    forall i | |other| <= i < |kept|
      ensures isConda(kept[i])
    {
      assert kept[i] == conda[i - |other|];
      assert kept[i] in multiset(conda);
    }
    forall i | 0 <= i < |other|
      ensures !isConda(kept[i]) && kept[i] != ""
    {
      assert kept[i] == other[i];
      assert other[i] in other;
    }
  }

  /** When package URLs are never blank, the written lines are a
      rearrangement of exactly the non-blank input lines. */
  lemma NormalizedPermutes(lockfile: string, isConda: string -> bool)
    requires !isConda("")
    ensures multiset(NormalizedLines(lockfile, isConda))
            == multiset(Text.Filter(Text.Split(lockfile, '\n'), (l: string) => l != ""))
  {
    var lines := Text.Split(lockfile, '\n');
    FilterSplits(lines, OtherTest(isConda), isConda, (l: string) => l != "");
  }

  /** No kept line holds a newline, so the file reads back line by line:
      the kept lines, then the empty piece after the final newline. */
  lemma NormalizedReadsBack(lockfile: string, isConda: string -> bool)
    requires |NormalizedLines(lockfile, isConda)| > 0
    ensures Text.Split(Normalize(lockfile, isConda), '\n') == NormalizedLines(lockfile, isConda) + [""]
  {
    var lines := Text.Split(lockfile, '\n');
    var kept := NormalizedLines(lockfile, isConda);
    Text.SplitPiecesFree(lockfile, '\n');
    forall i | 0 <= i < |kept|
      ensures '\n' !in kept[i]
    {
      assert kept[i] in multiset(kept);
      FilterSplits(lines, OtherTest(isConda), isConda,
                   (l: string) => l != "" || isConda(l));
      assert kept[i] in multiset(Text.Filter(lines, (l: string) => l != "" || isConda(l)));
      assert kept[i] in lines;
    }
    Text.SplitJoin(kept, '\n');
    assert Text.Join("\n", kept) == Text.Join(['\n'], kept);
    Text.SplitConcat(Text.Join("\n", kept), '\n', "");
    assert Normalize(lockfile, isConda) == Text.Join("\n", kept) + ['\n'] + "";
  }

  /** Normalising a normalised lockfile gives it back unchanged. */
  lemma NormalizeIdempotent(lockfile: string, isConda: string -> bool)
    requires !isConda("")
    ensures Normalize(Normalize(lockfile, isConda), isConda) == Normalize(lockfile, isConda)
  {
    var lines := Text.Split(lockfile, '\n');
    var other := Text.Filter(lines, OtherTest(isConda));
    var conda := Text.Sort(Text.Filter(lines, isConda));
    var kept := NormalizedLines(lockfile, isConda);
    var out := Normalize(lockfile, isConda);
    assert forall x :: x in conda ==> x in multiset(Text.Filter(lines, isConda));
    if |kept| == 0 {
      assert out == "\n";
      assert Text.Split(out, '\n') == ["", ""];
      FilterNone(["", ""], OtherTest(isConda));
      FilterNone(["", ""], isConda);
      assert NormalizedLines(out, isConda) == [];
    } else {
      NormalizedReadsBack(lockfile, isConda);
      assert Text.Split(out, '\n') == other + conda + [""];
      FilterPicks(other, conda, [""], OtherTest(isConda), 0);
      FilterPicks(other, conda, [""], isConda, 1);
      SortSorted(conda);
    }
  }
}

=== FILE: mamba.dfy ===
/** The micromamba Dockerfile text of the older generation: the command that
    installs an environment from a spec file or a package list, the
    lockfile export command, and the stage that installs micromamba itself
    from its published image. */
module Mamba {
  import opened Errors
  import Text

  const BothGivenMessage: string := "Specfile and packages both given. Use only one."
  const BadCommandMessage: string :=
    "Improper value given for micromamba specs installation. Please use one of \"install\" or \"create\"."

  /** The sub-commands a spec command may use. */
  const SpecCommands: seq<string> := ["install", "create"]

  /** The `-n NAME` argument, present only when an environment is named. */
  function NameArg(envName: Option<string>): string {
    match envName
    case None => ""
    case Some(n) => " -n " + n
  }

  /** The channel arguments, restricting the search to exactly the given
      channels. */
  function ChannelsArg(channels: seq<string>): string {
    " -c " + Text.Join(" ", channels) + " --override-channels"
  }

  const ActivateLine: string := "ARG MAMBA_DOCKERFILE_ACTIVATE=1"
  const CleanLine: string := " && micromamba clean --all --yes"

  /** The packages joined by spaces, when there are any. */
  function PackagesText(packages: Option<seq<string>>): string {
    if packages.Some? then Text.Join(" ", packages.value) else ""
  }

  /** The lines between the activation line and the final clean-up. */
  function SpecLines(command: string, nameArg: string, channelsArg: string, specfile: Option<string>,
                     packagesText: string): seq<string>
  {
    match specfile
    case Some(f) =>
      ["COPY " + f + " /tmp/spec-file.txt",
       "RUN micromamba " + command + nameArg + channelsArg + " -y -f /tmp/spec-file.txt \\",
       " && rm /tmp/spec-file.txt \\"]
    case None =>
      ["RUN micromamba " + command + nameArg + channelsArg + " -y " + packagesText
       + " \\ && micromamba update --all \\ "]
  }

  /** `_mamba_spec_command(command, channels=…, specfile=…, packages=…,
      env_name=…)`. Giving both sources, or a command other than install or
      create, is a ValueError. Without channels the channel argument is
      never bound, so the command fails when it is read; with neither source
      joining the missing package list fails first. */
  function SpecCommand(command: string, channels: Option<seq<string>>, specfile: Option<string>,
                       packages: Option<seq<string>>, envName: Option<string>): (r: Result<string>)
    ensures specfile.Some? && packages.Some? ==> r == Err(ValueError(BothGivenMessage))
    ensures !(specfile.Some? && packages.Some?) && command !in SpecCommands ==> r == Err(ValueError(BadCommandMessage))
    ensures r.Ok? <==>
      !(specfile.Some? && packages.Some?) && command in SpecCommands
      && channels.Some? && (specfile.Some? || packages.Some?)
    ensures specfile.None? && packages.None? && command in SpecCommands ==> r.Err? && r.error.TypeError?
    ensures (!(specfile.Some? && packages.Some?) && command in SpecCommands && (specfile.Some? || packages.Some?)
             && channels.None?) ==> r == Err(UnboundLocalError("channels_arg"))
    ensures r.Ok? ==> Text.StartsWith(r.value, ActivateLine + "\n\n") && Text.EndsWith(r.value, "\n" + CleanLine)
  {
    if specfile.Some? && packages.Some? then Err(ValueError(BothGivenMessage))
    else if command !in SpecCommands then Err(ValueError(BadCommandMessage))
    else if specfile.None? && packages.None? then Err(TypeError("can only join an iterable"))
    else if channels.None? then Err(UnboundLocalError("channels_arg"))
    else
      var middle := SpecLines(command, NameArg(envName), ChannelsArg(channels.value), specfile, PackagesText(packages));
      var lines := [ActivateLine, ""] + middle + [CleanLine];
      SpecCommandShape(ActivateLine, middle, CleanLine);
      Ok(Text.Join("\n", lines))
  }

  /** Joined by newlines, lines that open with `first` and a blank line
      and close with `last` start and end that way. */
  lemma {:induction false} SpecCommandShape(first: string, middle: seq<string>, last: string)
    requires |middle| > 0
    ensures var t := Text.Join("\n", [first, ""] + middle + [last]);
      Text.StartsWith(t, first + "\n\n") && Text.EndsWith(t, "\n" + last)
  {
    var rest := middle + [last];
    var j := Text.Join("\n", rest);
    assert [first, ""] + middle + [last] == [first] + ([""] + rest);
    Text.JoinCons("\n", first, [""] + rest);
    Text.JoinCons("\n", "", rest);
    var t := Text.Join("\n", [first, ""] + middle + [last]);
    assert t == (first + "\n\n") + j;
    assert t[..|first + "\n\n"|] == first + "\n\n";
    Text.JoinAppend("\n", [first, ""] + middle, last);
    var u := Text.Join("\n", [first, ""] + middle);
    assert t == u + ("\n" + last);
    assert t[|t| - |"\n" + last|..] == "\n" + last;
  }

  /** Newline-free pieces give newline-free lines, so the joined command
      splits back into exactly its lines. */
  lemma SpecLinesRoundTrip(command: string, nameArg: string, channelsArg: string, specfile: Option<string>,
                           packagesText: string)
    requires '\n' !in command && '\n' !in nameArg && '\n' !in channelsArg && '\n' !in packagesText
    requires specfile.Some? ==> '\n' !in specfile.value
    ensures var lines := [ActivateLine, ""] + SpecLines(command, nameArg, channelsArg, specfile, packagesText) + [CleanLine];
      Text.Split(Text.Join("\n", lines), '\n') == lines
  {
    var middle := SpecLines(command, nameArg, channelsArg, specfile, packagesText);
    SpecLinesFree(command, nameArg, channelsArg, specfile, packagesText);
    var lines := [ActivateLine, ""] + middle + [CleanLine];
    assert '\n' !in ActivateLine && '\n' !in CleanLine;
    forall i | 0 <= i < |lines| ensures '\n' !in lines[i] {
      if 2 <= i < |lines| - 1 {
        assert lines[i] == middle[i - 2];
      }
    }
    Text.SplitJoin(lines, '\n');
  }

  lemma SpecLinesFree(command: string, nameArg: string, channelsArg: string, specfile: Option<string>,
                      packagesText: string)
    requires '\n' !in command && '\n' !in nameArg && '\n' !in channelsArg && '\n' !in packagesText
    requires specfile.Some? ==> '\n' !in specfile.value
    ensures forall i :: 0 <= i < |SpecLines(command, nameArg, channelsArg, specfile, packagesText)| ==>
      '\n' !in SpecLines(command, nameArg, channelsArg, specfile, packagesText)[i]
  {
    var head := "RUN micromamba " + command + nameArg + channelsArg;
    assert '\n' !in head;
    match specfile
    case Some(f) =>
      assert '\n' !in "COPY " + f + " /tmp/spec-file.txt";
      assert '\n' !in head + " -y -f /tmp/spec-file.txt \\";
      assert '\n' !in " && rm /tmp/spec-file.txt \\";
    case None =>
      assert '\n' !in head + " -y " + packagesText + " \\ && micromamba update --all \\ ";
  }

  /** A successful spec command reads back, line by line, as the activation
      line, a blank line, the lines for its source and the clean-up, when
      no argument holds a newline. */
  lemma SpecCommandLines(command: string, channels: seq<string>, specfile: Option<string>,
                         packages: Option<seq<string>>, envName: Option<string>)
    requires SpecCommand(command, Some(channels), specfile, packages, envName).Ok?
    requires specfile.Some? ==> '\n' !in specfile.value
    requires packages.Some? ==> forall i :: 0 <= i < |packages.value| ==> '\n' !in packages.value[i]
    requires forall i :: 0 <= i < |channels| ==> '\n' !in channels[i]
    requires '\n' !in NameArg(envName)
    ensures Text.Split(SpecCommand(command, Some(channels), specfile, packages, envName).value, '\n')
            == [ActivateLine, ""] + SpecLines(command, NameArg(envName), ChannelsArg(channels), specfile, PackagesText(packages))
               + [CleanLine]
  {
    assert '\n' !in command by {
      assert command == "install" || command == "create";
    }
    Text.JoinAvoids(" ", channels, '\n');
    if packages.Some? {
      Text.JoinAvoids(" ", packages.value, '\n');
    }
    SpecLinesRoundTrip(command, NameArg(envName), ChannelsArg(channels), specfile, PackagesText(packages));
  }

  /** `mamba_lockfile_command(env_name)`: export the environment as an
      explicit lockfile without hashes. */
  function LockfileCommand(envName: string): (r: string)
    ensures |envName| > 0 && ' ' !in envName ==>
      Text.Split(r, ' ') == ["micromamba", "env", "export", "--name", envName, "--explicit", "--no-md5"]
  {
    var words := ["micromamba", "env", "export", "--name", envName, "--explicit", "--no-md5"];
    assert |envName| > 0 && ' ' !in envName ==> Text.Split(Text.Join(" ", words), ' ') == words by {
      if |envName| > 0 && ' ' !in envName {
        assert forall i :: 0 <= i < |words| ==> ' ' !in words[i];
        Text.SplitJoin(words, ' ');
      }
    }
    Text.Join(" ", words)
  }

  /** `micromamba_docker_lines()`. */
  const MicromambaDockerLines: string := "ARG MAMBA_DOCKERFILE_ACTIVATE=1\n\nUSER $MAMBA_USER"

  /** `_mamba_install_prefix()`: the stage micromamba is copied from. */
  const InstallHeader: string := "FROM mambaorg/micromamba:1.3.1 as micromamba"

  const BinDir: string := "/usr/local/bin/"

  /** `COPY --from=micromamba P P` for a helper script. */
  function CopyScript(name: string): string {
    "COPY --from=micromamba " + BinDir + name + " " + BinDir + name
  }

  /** The fixed lines of the install body: copy micromamba and its helper
      scripts from the micromamba stage, set up its user and prefix, and
      make the helpers the shell and entry point. */
  const InstallPreambleLines: seq<string> :=
    PreambleRootLines + PreambleUserLines + PreamblePrefixLines + PreambleCopyLines
    + PreambleCopySetupLines + PreambleSetupLines + PreambleEntryLines

  /** Run as root; the comment on matching the image's own user. */
  const PreambleRootLines: seq<string> := [
    "USER root",
    "",
    "# if your image defaults to a" + " non-root user, then you may want to make",
    "# the next 3 ARG commands match" + " the values in your image. You can get",
    "# the values by running:" + " docker run --rm -it my/image id -a"
  ]

  /** The micromamba user, taken from the image's defaults. */
  const PreambleUserLines: seq<string> := [
    "ENV MAMBA_USER=$DEFAULT_USER",
    "ENV MAMBA_USER_ID=$DEFAULT_UID",
    "ENV MAMBA_USER_GID=$DEFAULT_GID",
    ""
  ]

  /** The root prefix and the micromamba executable. */
  const PreamblePrefixLines: seq<string> := [
    "# ENV MAMBA_USER=$MAMBA_USER",
    "ENV MAMBA_ROOT_PREFIX=\"/opt/conda\"",
    "ENV MAMBA_EXE=\"/bin/micromamba\"",
    ""
  ]

  /** Copy micromamba and its shell helpers from the micromamba stage. */
  const PreambleCopyLines: seq<string> := [
    "COPY --from=micromamba " + "\"$MAMBA_EXE\" \"$MAMBA_EXE\"",
    CopyScript("_activate_current_env.sh"),
    CopyScript("_dockerfile_shell.sh"),
    CopyScript("_entrypoint.sh")
  ]

  /** Copy the activation helper a second time, then the account and
      prefix setup scripts. */
  const PreambleCopySetupLines: seq<string> := [
    CopyScript("_activate_current_env.sh"),
    CopyScript("_dockerfile_initialize_user_accounts.sh"),
    CopyScript("_dockerfile_setup_root_prefix.sh")
  ]

  /** Run the setup scripts, then switch to the micromamba user. */
  const PreambleSetupLines: seq<string> := [
    "",
    "RUN " + BinDir + "_dockerfile_initialize_user_accounts.sh \\",
    " && " + BinDir + "_dockerfile_setup_root_prefix.sh",
    "",
    "USER $MAMBA_USER",
    ""
  ]

  /** The helpers become the shell and the entry point. */
  const PreambleEntryLines: seq<string> := [
    "SHELL [\"" + BinDir + "_dockerfile_shell.sh\"]",
    "",
    "ENTRYPOINT [\"" + BinDir + "_entrypoint.sh\"]",
    "# Optional: if you want to customize" + " the ENTRYPOINT and have a conda",
    "# environment activated, then do this:",
    "# ENTRYPOINT [\"" + BinDir + "_entrypoint.sh\", \"my_entrypoint_program\"]"
  ]

  /** The channel argument naming conda-forge alone. */
  const ForgeArg: string := " -c conda-forge --override-channels"

  /** The lines of the add-specs command, for a one-line spec file path. */
  function AddSpecsLines(specfile: string): seq<string> {
    [ActivateLine, "", "COPY " + specfile + " /tmp/spec-file.txt",
     "RUN micromamba install" + ForgeArg + " -y -f /tmp/spec-file.txt \\",
     " && rm /tmp/spec-file.txt \\", CleanLine]
  }

  /** `mamba_add_specs_dockerfile(specfile)`: install the spec file into the
      base environment from conda-forge only. */
  function AddSpecsDockerfile(specfile: string): (r: string)
    ensures '\n' !in specfile ==> Text.Split(r, '\n') == AddSpecsLines(specfile)
  {
    var r := SpecCommand("install", Some(["conda-forge"]), Some(specfile), None, None).value;
    assert '\n' !in specfile ==> Text.Split(r, '\n') == AddSpecsLines(specfile) by {
      if '\n' !in specfile {
        AddSpecsReadsBack(specfile);
      }
    }
    r
  }

  lemma AddSpecsReadsBack(specfile: string)
    requires '\n' !in specfile
    ensures SpecCommand("install", Some(["conda-forge"]), Some(specfile), None, None).Ok?
    ensures Text.Split(SpecCommand("install", Some(["conda-forge"]), Some(specfile), None, None).value, '\n')
            == AddSpecsLines(specfile)
  {
    SpecCommandLines("install", ["conda-forge"], Some(specfile), None, None);
    ForgeLines(specfile);
  }

  /** The spec-file lines for conda-forge, spelled out. */
  lemma ForgeLines(specfile: string)
    ensures [ActivateLine, ""] + SpecLines("install", NameArg(None), ChannelsArg(["conda-forge"]), Some(specfile), PackagesText(None))
            + [CleanLine] == AddSpecsLines(specfile)
  {
    Text.JoinSingleton(" ", "conda-forge");
    assert ChannelsArg(["conda-forge"]) == ForgeArg;
    var run := "RUN micromamba install" + ForgeArg + " -y -f /tmp/spec-file.txt \\";
    assert "RUN micromamba " + "install" + NameArg(None) + ChannelsArg(["conda-forge"]) + " -y -f /tmp/spec-file.txt \\" == run;
  }

  /** `mamba_add_packages_dockerfile(packages, channels)`: install the
      packages from the given channels only, then update everything. */
  function AddPackagesDockerfile(packages: seq<string>, channels: Option<seq<string>>): (r: Result<string>)
    ensures r.Ok? <==> channels.Some?
    ensures r.Err? ==> r.error == UnboundLocalError("channels_arg")
    ensures (r.Ok? && (forall i :: 0 <= i < |packages| ==> '\n' !in packages[i])
             && (forall i :: 0 <= i < |channels.value| ==> '\n' !in channels.value[i])) ==>
      Text.Split(r.value, '\n')
      == [ActivateLine, "", "RUN micromamba install" + ChannelsArg(channels.value) + " -y "
          + Text.Join(" ", packages) + " \\ && micromamba update --all \\ ", CleanLine]
  {
    assert "RUN micromamba " + "install" == "RUN micromamba install";
    var r := SpecCommand("install", channels, None, Some(packages), None);
    assert (r.Ok? && (forall i :: 0 <= i < |packages| ==> '\n' !in packages[i])
            && (forall i :: 0 <= i < |channels.value| ==> '\n' !in channels.value[i])) ==>
      Text.Split(r.value, '\n')
      == [ActivateLine, "", "RUN micromamba install" + ChannelsArg(channels.value) + " -y "
          + Text.Join(" ", packages) + " \\ && micromamba update --all \\ ", CleanLine] by {
      if channels.Some? && (forall i :: 0 <= i < |packages| ==> '\n' !in packages[i])
         && (forall i :: 0 <= i < |channels.value| ==> '\n' !in channels.value[i]) {
        SpecCommandLines("install", channels.value, None, Some(packages), None);
        var run := "RUN micromamba install" + ChannelsArg(channels.value) + " -y "
                   + Text.Join(" ", packages) + " \\ && micromamba update --all \\ ";
        assert "RUN micromamba " + "install" + NameArg(None) + ChannelsArg(channels.value) + " -y "
               + PackagesText(Some(packages)) + " \\ && micromamba update --all \\ " == run;
        var middle := SpecLines("install", NameArg(None), ChannelsArg(channels.value), None, PackagesText(Some(packages)));
        assert middle == [run];
      }
    }
    r
  }

  /** `mamba_install_dockerfile(specfile)`: the micromamba stage header, and
      a body that installs micromamba and then the spec file. */
  function InstallDockerfile(specfile: string): (r: (string, string))
    ensures r.0 == InstallHeader
    ensures Text.EndsWith(r.1, AddSpecsDockerfile(specfile))
    ensures Text.StartsWith(r.1, "USER root\n")
  {
    var preamble := Text.Join("\n", InstallPreambleLines) + "\n";
    var spec := AddSpecsDockerfile(specfile);
    var body := preamble + spec;
    assert Text.Join("\n", InstallPreambleLines) == "USER root" + "\n" + Text.Join("\n", InstallPreambleLines[1..]);
    assert body[..10] == "USER root\n";
    assert body[|body| - |spec|..] == spec;
    (InstallHeader, body)
  }

  /** No preamble line holds a newline. */
  lemma PreambleLinesFree()
    ensures Text.LinesFree(InstallPreambleLines)
  {
    PreambleRootLinesFree();
    PreambleUserLinesFree();
    PreamblePrefixLinesFree();
    PreambleCopyLinesFree();
    PreambleCopySetupLinesFree();
    PreambleSetupLinesFree();
    PreambleEntryLinesFree();
    Text.LinesFreeConcat(PreambleRootLines, PreambleUserLines);
    Text.LinesFreeConcat(PreambleRootLines + PreambleUserLines, PreamblePrefixLines);
    Text.LinesFreeConcat(PreambleRootLines + PreambleUserLines + PreamblePrefixLines, PreambleCopyLines);
    Text.LinesFreeConcat(PreambleRootLines + PreambleUserLines + PreamblePrefixLines + PreambleCopyLines, PreambleCopySetupLines);
    Text.LinesFreeConcat(PreambleRootLines + PreambleUserLines + PreamblePrefixLines + PreambleCopyLines + PreambleCopySetupLines, PreambleSetupLines);
    Text.LinesFreeConcat(PreambleRootLines + PreambleUserLines + PreamblePrefixLines + PreambleCopyLines + PreambleCopySetupLines + PreambleSetupLines, PreambleEntryLines);
  }

  lemma PreambleRootLinesFree()
    ensures Text.LinesFree(PreambleRootLines)
  {
    assert '\n' !in PreambleRootLines[0];
    assert '\n' !in PreambleRootLines[1];
    Text.ConcatFree("# if your image defaults to a", " non-root user, then you may want to make", '\n');
    assert '\n' !in PreambleRootLines[2];
    Text.ConcatFree("# the next 3 ARG commands match", " the values in your image. You can get", '\n');
    assert '\n' !in PreambleRootLines[3];
    Text.ConcatFree("# the values by running:", " docker run --rm -it my/image id -a", '\n');
    assert '\n' !in PreambleRootLines[4];
  }

  lemma PreambleUserLinesFree()
    ensures Text.LinesFree(PreambleUserLines)
  {
    assert '\n' !in PreambleUserLines[0];
    assert '\n' !in PreambleUserLines[1];
    assert '\n' !in PreambleUserLines[2];
    assert '\n' !in PreambleUserLines[3];
  }

  lemma PreamblePrefixLinesFree()
    ensures Text.LinesFree(PreamblePrefixLines)
  {
    assert '\n' !in PreamblePrefixLines[0];
    assert '\n' !in PreamblePrefixLines[1];
    assert '\n' !in PreamblePrefixLines[2];
    assert '\n' !in PreamblePrefixLines[3];
  }

  lemma PreambleCopyLinesFree()
    ensures Text.LinesFree(PreambleCopyLines)
  {
    Text.ConcatFree("COPY --from=micromamba ", "\"$MAMBA_EXE\" \"$MAMBA_EXE\"", '\n');
    assert '\n' !in PreambleCopyLines[0];
    assert '\n' !in PreambleCopyLines[1];
    assert '\n' !in PreambleCopyLines[2];
    assert '\n' !in PreambleCopyLines[3];
  }

  lemma PreambleCopySetupLinesFree()
    ensures Text.LinesFree(PreambleCopySetupLines)
  {
    assert '\n' !in PreambleCopySetupLines[0];
    assert '\n' !in PreambleCopySetupLines[1];
    assert '\n' !in PreambleCopySetupLines[2];
  }

  lemma PreambleSetupLinesFree()
    ensures Text.LinesFree(PreambleSetupLines)
  {
    assert '\n' !in PreambleSetupLines[0];
    assert '\n' !in PreambleSetupLines[1];
    assert '\n' !in PreambleSetupLines[2];
    assert '\n' !in PreambleSetupLines[3];
    assert '\n' !in PreambleSetupLines[4];
    assert '\n' !in PreambleSetupLines[5];
  }

  lemma PreambleEntryLinesFree()
    ensures Text.LinesFree(PreambleEntryLines)
  {
    assert '\n' !in PreambleEntryLines[0];
    assert '\n' !in PreambleEntryLines[1];
    assert '\n' !in PreambleEntryLines[2];
    Text.ConcatFree("# Optional: if you want to customize", " the ENTRYPOINT and have a conda", '\n');
    assert '\n' !in PreambleEntryLines[3];
    assert '\n' !in PreambleEntryLines[4];
    assert '\n' !in PreambleEntryLines[5];
  }

  /** Round trip: the install body splits back into the fixed preamble lines
      followed by the lines of the spec-file install. */
  lemma InstallReadsBack(specfile: string)
    requires '\n' !in specfile
    ensures Text.Split(InstallDockerfile(specfile).1, '\n') == InstallPreambleLines + AddSpecsLines(specfile)
  {
    var joined := Text.Join("\n", InstallPreambleLines);
    var spec := AddSpecsDockerfile(specfile);
    assert InstallDockerfile(specfile).1 == joined + ['\n'] + spec;
    Text.SplitConcat(joined, '\n', spec);
    PreambleLinesFree();
    assert joined == Text.Join(['\n'], InstallPreambleLines);
    Text.SplitJoin(InstallPreambleLines, '\n');
  }

  /** The default spec file name. */
  const DefaultSpecfile: string := "spec-file.txt"
}

=== FILE: mounts.dfy ===
/** Bind-mount descriptions passed to `docker run -v`: the newer `BindMount`
    dataclass and the older `Mount` class. Both accept only the permissions
    "ro" and "rw" and render as `source:destination:permissions`. */
module Mounts {
  import opened Errors
  import Text

  predicate ValidPermissions(p: string) {
    p == "ro" || p == "rw"
  }

  /** The permissions a `BindMount` gets when none are given. */
  const DefaultPermissions := "rw"

  /** A validated bind mount; `NewBindMount` is the only way to build one. */
  datatype BindMount = BindMount(src: string, dst: string, permissions: string)

  /** The older generation's mount: host path, image path, permissions. */
  datatype Mount = Mount(hostMountPoint: string, imageMountPoint: string, permissions: string)

  /** Python's `repr` of a string, for strings without quotes or backslashes. */
  function QuotedRepr(s: string): string {
    "'" + s + "'"
  }

  /** `BindMount(src, dst, permissions)`: the dataclass post-init check. */
  function NewBindMount(src: string, dst: string, permissions: string): (r: Result<BindMount>)
    ensures r.Ok? <==> ValidPermissions(permissions)
    ensures r.Ok? ==> r.value.src == src && r.value.dst == dst && r.value.permissions == permissions
    ensures r.Err? ==> r.error.ValueError?
  {
    if ValidPermissions(permissions) then Ok(BindMount(src, dst, permissions))
    else Err(ValueError("permissions must be 'ro' or 'rw', got " + QuotedRepr(permissions)))
  }

  /** `Mount(host, image, permissions)`: validated before any field is set. */
  function NewMount(host: string, image: string, permissions: string): (r: Result<Mount>)
    ensures r.Ok? <==> ValidPermissions(permissions)
    ensures r.Ok? ==> r.value.hostMountPoint == host && r.value.imageMountPoint == image
                      && r.value.permissions == permissions
    ensures r.Err? ==> r.error == ValueError("Permissions value for mount not given as \"ro\" or \"rw\".")
  {
    if ValidPermissions(permissions) then Ok(Mount(host, image, permissions))
    else Err(ValueError("Permissions value for mount not given as \"ro\" or \"rw\"."))
  }

  function Render(a: string, b: string, p: string): string {
    a + ":" + b + ":" + p
  }

  /** `BindMount.mount_string()`. */
  function BindMountString(m: BindMount): string {
    Render(m.src, m.dst, m.permissions)
  }

  /** `Mount.mount_string()`. */
  function MountString(m: Mount): string {
    Render(m.hostMountPoint, m.imageMountPoint, m.permissions)
  }

  /** How the mount string reads back: the last two `:`-separated fields are
      the destination and the permissions, everything before is the source. */
  function ParseMountString(s: string): (r: Result<(string, string, string)>)
  {
    var fields := Text.Split(s, ':');
    if |fields| < 3 then Err(ValueError("invalid mount string"))
    else
      var n := |fields|;
      Ok((Text.Join(":", fields[..n - 2]), fields[n - 2], fields[n - 1]))
  }

  /** Round trip: a rendered mount reads back as its three parts when the
      destination and permissions hold no colon. */
  lemma ParseRender(a: string, b: string, p: string)
    requires ':' !in b && ':' !in p
    ensures ParseMountString(Render(a, b, p)) == Ok((a, b, p))
  {
    var s := Render(a, b, p);
    assert s == a + [':'] + (b + [':'] + p);
    Text.SplitConcat(a, ':', b + [':'] + p);
    Text.SplitConcat(b, ':', p);
    Text.SplitFree(b, ':');
    Text.SplitFree(p, ':');
    var fa := Text.Split(a, ':');
    var fields := Text.Split(s, ':');
    assert fields == fa + [b] + [p];
    assert fields[..|fields| - 2] == fa;
    Text.JoinSplit(a, ':');
  }

  /** A valid bind mount's string gives back the mount. */
  lemma BindMountRoundTrip(src: string, dst: string, permissions: string)
    requires NewBindMount(src, dst, permissions).Ok? && ':' !in dst
    ensures ParseMountString(BindMountString(NewBindMount(src, dst, permissions).value)) == Ok((src, dst, permissions))
  {
    ParseRender(src, dst, permissions);
  }

  /** A valid old-style mount's string gives back the mount. */
  lemma MountRoundTrip(host: string, image: string, permissions: string)
    requires NewMount(host, image, permissions).Ok? && ':' !in image
    ensures ParseMountString(MountString(NewMount(host, image, permissions).value)) == Ok((host, image, permissions))
  {
    ParseRender(host, image, permissions);
  }
}

=== FILE: package_managers.dfy ===
/** The package managers the tool knows how to drive, `yum` and `apt-get`,
    and the shell commands it generates for them. */
module PackageManagers {
  import opened Errors
  import Text
  import Shlex

  datatype PackageManager = Yum | AptGet

  /** The program name, which is also the key it is looked up by. */
  function Name(pm: PackageManager): string {
    match pm
    case Yum => "yum"
    case AptGet => "apt-get"
  }

  /** The extension of the package files it installs. */
  function FileType(pm: PackageManager): string {
    match pm
    case Yum => "rpm"
    case AptGet => "deb"
  }

  /** The names `get_package_manager` accepts, in probing order. */
  const Supported: seq<string> := ["yum", "apt-get"]

  /** The words before the targets of an install command. */
  function InstallHead(pm: PackageManager): seq<string> {
    match pm
    case Yum => ["yum", "install", "-y"]
    case AptGet => ["apt-get", "-y", "update", "&&", "apt-get", "-y", "install"]
  }

  /** The words after the targets of an install command that also cleans up. */
  function CleanTail(pm: PackageManager): seq<string> {
    match pm
    case Yum => ["&&", "yum", "clean", "all", "&&", "rm", "-rf", "/var/cache/yum"]
    case AptGet => ["&&", "apt-get", "clean", "all"]
  }

  /** The words of `generate_install_command(targets, clean)`. */
  function InstallWords(pm: PackageManager, targets: seq<string>, clean: bool): (r: seq<string>)
    ensures |r| == |InstallHead(pm)| + |targets| + (if clean then |CleanTail(pm)| else 0)
    ensures r[..|InstallHead(pm)|] == InstallHead(pm)
    ensures r[|InstallHead(pm)|..|InstallHead(pm)| + |targets|] == targets
    ensures r[|InstallHead(pm)| + |targets|..] == (if clean then CleanTail(pm) else [])
  {
    var head := InstallHead(pm);
    var tail := if clean then CleanTail(pm) else [];
    var r := head + targets + tail;
    assert r[..|head|] == head;
    assert r[|head|..|head| + |targets|] == targets;
    assert r[|head| + |targets|..] == tail;
    r
  }

  /** `generate_install_command(targets, clean)`: the words space-joined. */
  function InstallCommand(pm: PackageManager, targets: seq<string>, clean: bool): string {
    Text.Join(" ", InstallWords(pm, targets, clean))
  }

  /** A shell reads the install command back as its words, when the targets
      are plain words. */
  lemma InstallCommandSplits(pm: PackageManager, targets: seq<string>, clean: bool)
    requires forall i :: 0 <= i < |targets| ==> Shlex.PlainWord(targets[i])
    ensures Shlex.Split(InstallCommand(pm, targets, clean)) == Ok(InstallWords(pm, targets, clean))
  {
    var w := InstallWords(pm, targets, clean);
    var head := InstallHead(pm);
    var tail := if clean then CleanTail(pm) else [];
    FixedWordsPlain(pm);
    assert w == head + targets + tail;
    forall i | 0 <= i < |w| ensures Shlex.PlainWord(w[i]) {
      if i < |head| {
        assert w[i] == head[i];
      } else if i < |head| + |targets| {
        assert w[i] == targets[i - |head|];
      } else {
        assert w[i] == tail[i - |head| - |targets|];
      }
    }
    Shlex.SplitPlainWords(w);
  }

  /** The fixed words of an install command are plain shell words. */
  lemma FixedWordsPlain(pm: PackageManager)
    ensures forall i :: 0 <= i < |InstallHead(pm)| ==> Shlex.PlainWord(InstallHead(pm)[i])
    ensures forall i :: 0 <= i < |CleanTail(pm)| ==> Shlex.PlainWord(CleanTail(pm)[i])
  {
  }

  /** `generate_package_command(target)`: install a local package file,
      shell-quoted. */
  function PackageCommand(pm: PackageManager, target: string): string {
    Shlex.JoinWords([if pm == Yum then "rpm" else "dpkg", "-i", target])
  }

  /** Round trip: the quoted package command reads back as exactly three
      words, whatever the target. */
  lemma PackageCommandSplits(pm: PackageManager, target: string)
    ensures Shlex.Split(PackageCommand(pm, target)) == Ok([if pm == Yum then "rpm" else "dpkg", "-i", target])
  {
    Shlex.SplitJoinWords([if pm == Yum then "rpm" else "dpkg", "-i", target]);
  }

  function Spaces(n: nat): (r: string)
    ensures |r| == n && forall i :: 0 <= i < n ==> r[i] == ' '
  {
    seq(n, _ => ' ')
  }

  /** `generate_configure_command()`. For yum it is a three-line command with
      backslash continuations padded to a common column. */
  function ConfigureCommand(pm: PackageManager): string {
    match pm
    case Yum =>
      "yum update -y" + Spaces(55) + "\\\n"
      + "  && echo 'skip_missing_names_on_install=False' >> /etc/yum.conf" + Spaces(4) + "\\\n"
      + "  && rm -rf /var/cache/yum"
    case AptGet => Text.Join(" ", AptGetConfigureWords)
  }

  /** The words of the single-line apt-get configure command. */
  const AptGetConfigureWords: seq<string> := ["apt-get", "-y", "update", "&&", "apt-get", "clean", "all"]

  /** The apt-get configure command reads back as its words. */
  lemma AptGetConfigureSplits()
    ensures Shlex.Split(ConfigureCommand(AptGet)) == Ok(AptGetConfigureWords)
  {
    Shlex.SplitPlainWords(AptGetConfigureWords);
  }

  lemma JoinClean()
    ensures Text.Join(" ", ["apt-get", "clean", "all"]) == "apt-get clean all"
  {
    Text.JoinCons(" ", "clean", ["all"]);
    assert ["clean"] + ["all"] == ["clean", "all"];
    Text.JoinCons(" ", "apt-get", ["clean", "all"]);
    assert ["apt-get"] + ["clean", "all"] == ["apt-get", "clean", "all"];
  }

  lemma JoinUpdate()
    ensures Text.Join(" ", ["-y", "update", "&&", "apt-get", "clean", "all"]) == "-y update && apt-get clean all"
  {
    var t := ["apt-get", "clean", "all"];
    JoinClean();
    Text.JoinCons(" ", "&&", t);
    Text.JoinCons(" ", "update", ["&&"] + t);
    Text.JoinCons(" ", "-y", ["update"] + (["&&"] + t));
    assert ["-y"] + (["update"] + (["&&"] + t)) == ["-y", "update", "&&", "apt-get", "clean", "all"];
  }

  /** The apt-get configure command, written out. */
  lemma AptGetConfigureText()
    ensures ConfigureCommand(AptGet) == "apt-get -y update && apt-get clean all"
  {
    var t := ["-y", "update", "&&", "apt-get", "clean", "all"];
    JoinUpdate();
    Text.JoinCons(" ", "apt-get", t);
    assert AptGetConfigureWords == ["apt-get"] + t;
  }

  /** `get_package_manager(name)`: exact, case-sensitive lookup. */
  function GetPackageManager(name: string): (r: Result<PackageManager>)
    ensures r.Ok? <==> name in Supported
    ensures r.Ok? ==> Name(r.value) == name
    ensures r.Err? ==> r.error == ValueError("Package manager '" + name + "' not recognized!")
  {
    if name == "apt-get" then Ok(AptGet)
    else if name == "yum" then Ok(Yum)
    else Err(ValueError("Package manager '" + name + "' not recognized!"))
  }

  /** Round trip the other way: every package manager is found by its name,
      and the names are distinct. */
  lemma GetPackageManagerName(pm: PackageManager)
    ensures GetPackageManager(Name(pm)) == Ok(pm)
    ensures Name(pm) in Supported
  {
  }
}

=== FILE: search.dfy ===
/** The test-data search of the newer generation: datasets read from a JSON
    file, accepted by a name glob or by a set of tags, and rendered back to
    a dictionary. Reading the file is left out: the parsed list of JSON
    objects is the input. */
module Search {
  import opened Errors
  import Text
  import Chains

  datatype TestFile = TestFile(name: string, checksum: string)

  datatype TestDataset = TestDataset(name: string, tags: seq<string>, url: string, files: seq<TestFile>)

  /** One entry of the data file as `json.load` gives it: the four keys a
      dataset is read from, each possibly missing. */
  datatype JsonObject = JsonObject(
    name: Option<string>,
    tags: Option<seq<string>>,
    url: Option<string>,
    files: Option<Chains.Dict<string>>)

  // ------------------------------------------------------------ reading

  function FilesOf(files: Chains.Dict<string>): (r: seq<TestFile>)
    ensures |r| == |files|
  {
    seq(|files|, i requires 0 <= i < |files| => TestFile(files[i].0, files[i].1))
  }

  /** `TestDataset.from_json_object`: the keys are read in the order name,
      tags, url, files, and the first one missing is the `KeyError`. */
  function FromJsonObject(j: JsonObject): (r: Result<TestDataset>)
    ensures r.Ok? <==> j.name.Some? && j.tags.Some? && j.url.Some? && j.files.Some?
    ensures j.name.None? ==> r == Err(KeyError("name"))
    ensures j.name.Some? && j.tags.None? ==> r == Err(KeyError("tags"))
    ensures j.name.Some? && j.tags.Some? && j.url.None? ==> r == Err(KeyError("url"))
    ensures j.name.Some? && j.tags.Some? && j.url.Some? && j.files.None? ==> r == Err(KeyError("files"))
    ensures r.Ok? ==> r.value.name == j.name.value && r.value.tags == j.tags.value && r.value.url == j.url.value
    ensures r.Ok? ==> (|r.value.files| == |j.files.value|
      && forall i :: 0 <= i < |j.files.value| ==>
           r.value.files[i].name == j.files.value[i].0 && r.value.files[i].checksum == j.files.value[i].1)
  {
    if j.name.None? then Err(KeyError("name"))
    else if j.tags.None? then Err(KeyError("tags"))
    else if j.url.None? then Err(KeyError("url"))
    else if j.files.None? then Err(KeyError("files"))
    else Ok(TestDataset(j.name.value, j.tags.value, j.url.value, FilesOf(j.files.value)))
  }

  /** Every entry of the file, in order; the first malformed one fails. */
  function Datasets(data: seq<JsonObject>): (r: Result<seq<TestDataset>>)
    decreases |data|
  {
    if |data| == 0 then Ok([])
    else
      var d :- FromJsonObject(data[0]);
      var rest :- Datasets(data[1..]);
      Ok([d] + rest)
  }

  lemma {:induction false} DatasetsReads(data: seq<JsonObject>)
    ensures Datasets(data).Ok? <==> forall i :: 0 <= i < |data| ==> FromJsonObject(data[i]).Ok?
    ensures Datasets(data).Ok? ==> (|Datasets(data).value| == |data|
      && forall i :: 0 <= i < |data| ==> Datasets(data).value[i] == FromJsonObject(data[i]).value)
    decreases |data|
  {
    if |data| > 0 {
      DatasetsReads(data[1..]);
      assert forall i :: 0 < i < |data| ==> data[i] == data[1..][i - 1];
    }
  }

  // ---------------------------------------------------------- name globs

  /** A glob pattern as `fnmatch.translate` reads it: `*` any run, `?` any
      one character, anything else itself. */
  datatype GlobItem = AnyRun | AnyChar | Literal(c: char)

  function Glob(pattern: string): (r: seq<GlobItem>)
    ensures |r| == |pattern|
    ensures forall i :: 0 <= i < |pattern| ==> (r[i] == AnyRun <==> pattern[i] == '*')
    ensures forall i :: 0 <= i < |pattern| ==> (r[i] == AnyChar <==> pattern[i] == '?')
    ensures forall i :: 0 <= i < |pattern| ==> (r[i].Literal? <==> pattern[i] != '*' && pattern[i] != '?')
  {
    seq(|pattern|, i requires 0 <= i < |pattern| =>
      if pattern[i] == '*' then AnyRun else if pattern[i] == '?' then AnyChar else Literal(pattern[i]))
  }

  /** Whether the whole of `s` matches the items (`re.match` of the
      translation, which ends in `\Z`; the translation matches newlines
      with `.` too). */
  predicate MatchItems(p: seq<GlobItem>, s: string)
    decreases |p| + |s|
  {
    if |p| == 0 then |s| == 0
    else match p[0]
      case AnyRun => MatchItems(p[1..], s) || (|s| > 0 && MatchItems(p, s[1..]))
      case AnyChar => |s| > 0 && MatchItems(p[1..], s[1..])
      case Literal(c) => |s| > 0 && s[0] == c && MatchItems(p[1..], s[1..])
  }

  predicate NameMatches(pattern: string, name: string) {
    MatchItems(Glob(pattern), name)
  }

  /** A pattern with no wildcard matches exactly itself: matching is
      case-sensitive and anchored at both ends. */
  lemma {:induction false} LiteralMatches(pattern: string, name: string)
    requires '*' !in pattern && '?' !in pattern
    ensures NameMatches(pattern, name) <==> name == pattern
    decreases |pattern|
  {
    if |pattern| > 0 {
      assert Glob(pattern)[1..] == Glob(pattern[1..]);
      if |name| > 0 {
        LiteralMatches(pattern[1..], name[1..]);
        if name[0] == pattern[0] && name[1..] == pattern[1..] {
          assert name == [name[0]] + name[1..];
          assert pattern == [pattern[0]] + pattern[1..];
        }
      }
    }
  }

  /** A leading `*` matches exactly when the rest matches some suffix. */
  lemma {:induction false} AnyRunSuffix(p: seq<GlobItem>, s: string)
    ensures MatchItems([AnyRun] + p, s) <==> exists k :: 0 <= k <= |s| && MatchItems(p, s[k..])
    decreases |s|
  {
    var q := [AnyRun] + p;
    assert q[1..] == p;
    assert s[0..] == s;
    if |s| > 0 {
      AnyRunSuffix(p, s[1..]);
      assert forall k :: 1 <= k <= |s| ==> s[1..][k - 1..] == s[k..];
      if exists k :: 0 <= k <= |s| && MatchItems(p, s[k..]) {
        var k :| 0 <= k <= |s| && MatchItems(p, s[k..]);
        if k > 0 {
          assert MatchItems(p, s[1..][k - 1..]);
        }
      }
    }
  }

  /** `*` accepts every name. */
  lemma StarMatchesAll(name: string)
    ensures NameMatches("*", name)
  {
    assert Glob("*") == [AnyRun] + [];
    AnyRunSuffix([], name);
    assert MatchItems([], name[|name|..]);
  }

  /** `?` accepts exactly the one-character names. */
  lemma QuestionMatchesOne(name: string)
    ensures NameMatches("?", name) <==> |name| == 1
  {
    var g := Glob("?");
    assert g[0] == AnyChar;
    assert g[1..] == [];
    if |name| > 0 {
      assert MatchItems(g, name) == MatchItems([], name[1..]);
    }
  }

  // ----------------------------------------------------------- accepting

  /** The first loop of `_accept_item`: some name glob matches. A name that
      is `None` trips the loop's assertion when it is reached. */
  function AnyName(names: seq<Option<string>>, itemName: string): (r: Result<bool>)
    ensures r.Err? ==> r.error == AssertionError
    decreases |names|
  {
    if |names| == 0 then Ok(false)
    else if names[0].None? then Err(AssertionError)
    else if NameMatches(names[0].value, itemName) then Ok(true)
    else AnyName(names[1..], itemName)
  }

  /** Every tag of the list is among the item's tags. */
  predicate Subset(tagList: seq<string>, itemTags: seq<string>) {
    forall t :: t in tagList ==> t in itemTags
  }

  /** The second loop: some tag list is contained in the item's tags. */
  function AnyTagList(tags: seq<Option<seq<string>>>, itemTags: seq<string>): (r: Result<bool>)
    ensures r.Err? ==> r.error == AssertionError
    decreases |tags|
  {
    if |tags| == 0 then Ok(false)
    else if tags[0].None? then Err(AssertionError)
    else if Subset(tags[0].value, itemTags) then Ok(true)
    else AnyTagList(tags[1..], itemTags)
  }

  /** `_accept_item(item, tags, names)`. */
  function AcceptItem(item: TestDataset, tags: seq<Option<seq<string>>>, names: seq<Option<string>>)
    : (r: Result<bool>)
    ensures r.Err? ==> r.error == AssertionError
  {
    var byName :- AnyName(names, item.name);
    if byName then Ok(true) else AnyTagList(tags, item.tags)
  }

  function Somes<T>(s: seq<T>): (r: seq<Option<T>>)
    ensures |r| == |s| && forall i :: 0 <= i < |s| ==> r[i] == Some(s[i])
  {
    seq(|s|, i requires 0 <= i < |s| => Some(s[i]))
  }

  /** What the search promises: an item is accepted when its name matches
      one of the globs or its tags include all of one of the tag lists. */
  predicate Accepted(item: TestDataset, tagLists: seq<seq<string>>, patterns: seq<string>) {
    (exists i :: 0 <= i < |patterns| && NameMatches(patterns[i], item.name))
    || (exists j :: 0 <= j < |tagLists| && Subset(tagLists[j], item.tags))
  }

  lemma {:induction false} AnyNameFinds(patterns: seq<string>, itemName: string)
    ensures AnyName(Somes(patterns), itemName)
            == Ok(exists i :: 0 <= i < |patterns| && NameMatches(patterns[i], itemName))
    decreases |patterns|
  {
    if |patterns| > 0 {
      assert Somes(patterns)[1..] == Somes(patterns[1..]);
      AnyNameFinds(patterns[1..], itemName);
      assert forall i :: 0 < i < |patterns| ==> patterns[i] == patterns[1..][i - 1];
      if exists i :: 0 <= i < |patterns[1..]| && NameMatches(patterns[1..][i], itemName) {
        var i :| 0 <= i < |patterns[1..]| && NameMatches(patterns[1..][i], itemName);
        assert NameMatches(patterns[i + 1], itemName);
      }
    }
  }

  lemma {:induction false} AnyTagListFinds(tagLists: seq<seq<string>>, itemTags: seq<string>)
    ensures AnyTagList(Somes(tagLists), itemTags)
            == Ok(exists j :: 0 <= j < |tagLists| && Subset(tagLists[j], itemTags))
    decreases |tagLists|
  {
    if |tagLists| > 0 {
      assert Somes(tagLists)[1..] == Somes(tagLists[1..]);
      AnyTagListFinds(tagLists[1..], itemTags);
      assert forall j :: 0 < j < |tagLists| ==> tagLists[j] == tagLists[1..][j - 1];
      if exists j :: 0 <= j < |tagLists[1..]| && Subset(tagLists[1..][j], itemTags) {
        var j :| 0 <= j < |tagLists[1..]| && Subset(tagLists[1..][j], itemTags);
        assert Subset(tagLists[j + 1], itemTags);
      }
    }
  }

  /** With no `None` among the terms, `_accept_item` decides exactly the
      promised union. */
  lemma AcceptItemMeansAccepted(item: TestDataset, tagLists: seq<seq<string>>, patterns: seq<string>)
    ensures AcceptItem(item, Somes(tagLists), Somes(patterns)) == Ok(Accepted(item, tagLists, patterns))
  {
    AnyNameFinds(patterns, item.name);
    AnyTagListFinds(tagLists, item.tags);
  }

  /** An empty tag list accepts every item; with no terms at all nothing is
      accepted. */
  lemma AcceptEdges(item: TestDataset, patterns: seq<string>)
    ensures AcceptItem(item, Somes([[]]), Somes(patterns)) == Ok(true)
    ensures AcceptItem(item, [], []) == Ok(false)
  {
    AcceptItemMeansAccepted(item, [[]], patterns);
    var lists: seq<seq<string>> := [[]];
    assert Subset(lists[0], item.tags);
  }

  // ------------------------------------------------------------ searching

  /** `filter(lambda x: _accept_item(x, tags, names), datasets)`, consumed
      in order so that the first failing item's error is the one raised. */
  function FilterAccepted(ds: seq<TestDataset>, tags: seq<Option<seq<string>>>, names: seq<Option<string>>)
    : (r: Result<seq<TestDataset>>)
    ensures r.Ok? <==> forall i :: 0 <= i < |ds| ==> AcceptItem(ds[i], tags, names).Ok?
    ensures r.Err? ==> r.error == AssertionError
    ensures r.Ok? ==> r.value == Text.Filter(ds, (d: TestDataset) => AcceptItem(d, tags, names) == Ok(true))
    decreases |ds|
  {
    if |ds| == 0 then Ok([])
    else
      var a :- AcceptItem(ds[0], tags, names);
      var rest :- FilterAccepted(ds[1..], tags, names);
      Ok(if a then [ds[0]] + rest else rest)
  }

  function AcceptTest(tagLists: seq<seq<string>>, patterns: seq<string>): (p: TestDataset -> bool)
    ensures forall x :: p(x) == Accepted(x, tagLists, patterns)
  {
    (x: TestDataset) => Accepted(x, tagLists, patterns)
  }

  lemma {:induction false} FilterAcceptedIsFilter(ds: seq<TestDataset>, tagLists: seq<seq<string>>, patterns: seq<string>)
    ensures FilterAccepted(ds, Somes(tagLists), Somes(patterns)) == Ok(Text.Filter(ds, AcceptTest(tagLists, patterns)))
    decreases |ds|
  {
    if |ds| > 0 {
      AcceptItemMeansAccepted(ds[0], tagLists, patterns);
      FilterAcceptedIsFilter(ds[1..], tagLists, patterns);
    }
  }

  const AllConflictMessage: string := "'all' cannot be used in conjunction with 'tags' or 'names'."

  /** `search_file(tags, names, filename, all)` on the parsed file `data`.
      Asking for everything together with search terms prints a message and
      exits before the file is read. */
  function SearchFile(data: seq<JsonObject>, tags: seq<Option<seq<string>>>, names: seq<Option<string>>, all: bool)
    : (r: Result<seq<TestDataset>>)
    ensures all && (|names| > 0 || |tags| > 0) ==> r == Err(SystemExit)
    ensures all && |names| == 0 && |tags| == 0 ==> r == Datasets(data)
  {
    if all && (|names| > 0 || |tags| > 0) then Err(SystemExit)
    else
      var ds :- Datasets(data);
      if all then Ok(ds) else FilterAccepted(ds, tags, names)
  }

  /** A search with terms returns, in file order, exactly the datasets the
      terms accept. */
  lemma SearchFileFilters(data: seq<JsonObject>, tagLists: seq<seq<string>>, patterns: seq<string>)
    requires Datasets(data).Ok?
    ensures var r := SearchFile(data, Somes(tagLists), Somes(patterns), false);
      r.Ok? && r.value == Text.Filter(Datasets(data).value, AcceptTest(tagLists, patterns))
      && forall x :: x in r.value <==> x in Datasets(data).value && Accepted(x, tagLists, patterns)
  {
    FilterAcceptedIsFilter(Datasets(data).value, tagLists, patterns);
  }

  /** `names_only_search`: the names of the datasets the search returns, in
      the same order. */
  function NamesOnlySearch(data: seq<JsonObject>, tags: seq<Option<seq<string>>>, names: seq<Option<string>>,
                           all: bool): (r: Result<seq<string>>)
    ensures r.Ok? <==> SearchFile(data, tags, names, all).Ok?
    ensures r.Ok? ==> (|r.value| == |SearchFile(data, tags, names, all).value|
      && forall i :: 0 <= i < |r.value| ==> r.value[i] == SearchFile(data, tags, names, all).value[i].name)
  {
    var items :- SearchFile(data, tags, names, all);
    Ok(seq(|items|, i requires 0 <= i < |items| => items[i].name))
  }

  /** Asking for everything gives the name of every entry of the file. */
  lemma NamesOfAll(data: seq<JsonObject>)
    requires forall i :: 0 <= i < |data| ==> FromJsonObject(data[i]).Ok?
    ensures var r := NamesOnlySearch(data, [], [], true);
      r.Ok? && |r.value| == |data| && forall i :: 0 <= i < |data| ==> r.value[i] == FromJsonObject(data[i]).value.name
  {
    DatasetsReads(data);
  }

  // ----------------------------------------------------------- rendering

  /** A value of the rendered dictionary. */
  datatype FieldValue = Str(s: string) | StrList(items: seq<string>) | Checksums(map_: Chains.Dict<string>)

  /** The dataclass's fields, in declaration order. */
  const DatasetFields: seq<string> := ["name", "tags", "url", "files"]

  /** The files as a file name to checksum dictionary, filled in order (a
      later file of the same name overwrites the earlier checksum). */
  function FilesMap(acc: Chains.Dict<string>, files: seq<TestFile>): (r: Chains.Dict<string>)
    decreases |files|
  {
    if |files| == 0 then acc
    else FilesMap(Chains.Put(acc, files[0].name, files[0].checksum), files[1..])
  }

  function FieldOf(ds: TestDataset, field: string): FieldValue
    requires field in DatasetFields
  {
    if field == "name" then Str(ds.name)
    else if field == "tags" then StrList(ds.tags)
    else if field == "url" then Str(ds.url)
    else Checksums(FilesMap([], ds.files))
  }

  function UnknownFieldMessage(field: string): string {
    "Unknown field given: " + field
  }

  function PutFields(ds: TestDataset, fields: seq<string>, acc: Chains.Dict<FieldValue>)
    : (r: Result<Chains.Dict<FieldValue>>)
    decreases |fields|
  {
    if |fields| == 0 then Ok(acc)
    else if fields[0] !in DatasetFields then Err(ValueError(UnknownFieldMessage(fields[0])))
    else PutFields(ds, fields[1..], Chains.Put(acc, fields[0], FieldOf(ds, fields[0])))
  }

  /** The elements of `s` that are not in `seen`, each once, in the order
      of their first occurrence. */
  function FirstOccurrences(s: seq<string>, seen: seq<string>): (r: seq<string>)
    ensures forall x :: x in r ==> x in s && x !in seen
    decreases |s|
  {
    if |s| == 0 then []
    else if s[0] in seen then FirstOccurrences(s[1..], seen)
    else [s[0]] + FirstOccurrences(s[1..], seen + [s[0]])
  }

  /** No key is entered twice. */
  predicate DistinctKeys<V>(d: Chains.Dict<V>) {
    forall i, j :: 0 <= i < j < |d| ==> d[i].0 != d[j].0
  }

  /** Every entry is a field of the dataset holding that field's value,
      unless the field is still to be entered. */
  predicate FieldsFrom(ds: TestDataset, d: Chains.Dict<FieldValue>, pending: seq<string>) {
    forall i :: 0 <= i < |d| ==> d[i].0 in DatasetFields && (d[i].0 in pending || d[i].1 == FieldOf(ds, d[i].0))
  }

  /** `to_dict(fields)`. No fields means every field. A requested "files"
      is entered first, so it leads the dictionary whatever its position in
      the request. */
  function ToDict(ds: TestDataset, fields: seq<string>): (r: Result<Chains.Dict<FieldValue>>)
    ensures (r.Ok? <==> forall i :: 0 <= i < |fields| ==> fields[i] in DatasetFields)
    ensures r.Err? ==> exists i :: 0 <= i < |fields| && r.error == ValueError(UnknownFieldMessage(fields[i]))
    ensures var fs := if |fields| == 0 then DatasetFields else fields;
      r.Ok? ==> (forall k :: k in Chains.Keys(r.value) <==> k in fs)
                && ("files" in fs ==> Chains.Keys(r.value)[0] == "files")
    ensures var fs := if |fields| == 0 then DatasetFields else fields;
      r.Ok? ==> Chains.Keys(r.value) == (if "files" in fs then ["files"] + FirstOccurrences(fs, ["files"])
                                          else FirstOccurrences(fs, []))
    ensures r.Ok? ==> forall i :: 0 <= i < |r.value| ==>
                        r.value[i].0 in DatasetFields && r.value[i].1 == FieldOf(ds, r.value[i].0)
  {
    var fs := if |fields| == 0 then DatasetFields else fields;
    var start: Chains.Dict<FieldValue> := if "files" in fs then [("files", Checksums([]))] else [];
    PutFieldsFrom(ds, fs, start);
    assert forall i :: 0 <= i < 4 ==> DatasetFields[i] in DatasetFields;
    PutFields(ds, fs, start)
  }

  /** What `to_dict` gives for the fields it enters, starting from the
      dictionary it prepares. */
  lemma PutFieldsFrom(ds: TestDataset, fs: seq<string>, start: Chains.Dict<FieldValue>)
    requires start == if "files" in fs then [("files", Checksums([]))] else []
    ensures var r := PutFields(ds, fs, start);
      (r.Ok? <==> forall i :: 0 <= i < |fs| ==> fs[i] in DatasetFields)
      && (r.Err? ==> exists i :: 0 <= i < |fs| && r.error == ValueError(UnknownFieldMessage(fs[i])))
      && (r.Ok? ==> (forall k :: k in Chains.Keys(r.value) <==> k in fs)
                    && ("files" in fs ==> Chains.Keys(r.value)[0] == "files"))
      && (r.Ok? ==> Chains.Keys(r.value) == (if "files" in fs then ["files"] + FirstOccurrences(fs, ["files"])
                                             else FirstOccurrences(fs, [])))
      && (r.Ok? ==> forall i :: 0 <= i < |r.value| ==>
                      r.value[i].0 in DatasetFields && r.value[i].1 == FieldOf(ds, r.value[i].0))
  {
    PutFieldsErrors(ds, fs, start);
    PutFieldsKeys(ds, fs, start);
    PutFieldsOrder(ds, fs, start);
    assert Chains.Keys(start) == if "files" in fs then ["files"] else [];
    PutFieldsValues(ds, fs, start);
  }

  /** What entering one field does to the keys. */
  lemma PutKeys<V>(acc: Chains.Dict<V>, k: string, v: V)
    ensures forall x :: x in Chains.Keys(Chains.Put(acc, k, v)) <==> x in Chains.Keys(acc) || x == k
    ensures |acc| <= |Chains.Put(acc, k, v)|
    ensures forall i :: 0 <= i < |acc| ==> Chains.Keys(Chains.Put(acc, k, v))[i] == acc[i].0
  {
    var r := Chains.Put(acc, k, v);
    if k in Chains.Keys(acc) {
      forall i | 0 <= i < |acc|
        ensures Chains.Keys(r)[i] == acc[i].0
      {
        assert Chains.Keys(r)[i] == Chains.Keys(acc)[i];
      }
    } else {
      assert Chains.Keys(r) == Chains.Keys(acc) + [k];
    }
  }

  lemma {:induction false} PutFieldsErrors(ds: TestDataset, fields: seq<string>, acc: Chains.Dict<FieldValue>)
    ensures var r := PutFields(ds, fields, acc);
      (r.Ok? <==> forall i :: 0 <= i < |fields| ==> fields[i] in DatasetFields)
      && (r.Err? ==> exists i :: 0 <= i < |fields| && fields[i] !in DatasetFields
                              && r.error == ValueError(UnknownFieldMessage(fields[i]))
                              && forall j :: 0 <= j < i ==> fields[j] in DatasetFields)
    decreases |fields|
  {
    if |fields| > 0 && fields[0] in DatasetFields {
      var acc' := Chains.Put(acc, fields[0], FieldOf(ds, fields[0]));
      PutFieldsErrors(ds, fields[1..], acc');
      assert forall i :: 0 < i < |fields| ==> fields[i] == fields[1..][i - 1];
      var r := PutFields(ds, fields, acc);
      if r.Err? {
        var i :| 0 <= i < |fields[1..]| && fields[1..][i] !in DatasetFields
          && r.error == ValueError(UnknownFieldMessage(fields[1..][i]))
          && forall j :: 0 <= j < i ==> fields[1..][j] in DatasetFields;
        assert fields[i + 1] !in DatasetFields;
      }
    }
  }

  lemma {:induction false} PutFieldsKeys(ds: TestDataset, fields: seq<string>, acc: Chains.Dict<FieldValue>)
    ensures var r := PutFields(ds, fields, acc);
      (r.Ok? ==> forall k :: k in Chains.Keys(r.value) <==> k in Chains.Keys(acc) || k in fields)
      && (r.Ok? ==> |acc| <= |r.value| && forall i :: 0 <= i < |acc| ==> Chains.Keys(r.value)[i] == acc[i].0)
    decreases |fields|
  {
    if |fields| > 0 && fields[0] in DatasetFields {
      var acc' := Chains.Put(acc, fields[0], FieldOf(ds, fields[0]));
      PutKeys(acc, fields[0], FieldOf(ds, fields[0]));
      PutFieldsKeys(ds, fields[1..], acc');
      assert forall k :: k in fields <==> k == fields[0] || k in fields[1..];
    }
  }

  /** Entering the fields adds the new ones after the old keys, in the
      order they are first requested. */
  lemma {:induction false} PutFieldsOrder(ds: TestDataset, fields: seq<string>, acc: Chains.Dict<FieldValue>)
    ensures var r := PutFields(ds, fields, acc);
      r.Ok? ==> Chains.Keys(r.value) == Chains.Keys(acc) + FirstOccurrences(fields, Chains.Keys(acc))
    decreases |fields|
  {
    if |fields| > 0 && fields[0] in DatasetFields {
      var k := fields[0];
      var acc' := Chains.Put(acc, k, FieldOf(ds, k));
      PutFieldsOrder(ds, fields[1..], acc');
      if k !in Chains.Keys(acc) {
        PutNew(acc, k, FieldOf(ds, k));
        assert Chains.Keys(acc) + [k] + FirstOccurrences(fields[1..], Chains.Keys(acc) + [k])
            == Chains.Keys(acc) + ([k] + FirstOccurrences(fields[1..], Chains.Keys(acc) + [k]));
      }
    }
  }

  /** Entering the fields leaves every key holding its own field's value. */
  lemma {:induction false} PutFieldsValues(ds: TestDataset, fields: seq<string>, acc: Chains.Dict<FieldValue>)
    requires DistinctKeys(acc) && FieldsFrom(ds, acc, fields)
    ensures var r := PutFields(ds, fields, acc);
      r.Ok? ==> DistinctKeys(r.value) && FieldsFrom(ds, r.value, [])
    decreases |fields|
  {
    if |fields| > 0 && fields[0] in DatasetFields {
      var k := fields[0];
      var acc' := Chains.Put(acc, k, FieldOf(ds, k));
      if k in Chains.Keys(acc) {
        var n := Chains.KeyIndex(acc', k);
        forall i | 0 <= i < |acc'|
          ensures acc'[i].0 == acc[i].0
        {
          assert Chains.Keys(acc')[i] == Chains.Keys(acc)[i];
        }
        forall i | 0 <= i < |acc'|
          ensures acc'[i].0 in fields[1..] || acc'[i].1 == FieldOf(ds, acc'[i].0)
        {
          if acc[i].0 != k {
            assert acc'[i] == acc[i];
            assert acc[i].0 in fields ==> acc[i].0 in fields[1..];
          } else {
            assert i == n;
          }
        }
      } else {
        PutNew(acc, k, FieldOf(ds, k));
        forall i | 0 <= i < |acc|
          ensures acc[i].0 in fields[1..] || acc[i].1 == FieldOf(ds, acc[i].0)
        {
          assert acc[i].0 != k;
          assert acc[i].0 in fields ==> acc[i].0 in fields[1..];
        }
      }
      PutFieldsValues(ds, fields[1..], acc');
    }
  }

  // ---------------------------------------------------------- round trip

  /** Entering a new key appends it. */
  lemma PutNew<V>(acc: Chains.Dict<V>, k: string, v: V)
    requires k !in Chains.Keys(acc)
    ensures Chains.Put(acc, k, v) == acc + [(k, v)]
    ensures Chains.Keys(acc + [(k, v)]) == Chains.Keys(acc) + [k]
  {
  }

  lemma DistinctRest(d: Chains.Dict<string>)
    requires |d| > 0 && Chains.Distinct(Chains.Keys(d))
    ensures Chains.Distinct(Chains.Keys(d[1..]))
    ensures forall i :: 0 <= i < |d| - 1 ==> d[1..][i].0 != d[0].0
  {
    assert forall i :: 0 <= i < |d| - 1 ==> Chains.Keys(d[1..])[i] == Chains.Keys(d)[i + 1];
    forall i | 0 <= i < |d| - 1
      ensures d[1..][i].0 != d[0].0
    {
      assert Chains.Keys(d)[i + 1] != Chains.Keys(d)[0];
    }
  }

  lemma {:induction false} FilesMapRecords(acc: Chains.Dict<string>, d: Chains.Dict<string>)
    requires Chains.Distinct(Chains.Keys(d))
    requires forall i :: 0 <= i < |d| ==> d[i].0 !in Chains.Keys(acc)
    ensures FilesMap(acc, FilesOf(d)) == acc + d
    decreases |d|
  {
    if |d| > 0 {
      var f := FilesOf(d);
      assert f[0] == TestFile(d[0].0, d[0].1);
      assert f[1..] == FilesOf(d[1..]);
      PutNew(acc, d[0].0, d[0].1);
      var acc' := acc + [d[0]];
      DistinctRest(d);
      assert forall i :: 0 <= i < |d| - 1 ==> d[1..][i].0 !in Chains.Keys(acc) by {
        assert forall i :: 0 <= i < |d| - 1 ==> d[1..][i] == d[i + 1];
      }
      FilesMapRecords(acc', d[1..]);
      assert acc' + d[1..] == acc + d;
    }
  }

  /** Rendering every field: "files" first, then name, tags and url. */
  lemma RenderAll(ds: TestDataset)
    ensures ToDict(ds, [])
            == Ok([("files", Checksums(FilesMap([], ds.files))), ("name", Str(ds.name)),
                   ("tags", StrList(ds.tags)), ("url", Str(ds.url))])
  {
    assert "files" in DatasetFields by { assert DatasetFields[3] == "files"; }
    var a0: Chains.Dict<FieldValue> := [("files", Checksums([]))];
    PutNew(a0, "name", Str(ds.name));
    var a1 := a0 + [("name", Str(ds.name))];
    PutNew(a1, "tags", StrList(ds.tags));
    var a2 := a1 + [("tags", StrList(ds.tags))];
    PutNew(a2, "url", Str(ds.url));
    var a3 := a2 + [("url", Str(ds.url))];
    RenderFilesLast(ds, a3);
    assert DatasetFields[1..] == ["tags", "url", "files"];
    assert DatasetFields[2..] == ["url", "files"];
    assert DatasetFields[3..] == ["files"];
    assert PutFields(ds, ["url", "files"], a2) == PutFields(ds, ["files"], a3);
    assert PutFields(ds, ["tags", "url", "files"], a1) == PutFields(ds, ["url", "files"], a2);
    assert PutFields(ds, DatasetFields, a0) == PutFields(ds, ["tags", "url", "files"], a1);
    assert ToDict(ds, []) == PutFields(ds, DatasetFields, a0);
    assert a3[0 := ("files", Checksums(FilesMap([], ds.files)))]
           == [("files", Checksums(FilesMap([], ds.files))), ("name", Str(ds.name)),
               ("tags", StrList(ds.tags)), ("url", Str(ds.url))];
  }

  lemma RenderFilesLast(ds: TestDataset, a3: Chains.Dict<FieldValue>)
    requires |a3| == 4 && a3[0].0 == "files"
    ensures PutFields(ds, ["files"], a3) == Ok(a3[0 := ("files", Checksums(FilesMap([], ds.files)))])
  {
    assert Chains.Keys(a3)[0] == "files";
    assert Chains.KeyIndex(a3, "files") == 0;
    assert ["files"][1..] == [];
  }

  /** Reading a dataset and rendering it back gives every field as it was
      read, the files mapping unchanged, with "files" first. */
  lemma ReadRenderRoundTrip(j: JsonObject)
    requires FromJsonObject(j).Ok?
    requires Chains.Distinct(Chains.Keys(j.files.value))
    ensures ToDict(FromJsonObject(j).value, [])
            == Ok([("files", Checksums(j.files.value)), ("name", Str(j.name.value)),
                   ("tags", StrList(j.tags.value)), ("url", Str(j.url.value))])
  {
    var ds := FromJsonObject(j).value;
    RenderAll(ds);
    FilesMapRecords([], j.files.value);
    assert [] + j.files.value == j.files.value;
  }
}

=== FILE: setup.dfy ===
/** The setup commands of the older generation: five images built one on
    top of another — a base with a default user, the CUDA runtime, the
    micromamba runtime environment, the CUDA development packages and the
    development environment — and the stand-alone command for each. */
module Setup {
  import opened Errors
  import Text
  import Defaults
  import opened Engine
  import DockerImage
  import Utils
  import DockerCuda
  import Mamba
  import Chains

  type Image = DockerImage.Image
  type Capabilities = Utils.Capabilities

  /** An environment file once resolved: the directory that becomes the
      build context, and the file's path relative to it. */
  datatype EnvFile = EnvFile(context: string, relative: string)

  /** `Image.build(tag=…, dockerfile_string=…, no_cache=…, context=…)` as
      the setup commands call it: on the host network, from a string. */
  function BuildString(engine: Engine, tag: string, dockerfile: string, context: string, noCache: bool): Result<Image> {
    DockerImage.Build(engine, tag, None, Some(dockerfile), Some(context), "host", noCache)
  }

  /** A successful build returns the image its tag now names. */
  lemma BuildStringFinds(engine: Engine, tag: string, dockerfile: string, context: string, noCache: bool)
    ensures var r := BuildString(engine, tag, dockerfile, context, noCache);
      r.Ok? ==> DockerImage.GetImageId(engine, tag) == Ok(r.value.id)
  {
  }

  // -------------------------------------------------------------- Dockerfiles

  /** The default user and group every later image runs as, and a `/tmp`
      anyone may write to. */
  const UserBlock: string :=
    "ENV DEFAULT_GROUP defaultgroup\nENV DEFAULT_USER defaultuser\nENV DEFAULT_GID 1000\nENV DEFAULT_UID 1000\n\n"
    + "RUN groupadd -g $DEFAULT_GID $DEFAULT_GROUP\nRUN useradd -g $DEFAULT_GID -u $DEFAULT_UID -m $DEFAULT_USER\n\n"
    + "RUN chmod -R 777 /tmp"

  /** The `FROM` line and the blank line after it. */
  function From(base: string): string {
    "FROM " + base + "\n\n"
  }

  /** The Dockerfile of `setup_init`: the probe's lines, then the user
      block. */
  function InitDockerfile(base: string, initLines: string): string {
    From(base) + initLines + "\n" + UserBlock
  }

  /** The Dockerfile both CUDA commands build: the lines the probe asked
      for, a blank line, then the generated body. */
  function CudaDockerfile(base: string, initLines: string, body: string): string {
    From(base) + initLines + "\n\n" + body
  }

  /** The Dockerfile of `setup_conda_runtime`: the micromamba stage, then
      this image's `FROM` and the micromamba install body. */
  function CondaRuntimeDockerfile(base: string, env: EnvFile): string {
    var (header, body) := Mamba.InstallDockerfile(env.relative);
    header + "\n\n" + From(base) + body
  }

  /** The Dockerfile of `setup_conda_dev`: install the development spec
      file. */
  function CondaDevDockerfile(base: string, env: EnvFile): string {
    From(base) + Mamba.AddSpecsDockerfile(env.relative)
  }

  /** The user image starts from the base, carries the probe's lines right
      after the `FROM` line, and ends with the user block. */
  lemma InitDockerfileShape(base: string, initLines: string)
    ensures var r := InitDockerfile(base, initLines);
      Text.StartsWith(r, From(base)) && Text.OccursAt(r, initLines, |From(base)|) && Text.EndsWith(r, "\n" + UserBlock)
  {
    var r := InitDockerfile(base, initLines);
    assert r == From(base) + initLines + ("\n" + UserBlock);
    assert r[..|From(base)|] == From(base);
    assert r[|From(base)|..|From(base)| + |initLines|] == initLines;
    assert r[|r| - |"\n" + UserBlock|..] == "\n" + UserBlock;
  }

  /** A CUDA image starts from its base, carries the probe's lines right
      after the `FROM` line (none when the tools were given), and ends with
      the generated body after a blank line. */
  lemma CudaDockerfileShape(base: string, initLines: string, body: string)
    ensures var r := CudaDockerfile(base, initLines, body);
      Text.StartsWith(r, From(base)) && Text.OccursAt(r, initLines, |From(base)|) && Text.EndsWith(r, "\n\n" + body)
    ensures CudaDockerfile(base, "", body) == "FROM " + base + "\n\n\n\n" + body
  {
    var r := CudaDockerfile(base, initLines, body);
    assert r == From(base) + initLines + ("\n\n" + body);
    assert r[..|From(base)|] == From(base);
    assert r[|From(base)|..|From(base)| + |initLines|] == initLines;
    assert r[|r| - |"\n\n" + body|..] == "\n\n" + body;
  }

  /** The conda runtime image first names the micromamba stage, then starts
      from its base, and ends by installing the runtime spec file. */
  lemma CondaRuntimeDockerfileShape(base: string, env: EnvFile)
    ensures var r := CondaRuntimeDockerfile(base, env);
      Text.StartsWith(r, Mamba.InstallHeader + "\n\n" + From(base))
      && Text.EndsWith(r, Mamba.AddSpecsDockerfile(env.relative))
  {
    var (header, body) := Mamba.InstallDockerfile(env.relative);
    var head := header + "\n\n" + From(base);
    var r := CondaRuntimeDockerfile(base, env);
    assert r == head + body;
    assert r[..|head|] == head;
    assert Text.EndsWith(r, body) by {
      assert r[|r| - |body|..] == body;
    }
    Text.EndsWithTrans(r, body, Mamba.AddSpecsDockerfile(env.relative));
  }

  /** The conda dev image starts from its base and installs the dev spec
      file. */
  lemma CondaDevDockerfileShape(base: string, env: EnvFile)
    ensures var r := CondaDevDockerfile(base, env);
      Text.StartsWith(r, From(base)) && Text.EndsWith(r, Mamba.AddSpecsDockerfile(env.relative))
  {
    var body := Mamba.AddSpecsDockerfile(env.relative);
    var r := CondaDevDockerfile(base, env);
    assert r[..|From(base)|] == From(base);
    assert r[|r| - |body|..] == body;
  }

  // ------------------------------------------------------- package manager

  const RuntimeToolsMessage: string := "Either both package_manager and url_reader must both be defined, or neither."
  const DevToolsMessage: string := "Either both package_manager and url_reader must both be defined or neither."

  /** The capability probe on a throwaway image. */
  function ProbeTools(engine: Engine, img: Image, configure: bool): Result<Capabilities> {
    Utils.ImageCommandCheck(Utils.ImageProbe(engine, img), configure)
  }

  /** The package manager and URL reader a CUDA command works with: the
      ones given, with no extra lines; an error if only one is given; or,
      if neither is, what `probed` found (only then is it consulted). */
  function ResolveTools(pm: Option<Utils.PM.PackageManager>, reader: Option<Utils.UR.UrlReader>, message: string,
                        probed: Result<Capabilities>): (r: Result<Capabilities>)
    ensures pm.Some? && reader.Some? ==> r == Ok(Utils.Capabilities(pm.value, reader.value, ""))
    ensures pm.Some? != reader.Some? ==> r == Err(ValueError(message))
    ensures pm.None? && reader.None? ==> r == probed
  {
    if pm.Some? && reader.Some? then Ok(Utils.Capabilities(pm.value, reader.value, ""))
    else if pm.Some? || reader.Some? then Err(ValueError(message))
    else probed
  }

  // ------------------------------------------------------------ the commands

  /** `setup_init(base, tag, no_cache)`: probe the base, then build the
      user image under the prefixed tag; report what the probe found. */
  function SetupInit(engine: Engine, draw: nat -> nat, base: string, tag: string, noCache: bool)
    : (r: Result<(Image, Capabilities)>)
    ensures var probed := Utils.TempImageAsWritten(engine, base, draw, (img: Image) => ProbeTools(engine, img, true)).result;
      (probed.Err? ==> r == Err(probed.error))
      && (probed.Ok? ==>
            var built := BuildString(engine, Defaults.PrefixTag(tag), InitDockerfile(base, probed.value.initLines), ".", noCache);
            (r.Ok? <==> built.Ok?) && (r.Ok? ==> r.value == (built.value, probed.value))
            && (r.Err? ==> r.error == built.error))
  {
    var caps :- Utils.TempImageAsWritten(engine, base, draw, (img: Image) => ProbeTools(engine, img, true)).result;
    var img :- BuildString(engine, Defaults.PrefixTag(tag), InitDockerfile(base, caps.initLines), ".", noCache);
    Ok((img, caps))
  }

  /** A base that cannot be built from fails `setup_init` with the
      builder's own error for the throwaway image, and nothing else is
      built. */
  lemma SetupInitMissingBase(draw: nat -> nat, base: string, tag: string, noCache: bool)
    ensures SetupInit(Utils.MissingEverything(), draw, base, tag, noCache)
            == Err(DockerBuildError("String dockerfile " + Utils.TempTag(draw) + " failed to build."))
  {
    var engine := Utils.MissingEverything();
    Utils.TempImageMissesMissingBase(base, draw, (img: Image) => ProbeTools(engine, img, true));
  }

  /** What `setup_cuda_runtime` does once the tools are settled: parse the
      version, refuse CUDA below 11, and build the runtime body on top of
      the probe's lines under the prefixed tag. */
  function CudaRuntimeWith(engine: Engine, base: string, tag: string, noCache: bool, cudaVersion: string,
                           repo: string, caps: Capabilities, arch: string): (r: Result<Image>)
    ensures Utils.ParseCudaInfo(cudaVersion).Err? ==> r == Err(Utils.ParseCudaInfo(cudaVersion).error)
    ensures Utils.ParseCudaInfo(cudaVersion).Ok? && Utils.ParseCudaInfo(cudaVersion).value.0 < 11
            ==> r == Err(ValueError(DockerCuda.BelowElevenMessage))
    ensures Utils.ParseCudaInfo(cudaVersion).Ok? && Utils.ParseCudaInfo(cudaVersion).value.0 >= 11
            ==> var v := Utils.ParseCudaInfo(cudaVersion).value;
                var gen := DockerCuda.Generator(caps.packageManager, caps.urlReader);
                var body := DockerCuda.RuntimeDockerfile(gen, v.0, v.1, repo, arch).value;
                r == BuildString(engine, Defaults.PrefixTag(tag), CudaDockerfile(base, caps.initLines, body), ".", noCache)
  {
    var v :- Utils.ParseCudaInfo(cudaVersion);
    // Dispatching on the package manager object always succeeds
    // (DockerCuda.GetGeneratorByName).
    var gen := DockerCuda.Generator(caps.packageManager, caps.urlReader);
    var body :- DockerCuda.RuntimeDockerfile(gen, v.0, v.1, repo, arch);
    BuildString(engine, Defaults.PrefixTag(tag), CudaDockerfile(base, caps.initLines, body), ".", noCache)
  }

  /** `setup_cuda_runtime(...)`: settle the tools — given, refused, or
      probed on a throwaway image of the base — then build. */
  function SetupCudaRuntime(engine: Engine, draw: nat -> nat, base: string, tag: string, noCache: bool,
                            cudaVersion: string, repo: string, pm: Option<Utils.PM.PackageManager>,
                            reader: Option<Utils.UR.UrlReader>, arch: string): (r: Result<Image>)
    ensures pm.Some? != reader.Some? ==> r == Err(ValueError(RuntimeToolsMessage))
    ensures pm.Some? && reader.Some?
            ==> r == CudaRuntimeWith(engine, base, tag, noCache, cudaVersion, repo,
                                     Utils.Capabilities(pm.value, reader.value, ""), arch)
    ensures pm.None? && reader.None?
            ==> var probed := Utils.TempImageAsWritten(engine, base, draw, (img: Image) => ProbeTools(engine, img, false)).result;
                r == (if probed.Err? then Err(probed.error)
                      else CudaRuntimeWith(engine, base, tag, noCache, cudaVersion, repo, probed.value, arch))
  {
    var caps :- ResolveTools(pm, reader, RuntimeToolsMessage,
                             Utils.TempImageAsWritten(engine, base, draw, (img: Image) => ProbeTools(engine, img, false)).result);
    CudaRuntimeWith(engine, base, tag, noCache, cudaVersion, repo, caps, arch)
  }

  /** What `setup_cuda_dev` does once the tools are settled: parse the
      version, and build the dev body on top of the probe's lines under the
      prefixed tag. */
  function CudaDevWith(engine: Engine, base: string, tag: string, noCache: bool, cudaVersion: string,
                       caps: Capabilities): (r: Result<Image>)
    ensures Utils.ParseCudaInfo(cudaVersion).Err? ==> r == Err(Utils.ParseCudaInfo(cudaVersion).error)
    ensures Utils.ParseCudaInfo(cudaVersion).Ok?
            ==> var gen := DockerCuda.Generator(caps.packageManager, caps.urlReader);
                r == BuildString(engine, Defaults.PrefixTag(tag), CudaDockerfile(base, caps.initLines, DockerCuda.DevDockerfile(gen)),
                                 ".", noCache)
  {
    var v :- Utils.ParseCudaInfo(cudaVersion);
    // Dispatching on the package manager object always succeeds
    // (DockerCuda.GetGeneratorByName).
    var gen := DockerCuda.Generator(caps.packageManager, caps.urlReader);
    BuildString(engine, Defaults.PrefixTag(tag), CudaDockerfile(base, caps.initLines, DockerCuda.DevDockerfile(gen)), ".", noCache)
  }

  /** `setup_cuda_dev(...)`: settle the tools inside a throwaway image of
      the base, which is built and removed even when the tools are given,
      then build. */
  function SetupCudaDev(engine: Engine, draw: nat -> nat, base: string, tag: string, noCache: bool,
                        cudaVersion: string, pm: Option<Utils.PM.PackageManager>,
                        reader: Option<Utils.UR.UrlReader>): (r: Result<Image>)
    ensures Utils.TempBuild(engine, base, Utils.TempTag(draw)).Err? ==> r.Err?
    ensures (Utils.TempBuild(engine, base, Utils.TempTag(draw)).Ok? && pm.Some? != reader.Some?)
            ==> r == Err(ValueError(DevToolsMessage))
    ensures (Utils.TempBuild(engine, base, Utils.TempTag(draw)).Ok? && pm.Some? && reader.Some?)
            ==> r == CudaDevWith(engine, base, tag, noCache, cudaVersion, Utils.Capabilities(pm.value, reader.value, ""))
  {
    var caps :- Utils.TempImageAsWritten(engine, base, draw,
                                (img: Image) => ResolveTools(pm, reader, DevToolsMessage, ProbeTools(engine, img, false))).result;
    CudaDevWith(engine, base, tag, noCache, cudaVersion, caps)
  }

  /** `setup_conda_runtime(base, tag, no_cache, env_file)`: build with the
      environment file's directory as the context. */
  function SetupCondaRuntime(engine: Engine, base: string, tag: string, noCache: bool, env: EnvFile): (r: Result<Image>)
    ensures r.Ok? ==> DockerImage.GetImageId(engine, Defaults.PrefixTag(tag)) == Ok(r.value.id)
  {
    var dockerfile := CondaRuntimeDockerfile(base, env);
    BuildStringFinds(engine, Defaults.PrefixTag(tag), dockerfile, env.context, noCache);
    BuildString(engine, Defaults.PrefixTag(tag), dockerfile, env.context, noCache)
  }

  /** `setup_conda_dev(base, tag, no_cache, env_file)`. */
  function SetupCondaDev(engine: Engine, base: string, tag: string, noCache: bool, env: EnvFile): (r: Result<Image>)
    ensures r.Ok? ==> DockerImage.GetImageId(engine, Defaults.PrefixTag(tag)) == Ok(r.value.id)
  {
    var dockerfile := CondaDevDockerfile(base, env);
    BuildStringFinds(engine, Defaults.PrefixTag(tag), dockerfile, env.context, noCache);
    BuildString(engine, Defaults.PrefixTag(tag), dockerfile, env.context, noCache)
  }

  // ------------------------------------------------------ calls as written

  /** The message Python gives for a keyword argument the callee lacks. */
  function UnexpectedKeyword(callee: string, keyword: string): string {
    callee + "() got an unexpected keyword argument '" + keyword + "'"
  }

  /** Calling `callee`, whose parameters are `params`, with the keyword
      arguments `keywords`: Python rejects the first keyword that is not a
      parameter. */
  function CallKeywords(callee: string, params: seq<string>, keywords: seq<string>): (r: Result<()>)
    ensures r.Ok? <==> forall i :: 0 <= i < |keywords| ==> keywords[i] in params
    ensures r.Err? ==> exists i :: 0 <= i < |keywords| && keywords[i] !in params
                                   && (forall j :: 0 <= j < i ==> keywords[j] in params)
                                   && r.error == TypeError(UnexpectedKeyword(callee, keywords[i]))
    decreases |keywords|
  {
    if |keywords| == 0 then Ok(())
    else if keywords[0] !in params then Err(TypeError(UnexpectedKeyword(callee, keywords[0])))
    else
      var r := CallKeywords(callee, params, keywords[1..]);
      if r.Err? then
        ghost var i :| 0 <= i < |keywords[1..]| && keywords[1..][i] !in params
                       && (forall j :: 0 <= j < i ==> keywords[1..][j] in params)
                       && r.error == TypeError(UnexpectedKeyword(callee, keywords[1..][i]));
        assert keywords[i + 1] !in params;
        r
      else r
  }

  /** `from module import names`: the first name the module does not define
      is the ImportError. */
  function ImportFrom(defined: set<string>, names: seq<string>): (r: Result<()>)
    ensures r.Ok? <==> forall i :: 0 <= i < |names| ==> names[i] in defined
    ensures r.Err? ==> exists i :: 0 <= i < |names| && names[i] !in defined
                                   && (forall j :: 0 <= j < i ==> names[j] in defined)
                                   && r.error == ImportError(names[i])
    decreases |names|
  {
    if |names| == 0 then Ok(())
    else if names[0] !in defined then Err(ImportError(names[0]))
    else
      var r := ImportFrom(defined, names[1..]);
      if r.Err? then
        ghost var i :| 0 <= i < |names[1..]| && names[1..][i] !in defined
                       && (forall j :: 0 <= j < i ==> names[1..][j] in defined)
                       && r.error == ImportError(names[1..][i]);
        assert names[i + 1] !in defined;
        r
      else r
  }

  /** The names the older mamba module defines. */
  const MambaDefines: set<string> :=
    {"mamba_install_dockerfile", "mamba_add_specs_dockerfile", "mamba_add_packages_dockerfile",
     "mamba_lockfile_command", "micromamba_docker_lines", "_mamba_spec_command",
     "_mamba_install_prefix", "_mamba_install_body"}

  /** The setup module imports these names from the mamba module. */
  const MambaImportsAsWritten: seq<string> := ["mamba_add_reqs_dockerfile", "mamba_install_dockerfile"]

  /** The evidently intended import: the development spec-file helper. */
  const MambaImports: seq<string> := ["mamba_add_specs_dockerfile", "mamba_install_dockerfile"]

  /** Calling `name` from the setup module, which binds `bound` from the
      mamba module: an unbound name is a NameError at the call. */
  function CallName(bound: seq<string>, name: string): (r: Result<()>)
    ensures r.Ok? <==> exists i :: 0 <= i < |bound| && bound[i] == name
    ensures r.Err? ==> r.error == NameError(name)
  {
    if name in bound then Ok(()) else Err(NameError(name))
  }

  /** The development file is added with a keyword the specs generator does
      not take, so renaming the call alone would still fail. */
  lemma {:induction false} RenamedCallFails()
    ensures CallName(MambaImports, "mamba_add_specs_dockerfile") == Ok(())
    ensures CallKeywords("mamba_add_specs_dockerfile", ["env_specfile"], ["env_reqs_file"])
            == Err(TypeError(UnexpectedKeyword("mamba_add_specs_dockerfile", "env_reqs_file")))
  {
    assert MambaImports[0] == "mamba_add_specs_dockerfile";
    assert "env_reqs_file" !in ["env_specfile"];
  }

  /** As written, the setup module cannot be imported at all. */
  lemma {:induction false} SetupImportFails()
    ensures ImportFrom(MambaDefines, MambaImportsAsWritten) == Err(ImportError("mamba_add_reqs_dockerfile"))
  {
    assert "mamba_add_reqs_dockerfile" !in MambaDefines;
  }

  /** With the intended name, every import resolves. */
  lemma {:induction false} SetupImportResolves()
    ensures ImportFrom(MambaDefines, MambaImports) == Ok(())
  {
    assert MambaImports[0] in MambaDefines && MambaImports[1] in MambaDefines;
  }

  /** `setup_cuda_dev` as written, once the tools are settled: the version
      is parsed, then the development generator, which takes no arguments,
      is called with the version as keywords. */
  function CudaDevWithAsWritten(engine: Engine, base: string, tag: string, noCache: bool, cudaVersion: string,
                                caps: Capabilities): (r: Result<Image>)
    ensures Utils.ParseCudaInfo(cudaVersion).Err? ==> r == Err(Utils.ParseCudaInfo(cudaVersion).error)
    ensures r.Err?
  {
    var _ :- Utils.ParseCudaInfo(cudaVersion);
    match CallKeywords("generate_dev_dockerfile", [], ["cuda_ver_major", "cuda_ver_minor"])
    case Err(e) => Err(e)
    case Ok(_) => CudaDevWith(engine, base, tag, noCache, cudaVersion, caps)
  }

  /** A well-formed version reaches the generator call, which always fails;
      the intended call builds the dev image instead. */
  lemma CudaDevAsWrittenNeverBuilds(engine: Engine, base: string, tag: string, noCache: bool, cudaVersion: string,
                                    caps: Capabilities)
    requires Utils.ParseCudaInfo(cudaVersion).Ok?
    ensures CudaDevWithAsWritten(engine, base, tag, noCache, cudaVersion, caps)
            == Err(TypeError(UnexpectedKeyword("generate_dev_dockerfile", "cuda_ver_major")))
    ensures CudaDevWith(engine, base, tag, noCache, cudaVersion, caps)
            == BuildString(engine, Defaults.PrefixTag(tag),
                           CudaDockerfile(base, caps.initLines,
                                          DockerCuda.DevDockerfile(DockerCuda.Generator(caps.packageManager, caps.urlReader))),
                           ".", noCache)
  {
  }

  /** `setup_cuda_dev(...)` as written: the throwaway image, the tools, then
      the failing generator call. */
  function SetupCudaDevAsWritten(engine: Engine, draw: nat -> nat, base: string, tag: string, noCache: bool,
                                 cudaVersion: string, pm: Option<Utils.PM.PackageManager>,
                                 reader: Option<Utils.UR.UrlReader>): (r: Result<Image>)
    ensures r.Err?
    ensures (Utils.TempBuild(engine, base, Utils.TempTag(draw)).Ok? && pm.Some? && reader.Some?
             && Utils.ParseCudaInfo(cudaVersion).Ok?)
            ==> r == Err(TypeError(UnexpectedKeyword("generate_dev_dockerfile", "cuda_ver_major")))
  {
    var caps :- Utils.TempImageAsWritten(engine, base, draw,
                                (img: Image) => ResolveTools(pm, reader, DevToolsMessage, ProbeTools(engine, img, false))).result;
    CudaDevWithAsWritten(engine, base, tag, noCache, cudaVersion, caps)
  }

  // ------------------------------------------------------ environment files

  /** A path is absolute when it starts at the root. */
  predicate IsAbsolute(p: string) {
    |p| > 0 && p[0] == '/'
  }

  /** An environment file as given: a directory part (empty for a bare file
      name) and the file name. Paths hold no `.`, `..`, repeated separators
      or symbolic links, so resolving one only anchors it at the working
      directory. */
  datatype GivenPath = GivenPath(dir: string, name: string)

  /** The path's text, as `Path` prints it. */
  function PathText(p: GivenPath): string {
    if p.dir == "" then p.name else p.dir + "/" + p.name
  }

  /** `p.resolve().parent` from the working directory `cwd`. */
  function ResolvedDir(cwd: string, p: GivenPath): string {
    if IsAbsolute(p.dir) then p.dir
    else if p.dir == "" then cwd
    else cwd + "/" + p.dir
  }

  /** `PurePath(p).relative_to(base)` for a directory other than the root. */
  function RelativeTo(p: string, base: string): (r: Result<string>)
    ensures r.Ok? <==> Text.StartsWith(p, base + "/") && |p| > |base| + 1
    ensures r.Ok? ==> p == base + "/" + r.value
    ensures r.Err? ==> r.error == ValueError("'" + p + "' is not in the subpath of '" + base + "'")
  {
    if Text.StartsWith(p, base + "/") && |p| > |base| + 1 then
      assert p == p[..|base| + 1] + p[|base| + 1..];
      Ok(p[|base| + 1..])
    else Err(ValueError("'" + p + "' is not in the subpath of '" + base + "'"))
  }

  /** How `setup_conda_runtime` locates its file: the context is the
      resolved parent, and the resolved path is taken relative to it. */
  function ResolveEnvFile(cwd: string, p: GivenPath): Result<EnvFile> {
    var dir := ResolvedDir(cwd, p);
    var rel :- RelativeTo(dir + "/" + p.name, dir);
    Ok(EnvFile(dir, rel))
  }

  /** How `setup_conda_dev` locates its file as written: the context is
      the resolved parent, but the path as given is taken relative to it. */
  function DevEnvFileAsWritten(cwd: string, p: GivenPath): Result<EnvFile> {
    var dir := ResolvedDir(cwd, p);
    var rel :- RelativeTo(PathText(p), dir);
    Ok(EnvFile(dir, rel))
  }

  /** Resolving finds the file's own directory and name. */
  lemma ResolveEnvFileFinds(cwd: string, p: GivenPath)
    requires p.name != ""
    ensures ResolveEnvFile(cwd, p) == Ok(EnvFile(ResolvedDir(cwd, p), p.name))
  {
    var dir := ResolvedDir(cwd, p);
    assert (dir + "/" + p.name)[..|dir + "/"|] == dir + "/";
    assert (dir + "/" + p.name)[|dir| + 1..] == p.name;
  }

  /** As written, a relative environment file always fails the dev
      command, from an absolute working directory. */
  lemma DevEnvFileRelativeFails(cwd: string, p: GivenPath)
    requires IsAbsolute(cwd) && !IsAbsolute(p.dir) && p.name != "" && p.name[0] != '/'
    ensures DevEnvFileAsWritten(cwd, p).Err? && DevEnvFileAsWritten(cwd, p).error.ValueError?
  {
    var dir := ResolvedDir(cwd, p);
    var t := PathText(p);
    assert t[0] != '/';
    assert (dir + "/")[0] == '/';
    assert |dir + "/"| <= |t| ==> t[..|dir + "/"|][0] == t[0];
  }

  /** The failure of a relative file, as a fact about every path. */
  lemma DevEnvFileRelative(cwd: string, p: GivenPath)
    ensures IsAbsolute(cwd) && !IsAbsolute(p.dir) && p.name != "" && p.name[0] != '/'
            ==> DevEnvFileAsWritten(cwd, p).Err? && DevEnvFileAsWritten(cwd, p).error.ValueError?
  {
    if IsAbsolute(cwd) && !IsAbsolute(p.dir) && p.name != "" && p.name[0] != '/' {
      DevEnvFileRelativeFails(cwd, p);
    }
  }

  /** For an absolute path the as-written lookup agrees with resolving. */
  lemma DevEnvFileAbsoluteAgrees(cwd: string, p: GivenPath)
    requires IsAbsolute(p.dir) && p.name != ""
    ensures DevEnvFileAsWritten(cwd, p) == ResolveEnvFile(cwd, p)
  {
  }

  /** `setup_conda_runtime(base, tag, no_cache, env_file)` as written: the
      micromamba generator is called with a keyword it lacks. */
  function CondaRuntimeAsWritten(engine: Engine, cwd: string, base: string, tag: string, noCache: bool,
                                 envFile: GivenPath): (r: Result<Image>)
    ensures envFile.name != "" ==> r == Err(TypeError(UnexpectedKeyword("mamba_install_dockerfile", "env_reqs_file")))
  {
    var env :- ResolveEnvFile(cwd, envFile);
    ResolveEnvFileFinds(cwd, envFile);
    match CallKeywords("mamba_install_dockerfile", ["env_specfile"], ["env_reqs_file"])
    case Err(e) => Err(e)
    case Ok(_) => SetupCondaRuntime(engine, base, tag, noCache, env)
  }

  /** `setup_conda_runtime` with the intended keyword: the build in the
      file's directory. */
  function CondaRuntimeResolved(engine: Engine, cwd: string, base: string, tag: string, noCache: bool,
                                envFile: GivenPath): (r: Result<Image>)
    ensures envFile.name != ""
            ==> r == SetupCondaRuntime(engine, base, tag, noCache, EnvFile(ResolvedDir(cwd, envFile), envFile.name))
  {
    var env :- ResolveEnvFile(cwd, envFile);
    ResolveEnvFileFinds(cwd, envFile);
    SetupCondaRuntime(engine, base, tag, noCache, env)
  }

  /** `setup_conda_dev(base, tag, no_cache, env_file)` as written, with
      the module's import taken as corrected: a relative file fails before
      anything is built, and otherwise the call to the old generator name
      fails, so no image is ever built. */
  function CondaDevAsWritten(engine: Engine, cwd: string, base: string, tag: string, noCache: bool,
                             envFile: GivenPath): (r: Result<Image>)
    ensures r.Err?
    ensures IsAbsolute(cwd) && !IsAbsolute(envFile.dir) && envFile.name != "" && envFile.name[0] != '/'
            ==> r.error.ValueError?
    ensures DevEnvFileAsWritten(cwd, envFile).Ok? ==> r == Err(NameError("mamba_add_reqs_dockerfile"))
  {
    DevEnvFileRelative(cwd, envFile);
    var env :- DevEnvFileAsWritten(cwd, envFile);
    assert "mamba_add_reqs_dockerfile" !in MambaImports;
    match CallName(MambaImports, "mamba_add_reqs_dockerfile")
    case Err(e) => Err(e)
    case Ok(_) => SetupCondaDev(engine, base, tag, noCache, env)
  }

  /** `setup_conda_dev` resolving the file as the runtime command does. */
  function CondaDevResolved(engine: Engine, cwd: string, base: string, tag: string, noCache: bool,
                            envFile: GivenPath): (r: Result<Image>)
    ensures envFile.name != ""
            ==> r == SetupCondaDev(engine, base, tag, noCache, EnvFile(ResolvedDir(cwd, envFile), envFile.name))
  {
    var env :- ResolveEnvFile(cwd, envFile);
    ResolveEnvFileFinds(cwd, envFile);
    SetupCondaDev(engine, base, tag, noCache, env)
  }

  // -------------------------------------------------------------- the chain

  /** `M-m`, as the CUDA tags spell the version. */
  function VersionTag(major: nat, minor: nat): string {
    Text.NatToString(major) + "-" + Text.NatToString(minor)
  }

  /** What follows `dcli-TAG` in each of the five tags, in build order. */
  function TagSuffixes(major: nat, minor: nat): seq<string> {
    ["-init", "-cuda-" + VersionTag(major, minor) + "-runtime", "-mamba-runtime",
     "-cuda-" + VersionTag(major, minor) + "-dev", "-mamba-dev"]
  }

  /** The five tags of `setup_all`, in build order. */
  function SetupTags(tag: string, major: nat, minor: nat): (r: seq<string>)
    ensures |r| == 5
    ensures forall i :: 0 <= i < 5 ==> r[i] == Defaults.UniversalTagPrefix + "-" + tag + TagSuffixes(major, minor)[i]
  {
    var p := Defaults.UniversalTagPrefix + "-" + tag;
    seq(5, i requires 0 <= i < 5 => p + TagSuffixes(major, minor)[i])
  }

  /** The builds `setup_all` plans once the version is parsed and the base
      probed, and the error that follows them: for CUDA below 11 only the
      user image is built before the runtime body is refused. */
  datatype Plan = Plan(stages: seq<Chains.Stage>, failure: Option<Error>)

  /** The index of the one stage that probes its base first: the CUDA dev
      stage. */
  const DevStage: nat := 3

  /** Stages named by `keys`, each built under its prefixed key from the
      one before it (the first from `base`), with the given Dockerfiles and
      build contexts. */
  function ChainStages(base: string, keys: seq<string>, files: seq<string>, contexts: seq<string>, noCache: bool)
    : (r: seq<Chains.Stage>)
    requires |files| == |keys| && |contexts| == |keys|
    ensures |r| == |keys|
    ensures forall i :: 0 <= i < |keys| ==>
      r[i] == Chains.Stage(keys[i], Defaults.PrefixTag(keys[i]), if i == 0 then base else keys[i - 1], files[i],
                           Some(contexts[i]), noCache, i == DevStage)
  {
    seq(|keys|, i requires 0 <= i < |keys| =>
      Chains.Stage(keys[i], Defaults.PrefixTag(keys[i]), if i == 0 then base else keys[i - 1], files[i],
                   Some(contexts[i]), noCache, i == DevStage))
  }

  /** The Dockerfiles of the chain, in build order, once the version is
      parsed and the base probed; only the user image's for CUDA below 11,
      whose runtime body is refused. The CUDA stages reuse the probed
      tools and add no lines of their own. */
  function SetupFiles(base: string, t: seq<string>, major: nat, minor: nat, caps: Capabilities, repo: string,
                      runtimeEnv: EnvFile, devEnv: EnvFile): (r: seq<string>)
    requires |t| == 5
    ensures |r| == if major < 11 then 1 else 5
  {
    var init := InitDockerfile(base, caps.initLines);
    var gen := DockerCuda.Generator(caps.packageManager, caps.urlReader);
    match DockerCuda.RuntimeDockerfile(gen, major, minor, repo, "x86_64")
    case Err(_) => [init]
    case Ok(runtimeBody) => [init] + ToolFiles(t, gen, runtimeBody, runtimeEnv, devEnv)
  }

  /** The four Dockerfiles after the user image's, each on the tag before. */
  function ToolFiles(t: seq<string>, gen: DockerCuda.Generator, runtimeBody: string, runtimeEnv: EnvFile,
                     devEnv: EnvFile): (r: seq<string>)
    requires |t| == 5
    ensures |r| == 4
  {
    [CudaDockerfile(t[0], "", runtimeBody), CondaRuntimeDockerfile(t[1], runtimeEnv),
     CudaDockerfile(t[2], "", DockerCuda.DevDockerfile(gen)), CondaDevDockerfile(t[3], devEnv)]
  }

  /** The build context of each stage: the environment file's directory
      for the two conda stages, the default elsewhere. */
  function SetupContexts(runtimeEnv: EnvFile, devEnv: EnvFile): seq<string> {
    [".", ".", runtimeEnv.context, ".", devEnv.context]
  }

  /** The builds `setup_all` plans once the version is parsed and the base
      probed, and, for CUDA below 11, the refusal that follows the user
      image. */
  function SetupPlan(base: string, tag: string, noCache: bool, major: nat, minor: nat, caps: Capabilities,
                     repo: string, runtimeEnv: EnvFile, devEnv: EnvFile): (p: Plan)
    ensures major < 11 ==> |p.stages| == 1 && p.failure == Some(ValueError(DockerCuda.BelowElevenMessage))
    ensures major >= 11 ==> |p.stages| == 5 && p.failure.None?
  {
    var t := SetupTags(tag, major, minor);
    ChainPlan(base, t, SetupFiles(base, t, major, minor, caps, repo, runtimeEnv, devEnv),
              SetupContexts(runtimeEnv, devEnv), noCache,
              if major < 11 then Some(ValueError(DockerCuda.BelowElevenMessage)) else None)
  }

  /** A plan over the first `|files|` of the names `t`, ending in
      `failure`: stage `i` builds name `i` under its prefixed form, from
      name `i - 1` (the first from `base`), and only the dev stage probes
      first. */
  function ChainPlan(base: string, t: seq<string>, files: seq<string>, contexts: seq<string>, noCache: bool,
                     failure: Option<Error>): (p: Plan)
    requires |files| <= |t| && |contexts| == |t|
    ensures |p.stages| == |files| && p.failure == failure
    ensures forall i :: 0 <= i < |p.stages| ==>
      p.stages[i] == Chains.Stage(t[i], Defaults.PrefixTag(t[i]), if i == 0 then base else t[i - 1], files[i],
                                  Some(contexts[i]), noCache, i == DevStage)
  {
    var n := |files|;
    assert forall i :: 0 <= i < n ==> t[..n][i] == t[i] && contexts[..n][i] == contexts[i];
    Plan(ChainStages(base, t[..n], files, contexts[..n], noCache), failure)
  }

  /** Every tag of the chain is already in the namespace, so prefixing
      leaves it alone. */
  lemma SetupTagsPrefixed(tag: string, major: nat, minor: nat)
    ensures forall i :: 0 <= i < 5 ==> Defaults.PrefixTag(SetupTags(tag, major, minor)[i]) == SetupTags(tag, major, minor)[i]
  {
    var t := SetupTags(tag, major, minor);
    forall i | 0 <= i < 5 ensures Text.StartsWith(t[i], Defaults.UniversalTagPrefix) {
      assert t[i][..4] == Defaults.UniversalTagPrefix;
    }
  }

  /** A plan over names already in the namespace forms a chain from
      `base`, each stage built under its own name, and only the dev stage
      probes first. */
  lemma ChainPlanShape(base: string, t: seq<string>, files: seq<string>, contexts: seq<string>, noCache: bool,
                       failure: Option<Error>)
    requires |files| <= |t| && |contexts| == |t|
    requires forall i :: 0 <= i < |t| ==> Defaults.PrefixTag(t[i]) == t[i]
    ensures var p := ChainPlan(base, t, files, contexts, noCache, failure);
      (forall i :: 0 <= i < |p.stages| ==> p.stages[i].key == t[i] && p.stages[i].tag == t[i])
      && Chains.Chained(base, p.stages)
      && (forall i :: 0 <= i < |p.stages| ==> (p.stages[i].probeFirst <==> i == DevStage))
  {
    var p := ChainPlan(base, t, files, contexts, noCache, failure);
    assert forall i :: 0 < i < |p.stages| ==> p.stages[i].base == p.stages[i - 1].tag;
  }

  /** The plan builds the five tags in order, each under its own name, each
      from the one before and the first from the caller's base; only the
      CUDA dev stage builds a throwaway image of its base first. */
  lemma SetupPlanShape(base: string, tag: string, noCache: bool, major: nat, minor: nat, caps: Capabilities,
                       repo: string, runtimeEnv: EnvFile, devEnv: EnvFile)
    ensures var p := SetupPlan(base, tag, noCache, major, minor, caps, repo, runtimeEnv, devEnv);
      var t := SetupTags(tag, major, minor);
      (forall i :: 0 <= i < |p.stages| ==> p.stages[i].key == t[i] && p.stages[i].tag == t[i])
      && Chains.Chained(base, p.stages)
      && (forall i :: 0 <= i < |p.stages| ==> (p.stages[i].probeFirst <==> i == DevStage))
  {
    var t := SetupTags(tag, major, minor);
    SetupTagsPrefixed(tag, major, minor);
    ChainPlanShape(base, t, SetupFiles(base, t, major, minor, caps, repo, runtimeEnv, devEnv),
                   SetupContexts(runtimeEnv, devEnv), noCache,
                   if major < 11 then Some(ValueError(DockerCuda.BelowElevenMessage)) else None);
  }

  /** How `setup_all` builds one stage: a throwaway image of its base first
      when the stage asks for one, then the stage itself. */
  function BuildStage(engine: Engine, draw: nat -> nat, s: Chains.Stage): Result<Image> {
    var _ :- if s.probeFirst then Utils.TempImageAsWritten(engine, s.base, draw, (img: Image) => Ok(img)).result
             else Ok(DockerImage.Image(""));
    DockerImage.Build(engine, s.tag, None, Some(s.dockerfile), s.context, "host", s.noCache)
  }

  function SetupBuilder(engine: Engine, draw: nat -> nat): Chains.Builder {
    (s: Chains.Stage) => BuildStage(engine, draw, s)
  }

  /** Run a plan's stages in order and, if they all succeed, report the
      plan's trailing error instead of the images. */
  function RunPlan(build: Chains.Builder, plan: Plan): (o: Chains.Outcome)
    ensures o.started <= |plan.stages|
    ensures o.result.Ok? ==> plan.failure.None? && o == Chains.RunStages(build, plan.stages, [])
    ensures o.result.Err? && o.started == |plan.stages| && plan.failure.Some?
            && (forall i :: 0 <= i < |plan.stages| ==> build(plan.stages[i]).Ok?)
            ==> o.result.error == plan.failure.value
  {
    var o := Chains.RunStages(build, plan.stages, []);
    if o.result.Ok? && plan.failure.Some? then Chains.Outcome(o.started, Err(plan.failure.value))
    else
      Chains.RunStagesSucceeds(build, plan.stages, []);
      o
  }

  /** The probe `setup_init` runs on the caller's base. */
  function InitProbe(engine: Engine, draw: nat -> nat, base: string): Result<Capabilities> {
    Utils.TempImageAsWritten(engine, base, draw, (img: Image) => ProbeTools(engine, img, true)).result
  }

  /** `setup_all(...)`: parse the version before anything is built, probe
      the base once, then build the planned stages in order, stopping at the
      first failure; the result maps each tag to its image. */
  function SetupAll(engine: Engine, draw: nat -> nat, base: string, tag: string, noCache: bool, cudaVersion: string,
                    repo: string, runtimeEnv: EnvFile, devEnv: EnvFile): (o: Chains.Outcome)
    ensures Utils.ParseCudaInfo(cudaVersion).Err? ==> o == Chains.Outcome(0, Err(Utils.ParseCudaInfo(cudaVersion).error))
    ensures InitProbe(engine, draw, base).Err? ==> o.started == 0 && o.result.Err?
    ensures o.started <= 5
  {
    match Utils.ParseCudaInfo(cudaVersion)
    case Err(e) => Chains.Outcome(0, Err(e))
    case Ok((major, minor)) =>
      match InitProbe(engine, draw, base)
      case Err(e) => Chains.Outcome(0, Err(e))
      case Ok(caps) =>
        RunPlan(SetupBuilder(engine, draw), SetupPlan(base, tag, noCache, major, minor, caps, repo, runtimeEnv, devEnv))
  }

  /** A successful `setup_all` returns exactly the five tags, in build
      order. */
  lemma SetupAllKeys(engine: Engine, draw: nat -> nat, base: string, tag: string, noCache: bool, cudaVersion: string,
                     repo: string, runtimeEnv: EnvFile, devEnv: EnvFile)
    requires SetupAll(engine, draw, base, tag, noCache, cudaVersion, repo, runtimeEnv, devEnv).result.Ok?
    ensures Utils.ParseCudaInfo(cudaVersion).Ok?
    ensures var o := SetupAll(engine, draw, base, tag, noCache, cudaVersion, repo, runtimeEnv, devEnv);
      var v := Utils.ParseCudaInfo(cudaVersion).value;
      o.started == 5 && Chains.Keys(o.result.value) == SetupTags(tag, v.0, v.1)
  {
    var v := Utils.ParseCudaInfo(cudaVersion).value;
    var caps := InitProbe(engine, draw, base).value;
    PlanRunKeys(SetupBuilder(engine, draw), base, tag, noCache, v.0, v.1, caps, repo, runtimeEnv, devEnv);
  }

  /** Whatever builds the stages, a plan that runs to the end records the
      five tags in order. */
  lemma PlanRunKeys(build: Chains.Builder, base: string, tag: string, noCache: bool, major: nat, minor: nat,
                    caps: Capabilities, repo: string, runtimeEnv: EnvFile, devEnv: EnvFile)
    requires RunPlan(build, SetupPlan(base, tag, noCache, major, minor, caps, repo, runtimeEnv, devEnv)).result.Ok?
    ensures var o := RunPlan(build, SetupPlan(base, tag, noCache, major, minor, caps, repo, runtimeEnv, devEnv));
      o.started == 5 && Chains.Keys(o.result.value) == SetupTags(tag, major, minor)
  {
    SetupPlanShape(base, tag, noCache, major, minor, caps, repo, runtimeEnv, devEnv);
    SetupTagsDistinct(tag, major, minor);
    RunKeys(build, SetupPlan(base, tag, noCache, major, minor, caps, repo, runtimeEnv, devEnv), SetupTags(tag, major, minor));
  }

  /** A plan whose keys are distinct names, run to the end, records every
      name in order. */
  lemma RunKeys(build: Chains.Builder, plan: Plan, names: seq<string>)
    requires RunPlan(build, plan).result.Ok?
    requires |plan.stages| == |names| && Chains.Distinct(names)
    requires forall i :: 0 <= i < |plan.stages| ==> plan.stages[i].key == names[i]
    ensures RunPlan(build, plan).started == |names|
    ensures Chains.Keys(RunPlan(build, plan).result.value) == names
  {
    var o := Chains.RunStages(build, plan.stages, []);
    PlanKeysDistinct(plan.stages, names);
    Chains.RunStagesSucceeds(build, plan.stages, []);
    KeysAfterRun(build, plan.stages, o);
    assert Chains.StageKeys(plan.stages) == names;
  }

  // ------------------------------------------- the chain and the commands

  /** Stage `i` of a plan for CUDA 11 or later: built under the `i`th tag,
      from the tag before (the first from the caller's base), with the
      `i`th Dockerfile and context. */
  lemma PlanStage(base: string, tag: string, noCache: bool, major: nat, minor: nat, caps: Capabilities,
                  repo: string, runtimeEnv: EnvFile, devEnv: EnvFile, i: nat)
    requires major >= 11 && i < 5
    ensures var p := SetupPlan(base, tag, noCache, major, minor, caps, repo, runtimeEnv, devEnv);
      var t := SetupTags(tag, major, minor);
      |p.stages| == 5
      && p.stages[i].tag == t[i] && p.stages[i].base == (if i == 0 then base else t[i - 1])
      && p.stages[i].dockerfile == SetupFiles(base, t, major, minor, caps, repo, runtimeEnv, devEnv)[i]
      && p.stages[i].context == Some(SetupContexts(runtimeEnv, devEnv)[i]) && p.stages[i].noCache == noCache
      && (p.stages[i].probeFirst <==> i == DevStage)
  {
    SetupPlanShape(base, tag, noCache, major, minor, caps, repo, runtimeEnv, devEnv);
  }

  /** A stage that does not probe first is a plain string build. */
  lemma PlainStage(engine: Engine, draw: nat -> nat, s: Chains.Stage)
    requires !s.probeFirst && s.context.Some?
    ensures SetupBuilder(engine, draw)(s) == BuildString(engine, s.tag, s.dockerfile, s.context.value, s.noCache)
  {
  }

  /** The chain's first build is `setup_init`'s, on the tools the chain's
      single probe found. */
  lemma InitStageAgrees(engine: Engine, draw: nat -> nat, base: string, tag: string, noCache: bool, major: nat,
                        minor: nat, caps: Capabilities, repo: string, runtimeEnv: EnvFile, devEnv: EnvFile)
    requires InitProbe(engine, draw, base) == Ok(caps)
    ensures var p := SetupPlan(base, tag, noCache, major, minor, caps, repo, runtimeEnv, devEnv);
      var b := SetupBuilder(engine, draw)(p.stages[0]);
      SetupInit(engine, draw, base, SetupTags(tag, major, minor)[0], noCache)
        == (if b.Ok? then Ok((b.value, caps)) else Err(b.error))
  {
    var p := SetupPlan(base, tag, noCache, major, minor, caps, repo, runtimeEnv, devEnv);
    var t := SetupTags(tag, major, minor);
    InitStage(base, tag, noCache, major, minor, caps, repo, runtimeEnv, devEnv);
    SetupTagsPrefixed(tag, major, minor);
    PlainStage(engine, draw, p.stages[0]);
  }

  /** The first stage of any plan builds the user image from the caller's
      base. */
  lemma InitStage(base: string, tag: string, noCache: bool, major: nat, minor: nat, caps: Capabilities,
                  repo: string, runtimeEnv: EnvFile, devEnv: EnvFile)
    ensures var p := SetupPlan(base, tag, noCache, major, minor, caps, repo, runtimeEnv, devEnv);
      |p.stages| > 0
      && p.stages[0] == Chains.Stage(SetupTags(tag, major, minor)[0], SetupTags(tag, major, minor)[0], base,
                                     InitDockerfile(base, caps.initLines), Some("."), noCache, false)
  {
    SetupPlanShape(base, tag, noCache, major, minor, caps, repo, runtimeEnv, devEnv);
  }

  /** The chain's CUDA runtime build is `setup_cuda_runtime`'s on the
      previous tag, given the probed tools. */
  lemma CudaRuntimeStageAgrees(engine: Engine, draw: nat -> nat, base: string, tag: string, noCache: bool,
                               cudaVersion: string, caps: Capabilities, repo: string, runtimeEnv: EnvFile,
                               devEnv: EnvFile)
    requires Utils.ParseCudaInfo(cudaVersion).Ok? && Utils.ParseCudaInfo(cudaVersion).value.0 >= 11
    ensures var v := Utils.ParseCudaInfo(cudaVersion).value;
      var p := SetupPlan(base, tag, noCache, v.0, v.1, caps, repo, runtimeEnv, devEnv);
      var t := SetupTags(tag, v.0, v.1);
      SetupBuilder(engine, draw)(p.stages[1])
        == SetupCudaRuntime(engine, draw, t[0], t[1], noCache, cudaVersion, repo,
                            Some(caps.packageManager), Some(caps.urlReader), "x86_64")
  {
    var v := Utils.ParseCudaInfo(cudaVersion).value;
    var t := SetupTags(tag, v.0, v.1);
    CudaRuntimeStageBuild(engine, draw, base, tag, noCache, v.0, v.1, caps, repo, runtimeEnv, devEnv);
    CudaRuntimeGiven(engine, draw, t[0], t[1], noCache, cudaVersion, repo, caps);
    SetupTagsPrefixed(tag, v.0, v.1);
  }

  /** The chain's CUDA runtime stage builds the runtime body, without
      lines of its own, on the user image. */
  lemma CudaRuntimeStageBuild(engine: Engine, draw: nat -> nat, base: string, tag: string, noCache: bool,
                              major: nat, minor: nat, caps: Capabilities, repo: string, runtimeEnv: EnvFile,
                              devEnv: EnvFile)
    requires major >= 11
    ensures var p := SetupPlan(base, tag, noCache, major, minor, caps, repo, runtimeEnv, devEnv);
      var t := SetupTags(tag, major, minor);
      var gen := DockerCuda.Generator(caps.packageManager, caps.urlReader);
      var body := DockerCuda.RuntimeDockerfile(gen, major, minor, repo, "x86_64").value;
      SetupBuilder(engine, draw)(p.stages[1]) == BuildString(engine, t[1], CudaDockerfile(t[0], "", body), ".", noCache)
  {
    var p := SetupPlan(base, tag, noCache, major, minor, caps, repo, runtimeEnv, devEnv);
    var t := SetupTags(tag, major, minor);
    var gen := DockerCuda.Generator(caps.packageManager, caps.urlReader);
    var body := DockerCuda.RuntimeDockerfile(gen, major, minor, repo, "x86_64").value;
    PlanStage(base, tag, noCache, major, minor, caps, repo, runtimeEnv, devEnv, 1);
    SetupTagsPrefixed(tag, major, minor);
    assert p.stages[1].dockerfile == CudaDockerfile(t[0], "", body);
    PlainStage(engine, draw, p.stages[1]);
  }

  /** `setup_cuda_runtime` with both tools given builds the runtime body
      with no lines of its own. */
  lemma CudaRuntimeGiven(engine: Engine, draw: nat -> nat, base: string, tag: string, noCache: bool,
                         cudaVersion: string, repo: string, caps: Capabilities)
    requires Utils.ParseCudaInfo(cudaVersion).Ok? && Utils.ParseCudaInfo(cudaVersion).value.0 >= 11
    ensures var v := Utils.ParseCudaInfo(cudaVersion).value;
      var gen := DockerCuda.Generator(caps.packageManager, caps.urlReader);
      var body := DockerCuda.RuntimeDockerfile(gen, v.0, v.1, repo, "x86_64").value;
      SetupCudaRuntime(engine, draw, base, tag, noCache, cudaVersion, repo,
                       Some(caps.packageManager), Some(caps.urlReader), "x86_64")
        == BuildString(engine, Defaults.PrefixTag(tag), CudaDockerfile(base, "", body), ".", noCache)
  {
    var given := Utils.Capabilities(caps.packageManager, caps.urlReader, "");
    assert SetupCudaRuntime(engine, draw, base, tag, noCache, cudaVersion, repo,
                            Some(caps.packageManager), Some(caps.urlReader), "x86_64")
        == CudaRuntimeWith(engine, base, tag, noCache, cudaVersion, repo, given, "x86_64");
  }

  /** The chain's conda runtime build is `setup_conda_runtime`'s on the
      previous tag. */
  lemma CondaRuntimeStageAgrees(engine: Engine, draw: nat -> nat, base: string, tag: string, noCache: bool,
                                major: nat, minor: nat, caps: Capabilities, repo: string, runtimeEnv: EnvFile,
                                devEnv: EnvFile)
    requires major >= 11
    ensures var p := SetupPlan(base, tag, noCache, major, minor, caps, repo, runtimeEnv, devEnv);
      var t := SetupTags(tag, major, minor);
      SetupBuilder(engine, draw)(p.stages[2]) == SetupCondaRuntime(engine, t[1], t[2], noCache, runtimeEnv)
  {
    PlanStage(base, tag, noCache, major, minor, caps, repo, runtimeEnv, devEnv, 2);
    SetupTagsPrefixed(tag, major, minor);
  }

  /** The chain's CUDA dev build is `setup_cuda_dev`'s on the previous tag,
      given the probed tools: both first build and remove a throwaway image
      of that tag. */
  lemma CudaDevStageAgrees(engine: Engine, draw: nat -> nat, base: string, tag: string, noCache: bool,
                           cudaVersion: string, caps: Capabilities, repo: string, runtimeEnv: EnvFile,
                           devEnv: EnvFile)
    requires Utils.ParseCudaInfo(cudaVersion).Ok? && Utils.ParseCudaInfo(cudaVersion).value.0 >= 11
    ensures var v := Utils.ParseCudaInfo(cudaVersion).value;
      var p := SetupPlan(base, tag, noCache, v.0, v.1, caps, repo, runtimeEnv, devEnv);
      var t := SetupTags(tag, v.0, v.1);
      SetupBuilder(engine, draw)(p.stages[3])
        == SetupCudaDev(engine, draw, t[2], t[3], noCache, cudaVersion, Some(caps.packageManager), Some(caps.urlReader))
  {
    var v := Utils.ParseCudaInfo(cudaVersion).value;
    PlanStage(base, tag, noCache, v.0, v.1, caps, repo, runtimeEnv, devEnv, 3);
    SetupTagsPrefixed(tag, v.0, v.1);
  }

  /** The chain's conda dev build is `setup_conda_dev`'s on the previous
      tag. */
  lemma CondaDevStageAgrees(engine: Engine, draw: nat -> nat, base: string, tag: string, noCache: bool,
                            major: nat, minor: nat, caps: Capabilities, repo: string, runtimeEnv: EnvFile,
                            devEnv: EnvFile)
    requires major >= 11
    ensures var p := SetupPlan(base, tag, noCache, major, minor, caps, repo, runtimeEnv, devEnv);
      var t := SetupTags(tag, major, minor);
      SetupBuilder(engine, draw)(p.stages[4]) == SetupCondaDev(engine, t[3], t[4], noCache, devEnv)
  {
    PlanStage(base, tag, noCache, major, minor, caps, repo, runtimeEnv, devEnv, 4);
    SetupTagsPrefixed(tag, major, minor);
  }

  /** For CUDA below 11, `setup_all` builds the user image and then
      reports the refusal, or the user image's failure. */
  lemma SetupAllBelowEleven(engine: Engine, draw: nat -> nat, base: string, tag: string, noCache: bool,
                            cudaVersion: string, repo: string, runtimeEnv: EnvFile, devEnv: EnvFile)
    requires Utils.ParseCudaInfo(cudaVersion).Ok? && Utils.ParseCudaInfo(cudaVersion).value.0 < 11
    requires InitProbe(engine, draw, base).Ok?
    ensures var v := Utils.ParseCudaInfo(cudaVersion).value;
      var caps := InitProbe(engine, draw, base).value;
      var first := SetupBuilder(engine, draw)(SetupPlan(base, tag, noCache, v.0, v.1, caps, repo, runtimeEnv, devEnv).stages[0]);
      SetupAll(engine, draw, base, tag, noCache, cudaVersion, repo, runtimeEnv, devEnv)
        == Chains.Outcome(1, Err(if first.Ok? then ValueError(DockerCuda.BelowElevenMessage) else first.error))
  {
    var v := Utils.ParseCudaInfo(cudaVersion).value;
    var caps := InitProbe(engine, draw, base).value;
    var build := SetupBuilder(engine, draw);
    var p := SetupPlan(base, tag, noCache, v.0, v.1, caps, repo, runtimeEnv, devEnv);
    if build(p.stages[0]).Ok? {
      Chains.RunStagesSucceeds(build, p.stages, []);
    } else {
      Chains.RunStagesStops(build, p.stages, [], 0);
    }
  }

  /** A successful run from an empty dictionary with distinct keys records
      exactly the stages' keys, in order. */
  lemma KeysAfterRun(build: Chains.Builder, stages: seq<Chains.Stage>, o: Chains.Outcome)
    requires o == Chains.RunStages(build, stages, [])
    requires o.result.Ok?
    requires Chains.Distinct(Chains.StageKeys(stages))
    ensures Chains.Keys(o.result.value) == Chains.StageKeys(stages)
  {
    Chains.RunStagesSucceeds(build, stages, []);
    Chains.RunStagesRecords(build, stages, []);
    assert o.result.value == Chains.Built(build, stages);
  }

  /** The five suffixes differ pairwise: by their second character or by
      their length. */
  lemma TagSuffixesDistinct(major: nat, minor: nat)
    ensures Chains.Distinct(TagSuffixes(major, minor))
  {
    var s := TagSuffixes(major, minor);
    var v := VersionTag(major, minor);
    assert s[0][1] == 'i';
    assert s[1][1] == 'c' && s[3][1] == 'c';
    assert s[2][1] == 'm' && s[4][1] == 'm';
    assert |s[1]| == 14 + |v| && |s[3]| == 10 + |v|;
    assert |s[2]| == 14 && |s[4]| == 10;
  }

  /** No two of the five tags are the same. */
  lemma SetupTagsDistinct(tag: string, major: nat, minor: nat)
    ensures Chains.Distinct(SetupTags(tag, major, minor))
  {
    var p := Defaults.UniversalTagPrefix + "-" + tag;
    var t := SetupTags(tag, major, minor);
    var s := TagSuffixes(major, minor);
    TagSuffixesDistinct(major, minor);
    forall i, j | 0 <= i < j < 5 ensures t[i] != t[j] {
      assert t[i][|p|..] == s[i];
      assert t[j][|p|..] == s[j];
    }
  }

  /** A plan whose keys follow a list of distinct names has distinct keys. */
  lemma PlanKeysDistinct(stages: seq<Chains.Stage>, names: seq<string>)
    requires |stages| <= |names| && Chains.Distinct(names)
    requires forall i :: 0 <= i < |stages| ==> stages[i].key == names[i]
    ensures Chains.Distinct(Chains.StageKeys(stages))
  {
  }
}

=== FILE: shell_cmds.dfy ===
/** The older generation of the package-manager and URL-reader command
    generators. Every generator builds a word list and, when asked to
    `stringify`, returns the words space-joined instead. The package
    manager lookup is case-insensitive here, and the URL reader lookup hands
    back a class rather than an instance. */
module ShellCmds {
  import opened Errors
  import Text
  import Shlex
  import PM = PackageManagers
  import UR = UrlReaders

  /** What a generator returns: the word list, or the one-line command. */
  datatype Rendered = Words(words: seq<string>) | Line(line: string)

  /** The `stringify` switch every generator ends with. */
  function Render(words: seq<string>, stringify: bool): (r: Rendered)
    ensures r.Line? <==> stringify
    ensures r.Words? ==> r.words == words
    ensures r.Line? ==> r.line == Text.Join(" ", words)
  {
    if stringify then Line(Text.Join(" ", words)) else Words(words)
  }

  /** `generate_install_command(targets, stringify, clean)`, assembled group
      by group as the older code does. Its words are the ones the newer
      generation space-joins. */
  function InstallCommand(pm: PM.PackageManager, targets: seq<string>, stringify: bool, clean: bool): (r: Rendered)
    ensures r.Words? ==> r.words == PM.InstallWords(pm, targets, clean)
    ensures r.Line? ==> r.line == PM.InstallCommand(pm, targets, clean)
    ensures r.Line? <==> stringify
  {
    var words := match pm
      case Yum =>
        ["yum", "install", "-y"] + targets
        + (if clean then ["&&", "yum", "clean", "all"] + ["&&", "rm", "-rf", "/var/cache/yum"] else [])
      case AptGet =>
        ["apt-get", "-y", "update", "&&"] + ["apt-get", "-y", "install"] + targets
        + (if clean then ["&&", "apt-get", "clean", "all"] else []);
    assert words == PM.InstallWords(pm, targets, clean);
    Render(words, stringify)
  }

  /** `generate_package_command(target, stringify)`: the package tool's
      words, joined without any quoting. */
  function PackageCommand(pm: PM.PackageManager, target: string, stringify: bool): (r: Rendered)
    ensures r.Line? <==> stringify
    ensures r.Words? ==> r.words == [PackageTool(pm), "-i", target]
    ensures r.Line? ==> r.line == PackageTool(pm) + " -i " + target
  {
    JoinThree(PackageTool(pm), "-i", target);
    Render([if pm == PM.Yum then "rpm" else "dpkg", "-i", target], stringify)
  }

  /** The tool that installs a single package file. */
  function PackageTool(pm: PM.PackageManager): string {
    if pm == PM.Yum then "rpm" else "dpkg"
  }

  lemma JoinThree(a: string, b: string, c: string)
    ensures Text.Join(" ", [a, b, c]) == a + " " + b + " " + c
  {
    Text.JoinCons(" ", b, [c]);
    assert [b] + [c] == [b, c];
    Text.JoinCons(" ", a, [b, c]);
    assert [a] + [b, c] == [a, b, c];
  }

  /** The older, unquoted package command agrees with the newer quoted one
      exactly when quoting leaves the target alone: a non-empty target of
      safe characters. */
  lemma PackageCommandAgrees(pm: PM.PackageManager, target: string)
    requires |target| > 0 && Shlex.AllSafe(target)
    ensures PackageCommand(pm, target, true) == Line(PM.PackageCommand(pm, target))
  {
    var w := [if pm == PM.Yum then "rpm" else "dpkg", "-i", target];
    assert Shlex.QuoteAll(w) == w;
  }

  /** The converse: when the two generations agree, the target is non-empty
      and every character of it is safe. */
  lemma PackageCommandAgreesOnlyIf(pm: PM.PackageManager, target: string)
    requires PackageCommand(pm, target, true) == Line(PM.PackageCommand(pm, target))
    ensures |target| > 0 && Shlex.AllSafe(target)
  {
    var tool := PackageTool(pm);
    var q := Shlex.QuoteAll([tool, "-i", target]);
    assert q == [Shlex.Quote(tool), Shlex.Quote("-i"), Shlex.Quote(target)];
    assert Shlex.Quote(tool) == tool && Shlex.Quote("-i") == "-i";
    JoinThree(tool, "-i", Shlex.Quote(target));
    var pre := tool + " -i ";
    assert pre + target == pre + Shlex.Quote(target);
    assert target == (pre + target)[|pre|..];
    assert Shlex.Quote(target) == (pre + Shlex.Quote(target))[|pre|..];
    assert Shlex.Quote(target) == target;
    assert |Shlex.EscapeQuotes(target)| >= |target|;
  }

  /** With a target holding a space the two generations part ways: the
      older command reads back as four words, the newer as three. */
  lemma PackageCommandDiverges(pm: PM.PackageManager)
    ensures Shlex.Split(PackageCommand(pm, "a b", true).line) == Ok([if pm == PM.Yum then "rpm" else "dpkg", "-i", "a", "b"])
    ensures Shlex.Split(PM.PackageCommand(pm, "a b")) == Ok([if pm == PM.Yum then "rpm" else "dpkg", "-i", "a b"])
  {
    var tool := if pm == PM.Yum then "rpm" else "dpkg";
    var w := [tool, "-i", "a", "b"];
    Text.JoinCons(" ", "a", ["b"]);
    assert Text.Join(" ", [tool, "-i", "a b"]) == Text.Join(" ", w) by {
      Text.JoinCons(" ", "-i", ["a b"]);
      Text.JoinCons(" ", tool, ["-i", "a b"]);
      assert [tool] + ["-i", "a b"] == [tool, "-i", "a b"];
      Text.JoinCons(" ", "-i", ["a", "b"]);
      assert ["-i"] + ["a", "b"] == ["-i", "a", "b"];
      Text.JoinCons(" ", tool, ["-i", "a", "b"]);
      assert [tool] + ["-i", "a", "b"] == w;
    }
    Shlex.SplitPlainWords(w);
    PM.PackageCommandSplits(pm, "a b");
  }

  /** `generate_configure_command(stringify)`. For yum the older generation
      emits one line where the newer one uses backslash continuations. */
  function ConfigureCommand(pm: PM.PackageManager, stringify: bool): (r: Rendered)
    ensures r.Line? <==> stringify
    ensures r.Words? ==> r.words == (if pm == PM.Yum then YumConfigureWords else PM.AptGetConfigureWords)
    ensures r.Line? ==> r.line == Text.Join(" ", if pm == PM.Yum then YumConfigureWords else PM.AptGetConfigureWords)
    ensures pm == PM.AptGet && r.Line? ==> r.line == PM.ConfigureCommand(PM.AptGet)
  {
    var words := match pm
      case Yum =>
        ["yum", "update", "-y"] + ["&&", "echo", "'skip_missing_names_on_install=False'"]
        + [">>", "/etc/yum.conf"] + ["&&", "rm", "-rf", "/var/cache/yum"]
      case AptGet => ["apt-get", "-y", "update"] + ["&&", "apt-get", "clean", "all"];
    assert pm == PM.AptGet ==> words == PM.AptGetConfigureWords;
    assert pm == PM.Yum ==> words == YumConfigureWords;
    Render(words, stringify)
  }

  /** The words of the older generation's yum configure command. */
  const YumConfigureWords: seq<string> :=
    ["yum", "update", "-y", "&&", "echo", "'skip_missing_names_on_install=False'",
     ">>", "/etc/yum.conf", "&&", "rm", "-rf", "/var/cache/yum"]

  /** The older yum configure command is a single line with no newline in
      it, while the newer one is continued over three lines. */
  lemma YumConfigureDiffers()
    ensures '\n' !in ConfigureCommand(PM.Yum, true).line
    ensures '\n' in PM.ConfigureCommand(PM.Yum)
  {
    assert forall i :: 0 <= i < |YumConfigureWords| ==> '\n' !in YumConfigureWords[i];
    Text.JoinAvoids(" ", YumConfigureWords, '\n');
    var c := PM.ConfigureCommand(PM.Yum);
    var head := "yum update -y" + PM.Spaces(55) + "\\";
    assert c[|head|] == '\n';
  }

  /** `generate_read_command(target, output_target, stringify)`: the output
      flag and file are added only when an output target is given. */
  function ReadCommand(r: UR.UrlReader, target: string, output: Option<string>, stringify: bool): (c: Rendered)
    ensures c.Line? <==> stringify
    ensures c.Words? ==> c.words == UR.ReadWords(r, target, output)
    ensures c.Line? ==> c.line == UR.ReadCommand(r, target, output)
  {
    var words := match r
      case Wget => ["wget", target] + (if output.Some? then ["-O", output.value] else [])
      case Curl => ["curl", "--ssl", target] + (if output.Some? then ["-o", output.value] else []);
    assert words == UR.ReadWords(r, target, output);
    UR.ReadCommandWords(r, target, output);
    Render(words, stringify)
  }

  /** `get_package_manager(name)`: the name is lower-cased before the
      lookup, but the error message quotes it as given. */
  function GetPackageManager(name: string): (r: Result<PM.PackageManager>)
    ensures r.Ok? <==> Text.LowerAscii(name) in PM.Supported
    ensures r.Ok? ==> PM.Name(r.value) == Text.LowerAscii(name)
    ensures r.Err? ==> r.error == ValueError("Package manager '" + name + "' not recognized!")
  {
    var cleaned := Text.LowerAscii(name);
    if cleaned == "apt-get" then Ok(PM.AptGet)
    else if cleaned == "yum" then Ok(PM.Yum)
    else Err(ValueError("Package manager '" + name + "' not recognized!"))
  }

  /** The older lookup accepts everything the newer one does, with the same
      answer, and rejects with the same message. */
  lemma GetPackageManagerExtends(name: string)
    ensures PM.GetPackageManager(name).Ok? ==> GetPackageManager(name) == PM.GetPackageManager(name)
    ensures GetPackageManager(name).Err? ==> GetPackageManager(name) == PM.GetPackageManager(name)
  {
    if name == "yum" {
      assert Text.LowerAscii(name) == "yum";
    } else if name == "apt-get" {
      assert Text.LowerAscii(name) == "apt-get";
    } else if GetPackageManager(name).Err? {
      assert Text.LowerAscii(name) !in PM.Supported;
    }
  }

  /** Upper case is accepted by the older lookup only. */
  lemma GetPackageManagerIgnoresCase()
    ensures GetPackageManager("YUM") == Ok(PM.Yum)
    ensures GetPackageManager("Apt-Get") == Ok(PM.AptGet)
    ensures PM.GetPackageManager("YUM").Err?
  {
    assert Text.LowerAscii("YUM") == "yum";
    assert Text.LowerAscii("Apt-Get") == "apt-get";
  }

  /** A URL reader class: the older lookup returns the class itself, which
      the caller instantiates. */
  datatype ReaderClass = ReaderClass(kind: UR.UrlReader)

  /** `get_url_reader(name)`: exact lookup returning the class. */
  function GetUrlReader(name: string): (r: Result<ReaderClass>)
    ensures r.Ok? <==> name in Supported.urlReaders
    ensures r.Ok? ==> UR.Name(r.value.kind) == name
    ensures r.Err? ==> r.error == ValueError("URL Reader " + name + " not recognized!")
  {
    if name == "curl" then Ok(ReaderClass(UR.Curl))
    else if name == "wget" then Ok(ReaderClass(UR.Wget))
    else Err(ValueError("URL Reader " + name + " not recognized!"))
  }

  /** Both generations accept the same reader names and pick the same
      reader, one as a class and one as an instance. */
  lemma GetUrlReaderAgrees(name: string)
    ensures GetUrlReader(name).Ok? <==> UR.GetUrlReader(name).Ok?
    ensures GetUrlReader(name).Ok? ==> GetUrlReader(name).value.kind == UR.GetUrlReader(name).value
    ensures GetUrlReader(name).Err? ==> GetUrlReader(name).error == UR.GetUrlReader(name).error
  {
  }

  datatype SupportedLists = SupportedLists(packageManagers: seq<string>, urlReaders: seq<string>)

  /** `get_supported_package_managers()` and `get_supported_url_readers()`. */
  const Supported: SupportedLists := SupportedLists(["yum", "apt-get"], ["curl", "wget"])

  /** The older supported lists are the newer ones, in the same order, and
      every entry is accepted by the matching lookup. */
  lemma SupportedAgree()
    ensures Supported.packageManagers == PM.Supported && Supported.urlReaders == UR.Supported
    ensures forall i :: 0 <= i < |Supported.packageManagers| ==> GetPackageManager(Supported.packageManagers[i]).Ok?
    ensures forall i :: 0 <= i < |Supported.urlReaders| ==> GetUrlReader(Supported.urlReaders[i]).Ok?
  {
    assert Text.LowerAscii("yum") == "yum";
    assert Text.LowerAscii("apt-get") == "apt-get";
  }
}

=== FILE: shlex.dfy ===
/** Python's `shlex.quote`, `shlex.join` and `shlex.split` (POSIX mode, no
    comments, whitespace splitting), which the tool uses to build and to take
    apart shell command lines. */
module Shlex {
  import opened Errors
  import Text

  /** Characters `shlex.quote` leaves unquoted: ASCII word characters and
      `@%+=:,./-`. */
  predicate IsSafe(c: char) {
    ('a' <= c <= 'z') || ('A' <= c <= 'Z') || ('0' <= c <= '9')
    || c == '_' || c == '@' || c == '%' || c == '+' || c == '=' || c == ':'
    || c == ',' || c == '.' || c == '/' || c == '-'
  }

  predicate AllSafe(s: string) {
    forall i :: 0 <= i < |s| ==> IsSafe(s[i])
  }

  /** The whitespace `shlex` splits on. */
  predicate IsBlank(c: char) {
    c == ' ' || c == '\t' || c == '\r' || c == '\n'
  }

  /** Replaces every single quote by `'"'"'`: close the quote, emit a
      double-quoted `'`, reopen. */
  function EscapeQuotes(s: string): (r: string)
    ensures |r| >= |s|
  {
    if |s| == 0 then ""
    else (if s[0] == '\'' then "'\"'\"'" else [s[0]]) + EscapeQuotes(s[1..])
  }

  /** `shlex.quote(s)`. */
  function Quote(s: string): (r: string)
    ensures |r| > 0
  {
    if |s| == 0 then "''"
    else if AllSafe(s) then s
    else "'" + EscapeQuotes(s) + "'"
  }

  function QuoteAll(words: seq<string>): (r: seq<string>)
    ensures |r| == |words|
    ensures forall i :: 0 <= i < |words| ==> r[i] == Quote(words[i])
  {
    if |words| == 0 then [] else [Quote(words[0])] + QuoteAll(words[1..])
  }

  /** `shlex.join(words)`. */
  function JoinWords(words: seq<string>): string {
    Text.Join(" ", QuoteAll(words))
  }

  // ------------------------------------------------------------- splitting

  /** The lexer's states: between tokens, inside an unquoted word, inside
      single or double quotes, and right after a backslash outside quotes or
      inside double quotes. */
  datatype LexState = Blank | Word | Single | Double | EscWord | EscDouble

  /** Runs the lexer over `s` from state `st` with the partial token `tok`
      and the tokens `acc` already complete. */
  function Lex(s: string, st: LexState, tok: string, acc: seq<string>): (r: Result<seq<string>>)
    ensures r.Err? ==> r.error.ValueError?
    decreases |s|
  {
    if |s| == 0 then
      match st
      case Blank => Ok(acc)
      case Word => Ok(acc + [tok])
      case Single => Err(ValueError("No closing quotation"))
      case Double => Err(ValueError("No closing quotation"))
      case EscWord => Err(ValueError("No escaped character"))
      case EscDouble => Err(ValueError("No escaped character"))
    else
      var c := s[0];
      var rest := s[1..];
      match st
      case Blank =>
        if IsBlank(c) then Lex(rest, Blank, "", acc)
        else if c == '\\' then Lex(rest, EscWord, "", acc)
        else if c == '\'' then Lex(rest, Single, "", acc)
        else if c == '"' then Lex(rest, Double, "", acc)
        else Lex(rest, Word, [c], acc)
      case Word =>
        if IsBlank(c) then Lex(rest, Blank, "", acc + [tok])
        else if c == '\\' then Lex(rest, EscWord, tok, acc)
        else if c == '\'' then Lex(rest, Single, tok, acc)
        else if c == '"' then Lex(rest, Double, tok, acc)
        else Lex(rest, Word, tok + [c], acc)
      case Single =>
        if c == '\'' then Lex(rest, Word, tok, acc)
        else Lex(rest, Single, tok + [c], acc)
      case Double =>
        if c == '"' then Lex(rest, Word, tok, acc)
        else if c == '\\' then Lex(rest, EscDouble, tok, acc)
        else Lex(rest, Double, tok + [c], acc)
      case EscWord =>
        Lex(rest, Word, tok + [c], acc)
      case EscDouble =>
        Lex(rest, Double, tok + (if c == '\\' || c == '"' then [c] else ['\\', c]), acc)
  }

  /** `shlex.split(s)`: the words of `s`, or the lexer's ValueError for an
      unclosed quote or a trailing backslash. */
  function Split(s: string): Result<seq<string>> {
    Lex(s, Blank, "", [])
  }

  // --------------------------------------------------------- lexer lemmas

  /** A character the lexer copies into a word without changing state. */
  predicate IsPlain(c: char) {
    !IsBlank(c) && c != '\\' && c != '\'' && c != '"'
  }

  /** A non-empty word that `shlex.split` reads back unchanged. */
  predicate PlainWord(w: string) {
    |w| > 0 && forall i :: 0 <= i < |w| ==> IsPlain(w[i])
  }

  lemma SafeIsPlain(w: string)
    requires |w| > 0 && AllSafe(w)
    ensures PlainWord(w)
  {
  }

  /** Plain characters are copied into the current word. */
  lemma {:induction false} LexPlainRun(w: string, rest: string, tok: string, acc: seq<string>)
    requires forall i :: 0 <= i < |w| ==> IsPlain(w[i])
    ensures Lex(w + rest, Word, tok, acc) == Lex(rest, Word, tok + w, acc)
    decreases |w|
  {
    if |w| > 0 {
      assert (w + rest)[0] == w[0];
      assert (w + rest)[1..] == w[1..] + rest;
      assert forall i :: 0 <= i < |w[1..]| ==> w[1..][i] == w[i + 1];
      LexPlainRun(w[1..], rest, tok + [w[0]], acc);
      assert tok + [w[0]] + w[1..] == tok + w;
    } else {
      assert w + rest == rest;
      assert tok + w == tok;
    }
  }

  /** A plain word read from between tokens leaves the lexer inside that word. */
  lemma PlainLexes(w: string, rest: string, acc: seq<string>)
    requires PlainWord(w)
    ensures Lex(w + rest, Blank, "", acc) == Lex(rest, Word, w, acc)
  {
    assert (w + rest)[0] == w[0];
    assert (w + rest)[1..] == w[1..] + rest;
    assert forall i :: 0 <= i < |w[1..]| ==> w[1..][i] == w[i + 1];
    LexPlainRun(w[1..], rest, [w[0]], acc);
    assert [w[0]] + w[1..] == w;
  }

  /** A plain word and a blank from between tokens complete the word. */
  lemma PlainThenBlank(w: string, rest: string, acc: seq<string>)
    requires PlainWord(w)
    ensures Lex(w + " " + rest, Blank, "", acc) == Lex(rest, Blank, "", acc + [w])
  {
    assert w + " " + rest == w + (" " + rest);
    PlainLexes(w, " " + rest, acc);
    assert (" " + rest)[0] == ' ' && (" " + rest)[1..] == rest;
  }

  lemma {:induction false} LexPlainJoined(words: seq<string>, acc: seq<string>)
    requires |words| > 0
    requires forall i :: 0 <= i < |words| ==> PlainWord(words[i])
    ensures Lex(Text.Join(" ", words), Blank, "", acc) == Ok(acc + words)
    decreases |words|
  {
    if |words| == 1 {
      PlainLexes(words[0], "", acc);
      assert words[0] + "" == words[0];
      assert words == [words[0]];
    } else {
      assert Text.Join(" ", words) == words[0] + (" " + Text.Join(" ", words[1..]));
      PlainLexes(words[0], " " + Text.Join(" ", words[1..]), acc);
      assert (" " + Text.Join(" ", words[1..]))[1..] == Text.Join(" ", words[1..]);
      LexPlainJoined(words[1..], acc + [words[0]]);
      assert acc + [words[0]] + words[1..] == acc + words;
    }
  }

  /** Space-joined plain words split back into the same words. */
  lemma SplitPlainWords(words: seq<string>)
    requires forall i :: 0 <= i < |words| ==> PlainWord(words[i])
    ensures Split(Text.Join(" ", words)) == Ok(words)
  {
    if |words| > 0 {
      LexPlainJoined(words, []);
      assert [] + words == words;
    }
  }

  /** Inside single quotes everything but `'` is copied. */
  lemma {:induction false} LexSingleRun(w: string, rest: string, tok: string, acc: seq<string>)
    requires '\'' !in w
    ensures Lex(w + "'" + rest, Single, tok, acc) == Lex(rest, Word, tok + w, acc)
    decreases |w|
  {
    if |w| > 0 {
      assert (w + "'" + rest)[0] == w[0];
      assert (w + "'" + rest)[1..] == w[1..] + "'" + rest;
      assert w[0] in w;
      LexSingleRun(w[1..], rest, tok + [w[0]], acc);
      assert tok + [w[0]] + w[1..] == tok + w;
    } else {
      assert w + "'" + rest == "'" + rest;
      assert ("'" + rest)[1..] == rest;
      assert tok + w == tok;
    }
  }

  /** Inside double quotes everything but `"` and the backslash is copied. */
  lemma {:induction false} LexDoubleRun(w: string, rest: string, tok: string, acc: seq<string>)
    requires '"' !in w && '\\' !in w
    ensures Lex(w + "\"" + rest, Double, tok, acc) == Lex(rest, Word, tok + w, acc)
    decreases |w|
  {
    if |w| > 0 {
      assert (w + "\"" + rest)[0] == w[0];
      assert (w + "\"" + rest)[1..] == w[1..] + "\"" + rest;
      assert w[0] in w;
      LexDoubleRun(w[1..], rest, tok + [w[0]], acc);
      assert tok + [w[0]] + w[1..] == tok + w;
    } else {
      assert w + "\"" + rest == "\"" + rest;
      assert ("\"" + rest)[1..] == rest;
      assert tok + w == tok;
    }
  }

  /** A double quote that never closes is the lexer's ValueError. */
  lemma {:induction false} LexDoubleUnclosed(w: string, tok: string, acc: seq<string>)
    requires '"' !in w && '\\' !in w
    ensures Lex(w, Double, tok, acc) == Err(ValueError("No closing quotation"))
    decreases |w|
  {
    if |w| > 0 {
      assert w[0] in w;
      assert forall c :: c in w[1..] ==> c in w;
      LexDoubleUnclosed(w[1..], tok + [w[0]], acc);
    }
  }

  /** The quoted form of a string, read from inside the opening quote, yields
      the string itself and leaves the lexer in a word. */
  lemma {:induction false} LexEscaped(w: string, rest: string, tok: string, acc: seq<string>)
    ensures Lex(EscapeQuotes(w) + "'" + rest, Single, tok, acc) == Lex(rest, Word, tok + w, acc)
    decreases |w|
  {
    if |w| == 0 {
      assert EscapeQuotes(w) + "'" + rest == "'" + rest;
      assert ("'" + rest)[1..] == rest;
      assert tok + w == tok;
    } else {
      var tail := EscapeQuotes(w[1..]) + "'" + rest;
      LexEscaped(w[1..], rest, tok + [w[0]], acc);
      assert tok + [w[0]] + w[1..] == tok + w;
      if w[0] == '\'' {
        var s := "'\"'\"'" + tail;
        assert EscapeQuotes(w) + "'" + rest == s;
        assert s[0] == '\'' && s[1..] == "\"'\"'" + tail;
        assert s[1..][0] == '"' && s[1..][1..] == "'\"'" + tail;
        assert s[1..][1..][0] == '\'' && s[1..][1..][1..] == "\"'" + tail;
        assert s[1..][1..][1..][0] == '"' && s[1..][1..][1..][1..] == "'" + tail;
        assert s[1..][1..][1..][1..][0] == '\'' && s[1..][1..][1..][1..][1..] == tail;
        calc {
          Lex(s, Single, tok, acc);
          Lex(s[1..], Word, tok, acc);
          Lex(s[1..][1..], Double, tok, acc);
          Lex(s[1..][1..][1..], Double, tok + ['\''], acc);
          Lex(s[1..][1..][1..][1..], Word, tok + ['\''], acc);
          Lex(tail, Single, tok + [w[0]], acc);
        }
      } else {
        var s := [w[0]] + tail;
        assert EscapeQuotes(w) + "'" + rest == s;
        assert s[0] == w[0] && s[1..] == tail;
      }
    }
  }

  /** Reading one quoted word from between tokens leaves the lexer inside a
      word holding exactly that word. */
  lemma QuoteLexes(w: string, rest: string, acc: seq<string>)
    ensures Lex(Quote(w) + rest, Blank, "", acc) == Lex(rest, Word, w, acc)
  {
    if |w| == 0 {
      EmptyQuoteLexes(rest, acc);
    } else if AllSafe(w) {
      SafeIsPlain(w);
      PlainLexes(w, rest, acc);
    } else {
      EscapedQuoteLexes(w, rest, acc);
    }
  }

  /** The empty word is quoted as `''`. */
  lemma EmptyQuoteLexes(rest: string, acc: seq<string>)
    ensures Lex("''" + rest, Blank, "", acc) == Lex(rest, Word, "", acc)
  {
    var s := "''" + rest;
    assert s[0] == '\'' && s[1..] == "'" + rest;
    assert s[1..][0] == '\'' && s[1..][1..] == rest;
  }

  /** A word quoted with its single quotes escaped is read back whole. */
  lemma EscapedQuoteLexes(w: string, rest: string, acc: seq<string>)
    ensures Lex("'" + EscapeQuotes(w) + "'" + rest, Blank, "", acc) == Lex(rest, Word, w, acc)
  {
    var s := "'" + EscapeQuotes(w) + "'" + rest;
    assert s[0] == '\'' && s[1..] == EscapeQuotes(w) + "'" + rest;
    LexEscaped(w, rest, "", acc);
    assert "" + w == w;
  }

  /** Round trip: `shlex.split(shlex.quote(w)) == [w]`. */
  lemma SplitQuote(w: string)
    ensures Split(Quote(w)) == Ok([w])
  {
    QuoteLexes(w, "", []);
    assert Quote(w) + "" == Quote(w);
    assert Lex("", Word, w, []) == Ok([] + [w]);
    assert [] + [w] == [w];
  }

  /** A space after a word completes it. */
  lemma LexSpaceEndsWord(rest: string, tok: string, acc: seq<string>)
    ensures Lex(" " + rest, Word, tok, acc) == Lex(rest, Blank, "", acc + [tok])
  {
    assert (" " + rest)[0] == ' ' && (" " + rest)[1..] == rest;
  }

  /** The end of input completes a word. */
  lemma LexEndsWord(tok: string, acc: seq<string>)
    ensures Lex("", Word, tok, acc) == Ok(acc + [tok])
  {
  }

  lemma JoinWordsCons(words: seq<string>)
    requires |words| > 1
    ensures JoinWords(words) == Quote(words[0]) + (" " + JoinWords(words[1..]))
  {
    assert QuoteAll(words) == [Quote(words[0])] + QuoteAll(words[1..]);
    Text.JoinCons(" ", Quote(words[0]), QuoteAll(words[1..]));
  }

  lemma {:induction false} LexJoined(words: seq<string>, acc: seq<string>)
    requires |words| > 0
    ensures Lex(JoinWords(words), Blank, "", acc) == Ok(acc + words)
    decreases |words|
  {
    if |words| == 1 {
      assert JoinWords(words) == Quote(words[0]) + "";
      QuoteLexes(words[0], "", acc);
      LexEndsWord(words[0], acc);
      assert words == [words[0]];
    } else {
      var tail := JoinWords(words[1..]);
      JoinWordsCons(words);
      QuoteLexes(words[0], " " + tail, acc);
      LexSpaceEndsWord(tail, words[0], acc);
      LexJoined(words[1..], acc + [words[0]]);
      assert acc + [words[0]] + words[1..] == acc + words;
    }
  }

  /** Round trip: `shlex.split(shlex.join(words)) == words`. */
  lemma SplitJoinWords(words: seq<string>)
    ensures Split(JoinWords(words)) == Ok(words)
  {
    if |words| > 0 {
      LexJoined(words, []);
      assert [] + words == words;
    }
  }

  /** A command wrapped in single quotes, as `Image.run` does before splitting,
      comes back as one word when it holds no single quote. */
  lemma SplitSingleQuoted(command: string)
    ensures '\'' !in command ==> Split("'" + command + "'") == Ok([command])
  {
    if '\'' !in command {
      var s := "'" + command + "'";
      assert s[0] == '\'' && s[1..] == command + "'" + "";
      LexSingleRun(command, "", "", []);
      assert "" + command == command;
      LexEndsWord(command, []);
      assert [] + [command] == [command];
    }
  }

  /** The first word of a command line, as `split(command)[0]`: the split's
      ValueError, or IndexError when there is no word. */
  function FirstWord(command: string): (r: Result<string>)
    ensures Split(command).Ok? && |Split(command).value| > 0 <==> r.Ok?
    ensures r.Ok? ==> r.value == Split(command).value[0]
    ensures r.Err? ==> r.error.ValueError? || r.error.IndexError?
  {
    var words :- Split(command);
    if |words| == 0 then Err(IndexError) else Ok(words[0])
  }

  // -------------------------------------------- a joined line, re-quoted

  /** Inside single quotes, text without `'` is copied and the quote stays
      open. */
  lemma {:induction false} LexSingleCopy(w: string, rest: string, tok: string, acc: seq<string>)
    requires '\'' !in w
    ensures Lex(w + rest, Single, tok, acc) == Lex(rest, Single, tok + w, acc)
    decreases |w|
  {
    if |w| > 0 {
      assert (w + rest)[0] == w[0];
      assert (w + rest)[1..] == w[1..] + rest;
      assert w[0] in w;
      LexSingleCopy(w[1..], rest, tok + [w[0]], acc);
      assert tok + [w[0]] + w[1..] == tok + w;
    } else {
      assert w + rest == rest;
      assert tok + w == tok;
    }
  }

  lemma {:induction false} EscapeNoQuotes(w: string)
    requires '\'' !in w
    ensures EscapeQuotes(w) == w
    decreases |w|
  {
    if |w| > 0 {
      assert w[0] in w;
      EscapeNoQuotes(w[1..]);
      assert w == [w[0]] + w[1..];
    }
  }

  lemma CloseQuote(rest: string, tok: string, acc: seq<string>)
    ensures Lex("'" + rest, Single, tok, acc) == Lex(rest, Word, tok, acc)
  {
    assert ("'" + rest)[0] == '\'' && ("'" + rest)[1..] == rest;
  }

  lemma OpenQuote(rest: string, tok: string, acc: seq<string>)
    ensures Lex("'" + rest, Word, tok, acc) == Lex(rest, Single, tok, acc)
  {
    assert ("'" + rest)[0] == '\'' && ("'" + rest)[1..] == rest;
  }

  lemma PlainNoQuote(w: string)
    requires PlainWord(w)
    ensures '\'' !in w
  {
    assert forall k :: 0 <= k < |w| ==> IsPlain(w[k]);
  }

  /** A plain word as `shlex.quote` renders it, read from inside single
      quotes, adds the word itself and leaves the quote open: where the
      word needed quotes, its quotes close and reopen the outer ones. */
  lemma QuoteInSingle(w: string, rest: string, tok: string, acc: seq<string>)
    requires PlainWord(w)
    ensures Lex(Quote(w) + rest, Single, tok, acc) == Lex(rest, Single, tok + w, acc)
  {
    PlainNoQuote(w);
    if AllSafe(w) {
      LexSingleCopy(w, rest, tok, acc);
    } else {
      EscapeNoQuotes(w);
      QuotedInSingle(w, rest, tok, acc);
    }
  }

  lemma QuotedInSingle(w: string, rest: string, tok: string, acc: seq<string>)
    requires forall i :: 0 <= i < |w| ==> IsPlain(w[i])
    ensures Lex("'" + w + "'" + rest, Single, tok, acc) == Lex(rest, Single, tok + w, acc)
  {
    var tail := "'" + rest;
    assert "'" + w + "'" + rest == "'" + (w + tail);
    CloseQuote(w + tail, tok, acc);
    LexPlainRun(w, tail, tok, acc);
    OpenQuote(rest, tok + w, acc);
  }

  lemma {:induction false} JoinedInSingle(words: seq<string>, rest: string, tok: string, acc: seq<string>)
    requires |words| > 0
    requires forall i :: 0 <= i < |words| ==> PlainWord(words[i])
    ensures Lex(JoinWords(words) + rest, Single, tok, acc) == Lex(rest, Single, tok + Text.Join(" ", words), acc)
    decreases |words|
  {
    if |words| == 1 {
      assert JoinWords(words) == Quote(words[0]);
      QuoteInSingle(words[0], rest, tok, acc);
    } else {
      var tail := JoinWords(words[1..]);
      calc {
        Lex(JoinWords(words) + rest, Single, tok, acc);
        { JoinWordsCons(words);
          Text.Regroup(Quote(words[0]), " ", tail, rest); }
        Lex(Quote(words[0]) + (" " + (tail + rest)), Single, tok, acc);
        { QuoteInSingle(words[0], " " + (tail + rest), tok, acc); }
        Lex(" " + (tail + rest), Single, tok + words[0], acc);
        { LexSingleCopy(" ", tail + rest, tok + words[0], acc); }
        Lex(tail + rest, Single, tok + words[0] + " ", acc);
        { JoinedInSingle(words[1..], rest, tok + words[0] + " ", acc); }
        Lex(rest, Single, tok + words[0] + " " + Text.Join(" ", words[1..]), acc);
        { Text.JoinCons(" ", words[0], words[1..]);
          assert [words[0]] + words[1..] == words;
          assert tok + words[0] + " " + Text.Join(" ", words[1..]) == tok + Text.Join(" ", words); }
        Lex(rest, Single, tok + Text.Join(" ", words), acc);
      }
    }
  }

  /** `split(f"'{shlex.join(words)}'")`, as `Image.run` treats a joined
      command line, gives back one word: the words joined by single spaces
      with every quote gone, so that words `shlex.join` had to quote (`&&`,
      `(`, `*`) reach the shell bare. */
  lemma WrappedJoinWords(words: seq<string>)
    requires |words| > 0
    requires forall i :: 0 <= i < |words| ==> PlainWord(words[i])
    ensures Split("'" + JoinWords(words) + "'") == Ok([Text.Join(" ", words)])
  {
    var j := JoinWords(words);
    var line := Text.Join(" ", words);
    SplitOpening(j + "'");
    assert "'" + j + "'" == "'" + (j + "'");
    JoinedInSingle(words, "'", "", []);
    LastQuote(line);
  }

  lemma SplitOpening(body: string)
    ensures Split("'" + body) == Lex(body, Single, "", [])
  {
    assert ("'" + body)[0] == '\'' && ("'" + body)[1..] == body;
  }

  lemma LastQuote(line: string)
    ensures Lex("'", Single, "" + line, []) == Ok([line])
  {
    assert "" + line == line;
    assert "'"[1..] == "";
    assert [] + [line] == [line];
  }
}

=== FILE: text.dfy ===
/** The handful of Python `str` operations the tool relies on, defined once
    with the facts about them that the rest of the model uses. */
module Text {

  /** `sep.join(parts)`. */
  function Join(sep: string, parts: seq<string>): string
    decreases |parts|
  {
    if |parts| == 0 then ""
    else if |parts| == 1 then parts[0]
    else parts[0] + sep + Join(sep, parts[1..])
  }

  /** `s.startswith(p)`. */
  predicate StartsWith(s: string, p: string) {
    |p| <= |s| && s[..|p|] == p
  }

  /** `s.endswith(p)`. */
  predicate EndsWith(s: string, p: string) {
    |p| <= |s| && s[|s| - |p|..] == p
  }

  /** `sub` occurs in `s` starting at index `i`. */
  predicate OccursAt(s: string, sub: string, i: int) {
    0 <= i <= |s| - |sub| && s[i..i + |sub|] == sub
  }

  /** `sub in s`. */
  predicate Contains(s: string, sub: string) {
    exists i :: 0 <= i <= |s| && OccursAt(s, sub, i)
  }

  /** A piece of a concatenation occurs in it where it was put. */
  lemma OccursBetween(pre: string, sub: string, post: string)
    ensures OccursAt(pre + sub + post, sub, |pre|)
    ensures Contains(pre + sub + post, sub)
  {
    var s := pre + sub + post;
    assert s[|pre|..|pre| + |sub|] == sub;
    assert OccursAt(s, sub, |pre|);
  }

  /** An occurrence inside an occurrence is an occurrence. */
  lemma OccursWithin(s: string, t: string, i: int, u: string, j: int)
    requires OccursAt(s, t, i) && OccursAt(t, u, j)
    ensures OccursAt(s, u, i + j) && Contains(s, u)
  {
    var inner := s[i + j..i + j + |u|];
    var outer := s[i..i + |t|][j..j + |u|];
    assert forall k :: 0 <= k < |u| ==> inner[k] == outer[k];
    assert inner == outer;
    assert OccursAt(s, u, i + j);
  }

  /** `s.replace(a, b)` for single characters. */
  function ReplaceChar(s: string, a: char, b: char): (r: string)
    ensures |r| == |s|
    ensures forall i :: 0 <= i < |s| ==> r[i] == (if s[i] == a then b else s[i])
  {
    if |s| == 0 then ""
    else [if s[0] == a then b else s[0]] + ReplaceChar(s[1..], a, b)
  }

  /** `s.split(c)` for a single-character separator: never empty, and
      `"".split(c) == [""]`. */
  function Split(s: string, c: char): (r: seq<string>)
    ensures |r| >= 1
    decreases |s|
  {
    if |s| == 0 then [""]
    else
      var rest := Split(s[1..], c);
      if s[0] == c then [""] + rest
      else [[s[0]] + rest[0]] + rest[1..]
  }

  /** `s.strip(chars)`: drops characters of `chars` from both ends. */
  function Strip(s: string, chars: set<char>): (r: string)
    ensures |r| <= |s|
    ensures |r| > 0 ==> r[0] !in chars && r[|r| - 1] !in chars
    decreases |s|
  {
    if |s| > 0 && s[0] in chars then Strip(s[1..], chars)
    else if |s| > 0 && s[|s| - 1] in chars then Strip(s[..|s| - 1], chars)
    else s
  }

  /** `s.split(sep)` for a non-empty separator: cuts at the leftmost
      occurrence, then continues after it. */
  function SplitOn(s: string, sep: string): (r: seq<string>)
    requires |sep| > 0
    ensures |r| >= 1
    decreases |s|
  {
    if |s| == 0 then [""]
    else if StartsWith(s, sep) then [""] + SplitOn(s[|sep|..], sep)
    else
      var rest := SplitOn(s[1..], sep);
      [[s[0]] + rest[0]] + rest[1..]
  }

  /** The index of the first `c` in `s`, or `|s|` when there is none. */
  function IndexOf(s: string, c: char): (r: nat)
    ensures r <= |s|
    ensures r < |s| ==> s[r] == c
    ensures forall j :: 0 <= j < r ==> s[j] != c
    decreases |s|
  {
    if |s| == 0 then 0
    else if s[0] == c then 0
    else 1 + IndexOf(s[1..], c)
  }

  /** The characters `str.isspace` accepts, which bare `str.strip()` removes. */
  const Whitespace: set<char> :=
    {' ', '\t', '\n', '\r', '\U{0b}', '\U{0c}', '\U{1c}', '\U{1d}', '\U{1e}', '\U{1f}',
     '\U{0085}', '\U{00a0}', '\U{1680}', '\U{2000}', '\U{2001}', '\U{2002}', '\U{2003}',
     '\U{2004}', '\U{2005}', '\U{2006}', '\U{2007}', '\U{2008}', '\U{2009}', '\U{200a}',
     '\U{2028}', '\U{2029}', '\U{202f}', '\U{205f}', '\U{3000}'}

  /** ASCII `str.lower`. */
  function LowerAscii(s: string): (r: string)
    ensures |r| == |s|
  {
    if |s| == 0 then ""
    else [if 'A' <= s[0] <= 'Z' then (s[0] as int + 32) as char else s[0]] + LowerAscii(s[1..])
  }

  predicate IsDigit(c: char) {
    '0' <= c <= '9'
  }

  /** One or more ASCII digits, the language of `[0-9]+`. */
  predicate IsDigits(s: string) {
    |s| > 0 && forall i :: 0 <= i < |s| ==> IsDigit(s[i])
  }

  /** The value `int(s)` gives for a string of ASCII digits. */
  function DigitsValue(s: string): nat
    decreases |s|
  {
    if |s| == 0 then 0
    else DigitsValue(s[..|s| - 1]) * 10 + (if IsDigit(s[|s| - 1]) then s[|s| - 1] as int - '0' as int else 0)
  }

  /** `str(n)` for a natural number. */
  function NatToString(n: nat): string
    decreases n
  {
    if n < 10 then [('0' as int + n) as char]
    else NatToString(n / 10) + [('0' as int + n % 10) as char]
  }

  /** Lexicographic order on code points, Python's `<=` on `str`. */
  predicate StrLe(a: string, b: string)
    decreases |a|
  {
    |a| == 0 || (|b| > 0 && (a[0] < b[0] || (a[0] == b[0] && StrLe(a[1..], b[1..]))))
  }

  predicate Sorted(s: seq<string>) {
    forall i, j :: 0 <= i < j < |s| ==> StrLe(s[i], s[j])
  }

  /** `f` applied to every element, in order. */
  function Map<S, T>(s: seq<S>, f: S -> T): (r: seq<T>)
    ensures |r| == |s|
    ensures forall i :: 0 <= i < |s| ==> r[i] == f(s[i])
  {
    seq(|s|, i requires 0 <= i < |s| => f(s[i]))
  }

  /** Mapping a concatenation is concatenating the maps. */
  lemma MapConcat<S, T>(a: seq<S>, b: seq<S>, f: S -> T)
    ensures Map(a + b, f) == Map(a, f) + Map(b, f)
  {
    forall i | 0 <= i < |a| + |b|
      ensures Map(a + b, f)[i] == (Map(a, f) + Map(b, f))[i]
    {
      if i >= |a| {
        assert (a + b)[i] == b[i - |a|];
      }
    }
  }

  /** Keeps, in order, the elements that satisfy `p` (`list(filter(p, s))`). */
  function Filter<T>(s: seq<T>, p: T -> bool): (r: seq<T>)
    ensures |r| <= |s|
    ensures forall x :: x in r ==> x in s && p(x)
    ensures forall x :: x in s && p(x) ==> x in r
    decreases |s|
  {
    if |s| == 0 then []
    else if p(s[0]) then [s[0]] + Filter(s[1..], p)
    else Filter(s[1..], p)
  }

  /** Filtering depends only on the predicate's answers for the elements. */
  lemma {:induction false} FilterSame<T>(s: seq<T>, p: T -> bool, q: T -> bool)
    requires forall i :: 0 <= i < |s| ==> p(s[i]) == q(s[i])
    ensures Filter(s, p) == Filter(s, q)
    decreases |s|
  {
    if |s| > 0 {
      FilterSame(s[1..], p, q);
    }
  }

  /** No line of `lines` holds a newline, so joining them with newlines
      and splitting again gives them back. */
  predicate LinesFree(lines: seq<string>) {
    forall i :: 0 <= i < |lines| ==> '\n' !in lines[i]
  }

  /** A character in neither part is not in their concatenation. Long
      literals are split in two to show they hold no newline. */
  lemma ConcatFree(a: string, b: string, c: char)
    requires c !in a && c !in b
    ensures c !in a + b
  {
    assert forall k :: 0 <= k < |a + b| ==> (a + b)[k] == (if k < |a| then a[k] else b[k - |a|]);
  }

  lemma LinesFreeConcat(a: seq<string>, b: seq<string>)
    requires LinesFree(a) && LinesFree(b)
    ensures LinesFree(a + b)
  {
    assert forall i :: |a| <= i < |a + b| ==> (a + b)[i] == b[i - |a|];
  }

  // ---------------------------------------------------------------- join

  lemma JoinAppend(sep: string, a: seq<string>, x: string)
    requires |a| > 0
    ensures Join(sep, a + [x]) == Join(sep, a) + sep + x
    decreases |a|
  {
    if |a| == 1 {
      assert a + [x] == [a[0], x];
      assert ([a[0], x])[1..] == [x];
    } else {
      assert (a + [x])[1..] == a[1..] + [x];
      JoinAppend(sep, a[1..], x);
    }
  }

  lemma JoinCons(sep: string, x: string, rest: seq<string>)
    requires |rest| > 0
    ensures Join(sep, [x] + rest) == x + sep + Join(sep, rest)
  {
    assert ([x] + rest)[1..] == rest;
  }

  /** Joining two non-empty lists is joining each and gluing the results
      with one separator. */
  lemma {:induction false} JoinConcat(sep: string, a: seq<string>, b: seq<string>)
    requires |a| > 0 && |b| > 0
    ensures Join(sep, a + b) == Join(sep, a) + sep + Join(sep, b)
    decreases |a|
  {
    if |a| == 1 {
      JoinCons(sep, a[0], b);
      assert a + b == [a[0]] + b;
    } else {
      JoinConcat(sep, a[1..], b);
      assert (a + b)[1..] == a[1..] + b;
      JoinCons(sep, a[0], a[1..]);
      JoinCons(sep, a[0], a[1..] + b);
      assert a == [a[0]] + a[1..];
      assert a + b == [a[0]] + (a[1..] + b);
    }
  }

  lemma JoinSingleton(sep: string, x: string)
    ensures Join(sep, [x]) == x
  {
  }

  /** No separator character is introduced when none of the parts hold it. */
  lemma JoinFree(c: char, parts: seq<string>)
    requires forall i :: 0 <= i < |parts| ==> c !in parts[i]
    requires |parts| <= 1
    ensures c !in Join([c], parts)
  {
  }

  /** A character in neither the separator nor any part is not in the
      joined string. */
  lemma {:induction false} JoinAvoids(sep: string, parts: seq<string>, c: char)
    requires c !in sep
    requires forall i :: 0 <= i < |parts| ==> c !in parts[i]
    ensures c !in Join(sep, parts)
    decreases |parts|
  {
    if |parts| > 1 {
      JoinAvoids(sep, parts[1..], c);
      assert forall i :: 0 <= i < |parts| - 1 ==> parts[1..][i] == parts[i + 1];
    }
  }

  // ---------------------------------------------------------------- split

  /** The pieces of a split never contain the separator. */
  lemma {:induction false} SplitPiecesFree(s: string, c: char)
    ensures forall i :: 0 <= i < |Split(s, c)| ==> c !in Split(s, c)[i]
    decreases |s|
  {
    if |s| > 0 {
      SplitPiecesFree(s[1..], c);
      var rest := Split(s[1..], c);
      if s[0] != c {
        var r := Split(s, c);
        assert r == [[s[0]] + rest[0]] + rest[1..];
        forall i | 0 <= i < |r|
          ensures c !in r[i]
        {
          if i == 0 {
            assert r[0] == [s[0]] + rest[0];
            assert c !in rest[0];
          } else {
            assert r[i] == rest[i];
          }
        }
      }
    }
  }

  /** Round trip: joining the pieces of a split restores the string. */
  lemma {:induction false} JoinSplit(s: string, c: char)
    ensures Join([c], Split(s, c)) == s
    decreases |s|
  {
    if |s| > 0 {
      var rest := Split(s[1..], c);
      JoinSplit(s[1..], c);
      if s[0] == c {
        assert Split(s, c) == [""] + rest;
        assert ([""] + rest)[1..] == rest;
        assert Join([c], [""] + rest) == "" + [c] + Join([c], rest);
        assert s == [s[0]] + s[1..];
      } else {
        var head := [s[0]] + rest[0];
        assert Split(s, c) == [head] + rest[1..];
        if |rest| == 1 {
          assert Join([c], rest) == rest[0];
          assert [head] + rest[1..] == [head];
        } else {
          assert ([head] + rest[1..])[1..] == rest[1..];
          assert Join([c], rest) == rest[0] + [c] + Join([c], rest[1..]);
          assert Join([c], [head] + rest[1..]) == head + [c] + Join([c], rest[1..]);
        }
        assert s == [s[0]] + s[1..];
      }
    }
  }

  /** Round trip the other way: splitting a join of separator-free pieces
      gives the pieces back. */
  lemma {:induction false} SplitJoin(parts: seq<string>, c: char)
    requires |parts| > 0
    requires forall i :: 0 <= i < |parts| ==> c !in parts[i]
    ensures Split(Join([c], parts), c) == parts
    decreases |parts|, |parts[0]|
  {
    var p := parts[0];
    if |parts| == 1 {
      SplitFree(p, c);
    } else if |p| == 0 {
      var tail := parts[1..];
      SplitJoin(tail, c);
      assert Join([c], parts) == p + [c] + Join([c], tail);
      assert Join([c], parts) == [c] + Join([c], tail);
      assert ([c] + Join([c], tail))[1..] == Join([c], tail);
      assert parts == [""] + tail;
    } else {
      var parts' := [p[1..]] + parts[1..];
      assert parts'[1..] == parts[1..];
      forall i | 0 <= i < |parts'|
        ensures c !in parts'[i]
      {
        if i == 0 {
          assert forall k :: 0 <= k < |p[1..]| ==> p[1..][k] == p[k + 1];
        } else {
          assert parts'[i] == parts[i];
        }
      }
      SplitJoin(parts', c);
      var j := Join([c], parts);
      var j' := Join([c], parts');
      assert j == p + [c] + Join([c], parts[1..]);
      assert j' == p[1..] + [c] + Join([c], parts[1..]);
      assert j[0] == p[0];
      assert j[1..] == j';
      assert p[0] != c;
      var rest := Split(j[1..], c);
      assert rest == parts';
      assert Split(j, c) == [[p[0]] + rest[0]] + rest[1..];
      assert [p[0]] + p[1..] == p;
      assert parts == [p] + parts[1..];
    }
  }

  /** Splitting at a separator occurrence splits the two sides independently. */
  lemma {:induction false} SplitConcat(a: string, c: char, b: string)
    ensures Split(a + [c] + b, c) == Split(a, c) + Split(b, c)
    decreases |a|
  {
    var s := a + [c] + b;
    if |a| == 0 {
      assert s == [c] + b;
      assert s[1..] == b;
    } else {
      assert s[1..] == a[1..] + [c] + b;
      SplitConcat(a[1..], c, b);
      SplitStep(s, a, c, Split(b, c));
    }
  }

  /** The inductive step of `SplitConcat`: two strings with the same first
      character whose tails split alike, up to a common suffix of pieces,
      split alike too. */
  lemma SplitStep(s: string, a: string, c: char, rb: seq<string>)
    requires |s| > 0 && |a| > 0 && s[0] == a[0]
    requires Split(s[1..], c) == Split(a[1..], c) + rb
    ensures Split(s, c) == Split(a, c) + rb
  {
    var ra := Split(a[1..], c);
    if a[0] != c {
      assert (ra + rb)[0] == ra[0];
      assert (ra + rb)[1..] == ra[1..] + rb;
    }
  }

  lemma {:induction false} SplitFree(s: string, c: char)
    requires c !in s
    ensures Split(s, c) == [s]
    decreases |s|
  {
    if |s| > 0 {
      assert c !in s[1..] by {
        forall k | 0 <= k < |s[1..]| ensures s[1..][k] != c {
          assert s[1..][k] == s[k + 1];
        }
      }
      SplitFree(s[1..], c);
      assert [s[0]] + s[1..] == s;
    }
  }

  /** A piece free of the separator's first character is cut off whole. */
  lemma {:induction false} SplitOnPiece(t: string, sep: string, rest: string)
    requires |sep| > 0 && sep[0] !in t
    ensures SplitOn(t + sep + rest, sep) == [t] + SplitOn(rest, sep)
    decreases |t|
  {
    var s := t + sep + rest;
    if |t| == 0 {
      assert s == sep + rest;
      assert StartsWith(s, sep);
      assert s[|sep|..] == rest;
    } else {
      assert s[0] == t[0];
      assert !StartsWith(s, sep);
      assert s[1..] == t[1..] + sep + rest;
      assert sep[0] !in t[1..];
      SplitOnPiece(t[1..], sep, rest);
      assert [t[0]] + t[1..] == t;
    }
  }

  lemma {:induction false} SplitOnFree(t: string, sep: string)
    requires |sep| > 0 && sep[0] !in t
    ensures SplitOn(t, sep) == [t]
    decreases |t|
  {
    if |t| > 0 {
      assert t[0] != sep[0];
      assert !StartsWith(t, sep);
      assert sep[0] !in t[1..];
      SplitOnFree(t[1..], sep);
      assert [t[0]] + t[1..] == t;
    }
  }

  /** Round trip: splitting a join of pieces that avoid the separator's first
      character gives the pieces back. */
  lemma {:induction false} SplitOnJoin(parts: seq<string>, sep: string)
    requires |parts| > 0 && |sep| > 0
    requires forall i :: 0 <= i < |parts| ==> sep[0] !in parts[i]
    ensures SplitOn(Join(sep, parts), sep) == parts
    decreases |parts|
  {
    if |parts| == 1 {
      SplitOnFree(parts[0], sep);
    } else {
      SplitOnPiece(parts[0], sep, Join(sep, parts[1..]));
      SplitOnJoin(parts[1..], sep);
      assert parts == [parts[0]] + parts[1..];
    }
  }

  /** Strip removes exactly the padding around a core that does not begin or
      end with a stripped character. */
  lemma {:induction false} StripAround(pre: string, x: string, post: string, chars: set<char>)
    requires forall i :: 0 <= i < |pre| ==> pre[i] in chars
    requires forall i :: 0 <= i < |post| ==> post[i] in chars
    requires |x| > 0 && x[0] !in chars && x[|x| - 1] !in chars
    ensures Strip(pre + x + post, chars) == x
    decreases |pre| + |post|
  {
    var s := pre + x + post;
    if |pre| > 0 {
      assert s[0] == pre[0];
      assert s[1..] == pre[1..] + x + post;
      StripAround(pre[1..], x, post, chars);
    } else if |post| > 0 {
      assert s[0] == x[0];
      assert s[|s| - 1] == post[|post| - 1];
      assert s[..|s| - 1] == pre + x + post[..|post| - 1];
      StripAround(pre, x, post[..|post| - 1], chars);
    } else {
      assert s == x;
    }
  }

  /** Sequences that agree at every index are equal. */
  lemma SameElements<T>(a: seq<T>, b: seq<T>)
    requires |a| == |b| && forall i :: 0 <= i < |a| ==> a[i] == b[i]
    ensures a == b
  {
  }

  /** Regrouping a four-piece concatenation. */
  lemma Regroup(a: string, b: string, c: string, d: string)
    ensures (a + (b + c)) + d == a + (b + (c + d))
  {
  }

  /** A concatenation starts with its first piece and ends with its last. */
  lemma Framed(a: string, b: string, c: string)
    ensures StartsWith(a + b + c, a) && EndsWith(a + b + c, c)
  {
    var s := a + b + c;
    assert s[..|a|] == a;
    assert s[|s| - |c|..] == c;
  }

  /** A suffix of a suffix is a suffix. */
  lemma EndsWithTrans(s: string, t: string, u: string)
    requires EndsWith(s, t) && EndsWith(t, u)
    ensures EndsWith(s, u)
  {
    assert s[|s| - |u|..] == s[|s| - |t|..][|t| - |u|..];
  }

  lemma JoinFirst(sep: string, parts: seq<string>)
    requires |parts| > 0 && |parts[0]| > 0
    ensures |Join(sep, parts)| > 0 && Join(sep, parts)[0] == parts[0][0]
  {
  }

  lemma {:induction false} JoinLast(sep: string, parts: seq<string>)
    requires |parts| > 0 && |parts[|parts| - 1]| > 0
    ensures |Join(sep, parts)| > 0
    ensures Join(sep, parts)[|Join(sep, parts)| - 1] == parts[|parts| - 1][|parts[|parts| - 1]| - 1]
  {
    var n := |parts|;
    if n > 1 {
      assert parts == parts[..n - 1] + [parts[n - 1]];
      JoinAppend(sep, parts[..n - 1], parts[n - 1]);
    }
  }

  // ---------------------------------------------------------------- numbers

  lemma {:induction false} NatToStringIsDigits(n: nat)
    ensures IsDigits(NatToString(n))
    decreases n
  {
    if n >= 10 {
      NatToStringIsDigits(n / 10);
    }
  }

  /** Round trip: `int(str(n)) == n`. */
  lemma {:induction false} NatToStringValue(n: nat)
    ensures DigitsValue(NatToString(n)) == n
    decreases n
  {
    if n >= 10 {
      NatToStringValue(n / 10);
      var s := NatToString(n);
      assert s[..|s| - 1] == NatToString(n / 10);
    }
  }

  // ---------------------------------------------------------------- order

  lemma {:induction false} StrLeTotal(a: string, b: string)
    ensures StrLe(a, b) || StrLe(b, a)
    decreases |a|
  {
    if |a| > 0 && |b| > 0 && a[0] == b[0] {
      StrLeTotal(a[1..], b[1..]);
    }
  }

  lemma {:induction false} StrLeTrans(a: string, b: string, c: string)
    requires StrLe(a, b) && StrLe(b, c)
    ensures StrLe(a, c)
    decreases |a|
  {
    if |a| > 0 && a[0] == b[0] && b[0] == c[0] {
      StrLeTrans(a[1..], b[1..], c[1..]);
    }
  }

  lemma {:induction false} StrLeAntisym(a: string, b: string)
    requires StrLe(a, b) && StrLe(b, a)
    ensures a == b
    decreases |a|
  {
    if |a| > 0 {
      StrLeAntisym(a[1..], b[1..]);
      assert a == [a[0]] + a[1..];
      assert b == [b[0]] + b[1..];
    }
  }

  /** Inserts `x` before the first element it does not exceed. */
  function Insert(x: string, s: seq<string>): (r: seq<string>)
    requires Sorted(s)
    ensures multiset(r) == multiset(s) + multiset{x}
    ensures Sorted(r)
    decreases |s|
  {
    if |s| == 0 then [x]
    else if StrLe(x, s[0]) then
      InsertHeadSorted(x, s);
      [x] + s
    else
      assert Sorted(s[1..]);
      var t := Insert(x, s[1..]);
      StrLeTotal(x, s[0]);
      assert s == [s[0]] + s[1..];
      InsertTailSorted(s[0], t, s[1..], x);
      [s[0]] + t
  }

  lemma InsertHeadSorted(x: string, s: seq<string>)
    requires Sorted(s) && |s| > 0 && StrLe(x, s[0])
    ensures Sorted([x] + s)
  {
    forall i, j | 0 <= i < j < |[x] + s|
      ensures StrLe(([x] + s)[i], ([x] + s)[j])
    {
      if i == 0 && j > 1 {
        StrLeTrans(x, s[0], s[j - 1]);
      }
    }
  }

  lemma InsertTailSorted(h: string, t: seq<string>, s: seq<string>, x: string)
    requires Sorted(t) && Sorted([h] + s) && StrLe(h, x)
    requires multiset(t) == multiset(s) + multiset{x}
    ensures Sorted([h] + t)
  {
    forall k | 0 <= k < |t|
      ensures StrLe(h, t[k])
    {
      assert t[k] in multiset(t);
      if t[k] != x {
        assert t[k] in multiset(s);
        assert t[k] in s;
        var m :| 0 <= m < |s| && s[m] == t[k];
        assert ([h] + s)[0] == h;
        assert ([h] + s)[m + 1] == s[m];
        assert StrLe(([h] + s)[0], ([h] + s)[m + 1]);
      }
    }
    forall i, j | 0 <= i < j < |[h] + t|
      ensures StrLe(([h] + t)[i], ([h] + t)[j])
    {
      if i == 0 {
        assert ([h] + t)[j] == t[j - 1];
      } else {
        assert ([h] + t)[i] == t[i - 1];
        assert ([h] + t)[j] == t[j - 1];
      }
    }
  }

  /** `sorted(s)`: an ascending permutation of `s`. */
  function Sort(s: seq<string>): (r: seq<string>)
    ensures multiset(r) == multiset(s)
    ensures Sorted(r)
    decreases |s|
  {
    if |s| == 0 then []
    else
      assert s == [s[0]] + s[1..];
      Insert(s[0], Sort(s[1..]))
  }
}

=== FILE: textwrap.dfy ===
/** `textwrap.dedent` and the bare `str.strip()` that the Dockerfile
    generators apply to their triple-quoted templates: the margin removed
    is the longest indentation common to every line that is not blank, so
    one interpolated line with less indentation shifts all the others. */
module Textwrap {
  import opened Errors
  import Text

  /** The characters `dedent` counts as indentation. */
  predicate IsIndentChar(c: char) {
    c == ' ' || c == '\t'
  }

  /** The leading spaces and tabs of a line. */
  function Indent(line: string): (r: string)
    ensures |r| <= |line| && line[..|r|] == r
    ensures forall i :: 0 <= i < |r| ==> IsIndentChar(r[i])
    ensures |r| < |line| ==> !IsIndentChar(line[|r|])
    decreases |line|
  {
    if |line| > 0 && IsIndentChar(line[0]) then
      var rest := Indent(line[1..]);
      assert line[..1 + |rest|] == [line[0]] + line[1..][..|rest|];
      [line[0]] + rest
    else ""
  }

  /** A line of spaces and tabs only, or an empty one: `dedent` empties it
      and does not count its indentation. */
  predicate Blank(line: string) {
    |Indent(line)| == |line|
  }

  /** The longest common prefix of two strings. */
  function CommonPrefix(a: string, b: string): (r: string)
    ensures |r| <= |a| && |r| <= |b| && a[..|r|] == r && b[..|r|] == r
    ensures |r| < |a| && |r| < |b| ==> a[|r|] != b[|r|]
    decreases |a|
  {
    if |a| > 0 && |b| > 0 && a[0] == b[0] then
      var rest := CommonPrefix(a[1..], b[1..]);
      assert a[..1 + |rest|] == [a[0]] + a[1..][..|rest|];
      assert b[..1 + |rest|] == [b[0]] + b[1..][..|rest|];
      [a[0]] + rest
    else ""
  }

  /** The margin `dedent` removes: the longest prefix common to the
      indentation of every line that is not blank; none when all are. */
  function Margin(lines: seq<string>): (m: Option<string>)
    ensures forall i :: 0 <= i < |lines| && !Blank(lines[i]) ==>
      m.Some? && |m.value| <= |Indent(lines[i])| && Indent(lines[i])[..|m.value|] == m.value
    decreases |lines|
  {
    if |lines| == 0 then None
    else
      var rest := Margin(lines[1..]);
      assert forall i :: 1 <= i < |lines| ==> lines[i] == lines[1..][i - 1];
      if Blank(lines[0]) then rest
      else if rest.None? then Some(Indent(lines[0]))
      else
        var m := CommonPrefix(Indent(lines[0]), rest.value);
        assert forall i :: 1 <= i < |lines| && !Blank(lines[i]) ==> Indent(lines[i])[..|m|] == m by {
          forall i | 1 <= i < |lines| && !Blank(lines[i]) ensures Indent(lines[i])[..|m|] == m {
            PrefixOfPrefix(Indent(lines[i]), rest.value, m);
          }
        }
        Some(m)
  }

  /** A prefix of a prefix is a prefix. */
  lemma PrefixOfPrefix(s: string, p: string, q: string)
    requires |p| <= |s| && s[..|p|] == p
    requires |q| <= |p| && p[..|q|] == q
    ensures s[..|q|] == q
  {
    assert s[..|q|] == s[..|p|][..|q|];
  }

  /** `dedent` line by line: blank lines emptied, the margin cut from the
      others. */
  function DedentLines(lines: seq<string>): (r: seq<string>)
    ensures |r| == |lines|
    ensures forall i :: 0 <= i < |lines| ==>
      r[i] == if Blank(lines[i]) then "" else lines[i][|Margin(lines).value|..]
  {
    var m := Margin(lines);
    seq(|lines|, i requires 0 <= i < |lines| => if Blank(lines[i]) then "" else lines[i][|m.value|..])
  }

  /** `textwrap.dedent(text)`. */
  function Dedent(text: string): string {
    Text.Join("\n", DedentLines(Text.Split(text, '\n')))
  }

  /** `textwrap.dedent(text).strip()`. */
  function DedentStrip(text: string): string {
    Text.Strip(Dedent(text), Text.Whitespace)
  }

  /** The lines with `m` cut from every one that is not blank, the blank
      ones emptied. */
  function Cut(lines: seq<string>, m: string): (r: seq<string>)
    ensures |r| == |lines|
  {
    seq(|lines|, i requires 0 <= i < |lines| =>
      if Blank(lines[i]) || |lines[i]| < |m| then "" else lines[i][|m|..])
  }


  // ------------------------------------------------------------ the margin

  /** Every indentation starts with `m`: so does the margin. */
  lemma {:induction false} MarginAtLeast(lines: seq<string>, m: string)
    requires forall i :: 0 <= i < |lines| && !Blank(lines[i]) ==> |m| <= |Indent(lines[i])| && Indent(lines[i])[..|m|] == m
    ensures Margin(lines).Some? ==> |m| <= |Margin(lines).value| && Margin(lines).value[..|m|] == m
    decreases |lines|
  {
    if |lines| > 0 {
      assert forall i :: 1 <= i < |lines| ==> lines[i] == lines[1..][i - 1];
      MarginAtLeast(lines[1..], m);
      var rest := Margin(lines[1..]);
      if !Blank(lines[0]) && rest.Some? {
        CommonPrefixKeeps(Indent(lines[0]), rest.value, m);
      }
    }
  }

  /** Two strings that both start with `m` have a common prefix that does. */
  lemma {:induction false} CommonPrefixKeeps(a: string, b: string, m: string)
    requires |m| <= |a| && a[..|m|] == m && |m| <= |b| && b[..|m|] == m
    ensures |m| <= |CommonPrefix(a, b)| && CommonPrefix(a, b)[..|m|] == m
    decreases |m|
  {
    if |m| > 0 {
      assert a[0] == m[0] == b[0];
      assert a[1..][..|m| - 1] == m[1..] && b[1..][..|m| - 1] == m[1..];
      CommonPrefixKeeps(a[1..], b[1..], m[1..]);
    }
  }

  /** The margin is the indentation of a line that is not blank exactly when
      every such line's indentation starts with it. */
  lemma {:induction false} MarginIs(lines: seq<string>, m: string, k: int)
    requires 0 <= k < |lines| && !Blank(lines[k]) && Indent(lines[k]) == m
    requires forall i :: 0 <= i < |lines| && !Blank(lines[i]) ==> |m| <= |Indent(lines[i])| && Indent(lines[i])[..|m|] == m
    ensures Margin(lines) == Some(m)
  {
    var g := Margin(lines).value;
    MarginAtLeast(lines, m);
    assert |g| <= |m| && m[..|g|] == g;
    assert g == m[..|g|];
    assert m == m[..|m|];
  }

  /** An indentation followed by a character that is not one is a line's
      whole indentation. */
  lemma {:induction false} IndentOf(pad: string, rest: string)
    requires forall i :: 0 <= i < |pad| ==> IsIndentChar(pad[i])
    requires |rest| > 0 && !IsIndentChar(rest[0])
    ensures Indent(pad + rest) == pad && !Blank(pad + rest)
    decreases |pad|
  {
    if |pad| > 0 {
      assert (pad + rest)[1..] == pad[1..] + rest;
      IndentOf(pad[1..], rest);
      assert [pad[0]] + pad[1..] == pad;
    } else {
      assert pad + rest == rest;
    }
  }

  /** A line of indentation characters only is blank. */
  lemma {:induction false} BlankOf(pad: string)
    requires forall i :: 0 <= i < |pad| ==> IsIndentChar(pad[i])
    ensures Blank(pad)
    decreases |pad|
  {
    if |pad| > 0 {
      BlankOf(pad[1..]);
    }
  }

  /** A line of a template whose margin is `m`: one line, and indented
      by at least `m` unless blank. */
  predicate UnderMargin(m: string, line: string) {
    '\n' !in line && (!Blank(line) ==> |m| <= |Indent(line)| <= |line| && Indent(line)[..|m|] == m)
  }

  /** Dedenting the join of newline-free lines whose margin is `m` cuts `m`
      from each line that is not blank and empties the others. */
  lemma DedentJoin(lines: seq<string>, m: string, k: int)
    requires forall i :: 0 <= i < |lines| ==> UnderMargin(m, lines[i])
    requires 0 <= k < |lines| && !Blank(lines[k]) && Indent(lines[k]) == m
    ensures Dedent(Text.Join("\n", lines)) == Text.Join("\n", Cut(lines, m))
  {
    assert Text.Split(Text.Join("\n", lines), '\n') == lines by {
      forall i | 0 <= i < |lines| ensures '\n' !in lines[i] {
        assert UnderMargin(m, lines[i]);
      }
      Text.SplitJoin(lines, '\n');
      assert ['\n'] == "\n";
    }
    assert DedentLines(lines) == Cut(lines, m) by {
      MarginIs(lines, m, k);
      forall i | 0 <= i < |lines| ensures DedentLines(lines)[i] == Cut(lines, m)[i] {
        assert UnderMargin(m, lines[i]);
      }
      Text.SameElements(DedentLines(lines), Cut(lines, m));
    }
  }

  /** `n` spaces. */
  function Spaces(n: nat): (r: string)
    ensures |r| == n && forall i :: 0 <= i < n ==> r[i] == ' '
  {
    seq(n, _ => ' ')
  }

  /** A line of a template body: one line, and empty or not blank. */
  predicate BodyLine(s: string) {
    '\n' !in s && (s == "" || !Blank(s))
  }

  /** Spaces are indentation, hold no newline and make a blank line; one
      more is one space in front. */
  lemma SpacesShape(n: nat)
    ensures forall i :: 0 <= i < n ==> IsIndentChar(Spaces(n)[i])
    ensures '\n' !in Spaces(n) && Blank(Spaces(n))
    ensures Spaces(n + 1) == " " + Spaces(n)
  {
    BlankOf(Spaces(n));
    Text.SameElements(Spaces(n + 1), " " + Spaces(n));
  }

  /** Spaces before a line that starts flush give a body line indented by
      exactly those spaces. */
  lemma PaddedLine(n: nat, s: string)
    requires '\n' !in s && |s| > 0 && !IsIndentChar(s[0])
    ensures BodyLine(Spaces(n) + s) && Spaces(n) + s != ""
    ensures Indent(Spaces(n) + s) == Spaces(n)
  {
    SpacesShape(n);
    IndentOf(Spaces(n), s);
  }

  /** The shape of a triple-quoted template: a body of one-line lines, each
      empty or not blank, indented by `m` (spaces and tabs) with its `k`-th
      line flush, and a blank closing line. */
  predicate Template(m: string, raw: seq<string>, close: string, k: int) {
    && (forall i :: 0 <= i < |m| ==> IsIndentChar(m[i]))
    && Blank(close) && '\n' !in close && '\n' !in m
    && (forall i :: 0 <= i < |raw| ==> BodyLine(raw[i]))
    && 0 <= k < |raw| && raw[k] != "" && !IsIndentChar(raw[k][0])
  }

  /** Eight or nine body lines given one by one make a body. */
  lemma BodyLines8(a0: string, a1: string, a2: string, a3: string, a4: string, a5: string, a6: string, a7: string)
    requires BodyLine(a0) && BodyLine(a1) && BodyLine(a2) && BodyLine(a3)
    requires BodyLine(a4) && BodyLine(a5) && BodyLine(a6) && BodyLine(a7)
    ensures forall j :: 0 <= j < 8 ==> BodyLine([a0, a1, a2, a3, a4, a5, a6, a7][j])
  {
  }

  lemma BodyLines9(a0: string, a1: string, a2: string, a3: string, a4: string, a5: string, a6: string, a7: string, a8: string)
    requires BodyLine(a0) && BodyLine(a1) && BodyLine(a2) && BodyLine(a3)
    requires BodyLine(a4) && BodyLine(a5) && BodyLine(a6) && BodyLine(a7) && BodyLine(a8)
    ensures forall j :: 0 <= j < 9 ==> BodyLine([a0, a1, a2, a3, a4, a5, a6, a7, a8][j])
  {
  }

  /** The lines of a template body as written in the program: each
      non-empty one behind the indentation `m`. */
  function Indented(m: string, raw: seq<string>): (r: seq<string>)
    ensures |r| == |raw|
    ensures forall i :: 0 <= i < |raw| ==> r[i] == if raw[i] == "" then "" else m + raw[i]
  {
    seq(|raw|, i requires 0 <= i < |raw| => if raw[i] == "" then "" else m + raw[i])
  }

  /** Indenting a concatenation is indenting each part. */
  lemma IndentedConcat(m: string, p: seq<string>, q: seq<string>)
    ensures Indented(m, p + q) == Indented(m, p) + Indented(m, q)
  {
    Text.SameElements(Indented(m, p + q), Indented(m, p) + Indented(m, q));
  }

  /** Indenting a body around one of its non-empty lines. */
  lemma IndentedAt(m: string, raw: seq<string>, j: int)
    requires 0 <= j < |raw| && raw[j] != ""
    ensures Indented(m, raw) == Indented(m, raw[..j]) + [m + raw[j]] + Indented(m, raw[j + 1..])
  {
    var rhs := Indented(m, raw[..j]) + [m + raw[j]] + Indented(m, raw[j + 1..]);
    forall i | 0 <= i < |raw| ensures Indented(m, raw)[i] == rhs[i] {
      if i < j {
        assert rhs[i] == Indented(m, raw[..j])[i];
      } else if i > j {
        assert rhs[i] == Indented(m, raw[j + 1..])[i - j - 1];
      }
    }
    Text.SameElements(Indented(m, raw), rhs);
  }

  /** Indenting by `m + n` is indenting by `n`, then by `m`. */
  lemma IndentedTwice(m: string, n: string, raw: seq<string>)
    ensures Indented(m + n, raw) == Indented(m, Indented(n, raw))
  {
    forall i | 0 <= i < |raw| ensures Indented(m + n, raw)[i] == Indented(m, Indented(n, raw))[i] {
      if raw[i] != "" {
        assert |n + raw[i]| > 0;
        assert m + n + raw[i] == m + (n + raw[i]);
      }
    }
    Text.SameElements(Indented(m + n, raw), Indented(m, Indented(n, raw)));
  }

  /** Indentation before a line adds to its indentation. */
  lemma {:induction false} IndentConcat(m: string, s: string)
    requires forall i :: 0 <= i < |m| ==> IsIndentChar(m[i])
    ensures Indent(m + s) == m + Indent(s)
    ensures Blank(m + s) <==> Blank(s)
    decreases |m|
  {
    if |m| > 0 {
      assert (m + s)[1..] == m[1..] + s;
      IndentConcat(m[1..], s);
      assert [m[0]] + (m[1..] + Indent(s)) == m + Indent(s);
    } else {
      assert m + s == s;
    }
  }

  /** The lines of a template whose body is indented by `m`: none holds a
      newline, and every one that is not blank is indented by at least `m`,
      the `k`-th body line by exactly `m`. */
  lemma {:induction false} IndentedLines(m: string, raw: seq<string>, close: string, k: int)
    requires Template(m, raw, close, k)
    ensures var lines := [""] + Indented(m, raw) + [close];
      forall i :: 0 <= i < |lines| ==> UnderMargin(m, lines[i])
    ensures Indented(m, raw)[k] == m + raw[k]
    ensures !Blank(m + raw[k]) && Indent(m + raw[k]) == m
  {
    var body := Indented(m, raw);
    var lines := [""] + body + [close];
    forall i | 0 <= i < |lines| ensures UnderMargin(m, lines[i]) {
      if 1 <= i <= |raw| {
        assert lines[i] == body[i - 1];
        LineUnderMargin(m, raw[i - 1]);
      } else if i == 0 {
        assert lines[i] == "";
        assert Blank("");
      } else {
        assert lines[i] == close;
      }
    }
    IndentedLine(m, raw[k]);
  }

  /** A body line indented by `m` is under the margin `m`. */
  lemma LineUnderMargin(m: string, s: string)
    requires forall i :: 0 <= i < |m| ==> IsIndentChar(m[i])
    requires '\n' !in m && BodyLine(s)
    ensures UnderMargin(m, if s == "" then "" else m + s)
  {
    if s != "" {
      IndentedLine(m, s);
    } else {
      assert Blank("");
    }
  }

  /** One line of a body indented by `m`. */
  lemma IndentedLine(m: string, s: string)
    requires forall i :: 0 <= i < |m| ==> IsIndentChar(m[i])
    requires !Blank(s) && '\n' !in s && '\n' !in m
    ensures !Blank(m + s) && '\n' !in m + s
    ensures |m| <= |Indent(m + s)| && Indent(m + s)[..|m|] == m
    ensures |s| > 0 && !IsIndentChar(s[0]) ==> Indent(m + s) == m
  {
    IndentConcat(m, s);
    assert (m + Indent(s))[..|m|] == m;
    if |s| > 0 && !IsIndentChar(s[0]) {
      assert Indent(s) == "";
      assert m + "" == m;
    }
  }

  /** Cutting `m` from a body line indented by `m` gives back the line. */
  lemma CutLine(m: string, s: string)
    requires forall i :: 0 <= i < |m| ==> IsIndentChar(m[i])
    requires BodyLine(s)
    ensures var t := if s == "" then "" else m + s;
      (if Blank(t) || |t| < |m| then "" else t[|m|..]) == s
  {
    if s != "" {
      IndentConcat(m, s);
      assert (m + s)[|m|..] == s;
    } else {
      assert Blank("");
    }
  }

  /** A template that opens with a newline, indents its body by `m` and
      closes on a blank line, where some body line starts flush: `dedent`
      removes exactly `m` and empties the closing line. */
  lemma {:induction false} DedentIndented(m: string, raw: seq<string>, close: string, k: int)
    requires Template(m, raw, close, k)
    ensures Dedent(Text.Join("\n", [""] + Indented(m, raw) + [close])) == Text.Join("\n", [""] + raw + [""])
  {
    var lines := [""] + Indented(m, raw) + [close];
    IndentedLines(m, raw, close, k);
    assert lines[k + 1] == m + raw[k];
    DedentJoin(lines, m, k + 1);
    CutIndented(m, raw, close);
  }

  /** Cutting `m` from a template body indented by `m` gives back the body. */
  lemma {:induction false} CutIndented(m: string, raw: seq<string>, close: string)
    requires forall i :: 0 <= i < |m| ==> IsIndentChar(m[i])
    requires forall j :: 0 <= j < |raw| ==> BodyLine(raw[j])
    requires Blank(close)
    ensures Cut([""] + Indented(m, raw) + [close], m) == [""] + raw + [""]
  {
    var body := Indented(m, raw);
    var lines := [""] + body + [close];
    var want := [""] + raw + [""];
    forall i | 0 <= i < |lines| ensures Cut(lines, m)[i] == want[i] {
      if 1 <= i <= |raw| {
        assert lines[i] == body[i - 1];
        assert want[i] == raw[i - 1];
        CutLine(m, raw[i - 1]);
      } else if i == 0 {
        assert lines[i] == "" && want[i] == "";
        assert Blank("");
      } else {
        assert lines[i] == close && want[i] == "";
      }
    }
    Text.SameElements(Cut(lines, m), want);
  }



  // ------------------------------------------------------------- the strip

  /** A template that opens with a newline and closes on a blank line,
      dedented to a first line of some indentation `pad` and `first`:
      stripping leaves `first` and the lines after it. */
  lemma StripFramed(pad: string, first: string, rest: seq<string>)
    requires forall i :: 0 <= i < |pad| ==> pad[i] in Text.Whitespace
    requires |first| > 0 && first[0] !in Text.Whitespace
    requires |rest| > 0 && |rest[|rest| - 1]| > 0 && rest[|rest| - 1][|rest[|rest| - 1]| - 1] !in Text.Whitespace
    ensures Text.Strip(Text.Join("\n", [""] + ([pad + first] + rest) + [""]), Text.Whitespace)
            == Text.Join("\n", [first] + rest)
  {
    var body := Text.Join("\n", [first] + rest);
    var inner := [pad + first] + rest;
    Text.JoinCons("\n", pad + first, rest);
    Text.JoinCons("\n", first, rest);
    assert Text.Join("\n", inner) == pad + body;
    Text.JoinCons("\n", "", inner + [""]);
    assert [""] + inner + [""] == [""] + (inner + [""]);
    Text.JoinAppend("\n", inner, "");
    assert Text.Join("\n", [""] + inner + [""]) == ("\n" + pad) + body + "\n";
    Text.JoinFirst("\n", [first] + rest);
    Text.JoinLast("\n", [first] + rest);
    assert ([first] + rest)[|rest|] == rest[|rest| - 1];
    Text.StripAround("\n" + pad, body, "\n", Text.Whitespace);
  }

  /** `dedent(...).strip()` of a template that opens with a newline,
      indents its body by `m` and closes on a blank line: the body with its
      first line's remaining indentation `pad` stripped. */
  lemma {:induction false} DedentStripIndented(m: string, raw: seq<string>, close: string, k: int,
                                               pad: string, first: string)
    requires Template(m, raw, close, k)
    requires |raw| > 1 && raw[0] == pad + first
    requires forall i :: 0 <= i < |pad| ==> pad[i] in Text.Whitespace
    requires |first| > 0 && first[0] !in Text.Whitespace
    requires |raw[|raw| - 1]| > 0 && raw[|raw| - 1][|raw[|raw| - 1]| - 1] !in Text.Whitespace
    ensures DedentStrip(Text.Join("\n", [""] + Indented(m, raw) + [close])) == Text.Join("\n", [first] + raw[1..])
  {
    var rest := raw[1..];
    assert raw == [pad + first] + rest;
    assert rest[|rest| - 1] == raw[|raw| - 1];
    calc {
      DedentStrip(Text.Join("\n", [""] + Indented(m, raw) + [close]));
      Text.Strip(Dedent(Text.Join("\n", [""] + Indented(m, raw) + [close])), Text.Whitespace);
      { DedentIndented(m, raw, close, k); }
      Text.Strip(Text.Join("\n", [""] + raw + [""]), Text.Whitespace);
      Text.Strip(Text.Join("\n", [""] + ([pad + first] + rest) + [""]), Text.Whitespace);
      { StripFramed(pad, first, rest); }
      Text.Join("\n", [first] + rest);
    }
  }

  /** Splitting one part at a separator is splitting it in the list. */
  lemma {:induction false} JoinSplitPart(sep: string, a: seq<string>, x: string, y: string, b: seq<string>)
    requires |a| > 0 && |b| > 0
    ensures Text.Join(sep, a + [x + sep + y] + b) == Text.Join(sep, a + [x, y] + b)
  {
    var ja, jb := Text.Join(sep, a), Text.Join(sep, b);
    var one, two := [x + sep + y] + b, [x] + ([y] + b);
    assert a + [x + sep + y] + b == a + one;
    assert a + [x, y] + b == a + two;
    JoinSplitTail(sep, x, y, b);
    Text.JoinConcat(sep, a, one);
    Text.JoinConcat(sep, a, two);
  }

  lemma {:induction false} JoinSplitTail(sep: string, x: string, y: string, b: seq<string>)
    requires |b| > 0
    ensures Text.Join(sep, [x + sep + y] + b) == Text.Join(sep, [x] + ([y] + b))
  {
    var jb := Text.Join(sep, b);
    var c := [y] + b;
    var jc := Text.Join(sep, c);
    Text.JoinCons(sep, y, b);
    assert jc == y + sep + jb;
    Text.JoinCons(sep, x, c);
    Text.JoinCons(sep, x + sep + y, b);
    Text.Regroup(x, sep, y, sep + jb);
    assert (x + sep + y) + sep + jb == x + sep + jc;
  }

  /** A part of a join occurs in it. */
  lemma {:induction false} JoinHasPart(sep: string, parts: seq<string>, i: int)
    requires 0 <= i < |parts|
    ensures Text.Contains(Text.Join(sep, parts), parts[i])
    decreases |parts|
  {
    if |parts| == 1 {
      Text.OccursBetween("", parts[0], "");
      assert "" + parts[0] + "" == parts[0];
    } else if i == 0 {
      Text.OccursBetween("", parts[0], sep + Text.Join(sep, parts[1..]));
      assert "" + parts[0] + (sep + Text.Join(sep, parts[1..])) == Text.Join(sep, parts);
    } else {
      JoinHasPart(sep, parts[1..], i - 1);
      var rest := Text.Join(sep, parts[1..]);
      var j :| 0 <= j <= |rest| && Text.OccursAt(rest, parts[i], j);
      Text.OccursBetween(parts[0] + sep, rest, "");
      assert parts[0] + sep + rest + "" == Text.Join(sep, parts);
      Text.OccursWithin(Text.Join(sep, parts), rest, |parts[0] + sep|, parts[i], j);
    }
  }
}

=== FILE: url_readers.dfy ===
/** The programs the tool uses to fetch a URL, `curl` and `wget`, and the
    one command it generates for each. */
module UrlReaders {
  import opened Errors
  import Text
  import Shlex

  datatype UrlReader = Wget | Curl

  /** The program name, which is also the key it is looked up by. */
  function Name(r: UrlReader): string {
    match r
    case Wget => "wget"
    case Curl => "curl"
  }

  /** The names `get_url_reader` accepts, in preference order. */
  const Supported: seq<string> := ["curl", "wget"]

  /** The words before the target. */
  function ReadHead(r: UrlReader): seq<string> {
    match r
    case Wget => ["wget"]
    case Curl => ["curl", "--ssl"]
  }

  /** The flag that redirects the download into a file. */
  function OutputFlag(r: UrlReader): string {
    match r
    case Wget => "-O"
    case Curl => "-o"
  }

  /** The words of the read command: the head, the target, and the output
      flag with its file iff an output file is given. */
  function ReadWords(r: UrlReader, target: string, output: Option<string>): (w: seq<string>)
    ensures |w| > |ReadHead(r)| && w[..|ReadHead(r)|] == ReadHead(r) && w[|ReadHead(r)|] == target
    ensures output.None? ==> |w| == |ReadHead(r)| + 1
    ensures output.Some? ==> |w| == |ReadHead(r)| + 3 && w[|w| - 2] == OutputFlag(r) && w[|w| - 1] == output.value
  {
    ReadHead(r) + [target] + (if output.Some? then [OutputFlag(r), output.value] else [])
  }

  /** The formatted head of the read command, before any output clause. */
  function HeadText(r: UrlReader, target: string): string {
    match r
    case Wget => "wget " + target
    case Curl => "curl --ssl " + target
  }

  /** `generate_read_command(target, output_file=…)`, built as each
      reader's `generate_read_command` builds it: a formatted head, then the
      output clause appended. */
  function ReadCommand(r: UrlReader, target: string, output: Option<string>): string {
    if output.Some? then HeadText(r, target) + " " + OutputFlag(r) + " " + output.value
    else HeadText(r, target)
  }

  lemma HeadTextWords(r: UrlReader, target: string)
    ensures HeadText(r, target) == Text.Join(" ", ReadHead(r) + [target])
  {
    var head := ReadHead(r);
    Text.JoinAppend(" ", head, target);
    if r == Curl {
      Text.JoinCons(" ", "curl", ["--ssl"]);
      assert head == ["curl"] + ["--ssl"];
    }
  }

  /** The command is its words joined by single spaces. */
  lemma ReadCommandWords(r: UrlReader, target: string, output: Option<string>)
    ensures ReadCommand(r, target, output) == Text.Join(" ", ReadWords(r, target, output))
  {
    var head := ReadHead(r);
    HeadTextWords(r, target);
    if output.Some? {
      var tail := [OutputFlag(r), output.value];
      Text.JoinCons(" ", OutputFlag(r), [output.value]);
      assert tail == [OutputFlag(r)] + [output.value];
      Text.JoinConcat(" ", head + [target], tail);
      assert ReadWords(r, target, output) == (head + [target]) + tail;
    } else {
      assert ReadWords(r, target, output) == head + [target];
    }
  }

  /** A shell reads the command back as its words when the target and the
      output file are plain words. */
  lemma ReadCommandSplits(r: UrlReader, target: string, output: Option<string>)
    requires Shlex.PlainWord(target)
    requires output.Some? ==> Shlex.PlainWord(output.value)
    ensures Shlex.Split(ReadCommand(r, target, output)) == Ok(ReadWords(r, target, output))
  {
    ReadCommandWords(r, target, output);
    var w := ReadWords(r, target, output);
    forall i | 0 <= i < |w| ensures Shlex.PlainWord(w[i]) {
      if i < |ReadHead(r)| {
        assert w[i] == ReadHead(r)[i];
      }
    }
    Shlex.SplitPlainWords(w);
  }

  /** `get_url_reader(name)`: exact lookup. */
  function GetUrlReader(name: string): (r: Result<UrlReader>)
    ensures r.Ok? <==> name in Supported
    ensures r.Ok? ==> Name(r.value) == name
    ensures r.Err? ==> r.error == ValueError("URL Reader " + name + " not recognized!")
  {
    if name == "curl" then Ok(Curl)
    else if name == "wget" then Ok(Wget)
    else Err(ValueError("URL Reader " + name + " not recognized!"))
  }

  /** Every reader is found by its name, and every supported name is
      accepted. */
  lemma GetUrlReaderName(r: UrlReader)
    ensures GetUrlReader(Name(r)) == Ok(r)
    ensures Name(r) in Supported
  {
  }
}

=== FILE: utils.dfy ===
/** The helpers of the older generation that decide, before anything is
    built, what an image offers: which package manager and URL reader it has
    and which Dockerfile lines are needed to make it usable; plus the CUDA
    version parser, the lockfile line classifier, the throwaway probe image
    and the random tag suffix. */
module Utils {
  import opened Errors
  import opened Engine
  import Text
  import Shlex
  import PM = PackageManagers
  import UR = UrlReaders
  import DockerImage

  // --------------------------------------------------------- random strings

  /** The character at position `i` of `ascii_lowercase + digits`. */
  function AlphabetChar(i: nat): char {
    if i < 26 then ('a' as int + i) as char
    else if i < 36 then ('0' as int + i - 26) as char
    else 'a'
  }

  /** `ascii_lowercase + digits`. */
  const Alphabet: string := "abcdefghijklmnopqrstuvwxyz0123456789"

  /** The alphabet, position by position. */
  lemma AlphabetSpelled()
    ensures |Alphabet| == 36 && forall i :: 0 <= i < 36 ==> Alphabet[i] == AlphabetChar(i)
  {
  }

  /** A lower-case ASCII letter or an ASCII digit. */
  predicate InAlphabet(c: char) {
    'a' <= c <= 'z' || '0' <= c <= '9'
  }

  /** `generate_random_string(k)`. The random choices are a parameter:
      `draw(i)` picks the `i`-th character. */
  function GenerateRandomString(k: nat, draw: nat -> nat): (r: string)
    ensures |r| == k
    ensures forall i :: 0 <= i < k ==> InAlphabet(r[i])
    decreases k
  {
    if k == 0 then "" else GenerateRandomString(k - 1, draw) + [AlphabetChar(draw(k - 1) % 36)]
  }

  /** The position of an alphabet character. */
  function AlphabetIndex(c: char): (i: nat)
    requires InAlphabet(c)
    ensures i < 36 && AlphabetChar(i) == c
  {
    if 'a' <= c <= 'z' then c as int - 'a' as int else 26 + (c as int - '0' as int)
  }

  /** Every string over the alphabet is a possible outcome: the generator
      misses nothing of the promised range. */
  lemma {:induction false} GenerateRandomStringCovers(s: string)
    requires forall i :: 0 <= i < |s| ==> InAlphabet(s[i])
    ensures GenerateRandomString(|s|, (i: nat) => if i < |s| then AlphabetIndex(s[i]) else 0) == s
  {
    var draw := (i: nat) => if i < |s| then AlphabetIndex(s[i]) else 0;
    GeneratePrefix(s, |s|, draw);
    assert s[..|s|] == s;
  }

  lemma {:induction false} GeneratePrefix(s: string, k: nat, draw: nat -> nat)
    requires k <= |s| && forall i :: 0 <= i < |s| ==> InAlphabet(s[i])
    requires forall i: nat :: i < |s| ==> draw(i) == AlphabetIndex(s[i])
    ensures GenerateRandomString(k, draw) == s[..k]
    decreases k
  {
    if k > 0 {
      GeneratePrefix(s, k - 1, draw);
      var d := draw(k - 1);
      assert d == AlphabetIndex(s[k - 1]) && d < 36;
      assert d % 36 == d;
      assert s[..k] == s[..k - 1] + [s[k - 1]];
    }
  }

  // ------------------------------------------------------------- temp image

  /** The tag of the throwaway probe image: the system prefix, `-temp-`, and
      ten random characters. */
  function TempTag(draw: nat -> nat): (t: string)
    ensures |t| == 20 && Text.StartsWith(t, "dcli-temp-")
    ensures forall i :: 10 <= i < 20 ==> InAlphabet(t[i])
  {
    "dcli-temp-" + GenerateRandomString(10, draw)
  }

  /** The probe tag is always one plain shell word, so the removal command
      splits into exactly `docker rmi TAG`. */
  lemma TempTagRemoval(draw: nat -> nat)
    ensures Shlex.Split("docker rmi " + TempTag(draw)) == Ok(["docker", "rmi", TempTag(draw)])
  {
    var t := TempTag(draw);
    forall i | 0 <= i < |t| ensures Shlex.IsPlain(t[i]) {
      if i >= 10 {
        assert InAlphabet(t[i]);
      } else {
        assert t[i] == "dcli-temp-"[i];
      }
    }
    assert Shlex.PlainWord(t);
    Text.JoinCons(" ", "rmi", [t]);
    Text.JoinCons(" ", "docker", ["rmi", t]);
    assert ["docker", "rmi", t] == ["docker"] + ["rmi", t];
    assert "docker rmi " + t == "docker" + " " + ("rmi" + " " + t);
    Shlex.SplitPlainWords(["docker", "rmi", t]);
  }

  /** What running a body inside `temp_image` produced: the body's outcome
      (or the error acquiring the image), and the removal command the
      `finally` clause issued, if any. */
  datatype Scoped<+T> = Scoped(result: Result<T>, removal: Option<seq<string>>)

  /** The build `temp_image` performs: a one-line Dockerfile on standard
      input, with the default context, network and cache setting. */
  function TempBuild(engine: Engine, base: string, tag: string): Result<DockerImage.Image> {
    DockerImage.Build(engine, tag, None, Some("FROM " + base), Some("."), "host", false)
  }

  /** `with temp_image(base) as temp: body(temp)`, as written: only a
      CalledProcessError from the build becomes "Image not found"; once the
      image exists, its removal runs whether the body returns or raises. */
  function TempImageAsWritten<T>(engine: Engine, base: string, draw: nat -> nat,
                                 body: DockerImage.Image -> Result<T>): (s: Scoped<T>)
    ensures s.removal.Some? <==> TempBuild(engine, base, TempTag(draw)).Ok?
    ensures s.removal.Some? ==> s.removal.value == ["docker", "rmi", TempTag(draw)]
    ensures s.removal.Some? ==> s.result == body(TempBuild(engine, base, TempTag(draw)).value)
    ensures TempBuild(engine, base, TempTag(draw)).Err? ==>
      s.result == Err(if TempBuild(engine, base, TempTag(draw)).error.CalledProcess?
                      then ValueError("Image not found: " + base)
                      else TempBuild(engine, base, TempTag(draw)).error)
  {
    var tag := TempTag(draw);
    TempTagRemoval(draw);
    match TempBuild(engine, base, tag)
    case Err(CalledProcess(_)) => Scoped(Err(ValueError("Image not found: " + base)), None)
    case Err(e) => Scoped(Err(e), None)
    case Ok(temp) => Scoped(body(temp), Some(["docker", "rmi", tag]))
  }

  /** An engine on which the base image cannot be found: every command fails
      with status 1. */
  function MissingEverything(): Engine {
    (c: Call) => Completed(1, "")
  }

  /** As written, a base that does not exist never yields "Image not found":
      the failed build surfaces as the builder's own DockerBuildError. */
  lemma TempImageMissesMissingBase<T>(base: string, draw: nat -> nat, body: DockerImage.Image -> Result<T>)
    ensures TempImageAsWritten(MissingEverything(), base, draw, body).result
            == Err(DockerBuildError("String dockerfile " + TempTag(draw) + " failed to build."))
    ensures TempImageAsWritten(MissingEverything(), base, draw, body).result != Err(ValueError("Image not found: " + base))
  {
    var tag := TempTag(draw);
    assert DockerImage.BuildCall(tag, None, Some("FROM " + base), Some("."), "host", false).Ok?;
  }

  /** `temp_image` as its documentation promises it: a base that cannot be
      built from, whichever way the build reports it, is "Image not found". */
  function TempImage<T>(engine: Engine, base: string, draw: nat -> nat,
                        body: DockerImage.Image -> Result<T>): (s: Scoped<T>)
    ensures s.removal.Some? <==> TempBuild(engine, base, TempTag(draw)).Ok?
    ensures s.removal.Some? ==> s.removal.value == ["docker", "rmi", TempTag(draw)]
    ensures s.removal.Some? ==> s.result == body(TempBuild(engine, base, TempTag(draw)).value)
    ensures TempBuild(engine, base, TempTag(draw)).Err? ==>
      var e := TempBuild(engine, base, TempTag(draw)).error;
      s.result == Err(if e.CalledProcess? || e.DockerBuildError? then ValueError("Image not found: " + base) else e)
  {
    var tag := TempTag(draw);
    match TempBuild(engine, base, tag)
    case Err(CalledProcess(_)) => Scoped(Err(ValueError("Image not found: " + base)), None)
    case Err(DockerBuildError(_)) => Scoped(Err(ValueError("Image not found: " + base)), None)
    case Err(e) => Scoped(Err(e), None)
    case Ok(temp) => Scoped(body(temp), Some(["docker", "rmi", tag]))
  }

  /** With the correction, a failing build of `FROM base` is reported as the
      base not being found, and nothing is left to remove. */
  lemma TempImageReportsMissingBase<T>(engine: Engine, base: string, draw: nat -> nat,
                                       body: DockerImage.Image -> Result<T>)
    requires engine(Call(["docker", "build", "--network=host", ".", "-t=" + TempTag(draw), "-f-"], Some("FROM " + base))).exitCode != 0
    ensures TempImage(engine, base, draw, body) == Scoped(Err(ValueError("Image not found: " + base)), None)
  {
    var tag := TempTag(draw);
    var call := DockerImage.BuildCall(tag, None, Some("FROM " + base), Some("."), "host", false);
    assert "--network=" + "host" == "--network=host";
    var argv := ["docker", "build", "--network=host", ".", "-t=" + tag];
    assert call.Ok? && call.value.argv == argv + [] + ["-f-"];
    assert argv + [] + ["-f-"] == ["docker", "build", "--network=host", ".", "-t=" + tag, "-f-"];
    assert TempBuild(engine, base, tag).Err? && TempBuild(engine, base, tag).error.DockerBuildError?;
  }

  /** Both versions agree whenever the build succeeds or fails for a reason
      other than a failed build step. */
  lemma TempImageAgrees<T>(engine: Engine, base: string, draw: nat -> nat, body: DockerImage.Image -> Result<T>)
    requires !(TempBuild(engine, base, TempTag(draw)).Err? && TempBuild(engine, base, TempTag(draw)).error.DockerBuildError?)
    ensures TempImage(engine, base, draw, body) == TempImageAsWritten(engine, base, draw, body)
  {
  }

  // ------------------------------------------------------------ CUDA version

  /** The string with one trailing newline removed: what `$` lets a match
      end before. */
  function DropFinalNewline(s: string): (r: string)
    ensures r == s || (r + "\n" == s)
  {
    if |s| > 0 && s[|s| - 1] == '\n' then s[..|s| - 1] else s
  }

  /** `s` reads as `[0-9]+\.[0-9]+` with the dot at index `i`. */
  predicate VersionAt(s: string, i: int) {
    0 < i < |s| && s[i] == '.' && Text.IsDigits(s[..i]) && Text.IsDigits(s[i + 1..])
  }

  /** `parse_cuda_info(cuda_version)`: the major and minor numbers of a
      strict `MAJOR.MINOR` version, or a ValueError naming the input. */
  function ParseCudaInfo(version: string): (r: Result<(nat, nat)>)
    ensures forall i :: VersionAt(DropFinalNewline(version), i) ==>
      r == Ok((Text.DigitsValue(DropFinalNewline(version)[..i]), Text.DigitsValue(DropFinalNewline(version)[i + 1..])))
    ensures (forall i :: !VersionAt(DropFinalNewline(version), i)) ==>
      r == Err(ValueError("Malformed CUDA version: " + version))
  {
    var s := DropFinalNewline(version);
    var i := Text.IndexOf(s, '.');
    assert forall j :: VersionAt(s, j) ==> j == i by {
      forall j | VersionAt(s, j) ensures j == i {
        DotIsFirst(s, j);
      }
    }
    if VersionAt(s, i) then Ok((Text.DigitsValue(s[..i]), Text.DigitsValue(s[i + 1..])))
    else Err(ValueError("Malformed CUDA version: " + version))
  }

  /** The digits before a version's dot hold no dot, so it is the first. */
  lemma DotIsFirst(s: string, j: int)
    requires VersionAt(s, j)
    ensures Text.IndexOf(s, '.') == j
  {
    forall k | 0 <= k < j ensures s[k] != '.' {
      assert s[..j][k] == s[k];
    }
  }

  /** Round trip: `parse_cuda_info(f"{a}.{b}") == (a, b)`, with or without a
      trailing newline. */
  lemma ParseCudaInfoRoundTrip(major: nat, minor: nat, newline: bool)
    ensures ParseCudaInfo(Text.NatToString(major) + "." + Text.NatToString(minor) + (if newline then "\n" else ""))
            == Ok((major, minor))
  {
    var a := Text.NatToString(major);
    var b := Text.NatToString(minor);
    Text.NatToStringIsDigits(major);
    Text.NatToStringIsDigits(minor);
    Text.NatToStringValue(major);
    Text.NatToStringValue(minor);
    var s := a + "." + b;
    assert s[..|a|] == a && s[|a| + 1..] == b;
    assert VersionAt(s, |a|);
    if newline {
      assert DropFinalNewline(s + "\n") == s;
    } else {
      assert Text.IsDigit(b[|b| - 1]);
      assert s[|s| - 1] == b[|b| - 1];
      assert s + "" == s;
      assert DropFinalNewline(s) == s;
    }
  }

  /** Leading zeros are accepted, so different strings name the same
      version: the parse is not injective. */
  lemma ParseCudaInfoLeadingZeros()
    ensures ParseCudaInfo("011.4") == ParseCudaInfo("11.4") == Ok((11, 4))
  {
    assert VersionAt("011.4", 3) && VersionAt("11.4", 2);
    assert Text.DigitsValue("011") == 11 by {
      assert "011"[..2] == "01" && "01"[..1] == "0" && "0"[..0] == "";
    }
    assert Text.DigitsValue("11") == 11 by {
      assert "11"[..1] == "1" && "1"[..0] == "";
    }
    assert Text.DigitsValue("4") == 4 by {
      assert "4"[..0] == "";
    }
    assert "011.4"[..3] == "011" && "011.4"[4..] == "4";
    assert "11.4"[..2] == "11" && "11.4"[3..] == "4";
  }

  /** A version without a dot is refused. */
  lemma ParseCudaInfoNeedsDot(version: string)
    requires '.' !in DropFinalNewline(version)
    ensures ParseCudaInfo(version) == Err(ValueError("Malformed CUDA version: " + version))
  {
  }

  /** Non-digits, a third component, or a second trailing newline are
      refused. */
  lemma ParseCudaInfoRejects()
    ensures ParseCudaInfo("11") == Err(ValueError("Malformed CUDA version: 11"))
    ensures ParseCudaInfo("a.b").Err?
    ensures ParseCudaInfo("11.4.2") == Err(ValueError("Malformed CUDA version: 11.4.2"))
    ensures ParseCudaInfo("11.4\n\n").Err?
  {
    assert DropFinalNewline("11") == "11";
    ParseCudaInfoNeedsDot("11");
    assert "Malformed CUDA version: " + "11" == "Malformed CUDA version: 11";
    assert DropFinalNewline("11.4.2") == "11.4.2";
    assert "Malformed CUDA version: " + "11.4.2" == "Malformed CUDA version: 11.4.2";
    assert forall i :: !VersionAt("a.b", i) by {
      assert "a.b"[..1][0] == 'a';
    }
    RejectsThreeParts();
    RejectsTwoNewlines();
  }

  lemma RejectsThreeParts()
    ensures forall i :: !VersionAt("11.4.2", i)
  {
    var v := "11.4.2";
    assert forall i :: VersionAt(v, i) ==> i == 2 || i == 4;
    assert !VersionAt(v, 2) by {
      assert v[3..][1] == '.';
    }
    assert !VersionAt(v, 4) by {
      assert v[..4][2] == '.';
    }
  }

  lemma RejectsTwoNewlines()
    ensures DropFinalNewline("11.4\n\n") == "11.4\n"
    ensures forall i :: !VersionAt("11.4\n", i)
  {
    var t := "11.4\n";
    assert forall i :: VersionAt(t, i) ==> i == 2;
    assert !VersionAt(t, 2) by {
      assert t[3..][1] == '\n';
    }
  }

  // ---------------------------------------------------------- conda URLs

  /** No whitespace at all, as `\S*` demands. */
  predicate NoSpace(s: string) {
    forall i :: 0 <= i < |s| ==> s[i] !in Text.Whitespace
  }

  /** `is_conda_pkg_name(line)`: a match of
      `^https://conda.anaconda.org/\S*$`, where each unescaped `.` is any
      character but a newline. */
  predicate IsCondaPkgName(line: string) {
    |line| >= 27
    && line[..13] == "https://conda" && line[13] != '\n'
    && line[14..22] == "anaconda" && line[22] != '\n'
    && line[23..27] == "org/"
    && NoSpace(DropFinalNewline(line[27..]))
  }

  /** A line under the channel host is a package URL exactly when the rest
      of it has no whitespace (one final newline aside). */
  lemma CondaChannelLines(path: string)
    ensures IsCondaPkgName("https://conda.anaconda.org/" + path) <==> NoSpace(DropFinalNewline(path))
  {
    var line := "https://conda.anaconda.org/" + path;
    assert line[..13] == "https://conda" && line[14..22] == "anaconda" && line[23..27] == "org/";
    assert line[13] == '.' && line[22] == '.';
    assert line[27..] == path;
  }

  /** The dots are unescaped, so another host of the same shape also
      passes. */
  lemma CondaDotsUnescaped()
    ensures IsCondaPkgName("https://condaXanacondaXorg/pkg")
  {
    var u := "https://condaXanacondaXorg/pkg";
    assert u[..13] == "https://conda";
    assert u[14..22] == "anaconda";
    assert u[23..27] == "org/";
    assert u[27..] == "pkg";
    assert DropFinalNewline("pkg") == "pkg";
  }

  /** A line with a space in the package path is not a package URL. */
  lemma CondaRejectsSpace()
    ensures !IsCondaPkgName("https://conda.anaconda.org/a b")
  {
    CondaChannelLines("a b");
    assert DropFinalNewline("a b")[1] == ' ';
  }

  // ------------------------------------------------------------ probing

  /** `test_image(image, expression)`: whether `test -d EXPRESSION` succeeds
      on the image; status 1 means no, and every other error escapes. */
  function TestImage(engine: Engine, img: DockerImage.Image, expression: string): (r: Result<bool>)
    ensures '\'' !in expression ==>
      var c := engine(Call(DockerImage.RunPrefix(img, false, "host", false) + ["test -d " + expression], None));
      (r == Ok(true) <==> c.exitCode == 0)
      && (r == Ok(false) <==> c.exitCode == 1)
      && (c.exitCode !in {0, 1, 127} ==> r == Err(CalledProcess(c.exitCode)))
  {
    assert '\'' !in expression ==> '\'' !in "test -d " + expression;
    PresenceVerdict(DockerImage.Run(engine, img, "test -d " + expression, false, "host", true, false))
  }

  /** The first of `names` the probe reports present, in order; `None` when
      it reports every one absent; the first probe error escapes. */
  function FirstPresent(probe: Probe, names: seq<string>): (r: Result<Option<string>>)
    ensures r == Ok(None) <==> forall i :: 0 <= i < |names| ==> probe(names[i]) == Ok(false)
    ensures r.Ok? && r.value.Some? ==>
      exists i :: 0 <= i < |names| && names[i] == r.value.value && probe(names[i]) == Ok(true)
                  && forall j :: 0 <= j < i ==> probe(names[j]) == Ok(false)
    ensures r.Err? ==>
      exists i :: 0 <= i < |names| && probe(names[i]) == Err(r.error)
                  && forall j :: 0 <= j < i ==> probe(names[j]) == Ok(false)
    decreases |names|
  {
    if |names| == 0 then Ok(None)
    else
      var here :- probe(names[0]);
      if here then Ok(Some(names[0]))
      else
        var rest := FirstPresent(probe, names[1..]);
        assert rest.Ok? && rest.value.Some? ==> exists i :: 1 <= i < |names| && names[i] == rest.value.value
          && probe(names[i]) == Ok(true) && forall j :: 0 <= j < i ==> probe(names[j]) == Ok(false) by {
          if rest.Ok? && rest.value.Some? {
            var k :| 0 <= k < |names| - 1 && names[1..][k] == rest.value.value && probe(names[1..][k]) == Ok(true)
                     && forall j :: 0 <= j < k ==> probe(names[1..][j]) == Ok(false);
            assert forall j :: 0 <= j < k + 1 ==> probe(names[j]) == Ok(false) by {
              forall j | 0 <= j < k + 1 ensures probe(names[j]) == Ok(false) {
                if j > 0 { assert names[j] == names[1..][j - 1]; }
              }
            }
          }
        }
        assert rest.Err? ==> exists i :: 1 <= i < |names| && probe(names[i]) == Err(rest.error)
          && forall j :: 0 <= j < i ==> probe(names[j]) == Ok(false) by {
          if rest.Err? {
            var k :| 0 <= k < |names| - 1 && probe(names[1..][k]) == Err(rest.error)
                     && forall j :: 0 <= j < k ==> probe(names[1..][j]) == Ok(false);
            assert forall j :: 0 <= j < k + 1 ==> probe(names[j]) == Ok(false) by {
              forall j | 0 <= j < k + 1 ensures probe(names[j]) == Ok(false) {
                if j > 0 { assert names[j] == names[1..][j - 1]; }
              }
            }
          }
        }
        assert (forall i :: 0 <= i < |names| ==> probe(names[i]) == Ok(false))
               <==> (forall i :: 0 <= i < |names| - 1 ==> probe(names[1..][i]) == Ok(false)) by {
          if forall i :: 0 <= i < |names| - 1 ==> probe(names[1..][i]) == Ok(false) {
            forall i | 0 <= i < |names| ensures probe(names[i]) == Ok(false) {
              if i > 0 { assert names[i] == names[1..][i - 1]; }
            }
          }
        }
        rest
  }

  const NoPackageManagerMessage := "No recognized package manager found on parent image."

  /** `_package_manager_check(image)`: yum if present, else apt-get if
      present, else a ValueError. */
  function PackageManagerCheck(probe: Probe): (r: Result<PM.PackageManager>)
    ensures r == Ok(PM.Yum) <==> probe("yum") == Ok(true)
    ensures r == Ok(PM.AptGet) <==> probe("yum") == Ok(false) && probe("apt-get") == Ok(true)
    ensures probe("yum") == Ok(false) && probe("apt-get") == Ok(false) ==> r == Err(ValueError(NoPackageManagerMessage))
    ensures probe("yum").Err? ==> r == Err(probe("yum").error)
    ensures probe("yum") == Ok(false) && probe("apt-get").Err? ==> r == Err(probe("apt-get").error)
  {
    var found :- FirstPresent(probe, PM.Supported);
    match found
    case None => Err(ValueError(NoPackageManagerMessage))
    case Some(name) => PM.GetPackageManager(name)
  }

  /** `_url_reader_check(image)`: curl if present, else wget if present,
      else none. */
  function UrlReaderCheck(probe: Probe): (r: Result<Option<UR.UrlReader>>)
    ensures r == Ok(Some(UR.Curl)) <==> probe("curl") == Ok(true)
    ensures r == Ok(Some(UR.Wget)) <==> probe("curl") == Ok(false) && probe("wget") == Ok(true)
    ensures r == Ok(None) <==> probe("curl") == Ok(false) && probe("wget") == Ok(false)
    ensures probe("curl").Err? ==> r == Err(probe("curl").error)
    ensures probe("curl") == Ok(false) && probe("wget").Err? ==> r == Err(probe("wget").error)
  {
    var found :- FirstPresent(probe, UR.Supported);
    match found
    case None => Ok(None)
    case Some(name) => Ok(Some(UR.GetUrlReader(name).value))
  }

  /** `RUN` followed by the package manager's install command for `targets`,
      cleaning up afterwards. */
  function InstallLine(pm: PM.PackageManager, targets: seq<string>): string {
    "RUN " + PM.InstallCommand(pm, targets, true)
  }

  /** `_get_reader_install_lines(package_mgr)`: settle on wget, and the line
      that installs it. */
  function ReaderInstallLines(pm: PM.PackageManager): (r: (UR.UrlReader, string))
    ensures r.0 == UR.Wget
    ensures |r.1| > 4 && Text.StartsWith(r.1, "RUN ") && Text.EndsWith(r.1, "\n")
    ensures Shlex.Split(r.1[4..|r.1| - 1]) == Ok(PM.InstallWords(pm, ["wget"], true))
  {
    var line := InstallLine(pm, ["wget"]) + "\n";
    assert line[4..|line| - 1] == PM.InstallCommand(pm, ["wget"], true);
    PM.InstallCommandSplits(pm, ["wget"], true);
    (UR.Wget, line)
  }

  /** The three things `image_command_check` reports. */
  datatype Capabilities = Capabilities(packageManager: PM.PackageManager, urlReader: UR.UrlReader, initLines: string)

  /** The configure line, present only when asked for. */
  function ConfigureLines(pm: PM.PackageManager, configure: bool): string {
    if configure then "RUN " + PM.ConfigureCommand(pm) + "\n" else ""
  }

  /** What `image_command_check` settles on after the reader probe: the
      reader found, or wget with the line that installs it. */
  function ReaderChoice(pm: PM.PackageManager, found: Option<UR.UrlReader>): (r: (UR.UrlReader, string))
    ensures found.Some? ==> r == (found.value, "")
    ensures found.None? ==> r == (UR.Wget, InstallLine(pm, ["wget"]) + "\n")
  {
    match found
    case Some(u) => (u, "")
    case None => ReaderInstallLines(pm)
  }

  /** `image_command_check(image, configure)`: probe the package manager,
      then the URL reader, then `tar`, collecting the Dockerfile lines that
      make up for what is missing: configure (if asked), install wget (if
      no reader), install tar (if absent), in that order. */
  function ImageCommandCheck(probe: Probe, configure: bool): (r: Result<Capabilities>)
    ensures r.Ok? <==> PackageManagerCheck(probe).Ok? && UrlReaderCheck(probe).Ok? && probe("tar").Ok?
    ensures PackageManagerCheck(probe).Err? ==> r == Err(PackageManagerCheck(probe).error)
    ensures PackageManagerCheck(probe).Ok? && UrlReaderCheck(probe).Err? ==> r == Err(UrlReaderCheck(probe).error)
    ensures r.Ok? ==> r.value.packageManager == PackageManagerCheck(probe).value
    ensures r.Ok? ==> r.value.urlReader == ReaderChoice(r.value.packageManager, UrlReaderCheck(probe).value).0
    ensures r.Ok? ==>
      (r.value.initLines ==
        ConfigureLines(r.value.packageManager, configure)
        + ReaderChoice(r.value.packageManager, UrlReaderCheck(probe).value).1
        + (if probe("tar") == Ok(false) then InstallLine(r.value.packageManager, ["tar"]) else ""))
  {
    var pm :- PackageManagerCheck(probe);
    var initLines := ConfigureLines(pm, configure);
    var found :- UrlReaderCheck(probe);
    var (reader, install) := ReaderChoice(pm, found);
    var hasTar :- probe("tar");
    var lines := initLines + install;
    Ok(Capabilities(pm, reader, if hasTar then lines else lines + InstallLine(pm, ["tar"])))
  }

  /** The probe `image_command_check` uses: `has_command` on the image. */
  function ImageProbe(engine: Engine, img: DockerImage.Image): Probe {
    (name: string) => DockerImage.HasCommand(engine, img, name)
  }

  /** On an image holding exactly `present`, the check picks the preferred
      package manager and reader, installs wget only when neither reader is
      there and tar only when it is missing, and asks for no lines at all
      when not configuring and a reader and tar are both there. */
  lemma ImageCommandCheckPresence(present: set<string>, img: DockerImage.Image, configure: bool)
    ensures var r := ImageCommandCheck(ImageProbe(PresenceEngine(present), img), configure);
      ("yum" in present || "apt-get" in present <==> r.Ok?)
      && ("yum" !in present && "apt-get" !in present ==> r == Err(ValueError(NoPackageManagerMessage)))
      && (r.Ok? ==> r.value.packageManager == (if "yum" in present then PM.Yum else PM.AptGet))
      && (r.Ok? ==> r.value.urlReader == (if "curl" in present then UR.Curl else UR.Wget))
      && (r.Ok? ==>
            (r.value.initLines ==
              ConfigureLines(r.value.packageManager, configure)
              + (if "curl" in present || "wget" in present then "" else InstallLine(r.value.packageManager, ["wget"]) + "\n")
              + (if "tar" in present then "" else InstallLine(r.value.packageManager, ["tar"]))))
      && (r.Ok? && !configure && ("curl" in present || "wget" in present) && "tar" in present ==> r.value.initLines == "")
  {
    DockerImage.HasCommandPresence(present, img, "yum");
    DockerImage.HasCommandPresence(present, img, "apt-get");
    DockerImage.HasCommandPresence(present, img, "curl");
    DockerImage.HasCommandPresence(present, img, "wget");
    DockerImage.HasCommandPresence(present, img, "tar");
  }
}

=== FILE: wigwam_commands.dfy ===
/** The newer generation's commands: the four-stage CMake chain `build_all`,
    the distributable image of `make_distrib`, the test run of `test`, the
    drop-in session and the lockfile. The newer tag rule, the micromamba
    lines, the directory-copy template, the URL-reader probe, the libdir
    probe and the conda-line test live in files that are not part of this
    model; they are parameters here, and the lemmas say what they need of
    them. */
module WigwamCommands {
  import opened Errors
  import opened Engine
  import Text
  import Shlex
  import Defaults
  import Chains
  import Cmake
  import Commands
  import Lockfile
  import Mounts
  import Mamba
  import Utils
  import DockerImage
  import WigwamImage

  type Image = DockerImage.Image

  /** `prefix_image_tag`. */
  type Prefixer = string -> string

  /** What the lemmas need of the tag rule: a tag that extends an already
      prefixed tag is left alone (so, in particular, prefixing twice is
      prefixing once). */
  ghost predicate PrefixRule(prefix: Prefixer) {
    forall t, s :: prefix(prefix(t) + s) == prefix(t) + s
  }

  /** The older generation's rule has that property. */
  lemma DefaultPrefixRule()
    ensures PrefixRule(Defaults.PrefixTag)
  {
    forall t, s
      ensures Defaults.PrefixTag(Defaults.PrefixTag(t) + s) == Defaults.PrefixTag(t) + s
    {
      var p := Defaults.PrefixTag(t);
      assert (p + s)[..4] == p[..4];
    }
  }

  lemma PrefixRuleIdempotent(prefix: Prefixer, t: string)
    requires PrefixRule(prefix)
    ensures prefix(prefix(t)) == prefix(t)
  {
    assert prefix(t) + "" == prefix(t);
    assert prefix(prefix(t) + "") == prefix(t) + "";
  }

  // ------------------------------------------------------------ build_all

  /** A directory on the host as `build_all` sees it: the path given, its
      absolute form, and whether it is a directory. */
  datatype HostDir = HostDir(path: string, absolute: string, isDir: bool)

  /** The templates and probes of files outside this model:
      `micromamba_docker_lines()`; `insert_dir_dockerfile(base, target, ".")`;
      and, for a base tag and an archive URL, the command the reader found on
      a throwaway image of the base would fetch the archive with. */
  datatype Templates = Templates(
    mambaLines: string,
    insertDir: (string, string) -> string,
    fetch: (string, string) -> Result<string>)

  const NoSourceMessage: string := "Either archive_url or src_path must be passed."

  function NotDirectoryMessage(path: string): string {
    "src_path must be a directory. Given value: " + path
  }

  /** The first stage: copy the host directory when one is given, otherwise
      download the archive. */
  function FirstStage(prefix: Prefixer, tag: string, base: string, src: Option<HostDir>, archiveUrl: Option<string>,
                      dst: string, noCache: bool, tpl: Templates): (r: Result<Chains.Stage>)
    ensures src.Some? && !src.value.isDir ==> r == Err(ValueError(NotDirectoryMessage(src.value.path)))
    ensures src.None? && archiveUrl.None? ==> r == Err(ValueError(NoSourceMessage))
    ensures r.Ok? && src.Some? ==> r.value.key == prefix(tag) + "-file-" + Commands.Basename(src.value.absolute)
                                   && r.value.context == Some(src.value.absolute)
    ensures r.Ok? && src.None? ==> r.value.key == prefix(tag) + "-git-repo" && r.value.context.None?
    ensures r.Ok? ==> r.value.tag == prefix(r.value.key) && r.value.base == prefix(prefix(base))
                      && !r.value.probeFirst && r.value.noCache == noCache
  {
    var p := prefix(tag);
    var b := prefix(prefix(base));
    match src
    case Some(d) =>
      if !d.isDir then Err(ValueError(NotDirectoryMessage(d.path)))
      else
        var key := p + "-file-" + Commands.Basename(d.absolute);
        Ok(Chains.Stage(key, prefix(key), b, tpl.insertDir(b, dst), Some(d.absolute), noCache, false))
    case None =>
      var key := p + "-git-repo";
      if archiveUrl.None? then Err(ValueError(NoSourceMessage))
      else
        var fetch :- tpl.fetch(b, archiveUrl.value);
        Ok(Chains.Stage(key, prefix(key), b, Commands.GitDockerfile(b, dst, tpl.mambaLines, fetch), None, noCache, false))
  }

  const ConfiguredSuffix: string := "-configured"
  const BuiltSuffix: string := "-built"
  const InstalledSuffix: string := "-installed"

  /** Configure, compile and install, each from the stage before. */
  function CmakeStages(prefix: Prefixer, p: string, first: string, buildType: string, noCuda: bool, noCache: bool,
                       mambaLines: string): (r: seq<Chains.Stage>)
    ensures |r| == 3
    ensures r[0].key == p + ConfiguredSuffix && r[1].key == p + BuiltSuffix && r[2].key == p + InstalledSuffix
    ensures r[0].base == prefix(first) && r[1].base == prefix(r[0].key) && r[2].base == prefix(r[1].key)
    ensures forall i :: 0 <= i < 3 ==> r[i].tag == prefix(r[i].key) && r[i].context.None?
                                       && r[i].noCache == noCache && !r[i].probeFirst
  {
    var configured := p + ConfiguredSuffix;
    var built := p + BuiltSuffix;
    var installed := p + InstalledSuffix;
    [Chains.Stage(configured, prefix(configured), prefix(first),
                  Cmake.ConfigDockerfile(prefix(first), mambaLines, buildType, !noCuda), None, noCache, false),
     Chains.Stage(built, prefix(built), prefix(configured),
                  Cmake.BuildDockerfile(prefix(configured), mambaLines), None, noCache, false),
     Chains.Stage(installed, prefix(installed), prefix(built),
                  Cmake.InstallDockerfile(prefix(built), mambaLines), None, noCache, false)]
  }

  /** The builds `build_all` makes, in order, or the error raised before
      the first. */
  function BuildAllPlan(prefix: Prefixer, tag: string, base: string, src: Option<HostDir>, archiveUrl: Option<string>,
                        dst: string, buildType: string, noCuda: bool, noCache: bool, tpl: Templates)
    : (r: Result<seq<Chains.Stage>>)
    ensures r.Ok? <==> FirstStage(prefix, tag, base, src, archiveUrl, dst, noCache, tpl).Ok?
    ensures r.Ok? ==> |r.value| == 4 && r.value[0] == FirstStage(prefix, tag, base, src, archiveUrl, dst, noCache, tpl).value
    ensures r.Ok? ==> r.value[1..] == CmakeStages(prefix, prefix(tag), r.value[0].key, buildType, noCuda, noCache, tpl.mambaLines)
  {
    var first :- FirstStage(prefix, tag, base, src, archiveUrl, dst, noCache, tpl);
    var r := [first] + CmakeStages(prefix, prefix(tag), first.key, buildType, noCuda, noCache, tpl.mambaLines);
    assert r[1..] == CmakeStages(prefix, prefix(tag), first.key, buildType, noCuda, noCache, tpl.mambaLines);
    Ok(r)
  }

  /** How the newer generation builds one stage: from the Dockerfile text,
      on the host network. */
  function WigwamBuilder(engine: Engine): Chains.Builder {
    (s: Chains.Stage) => WigwamImage.Build(engine, s.tag, None, Some(s.dockerfile), s.context, "host", s.noCache)
  }

  /** `build_all(tag, base, src_path, archive_url, dst_path, build_type,
      no_cuda, no_cache)`: the planned builds in order, stopping at the first
      failure; the result maps each stage's key to its image. */
  function BuildAll(engine: Engine, prefix: Prefixer, tag: string, base: string, src: Option<HostDir>,
                    archiveUrl: Option<string>, dst: string, buildType: string, noCuda: bool, noCache: bool,
                    tpl: Templates): (o: Chains.Outcome)
    ensures o.started <= 4
    ensures src.None? && archiveUrl.None? ==> o == Chains.Outcome(0, Err(ValueError(NoSourceMessage)))
    ensures src.Some? && !src.value.isDir ==> o == Chains.Outcome(0, Err(ValueError(NotDirectoryMessage(src.value.path))))
  {
    match BuildAllPlan(prefix, tag, base, src, archiveUrl, dst, buildType, noCuda, noCache, tpl)
    case Err(e) => Chains.Outcome(0, Err(e))
    case Ok(stages) => Chains.RunStages(WigwamBuilder(engine), stages, [])
  }

  /** A source directory takes precedence: the archive URL is then ignored. */
  lemma SourceDirWins(prefix: Prefixer, tag: string, base: string, d: HostDir, url1: Option<string>,
                      url2: Option<string>, dst: string, buildType: string, noCuda: bool, noCache: bool, tpl: Templates)
    ensures BuildAllPlan(prefix, tag, base, Some(d), url1, dst, buildType, noCuda, noCache, tpl)
            == BuildAllPlan(prefix, tag, base, Some(d), url2, dst, buildType, noCuda, noCache, tpl)
  {
  }

  /** The keys of a planned chain: the first stage's, then the three CMake
      stages' under the prefixed tag. */
  lemma BuildAllKeys(prefix: Prefixer, tag: string, base: string, src: Option<HostDir>, archiveUrl: Option<string>,
                     dst: string, buildType: string, noCuda: bool, noCache: bool, tpl: Templates)
    requires BuildAllPlan(prefix, tag, base, src, archiveUrl, dst, buildType, noCuda, noCache, tpl).Ok?
    ensures var s := BuildAllPlan(prefix, tag, base, src, archiveUrl, dst, buildType, noCuda, noCache, tpl).value;
      var p := prefix(tag);
      Chains.StageKeys(s)
      == [if src.Some? then p + "-file-" + Commands.Basename(src.value.absolute) else p + "-git-repo",
          p + ConfiguredSuffix, p + BuiltSuffix, p + InstalledSuffix]
  {
    var s := BuildAllPlan(prefix, tag, base, src, archiveUrl, dst, buildType, noCuda, noCache, tpl).value;
    assert s[1] == s[1..][0] && s[2] == s[1..][1] && s[3] == s[1..][2];
  }

  /** A tag that extends a prefixed tag is left alone. */
  lemma Extends(prefix: Prefixer, t: string, s: string)
    requires PrefixRule(prefix)
    ensures prefix(prefix(t) + s) == prefix(t) + s
  {
  }

  /** Under such a rule the first stage is built under its own key, from
      the prefixed base. */
  lemma FirstStageTagged(prefix: Prefixer, tag: string, base: string, src: Option<HostDir>, archiveUrl: Option<string>,
                         dst: string, noCache: bool, tpl: Templates)
    requires PrefixRule(prefix)
    requires FirstStage(prefix, tag, base, src, archiveUrl, dst, noCache, tpl).Ok?
    ensures var f := FirstStage(prefix, tag, base, src, archiveUrl, dst, noCache, tpl).value;
      f.tag == f.key && f.base == prefix(base) && prefix(f.key) == f.key
  {
    var f := FirstStage(prefix, tag, base, src, archiveUrl, dst, noCache, tpl).value;
    PrefixRuleIdempotent(prefix, base);
    if src.Some? {
      var rest := "-file-" + Commands.Basename(src.value.absolute);
      assert f.key == prefix(tag) + rest;
      Extends(prefix, tag, rest);
    } else {
      Extends(prefix, tag, "-git-repo");
    }
  }

  /** ... and so are the CMake stages, each from the one before. */
  lemma CmakeStagesTagged(prefix: Prefixer, tag: string, first: string, buildType: string, noCuda: bool,
                          noCache: bool, mambaLines: string)
    requires PrefixRule(prefix)
    requires prefix(first) == first
    ensures var r := CmakeStages(prefix, prefix(tag), first, buildType, noCuda, noCache, mambaLines);
      Chains.Chained(first, r) && forall i :: 0 <= i < 3 ==> r[i].tag == r[i].key
  {
    Extends(prefix, tag, ConfiguredSuffix);
    Extends(prefix, tag, BuiltSuffix);
    Extends(prefix, tag, InstalledSuffix);
  }

  /** Under a tag rule that leaves prefixed tags alone, every stage is
      built under its own key, and each starts from the tag the stage before
      it was built as, the first from the prefixed base. */
  lemma BuildAllChained(prefix: Prefixer, tag: string, base: string, src: Option<HostDir>, archiveUrl: Option<string>,
                        dst: string, buildType: string, noCuda: bool, noCache: bool, tpl: Templates)
    requires PrefixRule(prefix)
    requires BuildAllPlan(prefix, tag, base, src, archiveUrl, dst, buildType, noCuda, noCache, tpl).Ok?
    ensures var s := BuildAllPlan(prefix, tag, base, src, archiveUrl, dst, buildType, noCuda, noCache, tpl).value;
      Chains.Chained(prefix(base), s) && forall i :: 0 <= i < 4 ==> s[i].tag == s[i].key
  {
    var s := BuildAllPlan(prefix, tag, base, src, archiveUrl, dst, buildType, noCuda, noCache, tpl).value;
    FirstStageTagged(prefix, tag, base, src, archiveUrl, dst, noCache, tpl);
    CmakeStagesTagged(prefix, tag, s[0].key, buildType, noCuda, noCache, tpl.mambaLines);
    var c := s[1..];
    assert s == [s[0]] + c;
    assert forall i :: 1 <= i < 4 ==> s[i] == c[i - 1];
  }

  /** The four keys differ in the letter after the prefixed tag's dash. */
  lemma BuildAllKeysDistinct(p: string, first: string)
    requires first == p + "-git-repo" || exists x :: first == p + "-file-" + x
    ensures Chains.Distinct([first, p + ConfiguredSuffix, p + BuiltSuffix, p + InstalledSuffix])
  {
    var k := [first, p + ConfiguredSuffix, p + BuiltSuffix, p + InstalledSuffix];
    var n := |p| + 1;
    assert (p + ConfiguredSuffix)[n] == 'c';
    assert (p + BuiltSuffix)[n] == 'b';
    assert (p + InstalledSuffix)[n] == 'i';
    assert first[n] == 'g' || first[n] == 'f' by {
      if first != p + "-git-repo" {
        var x :| first == p + "-file-" + x;
        assert first[n] == ("-file-" + x)[1];
      }
    }
    forall i, j | 0 <= i < j < 4
      ensures k[i] != k[j]
    {
      assert k[i][n] != k[j][n];
    }
  }

  /** When every build succeeds, `build_all` returns the four images keyed
      in build order. */
  lemma BuildAllRecords(engine: Engine, prefix: Prefixer, tag: string, base: string, src: Option<HostDir>,
                        archiveUrl: Option<string>, dst: string, buildType: string, noCuda: bool, noCache: bool,
                        tpl: Templates)
    requires BuildAllPlan(prefix, tag, base, src, archiveUrl, dst, buildType, noCuda, noCache, tpl).Ok?
    requires var s := BuildAllPlan(prefix, tag, base, src, archiveUrl, dst, buildType, noCuda, noCache, tpl).value;
      forall i :: 0 <= i < |s| ==> WigwamBuilder(engine)(s[i]).Ok?
    ensures var s := BuildAllPlan(prefix, tag, base, src, archiveUrl, dst, buildType, noCuda, noCache, tpl).value;
      var o := BuildAll(engine, prefix, tag, base, src, archiveUrl, dst, buildType, noCuda, noCache, tpl);
      o.started == 4 && o.result.Ok? && Chains.Keys(o.result.value) == Chains.StageKeys(s)
  {
    var s := BuildAllPlan(prefix, tag, base, src, archiveUrl, dst, buildType, noCuda, noCache, tpl).value;
    var p := prefix(tag);
    BuildAllKeys(prefix, tag, base, src, archiveUrl, dst, buildType, noCuda, noCache, tpl);
    if src.Some? {
      BuildAllKeysDistinct(p, p + "-file-" + Commands.Basename(src.value.absolute));
    } else {
      BuildAllKeysDistinct(p, p + "-git-repo");
    }
    Chains.RunStagesRecords(WigwamBuilder(engine), s, []);
    assert [] + Chains.Built(WigwamBuilder(engine), s) == Chains.Built(WigwamBuilder(engine), s);
  }

  // --------------------------------------------------------- make_distrib

  /** `distrib_dockerfile(base, source_tag, source_path, distrib_path,
      libdir)`: copy the installed tree out of the source image onto the
      base and point the library, Python and project paths at it. */
  function DistribDockerfile(base: string, sourceTag: string, sourcePath: string, distribPath: string,
                             libdir: string): (r: string)
    ensures Text.StartsWith(r, "FROM " + sourceTag + " as source\n\nFROM " + base + "\n\n")
    ensures Text.Contains(r, "\nENV LD_LIBRARY_PATH $LD_LIBRARY_PATH:" + distribPath + "/" + libdir + "\n")
  {
    var head := "FROM " + sourceTag + " as source\n\nFROM " + base + "\n\n";
    var copy := "COPY --from=source " + sourcePath + " " + distribPath + "\n";
    var lib := "\nENV LD_LIBRARY_PATH $LD_LIBRARY_PATH:" + distribPath + "/" + libdir + "\n";
    var rest := "ENV PYTHONPATH $PYTHONPATH:" + distribPath + "/packages\n\n"
      + "ENV ISCE3_PREFIX=" + distribPath + "\nWORKDIR $ISCE3_PREFIX";
    var r := head + copy + lib + rest;
    assert r[..|head|] == head;
    Text.OccursBetween(head + copy, lib, rest);
    r
  }

  /** `make_distrib(tag, base, source_tag, no_cache)`: the tag built and
      the Dockerfile. `libdir` answers `get_libdir` for an image. */
  function DistribRequest(prefix: Prefixer, tag: string, base: string, sourceTag: string,
                          libdir: string -> Result<string>): (r: Result<(string, string)>)
    ensures r.Ok? <==> libdir(prefix(base)).Ok?
    ensures r.Ok? ==> r.value.0 == tag
    ensures r.Ok? ==> r.value.1 == DistribDockerfile(prefix(base), prefix(sourceTag), Defaults.InstallPrefix,
                                                     Defaults.InstallPrefix, libdir(prefix(base)).value)
  {
    var dir :- libdir(prefix(base));
    Ok((tag, DistribDockerfile(prefix(base), prefix(sourceTag), Defaults.InstallPrefix, Defaults.InstallPrefix, dir)))
  }

  function MakeDistrib(engine: Engine, prefix: Prefixer, tag: string, base: string, sourceTag: string,
                       libdir: string -> Result<string>, noCache: bool): (r: Result<Image>)
    ensures libdir(prefix(base)).Err? ==> r == Err(libdir(prefix(base)).error)
    ensures r.Ok? ==> DockerImage.GetImageId(engine, tag) == Ok(r.value.id)
  {
    var (t, dockerfile) :- DistribRequest(prefix, tag, base, sourceTag, libdir);
    WigwamImage.Build(engine, t, None, Some(dockerfile), None, "host", noCache)
  }

  /** Unlike every other command, `make_distrib` builds under the caller's
      tag as given, outside the namespace, while its base and source are
      namespaced. */
  lemma DistribOutsideNamespace(libdir: string -> Result<string>)
    requires libdir(Defaults.PrefixTag("base")).Ok?
    ensures var r := DistribRequest(Defaults.PrefixTag, "out", "base", "src", libdir);
      r.Ok? && r.value.0 == "out" && Defaults.PrefixTag("out") != "out"
      && r.value.1 == DistribDockerfile("dcli-base", "dcli-src", "/app", "/app", libdir(Defaults.PrefixTag("base")).value)
  {
    assert !Text.StartsWith("out", Defaults.UniversalTagPrefix);
    assert Defaults.PrefixTag("src") == "dcli-src" by {
      assert "src"[..3] == "src";
    }
    assert Defaults.PrefixTag("base") == "dcli-base" by {
      assert "base"[..4][0] != Defaults.UniversalTagPrefix[0];
    }
  }

  // ------------------------------------------------------------------ test

  const ImageVolumePath: string := "/scratch/Testing"

  function CompressFlags(compressOutput: bool): seq<string> {
    if compressOutput then [] else ["--no-compress-output"]
  }

  function FailureFlags(quietFail: bool): seq<string> {
    if quietFail then [] else ["--output-on-failure"]
  }

  /** The words of the test command line: enter the build directory, run
      the tests ignoring their status, copy the report to the mounted
      directory under the requested file name. */
  function TestWords(compressOutput: bool, quietFail: bool, xmlName: string): (r: seq<string>)
    ensures "--no-compress-output" in r <==> !compressOutput
    ensures "--output-on-failure" in r <==> !quietFail
  {
    var head := ["cd", Defaults.BuildPrefix, "&&", "(", "ctest"];
    var flags := CompressFlags(compressOutput) + FailureFlags(quietFail);
    var tail := ["-T", "Test", "||", "true", ")", "&&", "cp", Defaults.BuildPrefix + "/Testing/*/Test.xml",
                 ImageVolumePath + "/" + xmlName];
    var r := head + flags + tail;
    assert forall i :: 0 <= i < |head| ==> r[i] == head[i];
    assert forall i :: 0 <= i < |flags| ==> r[|head| + i] == flags[i];
    assert forall i :: 0 <= i < |tail| ==> r[|head| + |flags| + i] == tail[i];
    assert forall i :: 0 <= i < |tail| - 1 ==> tail[i][0] != '-' || |tail[i]| == 2;
    TestWordsFlags(head, flags, tail, compressOutput, quietFail, xmlName);
    r
  }

  lemma TestWordsFlags(head: seq<string>, flags: seq<string>, tail: seq<string>, compressOutput: bool,
                       quietFail: bool, xmlName: string)
    requires head == ["cd", Defaults.BuildPrefix, "&&", "(", "ctest"]
    requires flags == CompressFlags(compressOutput) + FailureFlags(quietFail)
    requires tail == ["-T", "Test", "||", "true", ")", "&&", "cp", Defaults.BuildPrefix + "/Testing/*/Test.xml",
                      ImageVolumePath + "/" + xmlName]
    ensures "--no-compress-output" in head + flags + tail <==> !compressOutput
    ensures "--output-on-failure" in head + flags + tail <==> !quietFail
  {
    var last := ImageVolumePath + "/" + xmlName;
    assert last[0] == '/';
    assert "--no-compress-output"[0] == '-' && "--output-on-failure"[0] == '-';
    assert Defaults.BuildPrefix + "/Testing/*/Test.xml" != "--no-compress-output" by {
      assert (Defaults.BuildPrefix + "/Testing/*/Test.xml")[0] == '/';
    }
    assert Defaults.BuildPrefix + "/Testing/*/Test.xml" != "--output-on-failure" by {
      assert (Defaults.BuildPrefix + "/Testing/*/Test.xml")[0] == '/';
    }
    assert "--no-compress-output" != "--output-on-failure";
  }

  /** `shlex.join` of those words, the command `test` hands to `Image.run`. */
  function TestCommand(compressOutput: bool, quietFail: bool, xmlName: string): (r: string)
    ensures Shlex.Split(r) == Ok(TestWords(compressOutput, quietFail, xmlName))
  {
    Shlex.SplitJoinWords(TestWords(compressOutput, quietFail, xmlName));
    Shlex.JoinWords(TestWords(compressOutput, quietFail, xmlName))
  }

  /** `test(tag, output_xml, compress_output, quiet_fail)`: run the tests in
      the namespaced image as the host user, with the output file's
      directory `hostDir` mounted read-write at the image's volume path.
      `xmlName` is the output file's name. */
  function Test(engine: Engine, prefix: Prefixer, tag: string, xmlName: string, hostDir: string,
                compressOutput: bool, quietFail: bool, user: WigwamImage.HostUser): (r: Result<string>)
    ensures DockerImage.GetImageId(engine, prefix(tag)).Err? ==> r == Err(DockerImage.GetImageId(engine, prefix(tag)).error)
  {
    var id :- DockerImage.GetImageId(engine, prefix(tag));
    var mount :- Mounts.NewBindMount(hostDir, ImageVolumePath, "rw");
    WigwamImage.Run(engine, DockerImage.Image(id), TestCommand(compressOutput, quietFail, xmlName), false, "host",
                    true, false, Some(user), [mount])
  }

  predicate AllPlain(words: seq<string>) {
    forall i :: 0 <= i < |words| ==> Shlex.PlainWord(words[i])
  }

  lemma AllPlainConcat(a: seq<string>, b: seq<string>)
    requires AllPlain(a) && AllPlain(b)
    ensures AllPlain(a + b)
  {
    assert forall i :: |a| <= i < |a + b| ==> (a + b)[i] == b[i - |a|];
  }

  /** A plain word after a plain prefix is plain. */
  lemma PlainAfter(p: string, w: string)
    requires Shlex.PlainWord(p) && Shlex.PlainWord(w)
    ensures Shlex.PlainWord(p + w)
  {
    assert forall k :: |p| <= k < |p + w| ==> (p + w)[k] == w[k - |p|];
  }

  /** The test words are all plain shell words when the file name is. */
  lemma TestWordsPlain(compressOutput: bool, quietFail: bool, xmlName: string)
    requires Shlex.PlainWord(xmlName)
    ensures AllPlain(TestWords(compressOutput, quietFail, xmlName))
  {
    var head := ["cd", Defaults.BuildPrefix, "&&", "(", "ctest"];
    var flags := CompressFlags(compressOutput) + FailureFlags(quietFail);
    var report := Defaults.BuildPrefix + "/Testing/*/Test.xml";
    var last := ImageVolumePath + "/" + xmlName;
    var tail := ["-T", "Test", "||", "true", ")", "&&", "cp", report, last];
    PlainAfter(ImageVolumePath + "/", xmlName);
    assert Shlex.PlainWord(report);
    assert AllPlain(head);
    AllPlainConcat(CompressFlags(compressOutput), FailureFlags(quietFail));
    assert AllPlain(tail);
    AllPlainConcat(head, flags);
    AllPlainConcat(head + flags, tail);
  }

  /** Although `shlex.join` quotes `&&`, `(`, `||`, `)` and the glob,
      `Image.run` wraps the joined line in single quotes before splitting
      it, which undoes exactly that quoting: bash receives one argument, the
      words joined by single spaces, so the operators and the glob reach the
      shell bare. */
  lemma TestShellLine(img: Image, compressOutput: bool, quietFail: bool, xmlName: string,
                      user: WigwamImage.HostUser, mounts: seq<Mounts.BindMount>)
    requires Shlex.PlainWord(xmlName)
    ensures WigwamImage.RunArgs(img, TestCommand(compressOutput, quietFail, xmlName), false, "host", false,
                                Some(user), mounts)
            == Ok(WigwamImage.RunPrefix(img, false, "host", false, Some(user), mounts)
                  + [Text.Join(" ", TestWords(compressOutput, quietFail, xmlName))])
  {
    TestWordsPlain(compressOutput, quietFail, xmlName);
    Shlex.WrappedJoinWords(TestWords(compressOutput, quietFail, xmlName));
  }

  // ---------------------------------------------------------------- dropin

  /** The user a drop-in session runs as: the host user unless the image's
      default user is asked for. */
  function DropinUser(defaultUser: bool, user: WigwamImage.HostUser): (r: Option<WigwamImage.HostUser>)
    ensures r.Some? <==> !defaultUser
    ensures r.Some? ==> r.value == user
  {
    if defaultUser then None else Some(user)
  }

  /** `dropin(tag, default_user)`: an interactive bash in the namespaced
      image. */
  function Dropin(engine: Engine, prefix: Prefixer, tag: string, defaultUser: bool, user: WigwamImage.HostUser,
                  tty: bool): (r: Result<string>)
    ensures DockerImage.GetImageId(engine, prefix(tag)).Ok? ==>
      var img := DockerImage.Image(DockerImage.GetImageId(engine, prefix(tag)).value);
      r == Ok(engine(Call(WigwamImage.RunPrefix(img, true, "host", tty, DropinUser(defaultUser, user), []) + ["bash"],
                          None)).stdout)
  {
    var id :- DockerImage.GetImageId(engine, prefix(tag));
    WigwamImage.DropIn(engine, DockerImage.Image(id), "host", tty, DropinUser(defaultUser, user))
  }

  /** The engine reads a `-u UID:GID` from the drop-in's arguments exactly
      when the default user was not asked for. */
  lemma DropinRunsAsHost(img: Image, defaultUser: bool, user: WigwamImage.HostUser, tty: bool)
    requires |img.id| > 0 && img.id[0] != '-'
    ensures var argv := WigwamImage.RunPrefix(img, true, "host", tty, DropinUser(defaultUser, user), []) + ["bash"];
      WigwamImage.ParseRunArgs(argv).Some?
      && (WigwamImage.ParseRunArgs(argv).value.user.Some? <==> !defaultUser)
      && (!defaultUser ==> WigwamImage.ParseRunArgs(argv).value.user == Some(WigwamImage.UserSpec(user)))
  {
    WigwamImage.RunArgsParse(img, true, "host", tty, DropinUser(defaultUser, user), [], ["bash"]);
  }

  // --------------------------------------------------------- make_lockfile

  /** `make_lockfile(tag, file, env_name)`: export the environment of the
      namespaced image with `command` and normalise it with the conda-line
      test `isConda`; the text is what would be written to `file`. */
  function MakeLockfile(engine: Engine, prefix: Prefixer, tag: string, command: string, isConda: string -> bool)
    : (r: Result<string>)
    ensures r.Ok? ==> Text.EndsWith(r.value, "\n")
  {
    var id :- DockerImage.GetImageId(engine, prefix(tag));
    var exported :- WigwamImage.Run(engine, DockerImage.Image(id), command, false, "host", true, false, None, []);
    Ok(Lockfile.Normalize(exported, isConda))
  }

  /** The written lockfile is a fixed point of the normalisation whenever
      the conda-line test rejects the blank line. */
  lemma MakeLockfileNormal(engine: Engine, prefix: Prefixer, tag: string, command: string, isConda: string -> bool)
    requires !isConda("")
    ensures var r := MakeLockfile(engine, prefix, tag, command, isConda);
      r.Ok? ==> Lockfile.Normalize(r.value, isConda) == r.value
  {
    var r := MakeLockfile(engine, prefix, tag, command, isConda);
    if r.Ok? {
      var id := DockerImage.GetImageId(engine, prefix(tag)).value;
      var exported := WigwamImage.Run(engine, DockerImage.Image(id), command, false, "host", true, false, None, []).value;
      Lockfile.NormalizeIdempotent(exported, isConda);
    }
  }

  /** With the older generation's conda-line test and export command, both
      generations write the same lockfile for the same image. */
  lemma LockfilesAgree(engine: Engine, prefix: Prefixer, tag: string, envName: string)
    ensures MakeLockfile(engine, prefix, tag, Mamba.LockfileCommand(envName), Utils.IsCondaPkgName)
            == Commands.MakeLockfile(engine, prefix(tag), envName)
  {
    var id := DockerImage.GetImageId(engine, prefix(tag));
    if id.Ok? {
      var img := DockerImage.Image(id.value);
      var cmd := Mamba.LockfileCommand(envName);
      WigwamImage.RunPrefixPlain(img, false, "host", false);
      assert WigwamImage.RunArgs(img, cmd, false, "host", false, None, [])
             == DockerImage.RunArgs(img, cmd, false, "host", false);
    }
  }
}

=== FILE: wigwam_cuda.dfy ===
/** The CUDA Dockerfile generators of the newer generation: the package
    versions are written into the package names, the runtime body sets the
    CUDA version itself, and the URL reader may be named instead of given.
    The package-manager and URL-reader classes this generation uses
    (wigwam/_package_manager.py, wigwam/_url_reader.py) are not part of
    this model: the command texts they produce are parameters. */
module WigwamCuda {
  import opened Errors
  import Text
  import Utils
  import Textwrap

  datatype PackageManager = AptGet | Yum

  /** A URL reader object, known here only by its name. */
  datatype UrlReader = UrlReader(name: string)

  function Name(pm: PackageManager): string {
    match pm
    case AptGet => "apt-get"
    case Yum => "yum"
  }

  /** What the generators ask of the package manager and the URL reader:
      `generate_install_command(targets, clean=True)`,
      `generate_local_install_command(target)`,
      `generate_read_command(target, output_file)`, and `get_url_reader`. */
  datatype Tools = Tools(install: (PackageManager, seq<string>) -> string,
                         localInstall: (PackageManager, string) -> string,
                         read: (UrlReader, string, string) -> string,
                         readerNamed: string -> Result<UrlReader>)

  /** A generator: the package manager its class fixes, and its reader. */
  datatype Generator = Generator(packageManager: PackageManager, urlReader: UrlReader)

  // ----------------------------------------------------------------- targets

  /** `f"{major}-{minor}"`, the version suffix of every CUDA package. */
  function PackageVersion(major: nat, minor: nat): string {
    Text.NatToString(major) + "-" + Text.NatToString(minor)
  }

  function Versioned(lib: string, major: nat, minor: nat): string {
    lib + "-" + PackageVersion(major, minor)
  }

  /** `_runtime_build_targets`, the same for both package managers. */
  function RuntimeTargets(major: nat, minor: nat): seq<string> {
    [Versioned("cuda-cudart", major, minor), Versioned("libcufft", major, minor)]
  }

  /** `_dev_build_targets`: `-dev` header packages with apt-get; `-devel`
      ones and `rpm-build` with yum. */
  function DevTargets(pm: PackageManager, major: nat, minor: nat): seq<string> {
    match pm
    case AptGet => [Versioned("cuda-cudart-dev", major, minor), Versioned("cuda-nvcc", major, minor),
                    Versioned("libcufft-dev", major, minor)]
    case Yum => [Versioned("cuda-cudart-devel", major, minor), Versioned("cuda-nvcc", major, minor),
                 Versioned("libcufft-devel", major, minor), "rpm-build"]
  }

  /** The version a package name ends with: its last two dash-separated
      fields, read as decimal numbers. */
  function TargetVersion(t: string): (r: Option<(nat, nat)>)
    ensures r.Some? ==> |Text.Split(t, '-')| >= 2
  {
    var f := Text.Split(t, '-');
    if |f| >= 2 && Text.IsDigits(f[|f| - 2]) && Text.IsDigits(f[|f| - 1])
    then Some((Text.DigitsValue(f[|f| - 2]), Text.DigitsValue(f[|f| - 1])))
    else None
  }

  /** A versioned package name reads back as the version it was given,
      whatever the library name. */
  lemma VersionedReadsBack(lib: string, major: nat, minor: nat)
    ensures TargetVersion(Versioned(lib, major, minor)) == Some((major, minor))
  {
    var a := Text.NatToString(major);
    var b := Text.NatToString(minor);
    Text.NatToStringIsDigits(major);
    Text.NatToStringIsDigits(minor);
    Text.NatToStringValue(major);
    Text.NatToStringValue(minor);
    assert '-' !in a && '-' !in b by {
      assert forall i :: 0 <= i < |a| ==> Text.IsDigit(a[i]);
      assert forall i :: 0 <= i < |b| ==> Text.IsDigit(b[i]);
    }
    Text.SplitFree(a, '-');
    Text.SplitFree(b, '-');
    Text.SplitConcat(a, '-', b);
    Text.SplitConcat(lib, '-', a + "-" + b);
    assert Versioned(lib, major, minor) == lib + ['-'] + (a + ['-'] + b);
  }

  /** Both runtime packages carry the requested version in their names. */
  lemma RuntimeTargetsCarryVersion(major: nat, minor: nat)
    ensures forall t :: t in RuntimeTargets(major, minor) ==> TargetVersion(t) == Some((major, minor))
  {
    VersionedReadsBack("cuda-cudart", major, minor);
    VersionedReadsBack("libcufft", major, minor);
  }

  /** Every dev package carries the requested version in its name, except
      yum's `rpm-build`, which carries none. */
  lemma DevTargetsCarryVersion(pm: PackageManager, major: nat, minor: nat)
    ensures forall t :: t in DevTargets(pm, major, minor) && t != "rpm-build" ==> TargetVersion(t) == Some((major, minor))
    ensures forall t :: t in DevTargets(pm, major, minor) ==> (TargetVersion(t).None? <==> t == "rpm-build")
  {
    forall t | t in DevTargets(pm, major, minor)
      ensures t != "rpm-build" ==> TargetVersion(t) == Some((major, minor))
      ensures TargetVersion(t).None? <==> t == "rpm-build"
    {
      RpmBuildUnversioned();
      if t != "rpm-build" {
        var lib := DevLibrary(pm, major, minor, t);
        VersionedReadsBack(lib, major, minor);
      }
    }
  }

  /** The library a versioned dev package is named after. */
  lemma DevLibrary(pm: PackageManager, major: nat, minor: nat, t: string) returns (lib: string)
    requires t in DevTargets(pm, major, minor) && t != "rpm-build"
    ensures t == Versioned(lib, major, minor)
  {
    var ts := DevTargets(pm, major, minor);
    var k :| 0 <= k < |ts| && ts[k] == t;
    lib := match pm
      case AptGet => ["cuda-cudart-dev", "cuda-nvcc", "libcufft-dev"][k]
      case Yum => ["cuda-cudart-devel", "cuda-nvcc", "libcufft-devel", "rpm-build"][k];
    if pm.Yum? && k == 3 {
      assert false;
    }
  }

  lemma RpmBuildUnversioned()
    ensures TargetVersion("rpm-build").None?
  {
    Text.SplitFree("rpm", '-');
    Text.SplitFree("build", '-');
    Text.SplitConcat("rpm", '-', "build");
    assert "rpm-build" == "rpm" + ['-'] + "build";
    assert !Text.IsDigit("build"[0]);
  }

  /** Only yum builds RPMs; apt-get's list is yum's without `rpm-build` and
      with `-dev` for `-devel`. */
  lemma DevTargetsCompared(major: nat, minor: nat)
    ensures "rpm-build" in DevTargets(PackageManager.Yum, major, minor)
    ensures "rpm-build" !in DevTargets(PackageManager.AptGet, major, minor)
    ensures DevTargets(PackageManager.Yum, major, minor)[1] == DevTargets(PackageManager.AptGet, major, minor)[1]
    ensures |DevTargets(PackageManager.Yum, major, minor)| == |DevTargets(PackageManager.AptGet, major, minor)| + 1
  {
    var a := DevTargets(PackageManager.AptGet, major, minor);
    assert |a[0]| > 9 && |a[1]| > 9 && |a[2]| > 9;
  }

  // ----------------------------------------------------------------- lines

  /** Where NVIDIA publishes the CUDA packages for a distribution. */
  function RepoUrl(repo: string, arch: string): string {
    "https://developer.download.nvidia.com/compute/cuda/repos/" + repo + "/" + arch + "/"
  }

  const KeyringFile: string := "cuda-keyring_1.0-1_all.deb"

  /** `_generate_initial_lines(repo_ver, arch=arch)`: with apt-get, download
      NVIDIA's keyring package and install it from the local file; with yum,
      register NVIDIA's `.repo` file. */
  function InitialLines(g: Generator, tools: Tools, repo: string, arch: string): (r: string)
    ensures Text.StartsWith(r, "RUN ")
    ensures g.packageManager.AptGet? ==>
      r == "RUN " + tools.read(g.urlReader, RepoUrl(repo, arch) + KeyringFile, KeyringFile)
           + "\nRUN " + tools.localInstall(PackageManager.AptGet, KeyringFile)
    ensures g.packageManager.Yum? ==> Text.Contains(r, RepoUrl(repo, arch) + "cuda-" + repo + ".repo")
  {
    match g.packageManager
    case AptGet =>
      var read := tools.read(g.urlReader, RepoUrl(repo, arch) + KeyringFile, KeyringFile);
      var r := "RUN " + read + "\nRUN " + tools.localInstall(PackageManager.AptGet, KeyringFile);
      assert r[..4] == "RUN ";
      r
    case Yum =>
      var file := RepoUrl(repo, arch) + "cuda-" + repo + ".repo";
      var head := "RUN yum-config-manager --add-repo ";
      var r := head + file + " \\\n && yum clean all";
      assert r[..4] == "RUN ";
      assert r[|head|..|head| + |file|] == file;
      assert Text.OccursAt(r, file, |head|);
      r
  }

  /** `generate_install_lines(targets)`: the package manager's cleaning
      install command after `RUN`, preceded for apt-get by an index update
      on a continuation line. */
  function InstallLines(g: Generator, tools: Tools, targets: seq<string>): (r: string)
    ensures Text.StartsWith(r, "RUN ")
    ensures Text.EndsWith(r, tools.install(g.packageManager, targets))
  {
    var cmd := tools.install(g.packageManager, targets);
    var r := match g.packageManager
      case Yum => "RUN " + cmd
      case AptGet => "RUN " + Name(PackageManager.AptGet) + " update \\\n && " + cmd;
    assert r[..4] == "RUN ";
    assert r[|r| - |cmd|..] == cmd;
    r
  }

  // ----------------------------------------------------------------- bodies

  const BelowElevenMessage: string := "CUDA version below 11 requested. Only CUDA versions >= 11 are supported."

  /** `M.m`, as the bodies name the version. */
  function VersionString(major: nat, minor: nat): string {
    Text.NatToString(major) + "." + Text.NatToString(minor)
  }

  function CudaVersionLine(major: nat, minor: nat): string {
    "ENV CUDA_VERSION " + "\"" + VersionString(major, minor) + "\""
  }

  /** The environment block of the runtime body. */
  function RuntimeEnv(major: nat, minor: nat, devices: string, capabilities: string): string {
    "ENV NVIDIA_VISIBLE_DEVICES " + devices + "\n"
    + "ENV NVIDIA_DRIVER_CAPABILITIES " + capabilities + "\n"
    + CudaVersionLine(major, minor) + "\n"
    + "ENV NVIDIA_REQUIRE_CUDA cuda>=" + "\"" + VersionString(major, minor) + "\""
  }

  const RuntimeHead: string := "USER root\n\n"
  const UserTail: string := "USER $DEFAULT_USER"

  /** `generate_runtime_dockerfile(major, minor, repo_ver, arch=...,
      nvidia_visible_devices=..., nvidia_driver_capabilities=...)`: only
      CUDA 11 and later; as root, the repository lines, the environment,
      the install lines for the runtime packages, then back to the default
      user. */
  function RuntimeDockerfile(g: Generator, tools: Tools, major: nat, minor: nat, repo: string, arch: string,
                             devices: string, capabilities: string): (r: Result<string>)
    ensures r.Ok? <==> major >= 11
    ensures r.Err? ==> r.error == ValueError(BelowElevenMessage)
    ensures r.Ok? ==> Text.StartsWith(r.value, RuntimeHead + InitialLines(g, tools, repo, arch) + "\n\n")
    ensures r.Ok? ==> Text.EndsWith(r.value, InstallLines(g, tools, RuntimeTargets(major, minor)) + "\n\n" + UserTail)
  {
    if major < 11 then Err(ValueError(BelowElevenMessage))
    else
      var head := RuntimeHead + InitialLines(g, tools, repo, arch) + "\n\n";
      var tail := InstallLines(g, tools, RuntimeTargets(major, minor)) + "\n\n" + UserTail;
      var body := head + (RuntimeEnv(major, minor, devices, capabilities) + "\n\n") + tail;
      Text.Framed(head, RuntimeEnv(major, minor, devices, capabilities) + "\n\n", tail);
      Ok(body)
  }

  /** Where the version line sits in the environment block. */
  lemma EnvVersionAt(major: nat, minor: nat, devices: string, capabilities: string) returns (j: int)
    ensures Text.OccursAt(RuntimeEnv(major, minor, devices, capabilities), CudaVersionLine(major, minor), j)
  {
    var pre := "ENV NVIDIA_VISIBLE_DEVICES " + devices + "\n" + "ENV NVIDIA_DRIVER_CAPABILITIES " + capabilities + "\n";
    var post := "\n" + "ENV NVIDIA_REQUIRE_CUDA cuda>=" + "\"" + VersionString(major, minor) + "\"";
    assert RuntimeEnv(major, minor, devices, capabilities) == pre + CudaVersionLine(major, minor) + post;
    Text.OccursBetween(pre, CudaVersionLine(major, minor), post);
    j := |pre|;
  }

  /** Where the environment block sits in the runtime body. */
  lemma RuntimeEnvAt(g: Generator, tools: Tools, major: nat, minor: nat, repo: string, arch: string,
                     devices: string, capabilities: string) returns (i: int)
    requires major >= 11
    ensures Text.OccursAt(RuntimeDockerfile(g, tools, major, minor, repo, arch, devices, capabilities).value,
                          RuntimeEnv(major, minor, devices, capabilities), i)
  {
    var head := RuntimeHead + InitialLines(g, tools, repo, arch) + "\n\n";
    var env := RuntimeEnv(major, minor, devices, capabilities);
    var tail := "\n\n" + (InstallLines(g, tools, RuntimeTargets(major, minor)) + "\n\n" + UserTail);
    assert RuntimeDockerfile(g, tools, major, minor, repo, arch, devices, capabilities).value == head + env + tail;
    Text.OccursBetween(head, env, tail);
    i := |head|;
  }

  /** The quoted version reads back as the version. */
  lemma VersionStringParses(major: nat, minor: nat)
    ensures Utils.ParseCudaInfo(VersionString(major, minor)) == Ok((major, minor))
  {
    Utils.ParseCudaInfoRoundTrip(major, minor, false);
    assert VersionString(major, minor) + "" == VersionString(major, minor);
  }

  /** The runtime body names the requested version in a line whose quoted
      value `parse_cuda_info` reads back as that version. */
  lemma RuntimeVersionReadsBack(g: Generator, tools: Tools, major: nat, minor: nat, repo: string, arch: string,
                                devices: string, capabilities: string)
    requires major >= 11
    ensures Text.Contains(RuntimeDockerfile(g, tools, major, minor, repo, arch, devices, capabilities).value,
                          CudaVersionLine(major, minor))
    ensures Utils.ParseCudaInfo(VersionString(major, minor)) == Ok((major, minor))
  {
    var i := RuntimeEnvAt(g, tools, major, minor, repo, arch, devices, capabilities);
    var j := EnvVersionAt(major, minor, devices, capabilities);
    Text.OccursWithin(RuntimeDockerfile(g, tools, major, minor, repo, arch, devices, capabilities).value,
                      RuntimeEnv(major, minor, devices, capabilities), i, CudaVersionLine(major, minor), j);
    VersionStringParses(major, minor);
  }

  /** The compiler the dev body points CMake at. */
  function CudaCxxLine(major: nat, minor: nat): string {
    "ENV CUDACXX=/usr/local/cuda-" + VersionString(major, minor) + "/bin/nvcc"
  }

  const CudaHostLine: string := "ENV CUDAHOSTCXX=x86_64-conda-linux-gnu-c++"

  /** The indentation of the dev template's lines, and one space less. */
  const Indent12: string := Textwrap.Spaces(12)
  const Indent11: string := Textwrap.Spaces(11)
  const Closing: string := Textwrap.Spaces(8)

  /** The dev template's body, the install lines in its third line. */
  function DevBody(installLines: string, major: nat, minor: nat): seq<string> {
    ["USER root", "", installLines, "", CudaHostLine, CudaCxxLine(major, minor), "", UserTail]
  }

  /** The dev template's lines before `dedent`: a leading newline, the
      body indented by twelve spaces, and a closing line of eight. */
  function DevTemplateLines(installLines: string, major: nat, minor: nat): seq<string> {
    [""] + Textwrap.Indented(Indent12, DevBody(installLines, major, minor)) + [Closing]
  }

  /** `generate_dev_dockerfile(major, minor)`: as root, install the dev
      packages, point the CUDA compilers at the requested version, and go
      back to the default user; the template is dedented and stripped. No
      version guard. */
  function DevDockerfile(g: Generator, tools: Tools, major: nat, minor: nat): string {
    var install := InstallLines(g, tools, DevTargets(g.packageManager, major, minor));
    Textwrap.DedentStrip(Text.Join("\n", DevTemplateLines(install, major, minor)))
  }

  /** The compiler line is one line, starting with `E` and ending with `c`. */
  lemma {:induction false} CudaCxxLineShape(major: nat, minor: nat)
    ensures '\n' !in CudaCxxLine(major, minor)
    ensures CudaCxxLine(major, minor)[0] == 'E'
    ensures CudaCxxLine(major, minor)[|CudaCxxLine(major, minor)| - 1] == 'c'
  {
    var a, b := Text.NatToString(major), Text.NatToString(minor);
    Text.NatToStringIsDigits(major);
    Text.NatToStringIsDigits(minor);
    assert forall i :: 0 <= i < |a| ==> Text.IsDigit(a[i]);
    assert forall i :: 0 <= i < |b| ==> Text.IsDigit(b[i]);
    assert CudaCxxLine(major, minor) == "ENV CUDACXX=/usr/local/cuda-" + a + "." + b + "/bin/nvcc";
  }

  /** A one-line line that starts flush is a body line. */
  lemma FlushLine(s: string)
    requires '\n' !in s && |s| > 0 && !Textwrap.IsIndentChar(s[0])
    ensures Textwrap.BodyLine(s) && s != ""
  {
    Textwrap.IndentOf("", s);
    assert "" + s == s;
  }

  /** The dev body with a one-line, flush install line is a template body
      indented by twelve spaces, its first line flush. */
  lemma {:induction false} DevBodyShape(install: string, major: nat, minor: nat)
    requires '\n' !in install && |install| > 0 && !Textwrap.IsIndentChar(install[0])
    ensures Textwrap.Template(Indent12, DevBody(install, major, minor), Closing, 0)
  {
    DevLines(install, major, minor);
    Textwrap.BodyLines8("USER root", "", install, "", CudaHostLine, CudaCxxLine(major, minor), "", UserTail);
    Textwrap.SpacesShape(12);
    Textwrap.SpacesShape(8);
  }

  lemma {:induction false} DevLines(install: string, major: nat, minor: nat)
    requires '\n' !in install && |install| > 0 && !Textwrap.IsIndentChar(install[0])
    ensures Textwrap.BodyLine("USER root") && !Textwrap.IsIndentChar("USER root"[0])
    ensures Textwrap.BodyLine("") && Textwrap.BodyLine(install) && Textwrap.BodyLine(CudaHostLine)
    ensures Textwrap.BodyLine(CudaCxxLine(major, minor)) && Textwrap.BodyLine(UserTail)
  {
    FixedLines();
    FlushLine(install);
    CudaCxxLineShape(major, minor);
    FlushLine(CudaCxxLine(major, minor));
  }

  /** The template's fixed lines are one-line lines starting flush. */
  lemma FixedLines()
    ensures '\n' !in "USER root" && "USER root"[0] == 'U'
    ensures '\n' !in CudaHostLine && CudaHostLine[0] == 'E'
    ensures '\n' !in UserTail && UserTail[0] == 'U'
    ensures '\n' !in "RUN apt-get update \\" && "RUN apt-get update \\"[0] == 'R'
    ensures Textwrap.BodyLine("USER root") && Textwrap.BodyLine(CudaHostLine) && Textwrap.BodyLine(UserTail)
  {
    assert '\n' !in CudaHostLine by {
      assert forall i :: 0 <= i < |CudaHostLine| ==> CudaHostLine[i] != '\n';
    }
    FlushLine("USER root");
    FlushLine(CudaHostLine);
    FlushLine(UserTail);
  }


  /** With yum the margin is the template's twelve spaces: the dev body is
      the template's lines unindented, the install line `RUN ` and the
      package manager's command. */
  lemma {:induction false} DevDockerfileYum(g: Generator, tools: Tools, major: nat, minor: nat)
    requires g.packageManager.Yum?
    requires '\n' !in tools.install(PackageManager.Yum, DevTargets(PackageManager.Yum, major, minor))
    ensures var cmd := tools.install(PackageManager.Yum, DevTargets(PackageManager.Yum, major, minor));
      DevDockerfile(g, tools, major, minor)
      == Text.Join("\n", ["USER root", "", "RUN " + cmd, "", CudaHostLine, CudaCxxLine(major, minor), "", UserTail])
  {
    var cmd := tools.install(PackageManager.Yum, DevTargets(PackageManager.Yum, major, minor));
    var raw := DevBody("RUN " + cmd, major, minor);
    YumTemplate(g, tools, major, minor);
    YumDedented(cmd, major, minor);
    assert ["USER root"] + raw[1..] == raw;
  }

  lemma {:induction false} YumTemplate(g: Generator, tools: Tools, major: nat, minor: nat)
    requires g.packageManager.Yum?
    ensures var cmd := tools.install(PackageManager.Yum, DevTargets(PackageManager.Yum, major, minor));
      DevDockerfile(g, tools, major, minor)
      == Textwrap.DedentStrip(Text.Join("\n", [""] + Textwrap.Indented(Indent12, DevBody("RUN " + cmd, major, minor)) + [Closing]))
  {
  }

  lemma {:induction false} YumDedented(cmd: string, major: nat, minor: nat)
    requires '\n' !in cmd
    ensures var raw := DevBody("RUN " + cmd, major, minor);
      Textwrap.DedentStrip(Text.Join("\n", [""] + Textwrap.Indented(Indent12, raw) + [Closing]))
      == Text.Join("\n", ["USER root"] + raw[1..])
  {
    var raw := DevBody("RUN " + cmd, major, minor);
    DevBodyShape("RUN " + cmd, major, minor);
    assert "USER root" == "" + "USER root";
    Textwrap.DedentStripIndented(Indent12, raw, Closing, 0, "", "USER root");
  }

  /** The apt-get template with its install lines split at the newline
      they hold: the continuation line is indented by one space less than
      twelve, so the body is indented by one space and the rest of each
      line's indentation stays in the body. */
  lemma {:induction false} AptTemplateLines(install: string, cmd: string, major: nat, minor: nat)
    requires install == "RUN apt-get update \\\n && " + cmd
    ensures Text.Join("\n", DevTemplateLines(install, major, minor))
            == Text.Join("\n", [""] + Textwrap.Indented(" ", AptBody(cmd, major, minor)) + [Closing])
  {
    var x, y := Indent12 + "RUN apt-get update \\", " && " + cmd;
    var raw := DevBody(install, major, minor);
    var p, q := Textwrap.Indented(Indent12, raw[..2]), Textwrap.Indented(Indent12, raw[3..]);
    var a, b := [""] + p, q + [Closing];
    AptTemplateAt(install, cmd, major, minor);
    Textwrap.JoinSplitPart("\n", a, x, y, b);
    assert a + [x, y] + b == [""] + (p + [x, y] + q) + [Closing];
    AptBodyIndented(cmd, major, minor, raw);
  }

  /** The apt-get template's lines around its install lines. */
  lemma {:induction false} AptTemplateAt(install: string, cmd: string, major: nat, minor: nat)
    requires install == "RUN apt-get update \\\n && " + cmd
    ensures var raw := DevBody(install, major, minor);
      DevTemplateLines(install, major, minor)
      == [""] + Textwrap.Indented(Indent12, raw[..2])
         + [Indent12 + "RUN apt-get update \\" + "\n" + (" && " + cmd)]
         + (Textwrap.Indented(Indent12, raw[3..]) + [Closing])
  {
    var raw := DevBody(install, major, minor);
    var p, q := Textwrap.Indented(Indent12, raw[..2]), Textwrap.Indented(Indent12, raw[3..]);
    var z := Indent12 + "RUN apt-get update \\" + "\n" + (" && " + cmd);
    assert raw[2] == install;
    Textwrap.IndentedAt(Indent12, raw, 2);
    InstallSplit(cmd);
    assert Indent12 + install == z;
    assert DevTemplateLines(install, major, minor) == [""] + (p + [z] + q) + [Closing];
    assert [""] + (p + [z] + q) + [Closing] == [""] + p + [z] + (q + [Closing]);
  }

  lemma InstallSplit(cmd: string)
    ensures Indent12 + ("RUN apt-get update \\\n && " + cmd) == Indent12 + "RUN apt-get update \\" + "\n" + (" && " + cmd)
  {
    assert "RUN apt-get update \\\n && " == "RUN apt-get update \\" + "\n" + " && ";
  }

  /** The apt-get dev body after `dedent` removed its one-space margin. */
  function AptBody(cmd: string, major: nat, minor: nat): seq<string> {
    [Indent11 + "USER root", "", Indent11 + "RUN apt-get update \\", "&& " + cmd, "",
     Indent11 + CudaHostLine, Indent11 + CudaCxxLine(major, minor), "", Indent11 + UserTail]
  }

  /** The apt-get template body, indented by twelve spaces around its split
      install lines, is the dedented body indented by one space. */
  lemma {:induction false} AptBodyIndented(cmd: string, major: nat, minor: nat, raw: seq<string>)
    requires raw == DevBody("RUN apt-get update \\\n && " + cmd, major, minor)
    ensures Textwrap.Indented(Indent12, raw[..2]) + [Indent12 + "RUN apt-get update \\", " && " + cmd]
            + Textwrap.Indented(Indent12, raw[3..])
            == Textwrap.Indented(" ", AptBody(cmd, major, minor))
  {
    var body := AptBody(cmd, major, minor);
    Textwrap.SpacesShape(11);
    assert Indent12 == " " + Indent11;
    assert Textwrap.Indented(Indent12, raw[..2]) == Textwrap.Indented(" ", body[..2]) by {
      assert raw[..2] == ["USER root", ""];
      assert body[..2] == [Indent11 + "USER root", ""];
      assert Indent12 + "USER root" == " " + (Indent11 + "USER root");
      Text.SameElements(Textwrap.Indented(Indent12, raw[..2]), Textwrap.Indented(" ", body[..2]));
    }
    assert [Indent12 + "RUN apt-get update \\", " && " + cmd] == Textwrap.Indented(" ", body[2..4]) by {
      assert body[2..4] == [Indent11 + "RUN apt-get update \\", "&& " + cmd];
      assert Indent12 + "RUN apt-get update \\" == " " + (Indent11 + "RUN apt-get update \\");
      assert " && " + cmd == " " + ("&& " + cmd);
      Text.SameElements([Indent12 + "RUN apt-get update \\", " && " + cmd], Textwrap.Indented(" ", body[2..4]));
    }
    assert Textwrap.Indented(Indent12, raw[3..]) == Textwrap.Indented(" ", body[4..]) by {
      AptTail(cmd, major, minor, raw, body);
    }
    Textwrap.IndentedConcat(" ", body[..2], body[2..4]);
    Textwrap.IndentedConcat(" ", body[..2] + body[2..4], body[4..]);
    assert body[..2] + body[2..4] + body[4..] == body;
  }

  lemma {:induction false} AptTail(cmd: string, major: nat, minor: nat, raw: seq<string>, body: seq<string>)
    requires raw == DevBody("RUN apt-get update \\\n && " + cmd, major, minor)
    requires body == AptBody(cmd, major, minor)
    requires Indent12 == " " + Indent11
    ensures Textwrap.Indented(Indent12, raw[3..]) == Textwrap.Indented(" ", body[4..])
  {
    var r, t := raw[3..], body[4..];
    assert r == ["", CudaHostLine, CudaCxxLine(major, minor), "", UserTail];
    assert t == ["", Indent11 + CudaHostLine, Indent11 + CudaCxxLine(major, minor), "", Indent11 + UserTail];
    CudaCxxLineShape(major, minor);
    forall i | 0 <= i < 5 ensures Textwrap.Indented(Indent12, r)[i] == Textwrap.Indented(" ", t)[i] {
      if r[i] != "" {
        assert Indent12 + r[i] == " " + (Indent11 + r[i]);
      }
    }
    Text.SameElements(Textwrap.Indented(Indent12, r), Textwrap.Indented(" ", t));
  }

  /** With apt-get the install lines continue on a line indented by one
      space, so the margin is that one space: every other line keeps eleven
      spaces of its indentation, except the first, which the strip clears,
      and the continuation line loses its space. */
  lemma {:induction false} DevDockerfileAptGet(g: Generator, tools: Tools, major: nat, minor: nat)
    requires g.packageManager.AptGet?
    requires '\n' !in tools.install(PackageManager.AptGet, DevTargets(PackageManager.AptGet, major, minor))
    ensures var cmd := tools.install(PackageManager.AptGet, DevTargets(PackageManager.AptGet, major, minor));
      DevDockerfile(g, tools, major, minor)
      == Text.Join("\n", ["USER root", "", Indent11 + "RUN apt-get update \\", "&& " + cmd, "",
                          Indent11 + CudaHostLine, Indent11 + CudaCxxLine(major, minor), "", Indent11 + UserTail])
  {
    var cmd := tools.install(PackageManager.AptGet, DevTargets(PackageManager.AptGet, major, minor));
    var install := "RUN apt-get update \\\n && " + cmd;
    AptTemplate(g, tools, major, minor);
    AptTemplateLines(install, cmd, major, minor);
    AptDedented(cmd, major, minor);
  }

  lemma {:induction false} AptTemplate(g: Generator, tools: Tools, major: nat, minor: nat)
    requires g.packageManager.AptGet?
    ensures var cmd := tools.install(PackageManager.AptGet, DevTargets(PackageManager.AptGet, major, minor));
      DevDockerfile(g, tools, major, minor)
      == Textwrap.DedentStrip(Text.Join("\n", DevTemplateLines("RUN apt-get update \\\n && " + cmd, major, minor)))
  {
    var cmd := tools.install(PackageManager.AptGet, DevTargets(PackageManager.AptGet, major, minor));
    assert "RUN " + Name(PackageManager.AptGet) + " update \\\n && " + cmd == "RUN apt-get update \\\n && " + cmd;
  }

  lemma {:induction false} AptDedented(cmd: string, major: nat, minor: nat)
    requires '\n' !in cmd
    ensures var raw := AptBody(cmd, major, minor);
      Textwrap.DedentStrip(Text.Join("\n", [""] + Textwrap.Indented(" ", raw) + [Closing]))
      == Text.Join("\n", ["USER root"] + raw[1..])
  {
    var raw := AptBody(cmd, major, minor);
    AptBodyShape(cmd, major, minor);
    Textwrap.DedentStripIndented(" ", raw, Closing, 3, Indent11, "USER root");
  }

  /** The dedented apt-get body is a template body indented by one space,
      its continuation line flush. */
  lemma {:induction false} AptBodyShape(cmd: string, major: nat, minor: nat)
    requires '\n' !in cmd
    ensures Textwrap.Template(" ", AptBody(cmd, major, minor), Closing, 3)
  {
    AptLines(cmd, major, minor);
    Textwrap.BodyLines9(Indent11 + "USER root", "", Indent11 + "RUN apt-get update \\", "&& " + cmd, "",
      Indent11 + CudaHostLine, Indent11 + CudaCxxLine(major, minor), "", Indent11 + UserTail);
    Textwrap.SpacesShape(8);
  }

  lemma {:induction false} AptLines(cmd: string, major: nat, minor: nat)
    requires '\n' !in cmd
    ensures Textwrap.BodyLine("") && Textwrap.BodyLine("&& " + cmd) && !Textwrap.IsIndentChar(("&& " + cmd)[0])
    ensures Textwrap.BodyLine(Indent11 + "USER root") && Textwrap.BodyLine(Indent11 + "RUN apt-get update \\")
    ensures Textwrap.BodyLine(Indent11 + CudaHostLine) && Textwrap.BodyLine(Indent11 + CudaCxxLine(major, minor))
    ensures Textwrap.BodyLine(Indent11 + UserTail)
  {
    FixedLines();
    Textwrap.PaddedLine(11, "USER root");
    Textwrap.PaddedLine(11, "RUN apt-get update \\");
    FlushLine("&& " + cmd);
    Textwrap.PaddedLine(11, CudaHostLine);
    CudaCxxLineShape(major, minor);
    Textwrap.PaddedLine(11, CudaCxxLine(major, minor));
    Textwrap.PaddedLine(11, UserTail);
  }


  /** The dev body's compiler path names a version `parse_cuda_info` reads
      back as the requested one, whichever the package manager. */
  lemma {:induction false} DevVersionReadsBack(g: Generator, tools: Tools, major: nat, minor: nat)
    requires '\n' !in tools.install(g.packageManager, DevTargets(g.packageManager, major, minor))
    ensures Text.Contains(DevDockerfile(g, tools, major, minor), CudaCxxLine(major, minor))
    ensures Utils.ParseCudaInfo(VersionString(major, minor)) == Ok((major, minor))
  {
    var line := CudaCxxLine(major, minor);
    VersionStringParses(major, minor);
    match g.packageManager
    case Yum =>
      DevDockerfileYum(g, tools, major, minor);
      var cmd := tools.install(PackageManager.Yum, DevTargets(PackageManager.Yum, major, minor));
      Textwrap.JoinHasPart("\n", ["USER root", "", "RUN " + cmd, "", CudaHostLine, line, "", UserTail], 5);
    case AptGet =>
      DevDockerfileAptGet(g, tools, major, minor);
      var cmd := tools.install(PackageManager.AptGet, DevTargets(PackageManager.AptGet, major, minor));
      var parts := ["USER root", "", Indent11 + "RUN apt-get update \\", "&& " + cmd, "",
                    Indent11 + CudaHostLine, Indent11 + line, "", Indent11 + UserTail];
      Textwrap.JoinHasPart("\n", parts, 6);
      var body := Text.Join("\n", parts);
      var i :| 0 <= i <= |body| && Text.OccursAt(body, Indent11 + line, i);
      Text.OccursBetween(Indent11, line, "");
      assert Indent11 + line + "" == Indent11 + line;
      Text.OccursWithin(body, Indent11 + line, i, line, |Indent11|);
  }

  // ---------------------------------------------------------------- dispatch

  /** What `pkg_mgr` may be: a package manager object (known by its
      name), a name, or something else. */
  datatype PackageManagerArg = PackageManagerObject(name: string) | PackageManagerName(n: string) | OtherPackageManager

  /** What `url_reader` may be: a reader, a reader's name, or something
      else. */
  datatype UrlReaderArg = ReaderObject(reader: UrlReader) | ReaderName(readerName: string) | OtherReader

  const NotAPackageManagerMessage: string := "pkg_mgr argument value must be a PackageManager or str."
  const NotAUrlReaderMessage: string := "url_reader argument value must be a URLReader or str."

  function ArgName(arg: PackageManagerArg): string
    requires !arg.OtherPackageManager?
  {
    if arg.PackageManagerObject? then arg.name else arg.n
  }

  /** `get_cuda_dockerfile_generator(pkg_mgr, url_reader)`: check the
      package manager's type, resolve the reader (by name through
      `get_url_reader`), then pick the generator class by name. */
  function GetGenerator(pmArg: PackageManagerArg, readerArg: UrlReaderArg, tools: Tools): (r: Result<Generator>)
    ensures pmArg.OtherPackageManager? ==> r == Err(ValueError(NotAPackageManagerMessage))
    ensures !pmArg.OtherPackageManager? && readerArg.OtherReader? ==> r == Err(ValueError(NotAUrlReaderMessage))
    ensures !pmArg.OtherPackageManager? && readerArg.ReaderName? && tools.readerNamed(readerArg.readerName).Err?
            ==> r == Err(tools.readerNamed(readerArg.readerName).error)
    ensures r.Ok? ==> Name(r.value.packageManager) == ArgName(pmArg)
    ensures r.Ok? && readerArg.ReaderObject? ==> r.value.urlReader == readerArg.reader
    ensures r.Ok? && readerArg.ReaderName? ==> Ok(r.value.urlReader) == tools.readerNamed(readerArg.readerName)
    ensures !pmArg.OtherPackageManager? && !readerArg.OtherReader?
            && (readerArg.ReaderObject? || tools.readerNamed(readerArg.readerName).Ok?)
            ==> (r.Ok? <==> ArgName(pmArg) in ["apt-get", "yum"])
    ensures r.Err? && !pmArg.OtherPackageManager? && ArgName(pmArg) !in ["apt-get", "yum"] && !readerArg.OtherReader?
            && (readerArg.ReaderObject? || tools.readerNamed(readerArg.readerName).Ok?)
            ==> r.error == ValueError("Unrecognized package manager: " + ArgName(pmArg))
  {
    var name :- match pmArg
      case PackageManagerObject(n) => Ok(n)
      case PackageManagerName(n) => Ok(n)
      case OtherPackageManager => Err(ValueError(NotAPackageManagerMessage));
    var reader :- match readerArg
      case ReaderName(n) => tools.readerNamed(n)
      case ReaderObject(rd) => Ok(rd)
      case OtherReader => Err(ValueError(NotAUrlReaderMessage));
    if name == "apt-get" then Ok(Generator(PackageManager.AptGet, reader))
    else if name == "yum" then Ok(Generator(PackageManager.Yum, reader))
    else Err(ValueError("Unrecognized package manager: " + name))
  }

  /** Naming a package manager or handing over one with that name picks
      the same generator, and naming a reader is the same as handing over
      the reader the name resolves to. */
  lemma GetGeneratorAgrees(pm: PackageManager, readerName: string, tools: Tools)
    requires tools.readerNamed(readerName).Ok?
    ensures var rd := tools.readerNamed(readerName).value;
      GetGenerator(PackageManagerName(Name(pm)), ReaderName(readerName), tools) == Ok(Generator(pm, rd))
      && GetGenerator(PackageManagerObject(Name(pm)), ReaderObject(rd), tools) == Ok(Generator(pm, rd))
  {
  }
}

=== FILE: wigwam_image.dfy ===
/** The `Image` wrapper of the newer generation. Building, ID lookup and
    inspection are the same as the older one's; `run` can also switch to the
    host user and attach bind mounts, and `drop_in` uses the host user by
    default. */
module WigwamImage {
  import opened Errors
  import opened Engine
  import Text
  import Shlex
  import Mounts
  import DockerImage

  type Image = DockerImage.Image

  /** The numeric user and group of the calling process, which `run` passes
      as `-u UID:GID`. */
  datatype HostUser = HostUser(uid: nat, gid: nat)

  /** The message of the DockerBuildError a failed build raises. */
  function BuildFailureMessage(tag: string, dockerfile: Option<string>, fromString: bool): string {
    if fromString then "String Dockerfile " + tag + " failed to build."
    else "Dockerfile " + tag + " at " + (match dockerfile case Some(p) => p case None => "None") + " failed to build."
  }

  /** `Image.build`: the same argument vector as the older generation, and
      its own failure message. */
  function Build(engine: Engine, tag: string, dockerfile: Option<string>, dockerfileString: Option<string>,
                 context: Option<string>, network: string, noCache: bool): (r: Result<Image>)
    ensures dockerfile.Some? && dockerfileString.Some? ==> r.Err? && r.error.ValueError?
    ensures !(dockerfile.Some? && dockerfileString.Some?) ==>
      var c := engine(DockerImage.BuildCall(tag, dockerfile, dockerfileString, context, network, noCache).value);
      (c.exitCode != 0 ==> r == Err(DockerBuildError(BuildFailureMessage(tag, dockerfile, dockerfileString.Some?))))
      && (c.exitCode == 0 ==> (r.Ok? <==> DockerImage.GetImageId(engine, tag).Ok?))
      && (c.exitCode == 0 && r.Ok? ==> r.value.id == DockerImage.GetImageId(engine, tag).value)
  {
    var call :- DockerImage.BuildCall(tag, dockerfile, dockerfileString, context, network, noCache);
    if engine(call).exitCode != 0 then
      Err(DockerBuildError(BuildFailureMessage(tag, dockerfile, dockerfileString.Some?)))
    else
      var id :- DockerImage.GetImageId(engine, tag);
      Ok(DockerImage.Image(id))
  }

  /** The two generations differ on a failed build only in the message text. */
  lemma BuildAgreesOnSuccess(engine: Engine, tag: string, dockerfile: Option<string>, dockerfileString: Option<string>,
                             context: Option<string>, network: string, noCache: bool)
    ensures Build(engine, tag, dockerfile, dockerfileString, context, network, noCache).Ok?
            <==> DockerImage.Build(engine, tag, dockerfile, dockerfileString, context, network, noCache).Ok?
    ensures Build(engine, tag, dockerfile, dockerfileString, context, network, noCache).Ok? ==>
            Build(engine, tag, dockerfile, dockerfileString, context, network, noCache)
            == DockerImage.Build(engine, tag, dockerfile, dockerfileString, context, network, noCache)
  {
  }

  /** The `-v SPEC` pairs for the given mounts, in order. */
  function MountArgs(mounts: seq<Mounts.BindMount>): (r: seq<string>)
    ensures |r| == 2 * |mounts|
    ensures forall i :: 0 <= i < |mounts| ==> r[2 * i] == "-v" && r[2 * i + 1] == Mounts.BindMountString(mounts[i])
  {
    if |mounts| == 0 then []
    else ["-v", Mounts.BindMountString(mounts[0])] + MountArgs(mounts[1..])
  }

  /** The mount strings of the given mounts, in order. */
  function Specs(mounts: seq<Mounts.BindMount>): (r: seq<string>)
    ensures |r| == |mounts|
    ensures forall i :: 0 <= i < |mounts| ==> r[i] == Mounts.BindMountString(mounts[i])
  {
    if |mounts| == 0 then [] else [Mounts.BindMountString(mounts[0])] + Specs(mounts[1..])
  }

  /** The fixed part of a `docker run` argument vector, up to the shell flag. */
  function RunPrefix(img: Image, interactive: bool, network: string, tty: bool,
                     user: Option<HostUser>, mounts: seq<Mounts.BindMount>): seq<string> {
    RunHead(network) + UserArgs(user) + MountArgs(mounts) + Flags(interactive, tty) + Shell(img, interactive)
  }

  function RunHead(network: string): seq<string> {
    ["docker", "run", "--network=" + network, "--rm"]
  }

  /** The user the container runs as, rendered `UID:GID`. */
  function UserSpec(u: HostUser): string {
    Text.NatToString(u.uid) + ":" + Text.NatToString(u.gid)
  }

  function UserArgs(user: Option<HostUser>): seq<string> {
    match user case Some(u) => ["-u", UserSpec(u)] case None => []
  }

  function Flags(interactive: bool, tty: bool): seq<string> {
    if interactive then ["-i"] + (if tty then ["--tty"] else []) else []
  }

  function Shell(img: Image, interactive: bool): seq<string> {
    [img.id, "bash", if interactive then "-ci" else "-c"]
  }

  /** Without a host user or mounts the argument vector is the older
      generation's. */
  lemma RunPrefixPlain(img: Image, interactive: bool, network: string, tty: bool)
    ensures RunPrefix(img, interactive, network, tty, None, []) == DockerImage.RunPrefix(img, interactive, network, tty)
  {
  }

  /** What the engine reads from a `docker run` argument vector. */
  datatype RunOptions = RunOptions(
    network: string, user: Option<string>, volumes: seq<string>, interactive: bool, tty: bool,
    image: string, shellFlag: string, command: seq<string>)

  /** Reads the volume specs of consecutive `-v SPEC` pairs. */
  function ParseVolumes(argv: seq<string>): (seq<string>, seq<string>)
    decreases |argv|
  {
    if |argv| >= 2 && argv[0] == "-v" then
      var (vs, rest) := ParseVolumes(argv[2..]);
      ([argv[1]] + vs, rest)
    else ([], argv)
  }

  /** Reads an optional `-u USER` pair. */
  function ParseUser(a: seq<string>): (Option<string>, seq<string>) {
    if |a| >= 2 && a[0] == "-u" then (Some(a[1]), a[2..]) else (None, a)
  }

  /** Reads the optional `-i` and `--tty` flags. */
  function ParseFlags(c: seq<string>): (bool, bool, seq<string>) {
    var interactive := |c| > 0 && c[0] == "-i";
    var d := if interactive then c[1..] else c;
    var tty := |d| > 0 && d[0] == "--tty";
    (interactive, tty, if tty then d[1..] else d)
  }

  /** How the CLI reads a run argument vector of the shape above. */
  function ParseRunArgs(argv: seq<string>): Option<RunOptions> {
    if |argv| < 4 || argv[0] != "docker" || argv[1] != "run"
       || !Text.StartsWith(argv[2], "--network=") || argv[3] != "--rm"
    then None
    else ParseRunOptions(argv[2][10..], argv[4..])
  }

  /** Reads what follows `--rm`. */
  function ParseRunOptions(network: string, a: seq<string>): Option<RunOptions> {
    var (user, b) := ParseUser(a);
    var (vols, c) := ParseVolumes(b);
    var (interactive, tty, e) := ParseFlags(c);
    if |e| < 3 || e[1] != "bash" then None
    else Some(RunOptions(network, user, vols, interactive, tty, e[0], e[2], e[3..]))
  }

  lemma ParseRunHeader(network: string, a: seq<string>)
    ensures ParseRunArgs(["docker", "run", "--network=" + network, "--rm"] + a) == ParseRunOptions(network, a)
  {
    var argv := ["docker", "run", "--network=" + network, "--rm"] + a;
    assert argv[4..] == a;
    assert argv[2] == "--network=" + network;
    assert argv[2][10..] == network;
  }

  lemma {:induction false} ParseMountArgs(mounts: seq<Mounts.BindMount>, rest: seq<string>)
    requires |rest| == 0 || rest[0] != "-v"
    ensures ParseVolumes(MountArgs(mounts) + rest) == (Specs(mounts), rest)
    decreases |mounts|
  {
    if |mounts| == 0 {
      assert MountArgs(mounts) + rest == rest;
    } else {
      var tail := MountArgs(mounts[1..]) + rest;
      assert MountArgs(mounts) + rest == ["-v", Mounts.BindMountString(mounts[0])] + tail;
      assert (["-v", Mounts.BindMountString(mounts[0])] + tail)[2..] == tail;
      ParseMountArgs(mounts[1..], rest);
    }
  }

  function Core(img: Image, interactive: bool, words: seq<string>): seq<string> {
    Shell(img, interactive) + words
  }

  lemma FlagsParse(img: Image, interactive: bool, tty: bool, words: seq<string>)
    requires |img.id| > 0 && img.id[0] != '-'
    ensures ParseFlags(Flags(interactive, tty) + Core(img, interactive, words))
            == (interactive, interactive && tty, Core(img, interactive, words))
  {
    var core := Core(img, interactive, words);
    assert img.id != "-i" && img.id != "--tty" by { assert img.id[0] != '-'; }
    assert core[0] == img.id;
    if interactive {
      var c := Flags(interactive, tty) + core;
      assert c[0] == "-i";
      if tty {
        assert c[1..] == ["--tty"] + core;
      } else {
        assert c[1..] == core;
      }
    } else {
      assert Flags(interactive, tty) + core == core;
    }
  }

  lemma RunPrefixSplit(img: Image, interactive: bool, network: string, tty: bool,
                       user: Option<HostUser>, mounts: seq<Mounts.BindMount>, words: seq<string>)
    ensures RunPrefix(img, interactive, network, tty, user, mounts) + words
            == RunHead(network) + (UserArgs(user) + (MountArgs(mounts) + (Flags(interactive, tty) + Core(img, interactive, words))))
  {
    var u := UserArgs(user);
    var m := MountArgs(mounts);
    var f := Flags(interactive, tty);
    var sh := Shell(img, interactive);
    var h := RunHead(network);
    assert h + u + m + f + sh + words == h + u + m + f + (sh + words);
    assert h + u + m + f + (sh + words) == h + u + m + (f + (sh + words));
    assert h + u + m + (f + (sh + words)) == h + u + (m + (f + (sh + words)));
    assert h + u + (m + (f + (sh + words))) == h + (u + (m + (f + (sh + words))));
  }

  lemma ParseAfterHeader(img: Image, interactive: bool, network: string, tty: bool,
                         user: Option<HostUser>, mounts: seq<Mounts.BindMount>, words: seq<string>)
    requires |img.id| > 0 && img.id[0] != '-'
    ensures ParseRunOptions(network, UserArgs(user) + (MountArgs(mounts) + (Flags(interactive, tty) + Core(img, interactive, words))))
            == Some(RunOptions(network, match user case Some(u) => Some(UserSpec(u)) case None => None,
                               Specs(mounts), interactive, interactive && tty, img.id,
                               if interactive then "-ci" else "-c", words))
  {
    var core := Core(img, interactive, words);
    var tailI := Flags(interactive, tty) + core;
    FlagsParse(img, interactive, tty, words);
    assert img.id != "-v" && img.id != "-i" && img.id != "-u" by {
      assert img.id[0] != '-';
    }
    assert |tailI| > 0 && tailI[0] != "-v" && tailI[0] != "-u";
    ParseMountArgs(mounts, tailI);
    var u := UserArgs(user);
    var b := MountArgs(mounts) + tailI;
    if user.Some? {
      assert (u + b)[0] == "-u" && (u + b)[2..] == b;
    } else {
      assert u + b == b;
      if |mounts| > 0 {
        assert b[0] == "-v";
      } else {
        assert b == tailI;
      }
    }
    assert ParseUser(u + b).1 == b;
    assert core[1] == "bash" && core[3..] == words;
  }

  /** Round trip: the engine sees the requested network, user, every mount in
      order, the interactive and terminal flags, the image, `-ci` exactly for
      interactive runs, and the command words. Image IDs never begin with `-`. */
  lemma RunArgsParse(img: Image, interactive: bool, network: string, tty: bool,
                     user: Option<HostUser>, mounts: seq<Mounts.BindMount>, words: seq<string>)
    requires |img.id| > 0 && img.id[0] != '-'
    ensures ParseRunArgs(RunPrefix(img, interactive, network, tty, user, mounts) + words)
            == Some(RunOptions(
                 network,
                 match user case Some(u) => Some(UserSpec(u)) case None => None,
                 Specs(mounts),
                 interactive, interactive && tty, img.id,
                 if interactive then "-ci" else "-c", words))
  {
    RunPrefixSplit(img, interactive, network, tty, user, mounts, words);
    ParseRunHeader(network, UserArgs(user) + (MountArgs(mounts) + (Flags(interactive, tty) + Core(img, interactive, words))));
    ParseAfterHeader(img, interactive, network, tty, user, mounts, words);
  }

  /** `Image.run` of the newer generation. */
  function RunArgs(img: Image, command: string, interactive: bool, network: string, tty: bool,
                   user: Option<HostUser>, mounts: seq<Mounts.BindMount>): (r: Result<seq<string>>)
    ensures '\'' !in command ==> r == Ok(RunPrefix(img, interactive, network, tty, user, mounts) + [command])
  {
    Shlex.SplitSingleQuoted(command);
    var words :- Shlex.Split("'" + command + "'");
    Ok(RunPrefix(img, interactive, network, tty, user, mounts) + words)
  }

  function Run(engine: Engine, img: Image, command: string, interactive: bool, network: string,
               check: bool, tty: bool, user: Option<HostUser>, mounts: seq<Mounts.BindMount>): (r: Result<string>)
    ensures '\'' !in command ==>
      var c := engine(Call(RunPrefix(img, interactive, network, tty, user, mounts) + [command], None));
      (r.Ok? <==> c.exitCode == 0 || !check)
      && (r.Ok? ==> r.value == c.stdout)
      && (r.Err? && c.exitCode != 127 ==> r.error == CalledProcess(c.exitCode))
      && (r.Err? && c.exitCode == 127 ==> !r.error.CalledProcess?)
      && (r.Err? && c.exitCode == 127 && Shlex.FirstWord(command).Ok? ==>
            r.error == CommandNotFound(Shlex.FirstWord(command).value))
  {
    var argv :- RunArgs(img, command, interactive, network, tty, user, mounts);
    RunOutcome(command, check, engine(Call(argv, None)))
  }

  /** `Image.drop_in`: an interactive bash, exit status ignored, as the host
      user when asked (the default). */
  function DropIn(engine: Engine, img: Image, network: string, tty: bool, user: Option<HostUser>): (r: Result<string>)
    ensures r == Ok(engine(Call(RunPrefix(img, true, network, tty, user, []) + ["bash"], None)).stdout)
  {
    Run(engine, img, "bash", true, network, false, tty, user, [])
  }

  /** `Image.has_command`: the same probe as the older generation. */
  function HasCommand(engine: Engine, img: Image, name: string): (r: Result<bool>)
    ensures '\'' !in name ==>
      var c := engine(Call(RunPrefix(img, false, "host", false, None, []) + [ProbeCommand(name)], None));
      (r == Ok(true) <==> c.exitCode == 0)
      && (r == Ok(false) <==> c.exitCode == 1)
      && (c.exitCode !in {0, 1, 127} ==> r == Err(CalledProcess(c.exitCode)))
  {
    assert '\'' !in name ==> '\'' !in ProbeCommand(name);
    PresenceVerdict(Run(engine, img, ProbeCommand(name), false, "host", true, false, None, []))
  }

  /** Both generations answer a probe identically. */
  lemma HasCommandAgrees(engine: Engine, img: Image, name: string)
    ensures HasCommand(engine, img, name) == DockerImage.HasCommand(engine, img, name)
  {
    RunPrefixPlain(img, false, "host", false);
  }
}

=== FILE: workflows.dfy ===
/** The workflow tests of the newer generation: which handler a workflow
    name selects, the command line each handler runs, the bind mounts a test
    gets, the test lookup in the workflow-test file and how a failed run is
    reported. Directory creation, temporary scratch directories and the
    existence checks on the host are left out; their results are
    parameters. */
module Workflows {
  import opened Errors
  import opened Engine
  import Text
  import Chains
  import Mounts
  import Defaults
  import DockerImage
  import WigwamImage

  /** The handler classes, each with the module it runs. */
  datatype Workflow =
    | GenericSas(moduleName: string)
    | InSar(moduleName: string)
    | TextRunconfig(moduleName: string)
    | SoilMoisture(moduleName: string)

  const GenericNames: seq<string> := ["gslc", "gcov", "insar"]
  const TextRunconfigNames: seq<string> := ["el_edge", "el_null"]

  function NotRecognizedMessage(name: string): string {
    "Workflow " + name + " not recognized"
  }

  /** `get_workflow_object(workflow_name)`. The InSAR branch comes after the
      generic one that already takes "insar", so it is never taken. */
  function GetWorkflowObject(name: string): (r: Result<Workflow>)
    ensures r.Ok? <==> name in GenericNames || name == "rslc" || name in TextRunconfigNames
    ensures r.Err? ==> r.error == ValueError(NotRecognizedMessage(name))
    ensures name in GenericNames ==> r == Ok(GenericSas(name))
    ensures name == "rslc" ==> r == Ok(GenericSas("focus"))
    ensures name in TextRunconfigNames ==> r == Ok(TextRunconfig(name))
  {
    if name in GenericNames then Ok(GenericSas(name))
    else if name == "rslc" then Ok(GenericSas("focus"))
    else if name == "insar" then Ok(InSar(name))
    else if name in TextRunconfigNames then Ok(TextRunconfig(name))
    else Err(ValueError(NotRecognizedMessage(name)))
  }

  /** No name selects the InSAR or SoilMoisture handler. */
  lemma OnlyTwoHandlers(name: string)
    ensures GetWorkflowObject(name).Ok? ==>
      GetWorkflowObject(name).value.GenericSas? || GetWorkflowObject(name).value.TextRunconfig?
  {
  }

  const PythonModulePrefix: string := "python -m nisar.workflows."
  /** The fixed words before the runconfig of the SoilMoisture command. */
  const SoilMoistureWords: seq<string> := ["micromamba", "run", "-n", "SoilMoisture", "NISAR_SM_SAS"]

  function GenericCommand(m: string, runconfig: string): string {
    PythonModulePrefix + m + " " + runconfig
  }

  /** `get_command(runconfig)` of each handler; the InSAR one extends its
      parent's. */
  function GetCommand(w: Workflow, runconfig: string): (r: string)
    ensures !w.InSar? ==> Text.EndsWith(r, runconfig)
    ensures w.InSar? ==> Text.EndsWith(r, " -- restart")
    ensures !w.SoilMoisture? ==> Text.StartsWith(r, PythonModulePrefix + w.moduleName)
  {
    match w
    case GenericSas(m) =>
      Text.Framed(PythonModulePrefix + m, " ", runconfig);
      GenericCommand(m, runconfig)
    case InSar(m) =>
      Text.Framed(PythonModulePrefix + m, " " + runconfig, " -- restart");
      assert PythonModulePrefix + m + (" " + runconfig) + " -- restart" == GenericCommand(m, runconfig) + " -- restart";
      GenericCommand(m, runconfig) + " -- restart"
    case TextRunconfig(m) =>
      Text.Framed(PythonModulePrefix + m, " @", runconfig);
      PythonModulePrefix + m + " @" + runconfig
    case SoilMoisture(_) =>
      Text.Framed(Text.Join(" ", SoilMoistureWords), " ", runconfig);
      Text.Join(" ", SoilMoistureWords) + " " + runconfig
  }

  /** The words each handler's command line consists of. */
  function CommandWords(w: Workflow, runconfig: string): seq<string> {
    match w
    case GenericSas(m) => ["python", "-m", "nisar.workflows." + m, runconfig]
    case InSar(m) => ["python", "-m", "nisar.workflows." + m, runconfig, "--", "restart"]
    case TextRunconfig(m) => ["python", "-m", "nisar.workflows." + m, "@" + runconfig]
    case SoilMoisture(_) => SoilMoistureWords + [runconfig]
  }

  lemma JoinTwo(a: string, b: string)
    ensures Text.Join(" ", [a, b]) == a + " " + b
  {
    assert [a, b][1..] == [b];
  }

  lemma JoinFour(a: string, b: string, c: string, d: string)
    ensures Text.Join(" ", [a, b, c, d]) == a + " " + b + " " + c + " " + d
  {
    JoinTwo(c, d);
    assert [b, c, d][1..] == [c, d];
    assert Text.Join(" ", [b, c, d]) == b + " " + (c + " " + d);
    assert [a, b, c, d][1..] == [b, c, d];
    assert Text.Join(" ", [a, b, c, d]) == a + " " + (b + " " + (c + " " + d));
  }

  lemma GenericIsWords(m: string, runconfig: string)
    ensures GenericCommand(m, runconfig) == Text.Join(" ", ["python", "-m", "nisar.workflows." + m, runconfig])
  {
    JoinFour("python", "-m", "nisar.workflows." + m, runconfig);
    assert PythonModulePrefix == "python" + " " + "-m" + " " + "nisar.workflows.";
  }

  lemma InSarIsWords(m: string, runconfig: string)
    ensures GetCommand(InSar(m), runconfig) == Text.Join(" ", CommandWords(InSar(m), runconfig))
  {
    var head := ["python", "-m", "nisar.workflows." + m, runconfig];
    GenericIsWords(m, runconfig);
    JoinTwo("--", "restart");
    Text.JoinConcat(" ", head, ["--", "restart"]);
    assert head + ["--", "restart"] == CommandWords(InSar(m), runconfig);
  }

  lemma TextRunconfigIsWords(m: string, runconfig: string)
    ensures GetCommand(TextRunconfig(m), runconfig) == Text.Join(" ", CommandWords(TextRunconfig(m), runconfig))
  {
    JoinFour("python", "-m", "nisar.workflows." + m, "@" + runconfig);
    assert PythonModulePrefix == "python" + " " + "-m" + " " + "nisar.workflows.";
  }

  lemma SoilMoistureIsWords(m: string, runconfig: string)
    ensures GetCommand(SoilMoisture(m), runconfig) == Text.Join(" ", CommandWords(SoilMoisture(m), runconfig))
  {
    Text.JoinAppend(" ", SoilMoistureWords, runconfig);
  }

  /** Each command is its words joined by single spaces. */
  lemma CommandIsWords(w: Workflow, runconfig: string)
    ensures GetCommand(w, runconfig) == Text.Join(" ", CommandWords(w, runconfig))
  {
    match w
    case GenericSas(m) => GenericIsWords(m, runconfig);
    case InSar(m) => InSarIsWords(m, runconfig);
    case TextRunconfig(m) => TextRunconfigIsWords(m, runconfig);
    case SoilMoisture(m) => SoilMoistureIsWords(m, runconfig);
  }

  /** When neither the module nor the runconfig holds a space, a shell reads
      the command back as exactly those words. */
  lemma CommandReadsBack(w: Workflow, runconfig: string)
    requires ' ' !in w.moduleName && ' ' !in runconfig
    ensures Text.Split(GetCommand(w, runconfig), ' ') == CommandWords(w, runconfig)
  {
    CommandIsWords(w, runconfig);
    var ws := CommandWords(w, runconfig);
    forall i | 0 <= i < |ws|
      ensures ' ' !in ws[i]
    {
      if i == 2 && !w.SoilMoisture? {
        assert ws[i] == "nisar.workflows." + w.moduleName;
      } else if i == 3 && w.TextRunconfig? {
        assert ws[i] == "@" + runconfig;
      }
    }
    Text.SplitJoin(ws, ' ');
    assert [' '] == " ";
  }

  /** The InSAR command is the generic one with a restart flag. */
  lemma InSarRestarts(m: string, runconfig: string)
    ensures Text.EndsWith(GetCommand(InSar(m), runconfig), " -- restart")
    ensures Text.StartsWith(GetCommand(InSar(m), runconfig), GetCommand(GenericSas(m), runconfig))
  {
    var g := GetCommand(GenericSas(m), runconfig);
    var c := g + " -- restart";
    assert c[..|g|] == g;
    assert c[|c| - |" -- restart"|..] == " -- restart";
  }

  // --------------------------------------------------------------- mounts

  const OutputDir: string := "/output"
  const InputDir: string := "/input/"
  const ScratchDir: string := "/scratch"

  /** `workflow_mounts`: the output directory read-write, each input
      repository read-only under the input directory in mapping order, the
      scratch directory read-write. Host paths are given already absolute. */
  function WorkflowMounts(inputs: Chains.Dict<string>, output: string, scratch: string): (r: seq<Mounts.BindMount>)
    ensures |r| == |inputs| + 2
    ensures r[0] == Mounts.BindMount(output, Defaults.InstallPrefix + OutputDir, "rw")
    ensures r[|r| - 1] == Mounts.BindMount(scratch, Defaults.InstallPrefix + ScratchDir, "rw")
    ensures forall i :: 0 <= i < |inputs| ==>
      r[i + 1] == Mounts.BindMount(inputs[i].1, Defaults.InstallPrefix + InputDir + inputs[i].0, "ro")
  {
    var ins := seq(|inputs|, i requires 0 <= i < |inputs| =>
      Mounts.BindMount(inputs[i].1, Defaults.InstallPrefix + InputDir + inputs[i].0, "ro"));
    [Mounts.BindMount(output, Defaults.InstallPrefix + OutputDir, "rw")] + ins
      + [Mounts.BindMount(scratch, Defaults.InstallPrefix + ScratchDir, "rw")]
  }

  /** Every mount passes the bind-mount check. */
  lemma WorkflowMountsValid(inputs: Chains.Dict<string>, output: string, scratch: string)
    ensures forall m :: m in WorkflowMounts(inputs, output, scratch) ==>
      Mounts.NewBindMount(m.src, m.dst, m.permissions) == Ok(m)
  {
    var r := WorkflowMounts(inputs, output, scratch);
    forall m | m in r
      ensures Mounts.ValidPermissions(m.permissions)
    {
      var i :| 0 <= i < |r| && r[i] == m;
      if 0 < i < |r| - 1 {
        assert r[i] == r[(i - 1) + 1];
      }
    }
  }

  function Destinations(ms: seq<Mounts.BindMount>): (r: seq<string>)
    ensures |r| == |ms| && forall i :: 0 <= i < |ms| ==> r[i] == ms[i].dst
  {
    seq(|ms|, i requires 0 <= i < |ms| => ms[i].dst)
  }

  lemma InputDestinationsDiffer(a: string, b: string)
    requires a != b
    ensures Defaults.InstallPrefix + InputDir + a != Defaults.InstallPrefix + InputDir + b
  {
    var p := Defaults.InstallPrefix + InputDir;
    assert (p + a)[|p|..] == a && (p + b)[|p|..] == b;
  }

  lemma InputAvoidsFixed(a: string)
    ensures Defaults.InstallPrefix + InputDir + a != Defaults.InstallPrefix + OutputDir
    ensures Defaults.InstallPrefix + InputDir + a != Defaults.InstallPrefix + ScratchDir
  {
    assert (Defaults.InstallPrefix + InputDir + a)[5] == 'i';
    assert (Defaults.InstallPrefix + OutputDir)[5] == 'o';
    assert (Defaults.InstallPrefix + ScratchDir)[5] == 's';
  }

  /** With distinct repository names, no two mounts share a destination in
      the container. */
  lemma WorkflowMountsDistinct(inputs: Chains.Dict<string>, output: string, scratch: string)
    requires Chains.Distinct(Chains.Keys(inputs))
    ensures Chains.Distinct(Destinations(WorkflowMounts(inputs, output, scratch)))
  {
    var r := WorkflowMounts(inputs, output, scratch);
    var d := Destinations(r);
    var n := |r|;
    assert (Defaults.InstallPrefix + OutputDir)[5] != (Defaults.InstallPrefix + ScratchDir)[5];
    forall i, j | 0 <= i < j < n
      ensures d[i] != d[j]
    {
      if 0 < i && j < n - 1 {
        assert Chains.Keys(inputs)[i - 1] != Chains.Keys(inputs)[j - 1];
        InputDestinationsDiffer(inputs[i - 1].0, inputs[j - 1].0);
        assert r[(i - 1) + 1] == r[i] && r[(j - 1) + 1] == r[j];
      } else if 0 < i {
        InputAvoidsFixed(inputs[i - 1].0);
        assert r[(i - 1) + 1] == r[i];
      } else if j < n - 1 {
        InputAvoidsFixed(inputs[j - 1].0);
        assert r[(j - 1) + 1] == r[j];
      }
    }
  }

  // ------------------------------------------------------------ test info

  /** The "type" field as read from JSON: a string, or a value of some
      other Python type, given by the type's name. */
  datatype TypeField = TypeString(s: string) | OtherType(pyTypeName: string)

  /** One workflow of the workflow-test file; the keys may be missing. */
  datatype WorkflowEntry<T> = WorkflowEntry(tests: Option<Chains.Dict<T>>, testType: Option<TypeField>)

  function Lookup<V>(d: Chains.Dict<V>, k: string): V
    requires k in Chains.Keys(d)
  {
    d[Chains.KeyIndex(d, k)].1
  }

  function WorkflowNotFoundMessage(workflow: string): string {
    "Workflow " + workflow + " not found."
  }

  function TestNotFoundMessage(workflow: string, test: string): string {
    "Test " + test + " not found in workflow " + workflow
  }

  const TypeFieldHead: string := "\"type\" field of workflow in "
  const TypeFieldMiddle: string := "given test database returned "

  /** The complaint about a "type" field that is not a string, naming the
      given Python type. */
  function TypeMessage(pyTypeName: string): string {
    TypeFieldHead + TypeFieldMiddle + "<class '" + pyTypeName + "'>, expected string."
  }

  /** `get_test_info(workflow_name, test_name)` on the loaded file, as
      written: the complaint about the "type" field reports the type of the
      test name, always `str`, rather than the field's own type. */
  function GetTestInfoAsWritten<T>(file: Chains.Dict<WorkflowEntry<T>>, workflow: string, test: string)
    : (r: Result<(T, string)>)
    ensures workflow !in Chains.Keys(file) ==> r == Err(ValueError(WorkflowNotFoundMessage(workflow)))
    ensures workflow in Chains.Keys(file) && Lookup(file, workflow).tests.None? ==> r == Err(KeyError("tests"))
    ensures workflow in Chains.Keys(file) && Lookup(file, workflow).tests.Some?
            && test !in Chains.Keys(Lookup(file, workflow).tests.value)
            ==> r == Err(ValueError(TestNotFoundMessage(workflow, test)))
    ensures workflow in Chains.Keys(file) && Lookup(file, workflow).tests.Some?
            && test in Chains.Keys(Lookup(file, workflow).tests.value) && Lookup(file, workflow).testType.None?
            ==> r == Err(KeyError("type"))
    ensures r.Ok? <==> (workflow in Chains.Keys(file) && Lookup(file, workflow).tests.Some?
      && test in Chains.Keys(Lookup(file, workflow).tests.value)
      && Lookup(file, workflow).testType.Some? && Lookup(file, workflow).testType.value.TypeString?)
    ensures r.Ok? ==> r.value == (Lookup(Lookup(file, workflow).tests.value, test),
                                  Lookup(file, workflow).testType.value.s)
    ensures workflow in Chains.Keys(file) && Lookup(file, workflow).tests.Some?
            && test in Chains.Keys(Lookup(file, workflow).tests.value)
            && Lookup(file, workflow).testType.Some? && Lookup(file, workflow).testType.value.OtherType?
            ==> r == Err(ValueError(TypeMessage("str")))
  {
    if workflow !in Chains.Keys(file) then Err(ValueError(WorkflowNotFoundMessage(workflow)))
    else
      var entry := Lookup(file, workflow);
      if entry.tests.None? then Err(KeyError("tests"))
      else if test !in Chains.Keys(entry.tests.value) then Err(ValueError(TestNotFoundMessage(workflow, test)))
      else if entry.testType.None? then Err(KeyError("type"))
      else match entry.testType.value
        case OtherType(_) => Err(ValueError(TypeMessage("str")))
        case TypeString(s) => Ok((Lookup(entry.tests.value, test), s))
  }

  /** The same lookup with the complaint naming the field's actual type. */
  function GetTestInfo<T>(file: Chains.Dict<WorkflowEntry<T>>, workflow: string, test: string)
    : (r: Result<(T, string)>)
    ensures workflow !in Chains.Keys(file) ==> r == Err(ValueError(WorkflowNotFoundMessage(workflow)))
    ensures workflow in Chains.Keys(file) && Lookup(file, workflow).tests.None? ==> r == Err(KeyError("tests"))
    ensures workflow in Chains.Keys(file) && Lookup(file, workflow).tests.Some?
            && test !in Chains.Keys(Lookup(file, workflow).tests.value)
            ==> r == Err(ValueError(TestNotFoundMessage(workflow, test)))
    ensures workflow in Chains.Keys(file) && Lookup(file, workflow).tests.Some?
            && test in Chains.Keys(Lookup(file, workflow).tests.value) && Lookup(file, workflow).testType.None?
            ==> r == Err(KeyError("type"))
    ensures r.Ok? <==> (workflow in Chains.Keys(file) && Lookup(file, workflow).tests.Some?
      && test in Chains.Keys(Lookup(file, workflow).tests.value)
      && Lookup(file, workflow).testType.Some? && Lookup(file, workflow).testType.value.TypeString?)
    ensures r.Ok? ==> r.value == (Lookup(Lookup(file, workflow).tests.value, test),
                                  Lookup(file, workflow).testType.value.s)
    ensures workflow in Chains.Keys(file) && Lookup(file, workflow).tests.Some?
            && test in Chains.Keys(Lookup(file, workflow).tests.value)
            && Lookup(file, workflow).testType.Some? && Lookup(file, workflow).testType.value.OtherType?
            ==> r == Err(ValueError(TypeMessage(Lookup(file, workflow).testType.value.pyTypeName)))
    ensures GetTestInfoAsWritten(file, workflow, test).Ok? ==> r == GetTestInfoAsWritten(file, workflow, test)
  {
    if workflow !in Chains.Keys(file) then Err(ValueError(WorkflowNotFoundMessage(workflow)))
    else
      var entry := Lookup(file, workflow);
      if entry.tests.None? then Err(KeyError("tests"))
      else if test !in Chains.Keys(entry.tests.value) then Err(ValueError(TestNotFoundMessage(workflow, test)))
      else if entry.testType.None? then Err(KeyError("type"))
      else match entry.testType.value
        case OtherType(t) => Err(ValueError(TypeMessage(t)))
        case TypeString(s) => Ok((Lookup(entry.tests.value, test), s))
  }

  /** Entering a workflow into the file and looking one of its tests up
      gives that test and the workflow's type back. */
  lemma GetTestInfoFinds<T>(file: Chains.Dict<WorkflowEntry<T>>, workflow: string, tests: Chains.Dict<T>,
                            test: string, testType: string)
    requires test in Chains.Keys(tests)
    ensures GetTestInfo(Chains.Put(file, workflow, WorkflowEntry(Some(tests), Some(TypeString(testType)))),
                        workflow, test)
            == Ok((Lookup(tests, test), testType))
  {
    var f := Chains.Put(file, workflow, WorkflowEntry(Some(tests), Some(TypeString(testType))));
    if workflow !in Chains.Keys(file) {
      assert Chains.Keys(f) == Chains.Keys(file) + [workflow];
    }
    assert workflow in Chains.Keys(f);
  }

  /** As written, an integer "type" is reported as a string: the message
      is the same whatever the field's type. */
  lemma TypeComplaintMisnames<T>(tests: Chains.Dict<T>, test: string)
    requires test in Chains.Keys(tests)
    ensures var file := [("w", WorkflowEntry(Some(tests), Some(OtherType("int"))))];
      GetTestInfoAsWritten(file, "w", test) == Err(ValueError(TypeMessage("str")))
      && GetTestInfo(file, "w", test) == Err(ValueError(TypeMessage("int")))
      && TypeMessage("str") != TypeMessage("int")
  {
    var file := [("w", WorkflowEntry(Some(tests), Some(OtherType("int"))))];
    assert Chains.Keys(file) == ["w"];
    var k := |TypeFieldHead + TypeFieldMiddle + "<class '"|;
    assert TypeMessage("str")[k] == 's';
    assert TypeMessage("int")[k] == 'i';
  }

  /** The corrected complaint names the field's type. */
  lemma TypeComplaintNamesType<T>(file: Chains.Dict<WorkflowEntry<T>>, workflow: string, test: string,
                                  pyTypeName: string)
    requires workflow in Chains.Keys(file)
    requires Lookup(file, workflow).tests.Some? && test in Chains.Keys(Lookup(file, workflow).tests.value)
    requires Lookup(file, workflow).testType == Some(OtherType(pyTypeName))
    ensures GetTestInfo(file, workflow, test) == Err(ValueError(TypeMessage(pyTypeName)))
  {
  }

  // ---------------------------------------------------------- running one

  const FailureHead: string := "Workflow test failed with stderr:\n"

  function RunconfigMissingMessage(runconfig: string, hostPath: string): string {
    "Runconfig " + runconfig + " not found at " + hostPath + "."
  }

  /** `prepare_runconfig`: the runconfig file mounted read-only under the
      install prefix; `hostPath` is its absolute path on the host and
      `found` whether a file is there. */
  function RunconfigMount(runconfig: string, hostPath: string, found: bool): (r: Result<Mounts.BindMount>)
    ensures r.Ok? <==> found
    ensures r.Err? ==> r.error == ValueError(RunconfigMissingMessage(runconfig, hostPath))
    ensures r.Ok? ==> (r.value.src == hostPath && r.value.permissions == "ro"
      && r.value.dst == Defaults.InstallPrefix + "/" + runconfig)
  {
    if !found then Err(ValueError(RunconfigMissingMessage(runconfig, hostPath)))
    else Mounts.NewBindMount(hostPath, Defaults.InstallPrefix + "/" + runconfig, "ro")
  }

  /** The run itself: the handler's command as the host user with the
      runconfig mount before the given ones. */
  function RunTest(engine: Engine, img: DockerImage.Image, workflow: string, runconfig: string, hostPath: string,
                   found: bool, basicMounts: seq<Mounts.BindMount>, user: WigwamImage.HostUser)
    : (r: Result<string>)
    ensures GetWorkflowObject(workflow).Err? ==> r == Err(ValueError(NotRecognizedMessage(workflow)))
    ensures GetWorkflowObject(workflow).Ok? && !found ==> r == Err(ValueError(RunconfigMissingMessage(runconfig, hostPath)))
    ensures r.Ok? ==> found
  {
    var w :- GetWorkflowObject(workflow);
    var rc :- RunconfigMount(runconfig, hostPath, found);
    WigwamImage.Run(engine, img, GetCommand(w, runconfig), false, "host", true, false, Some(user), [rc] + basicMounts)
  }

  /** `run_workflow`, as written: a failed run is reported as a test
      failure, but the run does not capture its standard error, so the
      message always ends in the text `None`. */
  function RunWorkflowAsWritten(engine: Engine, img: DockerImage.Image, workflow: string, runconfig: string,
                                hostPath: string, found: bool, basicMounts: seq<Mounts.BindMount>,
                                user: WigwamImage.HostUser): (r: Result<()>)
    ensures RunTest(engine, img, workflow, runconfig, hostPath, found, basicMounts, user).Ok? <==> r.Ok?
    ensures r.Err? && r.error.TestFailed? ==> r.error.message == FailureHead + "None"
    ensures var t := RunTest(engine, img, workflow, runconfig, hostPath, found, basicMounts, user);
      t.Err? && !t.error.CalledProcess? ==> r == Err(t.error)
  {
    match RunTest(engine, img, workflow, runconfig, hostPath, found, basicMounts, user)
    case Ok(_) => Ok(())
    case Err(CalledProcess(_)) => Err(TestFailed(FailureHead + "None"))
    case Err(e) => Err(e)
  }

  /** `run_workflow` with the run's standard error captured: `stderr` is
      what the failed run wrote there. */
  function RunWorkflow(engine: Engine, img: DockerImage.Image, workflow: string, runconfig: string,
                       hostPath: string, found: bool, basicMounts: seq<Mounts.BindMount>,
                       user: WigwamImage.HostUser, stderr: string): (r: Result<()>)
    ensures RunTest(engine, img, workflow, runconfig, hostPath, found, basicMounts, user).Ok? <==> r.Ok?
    ensures r.Err? && r.error.TestFailed? ==>
      RunTest(engine, img, workflow, runconfig, hostPath, found, basicMounts, user).error.CalledProcess?
    ensures var t := RunTest(engine, img, workflow, runconfig, hostPath, found, basicMounts, user);
      t.Err? && !t.error.CalledProcess? ==> r == Err(t.error)
  {
    match RunTest(engine, img, workflow, runconfig, hostPath, found, basicMounts, user)
    case Ok(_) => Ok(())
    case Err(CalledProcess(_)) => Err(TestFailed(FailureHead + stderr))
    case Err(e) => Err(e)
  }

  /** An unknown workflow or a missing runconfig fails before anything
      runs, with the lookup's own error. */
  lemma RunWorkflowChecksFirst(engine: Engine, img: DockerImage.Image, workflow: string, runconfig: string,
                               hostPath: string, found: bool, basicMounts: seq<Mounts.BindMount>,
                               user: WigwamImage.HostUser, stderr: string)
    ensures GetWorkflowObject(workflow).Err? ==>
      RunWorkflow(engine, img, workflow, runconfig, hostPath, found, basicMounts, user, stderr)
      == Err(ValueError(NotRecognizedMessage(workflow)))
    ensures GetWorkflowObject(workflow).Ok? && !found ==>
      RunWorkflow(engine, img, workflow, runconfig, hostPath, found, basicMounts, user, stderr)
      == Err(ValueError(RunconfigMissingMessage(runconfig, hostPath)))
  {
  }

  /** A failing run with exit status other than 127 is a test failure
      carrying the standard error. */
  lemma FailureCarriesStderr(engine: Engine, img: DockerImage.Image, workflow: string, runconfig: string,
                             hostPath: string, basicMounts: seq<Mounts.BindMount>, user: WigwamImage.HostUser,
                             stderr: string)
    requires GetWorkflowObject(workflow).Ok?
    requires '\'' !in runconfig
    requires var w := GetWorkflowObject(workflow).value;
      var rc := RunconfigMount(runconfig, hostPath, true).value;
      var c := engine(Call(WigwamImage.RunPrefix(img, false, "host", false, Some(user), [rc] + basicMounts)
                           + [GetCommand(w, runconfig)], None));
      c.exitCode != 0 && c.exitCode != 127
    ensures RunWorkflow(engine, img, workflow, runconfig, hostPath, true, basicMounts, user, stderr)
            == Err(TestFailed(FailureHead + stderr))
  {
    var w := GetWorkflowObject(workflow).value;
    CommandHasNoQuote(w, runconfig);
  }

  /** As written, the same failure carries `None` whatever the run wrote,
      so any other standard error is lost. */
  lemma FailureLosesStderr(engine: Engine, img: DockerImage.Image, workflow: string, runconfig: string,
                           hostPath: string, basicMounts: seq<Mounts.BindMount>, user: WigwamImage.HostUser,
                           stderr: string)
    requires GetWorkflowObject(workflow).Ok?
    requires '\'' !in runconfig
    requires var w := GetWorkflowObject(workflow).value;
      var rc := RunconfigMount(runconfig, hostPath, true).value;
      var c := engine(Call(WigwamImage.RunPrefix(img, false, "host", false, Some(user), [rc] + basicMounts)
                           + [GetCommand(w, runconfig)], None));
      c.exitCode != 0 && c.exitCode != 127
    ensures RunWorkflowAsWritten(engine, img, workflow, runconfig, hostPath, true, basicMounts, user)
            == Err(TestFailed(FailureHead + "None"))
    ensures stderr != "None" ==>
      RunWorkflowAsWritten(engine, img, workflow, runconfig, hostPath, true, basicMounts, user)
      != RunWorkflow(engine, img, workflow, runconfig, hostPath, true, basicMounts, user, stderr)
  {
    var w := GetWorkflowObject(workflow).value;
    CommandHasNoQuote(w, runconfig);
    FailureCarriesStderr(engine, img, workflow, runconfig, hostPath, basicMounts, user, stderr);
    assert (FailureHead + "None")[|FailureHead|..] == "None";
    assert (FailureHead + stderr)[|FailureHead|..] == stderr;
  }

  /** The commands quote nothing themselves, so a runconfig without a
      single quote gives a command without one. */
  lemma CommandHasNoQuote(w: Workflow, runconfig: string)
    requires w.GenericSas? || w.TextRunconfig?
    requires '\'' !in runconfig
    requires w.moduleName in GenericNames + ["focus"] + TextRunconfigNames
    ensures '\'' !in GetCommand(w, runconfig)
  {
    assert '\'' !in PythonModulePrefix;
    assert '\'' !in w.moduleName;
  }
}
